=== FILE: README.md ===
# structlang core, modelled in Dafny

structlang is a small compiler for a C-like language with structs, written in C with a
Rust graph library alongside. This project models its core as pure Dafny functions over
immutable datatypes, and proves properties about that model:

- **Graph engine**: the C graph in src/graph.c (`CGraph`) and the Rust graph in
  src/graph.rs (`RustGraph`). This covers node creation, edges, the successor,
  predecessor and adjacency enumerations, and the mirror invariant between successor and
  predecessor arrays.
- **Utility structures**: the open-addressing hash table (`HashTable`) and the dynamic
  array (`DynArray`), the cons list (`ConsList`), the scope trie (`ScopeTrie`), temps
  and labels (`Temp`), decimal printing (`Decimal`, `Format`) and sorting (`Sorting`).
- **Front and middle end**:
  - the AST (`Ast`) and the type checker (`Semantics`);
  - the wide-comparison rewrites (`Rewrites`);
  - activation records and parameter placement (`Activation`);
  - the IR tree (`Tree`), translation of l-values (`Translate`) and fragments
    (`Fragment`);
  - canonicalisation and basic blocks (`Canonical`).
- **Liveness analysis** (src/liveness.c):
  - the flow graph built from instructions (`Liveness`);
  - the bit sets and node trie (`Bitset`, `NodeTrie`);
  - the backward dataflow worklist (`Dataflow`);
  - the interference graph (`Interference`).
- **Back ends**: the shared pieces of the x86-64 and arm64 instruction selectors
  (`Backend`, `Assem`), each target's specific rules (`X86`, `Arm64`), and the arm64
  frame-map emission.
- **Runtime** (runtime/runtime.c): frame-map lookup and spill decoding (`Runtime`), and
  the size-class allocator (`Allocator`).

C `assert`s on what a caller passes become `requires`. Fatal errors and assertion
failures that are themselves the behaviour of interest become a `Result` or `Option`
error value (`Wrappers`). Hash functions, sorting comparators and the register lists of
each target are parameters. Integers are unbounded; the few places where C widths matter
are written out explicitly.

Where the source is evidently wrong (see "## Findings"), the operation takes a flag
`asWritten: bool`:

- `true` reproduces the code as written;
- `false` gives the evidently intended behaviour, which the rest of the model uses.

Each such row has a lemma exhibiting the discrepancy on a concrete input, and a lemma
proving the intended property of the corrected version.

The model follows the code, not the system's design description, on one point. The
design description says iterating the successors of a C graph node (`lv_succ`) yields
them in reverse insertion order. src/graph.c:135-157 walks the successor array from
index 0 upward, so the model (`CGraph.SuccOrder`) yields them in insertion order.

## Model

| member | source | states |
|---|---|---|
| Decimal.NatToString | src/temp.c:56 | a label number printed as `%d` does: at least one character, all decimal digits, no leading zero |
| Decimal.ParseNatToString | src/temp.c:56 | reading the printed digits back gives the number (the printing loses nothing) |
| Decimal.NatToStringInjective | src/temp.c:56 | two different numbers never print the same |
| Temp.StateNew | src/temp.c:17-23 | a new state hands out temps from 100 and labels from 0 |
| Temp.NewTemp | src/temp.c:25-37 | the size is at most 8 and the disposition non-zero, as asserted; the temp takes the counter's id, only the temp counter advances, and the temp is never a machine register |
| Temp.NewTempFresh | src/temp.c:25-37 | an id handed out differs from every id issued before it, and the counter stays above all of them |
| Temp.Copy | src/temp.c:44-49 | the copy agrees with the source in id, size and disposition |
| Temp.NewLabel | src/temp.c:52-58 | the label is `L` followed by the counter in decimal, and only the label counter advances, by one |
| Temp.PrefixedLabel | src/temp.c:65-73 | the label is `L`, the prefix, then the shared counter in decimal; the counter advances by one |
| Temp.NewLabelsDistinct | src/temp.c:52-58 | labels drawn at different counter values are different strings |
| Temp.ListCons | src/temp.c:80-87 | the head must have a size, as asserted; the list is the head in front of the tail |
| Temp.ListConcat | src/temp.c:92-101 | the lead's temps, in order, followed by the tail's |
| ConsList.ListCons | src/list.c:4-10 | a new cell with the given head in front of the given tail |
| ConsList.Length | src/list.c:26-34 | the count of cells is the number of elements |
| ConsList.Reverse | src/list.c:12-24 | the relinked list holds the elements in reverse order |
| ConsList.RevGo | src/assem.c:46-53 | the reversed input followed by the output list |
| ConsList.Rev | src/list.c:12-24 | the reference reversal the list reversals are stated against: the same length, and position i holds the element i places from the end |
| ConsList.ReverseTwice | src/assem.c:46-58 | reversal keeps the length, and reversing twice gives the same list back |
| ConsList.Append | src/tree.c:71-82 | the elements of the head followed by those appended; an empty head gives the appended list, otherwise the head stays first |
| ConsList.AppendAssoc | src/tree.c:71-82 | appending in two steps either way round gives the same list |
| DynArray.Empty | src/array.c:41-43 | the zeroed array has length 0, capacity 0 and no buffer |
| DynArray.Grow | src/array.c:6-26 | the capacity doubles (to 2 from 0), the length is kept and the live elements are copied unchanged |
| DynArray.Push | src/array.h:6-7 | the value lands after the old elements, the length grows by one, and the capacity grows only when the array was full |
| DynArray.Free | src/array.h:8 | a buffer is released and length and capacity become 0; without a buffer nothing changes |
| DynArray.PushThreeThenFree | src/array.c:37-59 | pushing 1, 2, 3 gives length 3, capacity at least 3 and elements 1, 2, 3; freeing gives length 0, capacity 0 and no buffer |
| Assem.InstrTag | src/assem.c:6-35 | each constructor has its own tag, 1 for an operation and 2 for a label, and every tag lies in 1..3 |
| Assem.ListReverse | src/assem.c:55-58 | the instructions in reverse order; an empty list stays empty |
| Assem.ListReverseTwice | src/assem.c:46-58 | reversing keeps the number of instructions, and reversing twice restores the list |
| Tree.ExpTag | src/tree.c:8-14 | every expression constructor's tag lies in the range `tree_exp_new` asserts |
| Tree.StmTag | src/tree.c:84-90 | every statement constructor's tag lies in the range `tree_stm_new` asserts |
| Tree.TagsDistinguishConstructors | src/tree.h:65-71 | two nodes have equal tags exactly when they were built by the same constructor |
| Tree.BinOpCode | src/tree.h:36-45 | the binary operators are numbered 1 to 10 |
| Tree.RelOpCode | src/tree.h:50-59 | the relational operators are numbered 1 to 10 |
| Tree.CodesInjective | src/tree.h:36-59 | different operators get different numbers |
| Tree.JumpTo | src/tree.c:108-115 | a jump to the named label whose only target is that label |
| Sorting.SortBy | src/liveness.c:333 | the result is in ascending key order and is a permutation of the input |
| Sorting.InsertBy | src/liveness.c:333 | inserting into a sorted sequence keeps it sorted and adds exactly the element |
| Fragment.CodeFragment | src/fragment.c:8-19 | fails exactly when the body or the frame is missing; otherwise a one-fragment list |
| Fragment.StringFragment | src/fragment.c:21-32 | fails exactly when the label or the string is missing; otherwise a one-fragment list |
| Fragment.FrameMapFragment | src/fragment.c:34-45 | fails exactly when the map or the return label is missing; otherwise a one-fragment list |
| Fragment.WalkToEnd | src/fragment.c:52-54 | the walk from a node ends at the last fragment after as many steps as fragments follow it |
| Fragment.Append | src/fragment.c:47-60 | the head's fragments followed by the appended ones, and `fr_last` names the appended segment's first fragment |
| Fragment.AppendSteps | src/fragment.c:52-54 | the walk starts at `fr_last` when it is set, so it steps only over the last segment |
| Fragment.AppendChain | src/fragment.c:47-60 | appending three single fragments one at a time gives the three in order, with `fr_last` at the third |
| Fragment.AppendAssoc | src/fragment.c:47-60 | appending in two steps either way round gives the same fragments |
| Format.EscapeChar | src/format.c:11-28 | the four special characters become a backslash pair and every other character stays itself |
| Format.Escape | src/format.c:5-32 | every character of the string puts out one or two characters, so the escaped text is between the string's length and twice it |
| Format.EscapeHasNoControl | src/format.c:5-32 | the escaped text holds no raw newline or tab |
| Format.EscapeRoundTrip | src/format.c:5-32 | reading the escaped text back gives the original string |
| Format.EscapedLen | src/format.c:34-52 | 3 plus the length of the escaped text, so between the length plus 3 and twice the length plus 3 |
| Format.EscapeSwitch | src/format.c:66-86 | the characters stored for one source character are its escape |
| Format.SnprintEscaped | src/format.c:54-91 | fails exactly when the buffer is shorter than the required length; otherwise a quote, the escaped text, a quote and NUL, within the buffer |
| Format.FprintStrEscaped | src/format.c:5-32 | the stream gets the escaped text between two quotes |
| Format.StreamMatchesBuffer | src/format.c:5-91 | the buffer writer writes what the stream writer writes, followed by NUL |
| Ast.TyPrint | src/ast.c:291-305 | fails exactly for a type with no printed form (a function type reaches the missing-case assertion) |
| Ast.TyPrintShape | src/ast.c:291-305 | a printed type is all of its pointer stars, then its name, then all of its array brackets |
| Ast.TyPrintAmbiguous | src/ast.c:297-302 | a pointer to an array and an array of pointers are different types that print the same |
| Ast.DigitsAsWrittenReversed | src/ast.c:320-329 | the `%d` loop puts the digits out least significant first: the decimal numeral reversed |
| Ast.Directive | src/ast.c:318-361 | `%%` takes no argument and every other directive exactly one; a directive fails exactly when its argument is missing or of the wrong kind, a `%d` is negative, a `%T` cannot be printed, or the letter is unknown |
| Ast.PlainPrefix | src/ast.c:316-366 | text without `%` in front of a format is copied ahead of whatever the rest prints |
| Ast.PlainCopied | src/ast.c:362-364 | a format without directives prints itself |
| Ast.DirectiveBetween | src/ast.c:307-371 | text, one directive and text print as the text, the directive's output and the text |
| Ast.DirectiveThen | src/ast.c:307-371 | one directive followed by text prints the directive's output and then the text |
| Ast.Directives | src/ast.c:318-361 | what each directive prints alone: `%` for `%%`, the string for `%s`, the digits for `%d`, the type for `%T`; a negative number or a non-number fails `%d` |
| Ast.TrailingPercent | src/ast.c:360 | a `%` at the very end of the format prints nothing |
| Ast.Render | src/ast.c:307-371 | the `ast_printf` loop can fail only on a format that holds a `%`: text without directives never stops the program |
| Ast.PrintfDigits | src/ast.c:320-329 | as written `%d` prints the numeral backwards; corrected it prints the numeral, which parses back to the number |
| Ast.TwelvePrintsBackwards | src/ast.c:320-329 | 12 prints as "21" as written and as "12" corrected |
| ScopeTrie.HashAt | src/semantics.c:66-72 | the hash used at depth d is the 32-bit hash shifted left by 2d bits, truncated to 32 bits |
| ScopeTrie.ChildIndex | src/semantics.c:72 | the child chosen at each depth is one of four |
| ScopeTrie.Find | src/semantics.c:66-73 | `sce_upsert` without an allocator returns an entry only for a name the trie holds |
| ScopeTrie.Insert | src/semantics.c:66-80 | `sce_upsert` with an allocator always leaves a node holding the name, and keeps every name the trie held |
| ScopeTrie.SearchFindsKeys | src/semantics.c:66-80 | the reference search finds a name exactly when the trie holds it |
| ScopeTrie.FindIsSearch | src/semantics.c:66-76 | following the hash path without an allocator finds what a search of the whole trie finds |
| ScopeTrie.InsertKeys | src/semantics.c:66-80 | inserting adds exactly the name to the trie's names |
| ScopeTrie.InsertPresent | src/semantics.c:69-71 | a name already on its hash path leaves the trie unchanged |
| ScopeTrie.InsertNew | src/semantics.c:74-79 | a new name is bound to the given entry |
| ScopeTrie.InsertOthers | src/semantics.c:66-80 | insertion changes no other name's binding |
| ScopeTrie.InsertWf | src/semantics.c:66-80 | insertion keeps every name on the path its hash chooses |
| ScopeTrie.InsertSpec | src/semantics.c:66-80 | insertion keeps the trie well formed, adds the name, binds a new name to the entry, keeps an old binding and changes no other name |
| ScopeTrie.Declare | src/semantics.c:118-132 | the variable id is positive, as asserted; the result is 0 or -1, -1 exactly when the hash path already holds the name, and then the scope is unchanged |
| ScopeTrie.DeclareSpec | src/semantics.c:118-132 | on a well-formed scope -1 means the name was bound; 0 binds it to the entry; no other name changes |
| ScopeTrie.DeclareBinds | src/semantics.c:118-132 | declaring returns -1 exactly when the name is bound, and the scope's bindings become the old ones plus the new name |
| ScopeTrie.BindingsOfKeys | src/semantics.c:66-80 | the bindings of a trie are its names, each with the entry a search finds |
| ScopeTrie.ScopeLookupInnermost | src/semantics.c:134-144 | a name is found in the innermost scope that binds it |
| ScopeTrie.ScopeLookupUnbound | src/semantics.c:134-144 | a lookup fails exactly when no scope binds the name |
| ScopeTrie.LookupVarIsScopeLookup | src/semantics.c:134-144 | walking the scopes from the innermost with path searches is the reference lookup over their bindings |
| ScopeTrie.LookupVar | src/semantics.c:134-144 | `lookup_var` finds nothing exactly when no scope's path search finds the name, and what it finds is what some scope's search finds |
| ScopeTrie.SceLenCountsBindings | src/semantics.c:81-92 | in a well-formed scope `sce_len` is the number of names bound |
| CGraph.NewGraph | src/graph.c:39-43 | a new graph has no nodes and satisfies the mirror invariant between successor and predecessor arrays |
| CGraph.NewNode | src/graph.c:73-78 | the new handle names the next free index of this graph, its record is empty, earlier records are untouched and the mirror invariant is kept |
| CGraph.Contains | src/graph.c:87-95 | the linear search answers exactly membership in the array |
| CGraph.MkEdge | src/graph.c:98-107 | afterwards the edge set is the old one plus from -> to and the back-edge set the old one plus to <- from; an edge already present leaves the graph unchanged, and an absent one is pushed at the end of from's successor array and of to's predecessor array; records of other nodes are unchanged; the invariant (arrays mirror each other, no duplicates) is kept |
| CGraph.AddEdge | src/graph.c:103-106 | the two pushes for an absent edge append it at the end of the two arrays, add exactly that edge and its back edge, and keep the invariant |
| CGraph.MkEdgeIdempotent | src/graph.c:98-107 | adding the same edge twice gives the same graph as adding it once |
| CGraph.AllNodes | src/graph.c:123-132 | the list holds one handle per index of the graph, in index order |
| CGraph.SuccIt | src/graph.c:135-144 | the successor iterator starts at the first successor of the node's own record |
| CGraph.PredIt | src/graph.c:170 | the predecessor iterator, which the callers in src/liveness.c:398 use but the C file leaves unwritten, starts at the first predecessor of the node's record |
| CGraph.ItNext | src/graph.c:147-157 | while elements remain it yields a handle for the current index and advances by one; at the end it reports exhaustion and stays put |
| CGraph.Drain | src/graph.c:147-157 | repeatedly advancing yields exactly the remaining indices, in order, as handles of the same graph |
| CGraph.SuccOrder | src/graph.c:135-157 | iterating the successors of n visits every recorded successor exactly once, in insertion order |
| CGraph.NodeListFree | src/graph.c:160-168 | one handle and one list cell are released per element of the list |
| CGraph.PushIfMissing | src/graph.c:181-186 | the element set becomes the old set plus x, and a duplicate-free array stays duplicate-free |
| CGraph.PushAll | src/graph.c:224-229 | pushing a whole array yields the union of both element sets without introducing duplicates |
| CGraph.Indices | src/graph.c:232-237 | the index of every handle, position by position |
| CGraph.AdjIndices | src/graph.c:217-230 | the adjacency index array is strictly ascending and holds exactly the predecessors and successors of the node |
| CGraph.Adj | src/graph.c:217-240 | the returned handles all belong to the graph, their indices are strictly ascending, and they are exactly the node's neighbours in either direction |
| CGraph.Handles | src/graph.c:232-237 | consing handles from the back of the sorted index array gives a list whose indices are that array, in order |
| CGraph.SortedDistinctAscending | src/graph.c:230 | sorting a duplicate-free array gives a strictly ascending one |
| CGraph.IsSucc | src/graph.c:243-253 | true exactly when there is an edge n -> m |
| CGraph.IsAdj | src/graph.c:256-260 | true exactly when there is an edge between n and m in either direction |
| CGraph.IsAdjSymmetric | src/graph.c:256-260 | adjacency does not depend on the order of the two handles |
| CGraph.Eq | src/graph.c:264-267 | two handles are equal exactly when they name the same graph and the same index |
| CGraph.FreshNodesScenario | src/graph.c:272-297 | from any valid graph: the length grows by one per new node, two fresh nodes are distinct and not adjacent, and after one edge n -> m they are adjacent both ways while m is a successor of n but not the reverse |
| RustGraph.NewGraph | src/graph.rs:34-42 | a new graph has no nodes, no deleted indices and satisfies the counted mirror invariant |
| RustGraph.NewNode | src/graph.rs:50-61 | reuses the most recently deleted index when there is one, otherwise appends an empty record; either way the counted mirror invariant is kept |
| RustGraph.MkEdge | src/graph.rs:63-73 | panics exactly when the handles name different graphs or an index is out of range; otherwise appends one successor entry and one predecessor entry and nothing else |
| RustGraph.Without | src/graph.rs:84-100 | drops every occurrence of x and keeps the count of every other value |
| RustGraph.RemoveAll | src/graph.rs:84-91 | the in-place removal loop, which does not advance after a removal, removes every occurrence and keeps the rest in order |
| RustGraph.WithoutDrop | src/graph.rs:86-87 | removing one matching entry in place does not change what the remaining loop produces |
| RustGraph.RmEdge | src/graph.rs:75-101 | panics under the same conditions as edge creation; otherwise every from -> to successor entry and every to <- from predecessor entry is gone and other records are unchanged |
| RustGraph.MkEdgeKeepsMirror | src/graph.rs:63-73 | edge creation keeps every successor count equal to the mirroring predecessor count |
| RustGraph.RmEdgeKeepsMirror | src/graph.rs:75-101 | edge removal keeps every successor count equal to the mirroring predecessor count |
| RustGraph.RmAbsentIsNoop | src/graph.rs:75-101 | removing an edge that is not there leaves the graph as it was |
| RustGraph.MkThenRmRestores | src/graph.rs:63-101 | on a pair with no prior edge, creating then removing the edge restores the original graph |
| RustGraph.MkEdgeTwiceDuplicates | src/graph.rs:63-73 | edge creation is not idempotent: a second call records the edge a second time |
| HashTable.SizeFor | src/interfaces/table.c:40-42 | the initial size is the smallest power-of-two multiple of 128 that is at least the hint |
| HashTable.New | src/interfaces/table.c:32-52 | a new table is empty (every bucket NULL, length and timestamp 0), its size is a power-of-two multiple of 128 no smaller than the hint and no more than twice it, and without a caller hash the NULL-safe default is used |
| HashTable.Start | src/interfaces/table.c:63 | masking with size-1 picks a slot inside the table |
| HashTable.Stop | src/interfaces/table.c:64-67 | the probe walk ends at the first empty slot, at the end of the array or 12 slots after the start, whichever comes first, and every slot it passes is occupied |
| HashTable.FindFirst | src/interfaces/table.c:64-71 | the first slot of the walk holding the key, or none when no slot of the walk holds it |
| HashTable.FindLast | src/interfaces/table.c:112-119 | the last slot of the walk holding the key (later matches overwrite `q`), or none |
| HashTable.FirstEmpty | src/interfaces/table.c:84-86 | the inner probe of `rehash` stops at the first empty slot from its start, or at the end of the array, passing only occupied slots |
| HashTable.Get | src/interfaces/table.c:54-73 | the key is not NULL, as asserted; a non-NULL answer is a value bound to the key in some slot, and a key bound in no slot gives NULL |
| HashTable.Rehash | src/interfaces/table.c:75-98 | on success the table doubles, stays well shaped and keeps its length, timestamp and hash function; every binding of the new array is one of the old array's |
| HashTable.RehashFrom | src/interfaces/table.c:81-94 | the rehash loop from any slot on fills an array of the doubled size, so on success the new array keeps that size |
| HashTable.RehashShaped | src/interfaces/table.c:81-94 | moving the bindings into the doubled array keeps every slot's key and value NULL together |
| HashTable.PutInPlace | src/interfaces/table.c:110-135 | without a rehash: the last slot on the walk holding the key is overwritten and its old value returned; else the empty slot the walk stopped at takes the binding and NULL is returned; no other slot changes; it applies exactly when one of those two slots exists |
| HashTable.Put | src/interfaces/table.c:100-136 | on success the table stays well shaped, the 32-bit timestamp ticks once, the length grows by one exactly when the result is NULL, some slot binds the key to the new value, and a non-NULL result is a value the key was bound to before; when no rehash is needed it is the in-place put |
| HashTable.Remove | src/interfaces/table.c:167-190 | the key is not NULL, as asserted; returns what a lookup of the key returned, ticks the timestamp, keeps the size, and leaves the length as it was; the first matching slot on the walk becomes empty, or the buckets stay as they were when the walk finds none; slots of other keys are kept, and one binding fewer remains exactly when the result is not NULL |
| HashTable.CountUpdate | src/interfaces/table.c:202-205 | overwriting one slot changes the number of occupied slots by what left and what arrived |
| HashTable.PutBeyondWindowIsLost | src/interfaces/table.c:114-126 | with twelve slots after the start taken by other keys and the thirteenth empty, the put succeeds into the thirteenth slot and a following get returns NULL |
| HashTable.RemoveHidesFollowingKey | src/interfaces/table.c:178-186 | two keys sharing a start slot: removing the first leaves an empty slot that ends the walk, so the second, found before, is no longer found |
| HashTable.RemoveKeepsLength | src/interfaces/table.c:167-190 | removing a bound key empties one slot yet leaves the length unchanged |
| HashTable.RehashHashesNull | src/interfaces/table.c:81-82 | with a hash that cannot take NULL, a put that must rehash fails on the first empty old slot |
| HashTable.WindowGet | src/interfaces/table.c:54-73 | the corrected lookup returns exactly the value bound to the key anywhere in the table, or NULL |
| HashTable.LookupAt | src/interfaces/table.c:54-73 | in a table whose keys are unique, looking up the key of a slot finds that slot's value |
| HashTable.WindowRehashFromMoves | src/interfaces/table.c:81-94 | the corrected rehash loop moves every old binding, so the new array answers every lookup as the old one did |
| HashTable.WindowRehash | src/interfaces/table.c:75-98 | the corrected rehash doubles the size, keeps the invariant (unique keys, each inside its window, length counts bindings) and preserves every lookup |
| HashTable.WindowPut | src/interfaces/table.c:100-136 | the corrected put returns the previous value, binds the key to the new value, leaves every other key's lookup unchanged and keeps the invariant |
| HashTable.WindowPutAt | src/interfaces/table.c:122-133 | writing a binding into its own window at a slot that held the key or nothing binds it there, counts one more binding exactly when the slot was empty, and changes no other lookup |
| HashTable.WindowRemove | src/interfaces/table.c:167-190 | the corrected remove returns the previous value, unbinds the key, leaves every other lookup unchanged and decrements the length exactly when a binding was removed |
| HashTable.Pairs | src/interfaces/table.c:200-206 | the occupied slots contribute two entries each |
| HashTable.ToArray | src/interfaces/table.c:192-209 | key, value pairs of the occupied slots in slot order followed by `end`; in a table whose length counts its bindings that is exactly the `2 * length + 1` entries allocated |
| HashTable.Map | src/interfaces/table.c:144-165 | succeeds exactly when `apply` returns non-NULL for every binding; then every occupied slot holds the applied value, keys and empty slots are untouched, and size, length and timestamp are kept |
| Semantics.LookupDecl | src/semantics.c:147-169 | finds a declaration of the program with that name and kind, and finds none exactly when no such declaration exists |
| Semantics.TypeExists | src/semantics.c:171-192 | fails (the assertion) exactly on a type that is not a name under pointers and arrays; otherwise true exactly when the base name is int, void, bool or a declared struct |
| Semantics.LvalueIsRootedAtVar | src/semantics.c:200-218 | an expression is an l-value exactly when its chain of members and dereferences starts at a variable |
| Semantics.FindField | src/semantics.c:655-667 | finds a field with the name, and finds none exactly when no field has it |
| Semantics.Mismatches | src/semantics.c:430-439 | no argument error exactly when every argument paired with a parameter has the parameter's type |
| Semantics.ArityError | src/semantics.c:419-428 | a count error exactly when the numbers of arguments and parameters differ |
| Semantics.PushScope | src/semantics.c:103-108 | a new innermost scope, empty, above the existing ones |
| Semantics.PopScope | src/semantics.c:110-116 | the innermost scope is dropped and the outer ones kept |
| Semantics.DeclareVar | src/semantics.c:118-132 | -1 exactly when the current scope already binds the name, leaving everything unchanged; otherwise the name is bound in the current scope and the outer scopes are unchanged; a non-positive id is rejected |
| Semantics.OperandErrors | src/semantics.c:263-284 | no error exactly when both operands have the expected type, otherwise one error per wrong operand |
| Semantics.BinOpRuleAsWritten | src/semantics.c:292-348 | the switch as written: the bitwise operators reach the unexpected-operator assertion, every other operator gets its result type and adds no positive count |
| Semantics.BinOpRule | src/semantics.c:292-348 | the corrected switch: the same result types, with an `==`/`!=` operand mismatch counted as an error |
| Semantics.BinOpRuleSound | src/semantics.c:292-348 | under the corrected rule an operator adds no error exactly when its operands have its operand type, or for `==` and `!=` agree with each other |
| Semantics.EqualityMismatchUncounted | src/semantics.c:320-333 | `int == bool` is typed bool with no error counted as written, and one error under the corrected rule |
| Semantics.EqualityMismatchInExpr | src/semantics.c:320-333 | the expression `1 == true` verifies without error exactly under the rules as written |
| Semantics.VerifyExpr | src/semantics.c:707-745 | verifying an expression never makes the count positive, keeps the program, function, loop depth and outer scopes, and uses one fresh id per `let` inside it |
| Semantics.VerifyList | src/semantics.c:707-745 | a block yields one type per statement under the same guarantees |
| Semantics.VerifyBinOp | src/semantics.c:286-350 | the binary-operator case keeps the guarantees of expression verification |
| Semantics.VerifyLet | src/semantics.c:352-390 | the `let` case keeps the guarantees of expression verification, using exactly one fresh id for its own binding |
| Semantics.LetRule | src/semantics.c:356-389 | the rest of `let` adds errors only, keeps the outer scopes and takes the next id |
| Semantics.VerifyCall | src/semantics.c:392-445 | the call case keeps the guarantees of expression verification |
| Semantics.VerifyNew | src/semantics.c:447-499 | the `new` case keeps the guarantees of expression verification |
| Semantics.VerifyReturn | src/semantics.c:520-547 | the `return` case keeps the guarantees of expression verification |
| Semantics.VerifyLoop | src/semantics.c:564-583 | the loop case keeps the guarantees and gives back exactly the scopes it was entered with |
| Semantics.VerifyDeref | src/semantics.c:585-604 | the dereference case keeps the guarantees of expression verification |
| Semantics.VerifyAddrOf | src/semantics.c:606-621 | the address-of case keeps the guarantees of expression verification |
| Semantics.VerifyMember | src/semantics.c:623-671 | the member case keeps the guarantees of expression verification |
| Semantics.VerifyIf | src/semantics.c:673-705 | the `if` case keeps the guarantees of expression verification |
| Semantics.CallAccepted | src/semantics.c:392-445 | a call adds no error of its own exactly when the function is declared and its arguments agree in number and type with its parameters; it is then typed with the function's return type |
| Semantics.NewAccepted | src/semantics.c:447-499 | `new S(...)` adds no error of its own exactly when the struct is declared and the arguments agree in number and type with its fields; it is then typed as a pointer to S |
| Semantics.AddressNeedsVariable | src/semantics.c:606-621 | taking an address is typed as a pointer to the operand and adds an error exactly when the operand is not rooted at a variable |
| Semantics.BreakOnlyInLoop | src/semantics.c:549-583 | `break` is one error outside a loop and none inside; `loop { break }` is void, error-free and leaves the state as it was |
| Semantics.BreakInLoopBody | src/semantics.c:549-562 | inside a loop the body `[break]` is one void statement with no error |
| Semantics.LetBinds | src/semantics.c:352-390 | a `let` of a new name with an existing non-void type matching its initialiser adds no error and binds the name, as seen from the innermost scope, to that type and the next id |
| Semantics.DeclaredThenUsed | src/semantics.c:352-390 | after such a `let`, a use of the name is typed with the declared type and adds no error |
| Semantics.LetTwiceIsError | src/semantics.c:377-382 | a second `let` of a name in the same scope adds an error and leaves the earlier binding in place |
| Semantics.LoopScopeEnds | src/semantics.c:564-583 | a name bound only inside a loop body is unknown after the loop: using it is one error |
| Semantics.VerifyParams | src/semantics.c:753-774 | each parameter takes one id, the count never becomes positive, and only the parameter scope changes |
| Semantics.FinalError | src/semantics.c:787-807 | no error exactly when the body is empty and the function void, or the last expression is a `return`, a `loop` or has the return type |
| Semantics.VerifyDeclFunc | src/semantics.c:747-813 | verifying a function never makes the count positive and gives back the scopes it started with |
| Semantics.LaterNamesakes | src/semantics.c:840-848 | no duplicate error for a field exactly when no later field shares its name |
| Semantics.FieldErrors | src/semantics.c:818-848 | the errors counted for one field, failing only on a type the existence check cannot handle |
| Semantics.VerifyFields | src/semantics.c:818-849 | the errors of the fields from `i` on, never positive |
| Semantics.VerifyDeclStruct | src/semantics.c:815-851 | verifying a struct never makes the count positive |
| Semantics.StructAccepted | src/semantics.c:815-851 | a struct is accepted exactly when every field has an existing non-void type other than the struct itself and no two fields share a name |
| Semantics.VerifyDecls | src/semantics.c:853-866 | verifying the declarations in order never makes the count positive |
| Semantics.StructClashesAsWritten | src/semantics.c:891-898 | as written a struct clashes with every earlier declaration of its name, function or struct |
| Semantics.StructClashes | src/semantics.c:891-898 | the corrected count: a struct clashes only with earlier structs of its name |
| Semantics.NameClashDependsOnOrder | src/semantics.c:891-908 | a function `p` before a struct `p` counts one clash as written and none when corrected |
| Semantics.FuncThenStructClash | src/semantics.c:889-916 | the first pass over `fn p; struct p` finds no error exactly under the corrected rule |
| Semantics.DeclareNames | src/semantics.c:889-912 | the first pass never makes the count positive and keeps the program and the number of scopes |
| Semantics.VerifyProgram | src/semantics.c:869-926 | checking the whole program never returns a positive error count |
| Semantics.UniqueStep | src/semantics.c:889-912 | names are unique per kind from `k` on exactly when declaration `k` has no clash and the rest are unique |
| Semantics.StructStep | src/semantics.c:891-898 | at a struct the set of declared function names is unchanged and the clash count is zero exactly when no earlier declaration clashes |
| Semantics.FuncStep | src/semantics.c:899-908 | at a function its name joins the declared names, and it clashes exactly when an earlier function has that name |
| Semantics.RootDeclare | src/semantics.c:902-904 | declaring a function name in the root scope fails to add exactly when the name is already bound there |
| Semantics.DeclareNamesAccepts | src/semantics.c:889-916 | the first pass always completes and finds no error exactly when names are unique among structs and among functions (and, as written, no struct follows anything of its name) |
| Semantics.StructAccepts | src/semantics.c:891-898 | the first-pass step at a struct adds no error exactly when it has no clash and the rest add none |
| Semantics.FuncAccepts | src/semantics.c:899-908 | the first-pass step at a function adds no error exactly when it has no clash and the rest add none |
| Activation.RoundUp | src/activation.c:147-151 | the least multiple of `multiple` not below `size` |
| Activation.RoundUpLeast | src/activation.c:147-151 | no multiple lies between a size and its round-up |
| Activation.RoundUpMono | src/activation.c:147-151 | rounding up preserves order |
| Activation.NumWords | src/activation.c:153-157 | the fewest 8-byte words that hold the bytes |
| Activation.UnsignedModIsMod | src/activation.c:330-331 | for alignments 1, 4 and 8 the remainder taken after converting the `int` offset to `size_t` equals the mathematical remainder |
| Activation.FindBuiltin | src/activation.c:159-168 | a builtin found is a row of the builtin table |
| Activation.AlignOf | src/activation.c:183-219 | every alignment computed is one a type can have (0, 1, 4 or 8) |
| Activation.MaxAlign | src/activation.c:199-206 | the struct loop yields an alignment a type can have |
| Activation.MaxAlignIsMax | src/activation.c:197-207 | a struct's alignment is defined exactly when every field's is; it bounds every field's alignment and equals one of them unless 0 |
| Activation.Shapes | src/activation.c:243-249 | one shape per field, each with a non-zero alignment, or failure |
| Activation.ShapesFit | src/activation.c:243-249 | each shape is its field's alignment and size |
| Activation.Place | src/activation.c:243-249 | one slot per field |
| Activation.PlaceHolds | src/activation.c:243-249 | every field keeps its size and alignment and sits at an offset its alignment divides, no lower than the start |
| Activation.PlacePacks | src/activation.c:243-249 | fields are laid out in order without overlapping, each at the first aligned offset after the previous one |
| Activation.PackedWithin | src/activation.c:243-251 | every packed field ends by the end of the last one |
| Activation.SizeAligned | src/activation.c:227-264 | a type with a size has an alignment; size 0 only with alignment 0, otherwise the alignment divides the size |
| Activation.StructAligned | src/activation.c:241-252 | a struct with fields has a positive size that its alignment divides |
| Activation.FieldSizePositive | src/activation.c:227-264 | a type of non-zero alignment has a non-zero size |
| Activation.BuiltinCached | src/activation.c:191-196 | caching a builtin's size and alignment together keeps the cache consistent with the computation |
| Activation.SizeOfMemo | src/activation.c:227-231 | the cached size function gives exactly the uncached size, keeps the cache consistent and only grows it, and returns a cached entry without change |
| Activation.SizeOf | src/activation.c:227-264 | only a pointer, a builtin or a declared struct has a size (arrays and functions reach the not-implemented assertions), and every type with a size has an alignment |
| Activation.AlignOfMemo | src/activation.c:183-187 | the cached alignment function gives exactly the uncached alignment, keeps the cache consistent and only grows it |
| Activation.LetsInCounts | src/activation.c:319-339 | the frame gets exactly one local per `let` the type checker numbered |
| Activation.LetsInListCounts | src/activation.c:465-469 | the same for a whole function body |
| Activation.LocalOffset | src/activation.c:329-331 | a local goes at the highest offset its alignment divides that leaves room for its size below the previous local |
| Activation.StackedSnoc | src/activation.c:329-337 | appending a local placed below the last one keeps the locals stacked |
| Activation.PlaceLocals | src/activation.c:319-339 | fails exactly when some `let` type has no size or a zero alignment; otherwise one aligned slot per binding, each wholly below the previous one |
| Activation.LocalsDescend | src/activation.c:329-337 | every local lies strictly below the frame pointer and strictly below the one before it |
| Activation.FrameWords | src/activation.c:474 | an even number of words that covers every local and exceeds it by less than 16 bytes |
| Activation.NumWordsOfAligned | src/activation.c:474 | a multiple of 16 bytes is an even number of words |
| Activation.ParamSizes | src/activation.c:435-443 | one size and alignment per parameter |
| Activation.ParamSizesMatch | src/activation.c:435-443 | succeeds exactly when every parameter type has a size and an alignment, and lists them |
| Activation.Assign | src/activation.c:449-460 | one formal per parameter |
| Activation.AssignFails | src/activation.c:456-457 | placement fails only on a stack parameter of alignment zero |
| Activation.AssignKeeps | src/activation.c:440-443 | every formal keeps its parameter's name, size and alignment |
| Activation.AssignRegs | src/activation.c:449-452 | a parameter is in a register exactly when it fits a word and a register is left, and registers go out in order |
| Activation.AssignApart | src/activation.c:453-460 | under the corrected advance the stack arguments are aligned, at or above the starting offset, below the final offset and do not overlap |
| Activation.ParamsPlaced | src/activation.c:435-463 | the corrected parameter placement fails only for an unplaceable type; otherwise formals keep their parameters' names, sizes and alignments, take registers in order, and stack formals are aligned and apart above the return address |
| Activation.ParamsOverlapAsWritten | src/activation.c:456-459 | with six ints then bool, int, bool, the int goes at 20 with size 4 and the last bool at 21, inside it |
| Activation.ParamsOverlapCorrected | src/activation.c:456-459 | the corrected advance places the last bool at 24, after the int |
| Activation.FrameOf | src/activation.c:399-525 | a frame exists exactly when the return value fits two registers, the parameters can be placed and every local can; it then carries the placed formals, one stacked local per `let`, an even frame-word count covering the locals and enough argument words |
| Activation.FuncNames | src/activation.c:533-534 | at most one name per declaration |
| Activation.Frames | src/activation.c:527-541 | one frame per function, in declaration order, carrying the function's name |
| Activation.NamedSnoc | src/activation.c:537 | appending a frame keeps the frames named in order |
| Canonical.SeqS | src/canonical.c:22-31 | a no-op on either side is dropped; two real statements are sequenced in order |
| Canonical.Fresh | src/canonical.c:52 | a fresh temp takes the next id and holds the size asked for, and the counter moves on by one |
| Canonical.RebuildMoveTempCall | src/canonical.c:245-256 | with the whole closure copied, the rebuilt statement moves the call (head function, remaining arguments, original size) into the destination |
| Canonical.Reorder | src/canonical.c:42-87 | one replacement expression per input, temps only drawn forward; for well-formed input the hoisted statements and the replacements are free of ESEQ; an empty list gives a no-op; a list of leaves comes back unchanged with no statements and no temps; a constant or name at the head is kept; the head's statements run before the rest's; a head that commutes with the rest's statements stays in place, and one that does not is saved by a move into a temp drawn after all the list's other temps, run between the two, and replaced by that temp |
| Canonical.ReorderHead | src/canonical.c:51-58 | a call at the head of the list is replaced by `TEMP t` for the next temp t, sized to the call, and its statements end by moving the rebuilt call, with as many arguments, into t; any other head goes through `do_exp` |
| Canonical.MoveTempCall | src/canonical.c:311-326 | `MOVE(TEMP t, CALL ...)` ends in a move of a call with the same number of arguments into the same temp, with size 0 as written and the original size corrected, and with no ESEQ for well-formed input |
| Canonical.DoExp | src/canonical.c:183-221 | statements to run first and an expression, both free of ESEQ for well-formed input; a leaf comes back unchanged with no statements |
| Canonical.DoStm | src/canonical.c:292-367 | an ESEQ-free statement for well-formed input; a label is left as it is; temps only drawn forward and labels untouched |
| Canonical.DoMove | src/canonical.c:309-350 | each destination form is rewritten to an ESEQ-free statement for a well-formed move |
| Canonical.DoExpStm | src/canonical.c:351-363 | an expression statement is rewritten to an ESEQ-free statement for well-formed input |
| Canonical.LastOfSeq | src/canonical.c:22-31 | sequencing after a real statement keeps it as the statement run last |
| Canonical.Flatten | src/canonical.c:372-379 | every SEQ tree has at least one leaf |
| Canonical.Linear | src/canonical.c:372-379 | the leaves of the tree in left-to-right order followed by the tail, and no SEQ when the tail has none |
| Canonical.EffectsAppend | src/canonical.c:372-379 | the non-no-op statements of a concatenation are those of each part in order |
| Canonical.SeqKeepsEffects | src/canonical.c:22-31 | sequencing loses nothing but no-ops: the effects are those of the first followed by those of the second |
| Canonical.Linearise | src/canonical.c:388-391 | a non-empty statement list with no SEQ, and for well-formed input no ESEQ |
| Canonical.FlattenKeepsNoESeq | src/canonical.c:372-379 | flattening an ESEQ-free tree gives ESEQ-free statements |
| Canonical.CopyWords | src/canonical.c:251 | copying two words copies the closure, copying one keeps only the temp |
| Canonical.RebuildMoveTempCallAsWritten | src/canonical.c:245-256 | as written only a pointer's worth of the closure is copied, so the rebuilt call has size 0 |
| Canonical.MoveTempCallKeepsSize | src/canonical.c:245-256 | a call of size n rebuilt from the full closure keeps size n, and as written comes back with size 0 |
| Canonical.SkipDead | src/canonical.c:477-479 | the dead code after a jump runs up to the next label or the end, and contains no label |
| Canonical.CloseBlock | src/canonical.c:462-471 | a block not ending in a jump gets exactly one jump added; the block then ends in a jump and keeps its statements |
| Canonical.BlocksAsWritten | src/canonical.c:448-481 | the loop as written only appends to the finished blocks |
| Canonical.Blocks | src/canonical.c:448-481 | the corrected loop only appends to the finished blocks |
| Canonical.LiveSkipsDead | src/canonical.c:474-479 | the dead run after a jump, up to the next label or the end, contributes no live statement |
| Canonical.BlocksKeepLive | src/canonical.c:448-481 | the corrected loop's blocks, end to end, are exactly the live statements in order (those not between a jump and the next label), with a jump to the next label or to `done` added after each one that ends a block without jumping, and nothing else |
| Canonical.BlocksWellFormed | src/canonical.c:483-495 | under the corrected loop every block starts with a label, ends with a jump and has neither inside, as the debug check expects |
| Canonical.BasicBlocks | src/canonical.c:430-498 | returns `done`, the first label drawn; draws one more label when the list does not start with one; and, corrected, every block is well formed and the blocks end to end are the live statements, after the new start label when one was drawn, with only the block-closing jumps added |
| Canonical.TrailingDeadCodeLosesBlock | src/canonical.c:474-480 | as written `L: JUMP M; EXP 1` gives no block at all, though `L: JUMP M` is live; corrected, the block `L: JUMP M` |
| Canonical.DeadCodeMergesBlocks | src/canonical.c:474-480 | as written `L: JUMP M; EXP 1; K: EXP 2` gives one block with a jump and a label inside; corrected, two well-formed blocks |
| Canonical.BasicBlocksDropsTrailingBlock | src/canonical.c:430-498 | the whole of `basic_blocks` on `L: JUMP M; EXP 1` returns no block as written and one corrected |
| Canonical.CanonicaliseTree | src/canonical.c:507-525 | every fragment body becomes a non-empty list without SEQ (and without ESEQ when well formed), and each fragment draws at least one label |
| Translate.GenStm | src/translate.c:98-119 | the jump a condition builds for true label t and false label f goes only to t or f |
| Translate.UnEx | src/translate.c:43-75 | a value is returned as it is; a statement is wrapped with the value 0; a condition yields an ESEQ whose value is a new temp, drawing one temp and two labels |
| Translate.UnNx | src/translate.c:77-96 | a value becomes an expression statement; a statement is returned as it is; a condition jumps to one new label either way, and that label follows it |
| Translate.UnCx | src/translate.c:121-149 | no condition exactly for a statement (the impossible-case assertion); a condition is returned as it is |
| Translate.UnCxTruth | src/translate.c:125-141 | a value used as a condition holds exactly when it is non-zero, whether a constant decides the jump at translation time or a compare with 0 decides it at run time |
| Translate.LabelAt | src/translate.c:53-72 | the first position of the label in the code, or the end when it is absent |
| Translate.UnExOfCondition | src/translate.c:50-73 | running the statements built for a condition leaves 1 in the result temp when the condition holds and 0 when it does not |
| Translate.FindVar | src/translate.c:158-165 | the first frame variable with the id, or the end when there is none |
| Translate.TranslateVar | src/translate.c:155-175 | defined exactly when a frame variable has the id (otherwise the assertion fails); it is then the memory cell at frame pointer plus the offset of the first frame variable with that id |
| Translate.BinOpFor | src/translate.c:230-243 | defined exactly for the arithmetic and bitwise tokens, never giving ARSHIFT |
| Translate.BinOpForBijective | src/translate.c:230-243 | different tokens give different IR operators, and every IR operator except ARSHIFT is reached |
| Translate.TranslateBinOp | src/translate.c:191-247 | defined exactly for the tokens of the table; the result is a value combining both operands with the operator the table gives, and two values are combined without drawing temps or labels |
| Rewrites.EraseList | src/rewrites.c:157-159 | erasing the types of a body keeps one expression per expression |
| Rewrites.FieldCmps | src/rewrites.c:57-95 | one field comparison is built per field of the struct, so the chain has as many operands as the struct has fields |
| Rewrites.Rewrite | src/rewrites.c:30-152 | `rewrite_decompose_equal_expr`: when the rewrite succeeds the expression keeps its type, a wide `==` being replaced by a bool-typed chain |
| Rewrites.RewriteBinOp | src/rewrites.c:103-105 | a binary operation that is not decomposed stays a binary operation with the same operator and type, only its operands visited |
| Rewrites.CompareFields | src/rewrites.c:39-58 | a wide comparison is only decomposed when it is typed bool, its operand type names a declared struct, both operands are l-values and the struct has a first field to read |
| Rewrites.Decompose | src/rewrites.c:36-101 | the replacement of a wide comparison keeps the comparison's bool type |
| Rewrites.SingleField | src/rewrites.c:96-104 | as written, the patched one-field comparison keeps the comparison's type |
| Rewrites.RewriteList | src/rewrites.c:154-160 | rewriting a body keeps its length |
| Rewrites.UntypedProgram | src/rewrites.c:169-177 | erasing the types of a program keeps one declaration per declaration |
| Rewrites.RewriteDecls | src/rewrites.c:169-177 | `rewrite_decompose_equal` keeps one declaration per declaration |
| Rewrites.OperandsOfFold | src/rewrites.c:76-95 | the operands of the left-nested chain built by the field loop are exactly the field comparisons, in order |
| Rewrites.FieldChain | src/rewrites.c:52-95 | a wide `==` becomes the `&&` of its field comparisons and a wide `!=` the logical-or chain of them, one per field in declaration order, field i comparing `l.f_i` with `r.f_i` |
| Rewrites.FieldCmpsAt | src/rewrites.c:57-95 | the i-th comparison of the chain compares the i-th field of both operands |
| Rewrites.LvalueFixed | src/rewrites.c:124-149 | an l-value (variable, field access, dereference) has no comparison in it and is left unchanged by either rewrite |
| Rewrites.RewriteNoWide | src/rewrites.c:30-152 | the corrected rewrite, when it succeeds, leaves no `==` or `!=` between values wider than a word anywhere in the expression |
| Rewrites.RewriteNoWideRest | src/rewrites.c:107-149 | the leaf, control and access cases of the corrected rewrite leave no wide comparison |
| Rewrites.RewriteBinOpNoWide | src/rewrites.c:103-105 | a binary operation left in place has no wide comparison after the corrected rewrite, given that it is not itself a wide comparison |
| Rewrites.DecomposeNoWide | src/rewrites.c:36-104 | the field chain that replaces a wide comparison has no wide comparison left after the corrected rewrite |
| Rewrites.RewriteListNoWide | src/rewrites.c:154-160 | a body rewritten by the corrected rewrite has no wide comparison left in any expression |
| Rewrites.NoWideFixed | src/rewrites.c:30-152 | an expression without wide comparisons, a bare `return` included, is its own corrected rewrite |
| Rewrites.NoWideListFixed | src/rewrites.c:154-160 | a body without wide comparisons is its own corrected rewrite |
| Rewrites.RewriteIdempotent | src/rewrites.c:169-177 | running the corrected rewrite again on its own result changes nothing, whatever the depth |
| Rewrites.SingleFieldPatched | src/rewrites.c:56-104 | as written, a wide comparison of a one-field struct is the patched comparison of that field with only the two field accesses visited again |
| Rewrites.SingleFieldAsWritten | src/rewrites.c:56-104 | as written, when the only field is itself a wide struct, the result is the comparison of the two fields, which is still wide |
| Rewrites.SingleFieldCorrected | src/rewrites.c:56-104 | corrected, a wide comparison of a one-field struct is the comparison of that field, decomposed in turn |
| Rewrites.BareReturnAsWritten | src/rewrites.c:126-128 | as written, a body with a bare `return` at the top level cannot be rewritten, since the rewrite visits the missing value |
| Rewrites.RewriteDeclsShape | src/rewrites.c:154-177 | the corrected rewrite of a program leaves every struct unchanged, keeps each function's name, parameters and return type, and leaves no wide comparison in any body |
| Rewrites.RewriteProgram | src/rewrites.c:169-177 | `rewrite_decompose_equal` keeps one declaration per declaration; corrected, structs are untouched and each function keeps its name, parameters and return type with no wide comparison left in its body |
| Rewrites.IntShapes | src/rewrites.c:38 | fields all of type `int` are four bytes each, aligned to four, as the size check sees them |
| Rewrites.NestedSizes | src/rewrites.c:38 | for `struct T { a, b, c: int }` and `struct S { t: T }`, `T` is twelve bytes aligned to four |
| Rewrites.NestedWide | src/rewrites.c:38 | both `T` and `S` are wider than a word, so comparisons of either are decomposed |
| Rewrites.FoldNoWide | src/rewrites.c:76-95 | a chain of comparisons joined by logical and or logical or has no wide comparison when none of its operands has |
| Rewrites.FieldCmpsNoWide | src/rewrites.c:57-95 | comparisons of narrow fields of narrow l-values are narrow |
| Rewrites.OneFieldAsWritten | src/rewrites.c:56-104 | as written, `x == y` for `x, y: S` stops at `x.t == y.t`, a comparison of twelve-byte structs |
| Rewrites.OneFieldCorrected | src/rewrites.c:56-104 | corrected, `x == y` for `x, y: S` becomes `x.t.a == y.t.a && x.t.b == y.t.b && x.t.c == y.t.c`, with no wide comparison left |
| Rewrites.InnerCorrected | src/rewrites.c:36-104 | `l == r` for l-values of type `T` becomes the `&&` of its three field comparisons |
| Rewrites.IntNarrow | src/rewrites.c:38 | an `int` is not wider than a word |
| Rewrites.IntFieldsShape | src/rewrites.c:38 | the three `int` fields of `T` are each four bytes aligned to four, and `T` is aligned to four |
| Rewrites.OneField | src/rewrites.c:38 | a one-field struct lays out as its field alone |
| Bitset.Zero | src/liveness.c:87-90 | the cleared word has none of its 64 bits set |
| Bitset.Or | src/liveness.c:96 | a bit of `x \| y` is set exactly when it is set in `x` or in `y` |
| Bitset.AndNot | src/liveness.c:104 | a bit of `x & ~y` is set exactly when it is set in `x` and not in `y` |
| Bitset.BitsetLen | src/liveness.c:28 | `BitsetLen(n)` words hold at least `n` bits and fewer than `n + 64` |
| Bitset.LowestFrom | src/liveness.c:146 | `__builtin_ctzll` of a non-zero word is a set bit with no set bit below it |
| Bitset.MemberOfWord | src/liveness.c:29 | element `64 k + b` lives in word `k`, bit `b`, so `IsBitSet` reads exactly that bit |
| Bitset.CountWithinWord | src/liveness.c:108-115 | counting the members up to a bit of word `k` adds that word's popcount below the bit to the count of the words before it |
| Bitset.WordsCountMembers | src/liveness.c:108-115 | adding the popcounts of the first `k` words gives the number of members below `64 k` |
| Bitset.CountZero | src/liveness.c:514 | the member count is zero exactly when there is no member, which is what the worklist loop's test relies on |
| Bitset.Clear | src/liveness.c:87-90 | `node_set2_clear` leaves a set of the right number of words with no member |
| Bitset.Add | src/liveness.c:127-130 | `node_set2_add` makes the element a member and leaves every other element's membership alone |
| Bitset.Remove | src/liveness.c:132-135 | `node_set2_remove` makes the element a non-member and leaves every other element's membership alone |
| Bitset.SameSlot | src/liveness.c:29-31 | two different elements differ in their word or in their bit, so setting or clearing one never touches the other |
| Bitset.Union | src/liveness.c:92-98 | `node_set2_union` gives the set whose members are those of either operand |
| Bitset.Minus | src/liveness.c:100-106 | `node_set2_minus` gives the set whose members are those of the first operand not in the second |
| Bitset.Count | src/liveness.c:108-115 | `node_set2_count` is the number of members, and zero exactly when the set is empty |
| Bitset.SameMembersSameWords | src/liveness.c:117-125 | sets with the same members have the same words |
| Bitset.Equal | src/liveness.c:117-125 | `node_set2_eq` is true exactly when the two sets have the same words, equivalently the same members |
| Bitset.FirstIdx | src/liveness.c:142-151 | `node_set2_first_idx` fails exactly on the empty set and otherwise returns a member below which there is none |
| NodeTrie.Path | src/liveness.c:166-171 | a walk takes its child index from the top two bits of the hash, shifting by two, so the 32-bit hash gives sixteen levels of digits |
| NodeTrie.NodeHash | src/liveness.c:153-163 | `lv_node_hash`, with its 32-bit wrap-around written out, is a `uint32_t`: below 2^32 |
| NodeTrie.Get | src/liveness.c:178-186 | `nt_get` returns a list only for a node the trie holds |
| NodeTrie.GetAt | src/liveness.c:164-173 | the walk of `nt_upsert` without an arena, along any hash, returns a value only for a key the trie holds |
| NodeTrie.Put | src/liveness.c:164-177 | after `*nt_upsert(&t, k, ar) = v` the lookup of `k` gives `v`, and the trie's keys are the old ones plus `k` |
| NodeTrie.GetPutSame | src/liveness.c:164-177 | after an upsert under `k` and a store through the returned slot, a walk for `k` with the same hash finds the stored value |
| NodeTrie.GetPutOther | src/liveness.c:164-177 | an upsert under `k` does not change the lookup of any other key, whatever the two hashes are |
| NodeTrie.PutKeys | src/liveness.c:164-177 | an upsert adds its key to the keys of the trie and no other |
| NodeTrie.GetPut | src/liveness.c:164-186 | `nt_get` after `*nt_upsert(&t, k, ar) = v` gives `v` for `k` and the old answer for every other key, NULL included |
| NodeTrie.FromEntriesGetAt | src/liveness.c:164-186 | a trie filled with one store per present entry answers every key with its entry and nothing beyond |
| NodeTrie.FromEntriesGet | src/liveness.c:164-186 | looking up `j` in a trie filled from a table of entries gives entry `j`, or NULL past the table |
| NodeTrie.FromPutsGetAt | src/liveness.c:164-186 | after a run of stores a lookup finds the last value stored under its key |
| NodeTrie.FromPutsSnoc | src/liveness.c:164-177 | one more store is one more upsert |
| NodeTrie.FromPutsGet | src/liveness.c:164-186 | after a run of stores `nt_get` finds the last value stored under its key, NULL when there is none |
| NodeTrie.StoresForLast | src/liveness.c:225-260 | visiting the nodes in order and storing each one's list, the last store under a node is its own list when it was visited |
| NodeTrie.StoreAll | src/liveness.c:225-260 | filling the def and use maps node by node leaves exactly the visited nodes that have a list, each with its list |
| NodeTrie.PutPutAt | src/liveness.c:164-177 | two stores under one key through the same walk keep only the second value |
| NodeTrie.PutPut | src/liveness.c:164-177 | storing twice under one key is storing the second value once |
| Dataflow.Succ | src/liveness.c:538-541 | the successors visited by `lv_succ` are exactly the targets of the node's edges |
| Dataflow.Pred | src/liveness.c:558-560 | the predecessors visited by `lv_pred` are exactly the sources of the edges into the node |
| Dataflow.UnionIn | src/liveness.c:536-541 | a temp is in the union exactly when it is live-in at one of the given nodes |
| Dataflow.FirstIn | src/liveness.c:515-523 | the selection loop picks the first node of the visiting order that is on the worklist, none earlier being on it |
| Dataflow.UnionInMono | src/liveness.c:536-541 | larger live-in tables give a larger live-out union |
| Dataflow.UnionInBounded | src/liveness.c:536-541 | the union of live-in sets stays within the temps of the graph |
| Dataflow.StepGrow | src/liveness.c:526-546 | one recomputation only adds to the live-in and live-out tables, keeps them within the temps, and keeps each set below what its equation gives |
| Dataflow.StepSettled | src/liveness.c:549-561 | a recomputation keeps every settled node settled, since a change puts the node and its predecessors back on the worklist |
| Dataflow.StepLeast | src/liveness.c:526-546 | a recomputation stays below every solution of the equations |
| Dataflow.StepMissing | src/liveness.c:549-561 | a recomputation that changes a table adds at least one (node, temp) pair, so the pairs still missing shrink |
| Dataflow.Init | src/liveness.c:505-510 | empty tables with every node of the order on the worklist satisfy the loop invariant |
| Dataflow.SettledMono | src/liveness.c:514-524 | putting more nodes on the worklist keeps the others settled |
| Dataflow.StepInvariant | src/liveness.c:514-561 | one iteration keeps the loop invariant: growth, bounds, settled nodes off the worklist and staying below every solution |
| Dataflow.StepDecreases | src/liveness.c:549-561 | one iteration either adds to a table or shortens the worklist, so the loop ends |
| Dataflow.Step | src/liveness.c:514-561 | the iteration as written (remove the node, recompute, put it back with its predecessors on a change) keeps the invariant and decreases the measure |
| Dataflow.Solve | src/liveness.c:505-561 | the worklist loop ends with the dataflow equations holding at every node of the order, the least such solution, every set within the temps, and empty sets outside the order |
| Liveness.SortTemps | src/liveness.c:313-341 | `temp_list_sort` returns a list of the same length sorted by temp id, and a list of fewer than two temps unchanged |
| Liveness.SortTempsPermutes | src/liveness.c:313-341 | the sorted list holds exactly the temps of the original, with their multiplicities |
| Liveness.DefEntry | src/liveness.c:225-253 | an instruction gets a def-map entry exactly when it defines some temp, and the entry is its definitions sorted by id, with their multiplicities |
| Liveness.UseEntry | src/liveness.c:225-253 | an instruction gets a use-map entry exactly when it uses some temp, and the entry is its uses sorted by id, with their multiplicities |
| Liveness.LabelNode | src/liveness.c:238-249 | the node a label maps to is the last instruction of that name among those seen, and there is none when no instruction has that name |
| Liveness.EntryLists | src/liveness.c:229-258 | what an instruction stores in the def and use maps, read back with a missing entry as the empty list, is its sorted destinations and sources |
| Liveness.FirstPassEdges | src/liveness.c:219-262 | the first pass makes a fall-through edge from each instruction to the next exactly when control can fall into the next: an operation or move always, a label unless the instruction before it jumps |
| Liveness.FirstPassLabels | src/liveness.c:238-249 | the label table maps a name exactly when a label of that name occurs, to the last such label's node |
| Liveness.FirstPassMoves | src/liveness.c:250-259 | the move set holds exactly the nodes of move instructions |
| Liveness.TrieLists | src/liveness.c:219-262 | each node's def and use lists are its instruction's destinations and sources, sorted by id |
| Liveness.JumpEdgesNext | src/liveness.c:267-277 | the second pass adds, at a jumping instruction, one edge per jump target and nothing at other instructions |
| Liveness.TargetEdgesNext | src/liveness.c:270-275 | each jump target adds one edge from the jump to the target label's node |
| Liveness.EdgesMeaning | src/liveness.c:219-277 | the fall-through edges together with the jump edges are exactly the control-flow edges the instructions describe |
| Liveness.AddTargets | src/liveness.c:270-275 | the edges to each target are added, and the assertion fails exactly when some target is not in the label table |
| Liveness.AddJumpEdges | src/liveness.c:266-277 | the second pass adds every jump edge and fails exactly when some jump names a label that is not in the table |
| Liveness.Instrs2Graph | src/liveness.c:203-288 | `instrs2graph` fails exactly when a jump names a missing label; otherwise the graph has one node per instruction, its edges are exactly the fall-through and jump edges, its def and use lists are the sorted temps, and its move set is the move instructions |
| Liveness.MovesOfInstrs | src/liveness.c:250-259 | in the graph of the instructions every move node has exactly one def and one use |
| Interference.Number | src/liveness.c:369-380 | `ig_get_node_for_temp` numbering: one interference node per temp id met, no two nodes sharing an id, each holding a temp that was met |
| Interference.NumberPrefix | src/liveness.c:448-457 | meeting more temps never renumbers the ones already met |
| Interference.NumberFirst | src/liveness.c:369-380 | each node holds the first temp met with its id |
| Interference.IndexOf | src/liveness.c:369-380 | the node of an id that has one is a node holding that id |
| Interference.IndexOfUnique | src/liveness.c:369-380 | with distinct ids the node of an id is unique |
| Interference.MetHolds | src/liveness.c:448-457 | every temp of the def and use lists of the first flow nodes is met by the numbering loop |
| Interference.NodeSet | src/liveness.c:476-490 | the node set of a temp list holds interference node indices only |
| Interference.NodeSets | src/liveness.c:476-490 | one node set per flow node, each within the interference nodes |
| Interference.NodeSetsAt | src/liveness.c:476-490 | the def (or use) set of a flow node is the node set of its def (or use) list |
| Interference.FlowSets | src/liveness.c:476-490 | an interference node is in a flow node's def set exactly when its temp's id occurs in the def list, and likewise for uses |
| Interference.FlowValid | src/liveness.c:434-490 | a control graph whose edges stay within its nodes gives a well-formed liveness problem |
| Interference.Descending | src/liveness.c:626-632 | the members of a node set below the bound, highest first, as the consing loop lists them |
| Interference.NodeMoves | src/liveness.c:582-600 | at a move node the pairs consed on are exactly (d, u) for each definition d below the bound, u the single use, listed with d decreasing |
| Interference.NodeEdges | src/liveness.c:577-615 | the edges a flow node adds are exactly the pairs of a def with a live-out, except the move's source at a move |
| Interference.OneMember | src/liveness.c:596-597 | a one-member set lists as that member, so `node_set2_first_idx` finds the only use |
| Interference.OnlyUse | src/liveness.c:596-597 | the use found at a move node with one use is that use |
| Interference.EdgesAndMoves | src/liveness.c:577-615 | the edge loop fails exactly when a move node of the order does not have exactly one use; otherwise its edges are exactly the interferences at the order's nodes and its moves are listed as consed |
| Interference.LiveOutTemps | src/liveness.c:626-632 | the live-out list of a node holds exactly the temps of its live-out set |
| Interference.LiveOuts | src/liveness.c:620-636 | the live-out map has an entry exactly for the nodes of the order with a non-empty live-out set, each the list of those temps |
| Interference.Build | src/liveness.c:492-636 | once set up, the body fails exactly at a bad move node and otherwise computes the least liveness solution, the interference edges, the moves and the live-out map |
| Interference.InterferenceGraph | src/liveness.c:434-646 | `interference_graph` fails exactly when there is no flow node, no temp, a flow node missing from the topological order (whose zeroed entry the worklist dereferences), or a move node without one use; otherwise it computes what the equations, edges, moves and live-out map describe |
| Interference.SingleNodeSet | src/liveness.c:596-597 | a one-temp list gives a one-node set |
| Interference.WellFormedMovesPass | src/liveness.c:250-259 | a flow graph built from instructions, whose moves have one def and one use, never fails the move assertion |
| Backend.Reserved | src/x86_64.c:243-275 | the stack area reserved for outgoing arguments is a multiple of the 16-byte stack alignment and holds every argument |
| Backend.StackArgs | src/x86_64.c:243-275 | `munch_stack_args` fails exactly when some argument's size is not 1, 2, 4 or 8 (larger than a word, or without a store suffix), with the larger-stack-args message whenever one is larger than a word; otherwise it stores argument i at its offset |
| Backend.EndGrows | src/x86_64.c:262-270 | the running total of the stack arguments never decreases |
| Backend.StackSlotsSound | src/x86_64.c:262-271 | with the store at the rounded offset, each argument is aligned to its size, the arguments come in order without overlapping, and all lie inside the reserved area |
| Backend.StackStoreMisaligned | src/x86_64.c:254-270 | as written, a four-byte argument after a one-byte one is stored at offset 1, misaligned, where the corrected offset is 4 |
| Backend.ArgTempsMeaning | src/x86_64.c:280-328 | `munch_args` fails exactly when a register argument is larger than a word or, where the move spells the size as on x86-64, has a size other than 1, 2, 4 or 8, or when a stack argument has a size other than 1, 2, 4 or 8; otherwise argument i is read from the next argument register, sized to the argument, for as many arguments as registers remain |
| Backend.ArgTemps | src/x86_64.c:280-328 | a register argument's temp has that argument's size, at most a word, and no more temps are made than there are arguments |
| Backend.OddSizedArguments | src/x86_64.c:289-296 | a three-byte argument fails in an x86-64 register, whose `mov` needs a suffix, passes in an arm64 register, and fails on the stack |
| Backend.ConsWordsMembers | src/x86_64.c:107-127 | consing registers as words adds exactly those registers, each as a whole word |
| Backend.CallDefsOfMembers | src/x86_64.c:107-127 | the registers a call clobbers are exactly the argument registers, the special register and the caller saves, each a whole word |
| Backend.CallDefsOf | src/x86_64.c:107-127 | `calldefs` conses one word per caller save, one for the special register and one per argument register |
| Backend.EmittedBackwards | src/x86_64.c:129-133 | `emit` conses each instruction onto the front, so the list holds them in reverse order of emission |
| Backend.CodegenInOrder | src/x86_64.c:936-949 | after the final `assm_list_reverse` the instructions come back in the order they were emitted |
| Backend.Unsigned | src/tree.h:49-61 | a 64-bit value read as unsigned is below 2^64 |
| Backend.EqualitySymmetric | src/x86_64.c:876-888 | equality and inequality do not depend on the operand order, which is why only they may swap operands |
| X86.Table | src/x86_64.c:165-168 | the name table picked by the trailing zero bits of a valid size has one name per register |
| X86.SuffFromSize | src/x86_64.c:139-150 | `suff_from_size` gives a suffix exactly for sizes 1, 2, 4 and 8 and fails the assertion otherwise; every suffix is one letter |
| X86.SuffixesDistinct | src/x86_64.c:139-150 | different sizes get different suffixes, so the suffix tells the assembler the operand size |
| X86.RegisterForSize | src/x86_64.c:158-204 | a register name is only produced for a valid size, and it is a name from that size's table |
| X86.RegisterForSizeNames | src/x86_64.c:158-204 | each register's own name, at any valid size, gives the same register's entry in that size's table |
| X86.WideNamesArePrefixed | src/x86_64.c:97-100 | the 64-bit names are the register names with the `%` prefix |
| X86.CallDefsRoles | src/x86_64.c:49-127 | a call clobbers exactly the caller saves, rax and the argument registers, each as a whole word, and none of the callee saves, rsp or rbp |
| X86.CallDefs | src/x86_64.c:107-127 | the x86-64 clobber list has one word per argument register, rax and caller save, and clobbers no callee save |
| X86.JumpFor | src/x86_64.c:897-909 | the unsigned comparisons, and only they, get one of `ja`, `jae`, `jb`, `jbe` |
| X86.SignedJumpsAgree | src/x86_64.c:899-904 | the signed comparisons and equality are unaffected by the correction |
| X86.JumpMeansRelation | src/x86_64.c:897-909 | with each unsigned comparison given its own mnemonic, the jump after `cmp` is taken exactly when the comparison holds |
| X86.UnsignedJumpSwapped | src/x86_64.c:905-908 | as written, an unsigned comparison jumps exactly when it holds with its operands swapped |
| X86.UnsignedLessJumpsWrongWay | src/x86_64.c:905 | as written, `0 <u 1` holds but the `ja` chosen for it is not taken |
| X86.CompareForm | src/x86_64.c:846-890 | the memory-offset form is chosen exactly for a MEM of base plus constant; an immediate on the right keeps the operand order; only equality tests with a lone constant on the left swap the operands |
| X86.CJumpDecides | src/x86_64.c:846-913 | whichever compare form is chosen, the compare followed by the corrected jump goes to the true label exactly when the comparison holds |
| Arm64.Range | src/arm64.c:68-100 | the register ranges list each register number once, in order |
| Arm64.TableRanges | src/arm64.c:68-100 | the argument registers are x0 to x7, the callee saves x19 to x28 and the caller saves x8 to x17 |
| Arm64.SuffFromSize | src/arm64.c:140-151 | `suff_from_size` gives a suffix exactly for sizes 1, 2, 4 and 8 and fails the assertion otherwise; words and double words share the empty suffix, and only they have it |
| Arm64.RegisterForSize | src/arm64.c:160-177 | a produced name has the length of the register name and differs from it at most in its first letter |
| Arm64.RegisterForSizeNames | src/arm64.c:160-177 | every register can be named at every valid size: unchanged for a double word, for fp and for sp, otherwise renamed to its `w` form |
| Arm64.WidthIsVisible | src/arm64.c:140-177 | for a general register, the suffix and the register name together tell apart any two widths |
| Arm64.CallDefsRoles | src/arm64.c:57-125 | a call clobbers exactly the caller saves, the link register and the argument registers, each as a whole word, and none of the callee saves, fp, sp or x18 |
| Arm64.CallDefs | src/arm64.c:106-125 | the arm64 clobber list has one word per argument register, the link register and caller save, and clobbers no callee save |
| Arm64.CanBeImmediate | src/arm64.c:215-220 | a constant can be moved directly exactly when its low 16 bits read back as itself, that is it lies in the 16-bit signed range |
| Arm64.LoadConst | src/arm64.c:412-424 | a constant is loaded with `mov` when its 16-bit immediate reads back as it, and otherwise from a literal holding the same value |
| Arm64.BranchFor | src/arm64.c:600-669 | the branch fails exactly for unsigned less-than and greater-or-equal; a compare-with-zero is only used for equality tests against a constant zero, on the other operand |
| Arm64.BranchDecides | src/arm64.c:600-672 | with the operands' values, the chosen branch is taken exactly when the comparison holds |
| Arm64.CalleeSaveIdx | src/arm64.c:813-823 | `get_callee_save_idx` gives the index of a callee-save register, and the count of callee saves exactly for any other register |
| Arm64.IndexFrom | src/arm64.c:816-821 | the search from index k finds the register's index at or after k, or the count when it is not among the rest |
| Arm64.PackSpillRegs | src/arm64.c:875-882 | the ten spilled registers pack into five bytes |
| Arm64.PackedByte | src/arm64.c:875-882 | byte j holds the callee-save index of spilled register 2j in its low nibble and of 2j + 1 in its high nibble |
| Arm64.CsBitmapFor | src/arm64.c:842-847 | the callee-save bitmap of a return label is read as 32 bits |
| Arm64.FrameMapsOf | src/arm64.c:949-961 | every frame map emitted comes from a frame-map fragment of the list |
| Arm64.EmitEntries | src/arm64.c:825-902 | one entry per frame map is emitted |
| Arm64.EmitEntriesFail | src/arm64.c:852-858 | emission fails exactly when some map has too many argument or local words, or more spill words than local words |
| Arm64.EmitEntriesContent | src/arm64.c:825-902 | entry k describes map k and links to entry k - 1, the first linking to nothing |
| Arm64.HeaderFieldsFit | src/arm64.c:852-869 | the argument, local and spill word counts of every emitted entry fit the 16-bit fields the runtime reads |
| Arm64.EmitFrameMaps | src/arm64.c:940-966 | the data segment fails exactly when some frame map cannot be emitted; otherwise one entry per frame-map fragment, and a root exactly when there is an entry, pointing at the last |
| Runtime.Walk | runtime/runtime.c:92-105 | the walk from `sl_rt_frame_maps` along `prev` only visits entries that exist |
| Runtime.FindMap | runtime/runtime.c:132-137 | the map found for a return address is an entry whose key is that address |
| Runtime.EmittedMapsChained | src/arm64.c:833-838 | the maps the arm64 code generator emits link each entry to the one before it, the first to NULL, with the root at the last |
| Runtime.WalkFrom | runtime/runtime.c:92-105 | from entry k of an emitted chain the walk visits k, k - 1, down to 0, each entry once, latest first |
| Runtime.FindFrom | runtime/runtime.c:132-137 | the lookup from entry k finds the latest entry up to k with the key, and nothing exactly when none up to k has it |
| Runtime.FindsInChain | runtime/runtime.c:132-141 | on a chained set of maps the walk visits every entry, and the lookup finds the latest entry with the key, or nothing exactly when no entry has it |
| Runtime.FindsEmittedMap | runtime/runtime.c:132-141 | for a return address the runtime finds the frame map the code generator emitted last for that label, and stops the backtrace exactly when no map has it |
| Runtime.CsDispo | runtime/runtime.c:99-102 | the disposition of callee save i, read two bits at a time, is one of four codes |
| Runtime.CsBitmapRoundTrip | runtime/runtime.c:56-65 | a bitmap of callee-save codes, two bits each, fits below 4^n, and reading bit pair i gives back code i, and "no pointer" past the last |
| Runtime.Pow4 | runtime/runtime.c:56-65 | the bound the bit pairs of a bitmap stay below is positive |
| Runtime.ZeroDispo | src/arm64.c:842-847 | a return label with no recorded bitmap, emitted as 0, reads as "no pointer" for every callee save |
| Runtime.CalleeSavedNames | runtime/runtime.c:28-32 | the runtime's name for callee save k is the code generator's name for the k-th callee-save register |
| Runtime.UnpackPair | runtime/runtime.c:160-170 | the low and high nibbles of a packed byte give back the two indexes packed into it |
| Runtime.IndexNamesRegister | runtime/runtime.c:160-170 | the runtime names a packed callee-save index after the register it came from, and skips the index of a register that is not a callee save |
| Runtime.PairRoundTrip | runtime/runtime.c:160-170 | one packed byte decodes to the names of its two registers that are callee saves, low first |
| Runtime.DecodePairs | runtime/runtime.c:160-170 | when each byte names its own two registers, the bytes in order name all the registers' callee saves in order |
| Runtime.DecodeSpillRegs | runtime/runtime.c:160-170 | each `spill_reg` byte prints at most two names, each the name of a callee save |
| Runtime.PackedByteNames | runtime/runtime.c:160-170 | packed byte j decodes to the names of spilled registers 2j and 2j + 1 |
| Runtime.SpillRegsRoundTrip | runtime/runtime.c:160-170 | the runtime reads back from the five `spill_reg` bytes exactly the callee saves among the ten spilled registers, in order |
| Allocator.Init | runtime/runtime.c:191-207 | the zero-initialised allocator is well formed, with no page and a zero count for every size class |
| Allocator.StrLen | runtime/runtime.c:295 | the size of an object is the number of characters of its descriptor before the first NUL |
| Allocator.FreeSlot | runtime/runtime.c:214-221 | the free slot is the lowest clear bit, and there is none exactly when all 64 are set |
| Allocator.FindSlot | runtime/runtime.c:210-222 | `pd_find_slot` claims the lowest clear slot, setting its bit and no other, and returns NULL when the page is full |
| Allocator.SlotsDisjoint | runtime/runtime.c:217-218 | corrected, slot i of a page starts i objects in, so two slots never overlap and all 64 fit the page's objects |
| Allocator.SlotWord | runtime/runtime.c:217-218 | as written and corrected, an object at a slot below 64 lies inside the page's data of 64 objects |
| Allocator.FreshDescs | runtime/runtime.c:249-267 | a new superpage brings 64 descriptors |
| Allocator.NewSuperpage | runtime/runtime.c:240-272 | `alloc_new_superpage` is fatal exactly once all 16 superpages are in use; otherwise it appends 64 descriptors and leaves the old ones, the pages, the counters and the free list alone |
| Allocator.Refill | runtime/runtime.c:302-306 | an empty free list is refilled from a new superpage, failing exactly when none is left; a non-empty one is left as it is |
| Allocator.TakeHead | runtime/runtime.c:307-310 | the head of the free list becomes the class's page, the list moves to its successor, and only that descriptor's size changes |
| Allocator.ClassPage | runtime/runtime.c:301-311 | a class keeps its page, or takes the head of the free list, refilled when empty, failing exactly when a new superpage is needed and none is left |
| Allocator.Count | runtime/runtime.c:299 | the statistics of the size class go up by one and nothing else changes |
| Allocator.ClaimSlot | runtime/runtime.c:313-316 | the allocation fails exactly when the class's page is full, and otherwise claims a slot of that page that was clear |
| Allocator.AllocDes | runtime/runtime.c:293-351 | `sl_alloc_des` fails exactly when the size reaches 64, when a superpage is needed and none is left, or when the page is full; otherwise the object is a newly claimed slot of the class's page |
| Allocator.OwnedIgnoresCounter | runtime/runtime.c:299 | the page ownership invariant does not depend on the statistics |
| Allocator.InitOwned | runtime/runtime.c:178-207 | the zero-initialised allocator satisfies the ownership invariant |
| Allocator.RefillKeepsOwned | runtime/runtime.c:260-263 | with each fresh descriptor linked to the next, refilling keeps the free list in order and the invariant |
| Allocator.TakeHeadKeepsOwned | runtime/runtime.c:307-310 | the head of the corrected free list belongs to no class, so giving it to a class keeps the invariant |
| Allocator.ClassPageKeepsOwned | runtime/runtime.c:301-311 | choosing a class's page from the corrected free list keeps the invariant |
| Allocator.ClaimSlotKeepsOwned | runtime/runtime.c:313-316 | claiming a slot keeps the invariant, and the slot's page records the class's size and belongs to that class alone |
| Allocator.AllocKeepsOwned | runtime/runtime.c:293-316 | corrected, every object comes from a page that records its size and that no other size class owns, and the invariant is kept |
| Allocator.SelfLinkSharesPage | runtime/runtime.c:260-263 | as written, each fresh descriptor links to itself, so a one-word and then a two-word object land in the same page, which now claims two-word objects |
| Allocator.AdjacentObjectsOverlap | runtime/runtime.c:217-218 | as written, two two-word objects allocated one after the other share a word: the second starts one word after the first |
| Allocator.ObjectsDisjoint | runtime/runtime.c:217-218 | corrected, an object starts slot times size words in, and no other slot of its page overlaps it |

## Left out

- `ptr_map_for_type` and the pointer bitmaps of activation records (src/activation.c:266-309, 446-447, 471-524): for a word-aligned field, `ptr_map_for_type` recurses on the same struct without making progress (src/activation.c:290), so it has no terminating meaning to model.
- Temp.NewTemp: the `int` counters of src/temp.c:12-15 are unbounded here. In C, counting past 2^31 - 1 is undefined behaviour; the model does not represent it, because ids never come close to that in a compilation.
- ScopeTrie.SymHash: `sym_hash` (src/semantics.c:55-63) is modelled as computed and carries no contract, since nothing is promised about its value. The trie's lemmas (ScopeTrie.FindIsSearch, ScopeTrie.InsertSpec) hold whatever child each depth's hash bits choose.
- Arm64.RegisterForSize: the source writes every name into one `static char buf[8]` and returns a pointer to it (src/arm64.c:162), so each call overwrites the name the previous call returned. The model returns a separate string per call and does not represent that aliasing; a caller that keeps two names at once would see only the second in the source.
- Characters are Dafny `char`s, not C bytes. ScopeTrie's `% 256` fold of the symbol hash stands in for the walk over UTF-8 bytes, because the model has no encoding.
- HashTable.Map: `apply` is a pure function, so a closure argument has nothing to change and the timestamp assertion of src/interfaces/table.c:162 cannot fail.
- Canonical.Fresh: canonicalisation and translation call `temp_newtemp` with one argument (src/canonical.c:52, 78; src/translate.c:52), which does not match src/temp.h:31. The model passes the size it needs and a disposition of 0, and so does not replay the `ptr_dispo != 0` assertion of src/temp.c:29.
- `assm_format` (src/assem.c:37-44) returns the instruction's text unchanged; it has no member because there is nothing to state about it.
- Activation.AlignOf and Activation.SizeOf: the recursion is bounded by a fuel parameter, set to the number of declarations of the program (`Depth`). The type checker rejects only a struct with a field of its own type (src/semantics.c:831-837). Two structs that contain each other pass it, and the source's `alignment_of` and `size_of` then recurse without end; the model returns a failure when the fuel runs out.
- Liveness.Instrs2Graph: the label-to-node table is an ideal map, where the source uses a `Table_T` (src/interfaces/table.c). When that table loses a label through the probe-window overflow listed under "## Findings", the source's lookup of the label fails its assertion; the model finds the label.
- Interference.Number: the temp-to-node table of `ig_get_node_for_temp` (src/liveness.c:369-380) is an ideal map, where the source uses a `Table_T`. When that table loses a temp through the same probe-window overflow, the source makes a second interference node for the temp; the model keeps one node per temp id.
- Rewrites.Rewrite: the nesting bound `depth` is a fuel parameter set to the struct nesting depth of the program; a deeper struct nest than the program declares is not modelled.
- The memo table that activation sizing keys by type is replaced by recomputation, which gives the same sizes.
- `topological_sort` (src/liveness.c:406-425) and its exit-node assertion: the node order is a parameter. It is closed under predecessors (`PredClosed`), as the depth-first search over predecessors makes it. The search itself is not modelled. An order that misses a flow node stands for the zeroed entries the search leaves unfilled; Interference.InterferenceGraph fails on it, as the source's `lv_succ` reads through the null graph of such an entry (src/graph.c:137-138).
- Interference.Build: the body after setup takes the order as given and visits only the nodes it lists. The failure for an order that misses a node belongs to Interference.InterferenceGraph.
- 64-bit words of the liveness bit sets are modelled as sequences of 64 booleans rather than machine integers; popcount and the trailing-zero count are specified, not implemented.
- Dataflow: the loops over words in the set operations are stated as set union and difference, which is what the loops compute.
- Debug printing, file output and the text emitted for every instruction except the cases a lemma speaks of, because they are I/O.
- `munch_exp` in both back ends is not modelled. The instruction text of `emit` is kept only where a lemma needs it (jump mnemonics, stack stores, frame maps).
- In x86 `munch_stm` (src/x86_64.c:758-818), an expression statement that is not a call and a move into a temp of size 0 emit nothing. The model covers only the call, jump and move rules it lists in "## Model".
- A failure of `mmap` or `calloc` is out of scope: memory is unbounded.
- The x86-64 back end emits no frame maps, so there is nothing of them to model.
- A division by a size-0 type cannot arise for the types the type checker accepts; the model does not represent it.
- In the arm64 frame maps, the bitmap of `label_to_cs_bitmap`, whose source file is not part of this model, is an input. The `.zero` padding directive (src/arm64.c:889) is emitted text only.
- `acfm_spill_reg` is defined in a source file that is not part of this model; the spill slots are an input.
- The runtime's x86-64 callee-saved register names (runtime/runtime.c:34-38) are only printed, so they are not modelled.
- The allocator's mark bits belong to the collector, which is not implemented (the runtime calls a fatal error), so they are left out.
- Data pointers are word indexes into one flat heap. `page_data_t` is 64 words (runtime/runtime.c:236-238), and the corrected slot address assumes pages of 64 objects, as the comment at runtime/runtime.c:187 promises.
- Garbage collection: the runtime's collector is a fatal stub.
- The assertion that an allocation is below 2^33 words: the model's sizes are unbounded, so the assertion cannot fail.
- `translate_expr`, `translate_decl` and `translate_program` are stubs whose results the pipeline discards. Their prototype in src/translate.h:44 no longer matches the definition. Only the l-value and fragment helpers, the conversions between expression, statement and condition forms (`unEx`, `unNx`, `unCx`) and the binary-operator translation are modelled.
- `trace_schedule` is compiled out (inside `#ifdef XXX`), so it is not modelled.
- Register allocation (src/reg_alloc.c) is outside the modelled core.
- `lv_free_graph` and `lv_free_node` only release memory, which the model has no notion of.
- The raw-pointer handles of the Rust graph are indices here. Undefined behaviour through a dangling handle is not modelled.
- The node-set tables of src/liveness.c:55-56 are replaced by sequences of sets indexed by node. Their capacity assertions (at least one row and one column) are replayed only as the failure of Interference.InterferenceGraph when there is no flow node or no temp.
- `print_stack_backtrace` stops after 128 frames. The model decodes one frame at a time, so the cut is not represented.

## Findings

| source | as written | input that shows it | evidently intended | confidence | as-written member | corrected member |
|---|---|---|---|---|---|---|
| src/canonical.c:251 | `memcpy(&cl_, cl, sizeof cl)` copies the size of a pointer, not of the closure, so the call size read back is lost | a move of a four-byte call result into a temp: the rebuilt call has size 0 | copy the whole closure, so the call keeps its size | not executed | Canonical.RebuildMoveTempCallAsWritten | Canonical.MoveTempCallKeepsSize |
| src/canonical.c:474-480 | after a jump, dead statements are skipped but the current block is not closed, so a jump followed by dead code and no label loses its block | `L: JUMP M; EXP 1` gives no blocks | close the block at the jump, then skip the dead code | not executed | Canonical.TrailingDeadCodeLosesBlock | Canonical.BlocksKeepLive |
| src/canonical.c:474-480 | a block ended by a jump with dead code after it is merged into the block that follows the next label | `L: JUMP M; EXP 1; K: EXP 2` gives one block with a label and a jump inside it | every block ends at its jump | not executed | Canonical.DeadCodeMergesBlocks | Canonical.BasicBlocks |
| src/interfaces/table.c:114-126 | `Table_put` stores into the slot just past the 12-slot probe window when the window is full, where `Table_get` never looks | the twelve slots from the key's start held by other keys and the thirteenth free: the put succeeds and a following get returns NULL | store only inside the window, otherwise rehash | not executed | HashTable.PutBeyondWindowIsLost | HashTable.WindowPut |
| src/interfaces/table.c:177-186 | `Table_remove` empties a slot in the middle of a probe run, so a later key of the same run is no longer found | two keys with the same start in adjacent slots: after removing the first, the second is not found | removal keeps later keys of the run reachable | not executed | HashTable.RemoveHidesFollowingKey | HashTable.WindowRemove |
| src/interfaces/table.c:167-190 | `Table_remove` never decrements `length` | remove a present key | length drops by one on removal | not executed | HashTable.RemoveKeepsLength | HashTable.WindowRemove |
| src/interfaces/table.c:81-82 | `rehash` hashes every old bucket, empty ones included, so a hash function that dereferences its key reads NULL | a put that must rehash a table whose slot 0 is empty, with a hash that dereferences its key | hash only occupied buckets | not executed | HashTable.RehashHashesNull | HashTable.WindowRehash |
| src/activation.c:456-459 | the next stack-argument offset advances by the size from the unrounded offset, so a rounded-up parameter overlaps the next one | nine parameters, the last three on the stack: the seventh is placed at 16, the eighth at 20 with size 4, and the ninth at 21 | advance from the rounded offset | not executed | Activation.ParamsOverlapAsWritten | Activation.ParamsOverlapCorrected |
| src/rewrites.c:97-104 | a wide comparison of a one-field struct is patched in place, but only its old operands are revisited, so the patched node keeps a wide comparison | `x == y` where the only field `t` of `x`'s struct is a twelve-byte struct: the result stops at `x.t == y.t` | revisit the patched node itself | not executed | Rewrites.OneFieldAsWritten | Rewrites.OneFieldCorrected |
| src/rewrites.c:126-128 | a bare `return` recurses into its missing argument, and the switch dereferences NULL | a function body holding `return;` | skip an absent return argument | not executed | Rewrites.BareReturnAsWritten | Rewrites.NoWideFixed |
| src/semantics.c:320-333 | an equality between operands of different types prints an error but does not count it, so checking still succeeds | `1 == true` | count the error like every other type error | not executed | Semantics.EqualityMismatchUncounted | Semantics.BinOpRuleSound |
| src/semantics.c:891-898 | a struct is compared with every earlier declaration, functions included, although structs and functions are looked up apart: a struct after a function of its name is an error, a function after the struct is not | a function `p` then a struct `p` | compare a struct only with earlier structs | not executed | Semantics.NameClashDependsOnOrder | Semantics.DeclareNamesAccepts |
| src/ast.c:320-329 | `%d` prints the least significant digit first | 12 prints as "21" | print the most significant digit first | not executed | Ast.TwelvePrintsBackwards | Ast.PrintfDigits |
| src/x86_64.c:905-908 | the unsigned relations map to the mnemonics of the opposite relation (below to `ja`, above to `jb`) | `0 <u 1` holds but the `ja` chosen for it is not taken | below to `jb`, above to `ja` | not executed | X86.UnsignedLessJumpsWrongWay | X86.JumpMeansRelation |
| src/x86_64.c:254-270 | each stack argument is stored at the running offset before it is rounded up to its own alignment, so a 4-byte argument after a 1-byte one is stored unaligned; src/arm64.c:246-258 does the same | argument sizes 1 then 4: offsets 0 and 1 | round first, then store | not executed | Backend.StackStoreMisaligned | Backend.StackSlotsSound |
| runtime/runtime.c:260-263 | every descriptor of a new superpage links to itself instead of the next one, so the free list never advances | a one-word object and then a two-word object land in the same page, which then claims two-word objects | link each descriptor to the next | not executed | Allocator.SelfLinkSharesPage | Allocator.AllocKeepsOwned |
| runtime/runtime.c:217-218 | slot i of a page is word i of the page, whatever the object size, so objects larger than a word overlap | two two-word objects taken one after the other: the second starts one word after the first | slot i starts at word i times the object size in words | not executed | Allocator.AdjacentObjectsOverlap | Allocator.ObjectsDisjoint |

=== FILE: activation.dfy ===
/** Stack-frame and struct layout for the x86-64 target (src/activation.c):
    `round_up_size`, `num_words`, the builtin sizes, struct alignment and
    size, the offsets of `let` locals and the placement of parameters.

    A C `assert` (an unknown type name, an array type, a division by a zero
    alignment) is an `Outcome.Fail`.  The `ty_size`/`ty_alignment` memo
    fields are left out: they hold what the pure functions below compute.
 */
module Activation {
  import opened Wrappers
  import opened Ast
  import Semantics

  const WordSize: nat := 8
  const StackAlignment: nat := 16
  /** `acf_next_arg_offset` starts past the saved `%rbp` and the return address. */
  const FirstArgOffset: nat := 16

  // ---------------------------------------------------------------------
  // Arithmetic
  // ---------------------------------------------------------------------

  lemma MulAtLeast(a: int, m: int)
    requires a >= 1 && m > 0
    ensures a * m >= m
    decreases a
  {
    if a > 1 {
      MulAtLeast(a - 1, m);
      assert a * m == (a - 1) * m + m;
    }
  }

  /** Euclidean division by `m` leaves `j` from `k * m + j`. */
  lemma ModOfMultiplePlus(k: int, m: int, j: int)
    requires m > 0 && 0 <= j < m
    ensures (k * m + j) % m == j
  {
    var y := k * m + j;
    var d, r := y / m, y % m;
    assert y == d * m + r;
    assert (k - d) * m == r - j;
    if k - d > 0 {
      MulAtLeast(k - d, m);
    } else if k - d < 0 {
      assert (d - k) * m == j - r;
      MulAtLeast(d - k, m);
    }
  }

  /** `round_up_size`: C division truncates toward zero, which for the
      non-negative sizes it is given is Dafny's division.  The result is
      the least multiple of `multiple` not below `size`. */
  function RoundUp(size: int, multiple: int): (r: int)
    requires size >= 0 && multiple > 0
    ensures r % multiple == 0 && size <= r < size + multiple
  {
    var q := (size + multiple - 1) / multiple;
    ModOfMultiplePlus(q, multiple, 0);
    q * multiple
  }

  /** No multiple of `m` lies between `size` and its round-up. */
  lemma RoundUpLeast(size: int, m: int, k: int)
    requires size >= 0 && m > 0 && k * m >= size
    ensures RoundUp(size, m) <= k * m
  {
    var q := (size + m - 1) / m;
    assert RoundUp(size, m) == q * m;
    if k < q {
      assert (q - k) * m == q * m - k * m;
      MulAtLeast(q - k, m);
    }
  }

  /** Rounding up is monotone. */
  lemma RoundUpMono(a: int, b: int, m: int)
    requires 0 <= a <= b && m > 0
    ensures RoundUp(a, m) <= RoundUp(b, m)
  {
    var q := (b + m - 1) / m;
    assert RoundUp(b, m) == q * m;
    RoundUpLeast(a, m, q);
  }

  /** `num_words`: the number of 8-byte words that hold `bytes`. */
  function NumWords(bytes: nat): (r: nat)
    ensures r * WordSize >= bytes && (r == 0 || (r - 1) * WordSize < bytes)
  {
    var up := RoundUp(bytes, WordSize);
    assert up == (up / WordSize) * WordSize;
    up / WordSize
  }

  /** The remainder the local-offset loop takes: the `int` offset is
      converted to the unsigned `size_t` of the alignment first. */
  function UnsignedMod(x: int, a: nat): nat
    requires a > 0
  {
    (x % 0x1_0000_0000_0000_0000) % a
  }

  /** For the alignments the layout produces, the unsigned remainder is
      the mathematical one. */
  lemma UnsignedModIsMod(x: int, a: nat)
    requires a == 1 || a == 4 || a == 8
    ensures UnsignedMod(x, a) == x % a
  {
    var n, y := x / 0x1_0000_0000_0000_0000, x % 0x1_0000_0000_0000_0000;
    assert x == n * 0x1_0000_0000_0000_0000 + y;
    var k := 0x1_0000_0000_0000_0000 / a;
    assert k * a == 0x1_0000_0000_0000_0000;
    assert x == (n * k + y / a) * a + y % a by {
      assert y == (y / a) * a + y % a;
      assert n * 0x1_0000_0000_0000_0000 == (n * k) * a;
    }
    ModOfMultiplePlus(n * k + y / a, a, y % a);
  }

  // ---------------------------------------------------------------------
  // Sizes and alignments of types
  // ---------------------------------------------------------------------

  /** A row of `builtin_sizes`. */
  datatype Builtin = Builtin(name: string, alignment: nat, size: nat, isPtr: bool)

  const Builtins: seq<Builtin> := [
    Builtin("int", 4, 4, false),
    Builtin("bool", 1, 1, false),
    Builtin("void", 0, 0, false)
  ]

  /** `lookup_builtin`: the first row with the name. */
  function FindBuiltin(table: seq<Builtin>, name: string): (r: Option<Builtin>)
    ensures r.Some? ==> r.value in table
  {
    if |table| == 0 then None
    else if table[0].name == name then Some(table[0])
    else FindBuiltin(table[1..], name)
  }

  /** The alignments a type can have: every builtin, pointer and struct
      alignment is one of these. */
  predicate IsAlignment(a: nat) {
    a == 0 || a == 1 || a == 4 || a == 8
  }

  /** How deeply struct types may nest.  Each struct type in a chain of
      by-value fields uses one level, so a chain of distinct structs never
      needs more than the number of declarations; a struct that contains
      itself by value makes the C code recurse without end and fails here. */
  function Depth(program: seq<Decl>): nat {
    |program|
  }

  /** The fields of the first struct declared with the name
      (`lookup_struct`). */
  function StructFields(program: seq<Decl>, name: string): Option<seq<Param>>
  {
    match Semantics.LookupDecl(program, name, true)
    case None => None
    case Some(d) => Some(d.fields)
  }

  /** `alignment_of_type`: a builtin's alignment, the word size for a
      pointer or function, the largest field alignment for a struct. */
  function AlignOf(program: seq<Decl>, t: Type, depth: nat): (r: Outcome<nat>)
    ensures r.Done? ==> IsAlignment(r.value)
    decreases depth, 0
  {
    match t
    case TyName(n) =>
      (match FindBuiltin(Builtins, n)
       case Some(b) => Done(b.alignment)
       case None =>
         match StructFields(program, n)
         case None => Fail("unknown type name")
         case Some(fields) =>
           if depth == 0 then Fail("struct nesting deeper than the program")
           else MaxAlign(program, fields, depth - 1))
    case TyPtr(_) => Done(WordSize)
    case TyArray(_) => Fail("not implemented, alignment_of_type, array")
    case TyFunc => Done(WordSize)
  }

  /** The loop over a struct's fields keeping the largest alignment. */
  function MaxAlign(program: seq<Decl>, fields: seq<Param>, depth: nat): (r: Outcome<nat>)
    ensures r.Done? ==> IsAlignment(r.value)
    decreases depth, 1, |fields|
  {
    if |fields| == 0 then Done(0)
    else
      match AlignOf(program, fields[0].ty, depth)
      case Fail(m) => Fail(m)
      case Done(a) =>
        match MaxAlign(program, fields[1..], depth)
        case Fail(m) => Fail(m)
        case Done(b) => Done(if a > b then a else b)
  }

  /** A field's size and (non-zero) alignment. */
  datatype Shape = Shape(size: nat, align: nat)

  /** A struct's alignment is its largest field alignment: every field's
      alignment is at most it, and one field's equals it unless it is 0;
      it is defined exactly when every field's alignment is. */
  lemma {:induction false} MaxAlignIsMax(program: seq<Decl>, fields: seq<Param>, depth: nat)
    ensures MaxAlign(program, fields, depth).Done? <==>
      forall i :: 0 <= i < |fields| ==> AlignOf(program, fields[i].ty, depth).Done?
    ensures MaxAlign(program, fields, depth).Done? ==>
      forall i :: 0 <= i < |fields| ==> AlignOf(program, fields[i].ty, depth).value <= MaxAlign(program, fields, depth).value
    ensures MaxAlign(program, fields, depth).Done? && MaxAlign(program, fields, depth).value > 0 ==>
      exists i :: 0 <= i < |fields| && AlignOf(program, fields[i].ty, depth).value == MaxAlign(program, fields, depth).value
    decreases |fields|
  {
    if |fields| > 0 {
      MaxAlignIsMax(program, fields[1..], depth);
      assert forall i :: 1 <= i < |fields| ==> fields[i] == fields[1..][i - 1];
    }
  }

  /** A field placed in a struct: where it starts, its size and its
      alignment. */
  datatype Slot = Slot(offset: nat, size: nat, align: nat)

  /** Where the placed fields end (the running total when there are none). */
  function End(slots: seq<Slot>, total: nat): nat {
    if |slots| == 0 then total else slots[|slots| - 1].offset + slots[|slots| - 1].size
  }

  /** `size_of_type`: a builtin's size, the word size for a pointer; for a
      struct, its fields laid out in order and the total rounded up to the
      struct's alignment.  Arrays and functions have no size.  Only a
      pointer, a builtin or a declared struct has a size, and a type with
      a size has an alignment too. */
  function SizeOf(program: seq<Decl>, t: Type, depth: nat): (r: Outcome<nat>)
    ensures r.Done? ==> t.TyPtr? || (t.TyName? && (FindBuiltin(Builtins, t.name).Some? || StructFields(program, t.name).Some?))
    ensures r.Done? ==> AlignOf(program, t, depth).Done?
    decreases depth, 1
  {
    match t
    case TyName(n) =>
      (match FindBuiltin(Builtins, n)
       case Some(b) => Done(b.size)
       case None =>
         match StructFields(program, n)
         case None => Fail("unknown type name")
         case Some(fields) =>
           if depth == 0 then Fail("struct nesting deeper than the program")
           else StructSize(program, t, fields, depth))
    case TyPtr(_) => Done(WordSize)
    case TyArray(_) => Fail("not implemented, size_of_type, array")
    case TyFunc => Fail("not implemented, size_of_type, function")
  }

  /** A struct's fields laid out from offset 0, then the end rounded up to
      the struct's alignment (a zero alignment is a division by zero). */
  function StructSize(program: seq<Decl>, t: Type, fields: seq<Param>, depth: nat): Outcome<nat>
    requires depth > 0
    decreases depth, 0
  {
    match Shapes(program, fields, depth - 1)
    case Fail(m) => Fail(m)
    case Done(shapes) =>
      match AlignOf(program, t, depth)
      case Fail(m) => Fail(m)
      case Done(a) =>
        if a == 0 then Fail("division by zero: round_up_size")
        else Done(RoundUp(End(Place(shapes, 0), 0), a))
  }

  /** What the loop of `size_of_type` asks of each field, in order: its
      alignment, which must not be zero since the running total is
      rounded up to it, and its size. */
  function Shapes(program: seq<Decl>, fields: seq<Param>, depth: nat): (r: Outcome<seq<Shape>>)
    ensures r.Done? ==> |r.value| == |fields|
    ensures r.Done? ==> forall i :: 0 <= i < |r.value| ==> r.value[i].align > 0
    decreases depth, 2, |fields|
  {
    if |fields| == 0 then Done([])
    else
      match AlignOf(program, fields[0].ty, depth)
      case Fail(m) => Fail(m)
      case Done(a) =>
        if a == 0 then Fail("division by zero: round_up_size")
        else
          match SizeOf(program, fields[0].ty, depth)
          case Fail(m) => Fail(m)
          case Done(sz) =>
            match Shapes(program, fields[1..], depth)
            case Fail(m) => Fail(m)
            case Done(rest) => Done([Shape(sz, a)] + rest)
  }

  /** Every shape is its field's size and non-zero alignment. */
  lemma {:induction false} ShapesFit(program: seq<Decl>, fields: seq<Param>, depth: nat, i: nat)
    requires Shapes(program, fields, depth).Done? && i < |fields|
    ensures AlignOf(program, fields[i].ty, depth) == Done(Shapes(program, fields, depth).value[i].align)
    ensures SizeOf(program, fields[i].ty, depth) == Done(Shapes(program, fields, depth).value[i].size)
    ensures Shapes(program, fields, depth).value[i].align > 0
    decreases i
  {
    if i > 0 {
      var rest := Shapes(program, fields[1..], depth).value;
      assert Shapes(program, fields, depth).value[i] == rest[i - 1];
      ShapesFit(program, fields[1..], depth, i - 1);
      assert fields[i] == fields[1..][i - 1];
    }
  }

  /** The placement the loop computes: the running total is rounded up to
      each field's alignment, which is where the field goes, and then
      grows by the field's size. */
  function Place(shapes: seq<Shape>, total: nat): (r: seq<Slot>)
    requires forall i :: 0 <= i < |shapes| ==> shapes[i].align > 0
    ensures |r| == |shapes|
  {
    if |shapes| == 0 then []
    else
      var at := RoundUp(total, shapes[0].align);
      [Slot(at, shapes[0].size, shapes[0].align)] + Place(shapes[1..], at + shapes[0].size)
  }

  /** Consecutive slots do not overlap, and each starts at the first
      offset its alignment allows after the previous one. */
  predicate Packed(slots: seq<Slot>) {
    forall i :: 0 <= i < |slots| - 1 ==>
      slots[i].offset + slots[i].size <= slots[i + 1].offset < slots[i].offset + slots[i].size + slots[i + 1].align
  }

  /** Each field keeps its size and alignment and sits at an offset its
      alignment divides, no lower than where the walk started. */
  predicate Holds(shapes: seq<Shape>, slots: seq<Slot>, total: nat) {
    |slots| == |shapes| &&
    forall i :: 0 <= i < |shapes| ==>
      slots[i].size == shapes[i].size && slots[i].align == shapes[i].align &&
      slots[i].align > 0 && slots[i].offset % slots[i].align == 0 && slots[i].offset >= total
  }

  /** The struct layout keeps every field whole and aligned; the first
      field goes at the first offset its alignment allows. */
  lemma {:induction false} PlaceHolds(shapes: seq<Shape>, total: nat)
    requires forall i :: 0 <= i < |shapes| ==> shapes[i].align > 0
    ensures Holds(shapes, Place(shapes, total), total)
    ensures |shapes| > 0 ==> Place(shapes, total)[0].offset < total + shapes[0].align
    decreases |shapes|
  {
    if |shapes| > 0 {
      var slots := Place(shapes, total);
      var at := RoundUp(total, shapes[0].align);
      var rest := Place(shapes[1..], at + shapes[0].size);
      assert slots == [Slot(at, shapes[0].size, shapes[0].align)] + rest;
      PlaceHolds(shapes[1..], at + shapes[0].size);
      forall i | 1 <= i < |shapes|
        ensures slots[i] == rest[i - 1] && shapes[i] == shapes[1..][i - 1]
      {
      }
    }
  }

  /** The fields are laid out in declaration order without overlapping,
      each at the first offset its alignment allows after the previous. */
  lemma {:induction false} PlacePacks(shapes: seq<Shape>, total: nat)
    requires forall i :: 0 <= i < |shapes| ==> shapes[i].align > 0
    ensures Packed(Place(shapes, total))
    decreases |shapes|
  {
    if |shapes| > 1 {
      var slots := Place(shapes, total);
      var at := RoundUp(total, shapes[0].align);
      var rest := Place(shapes[1..], at + shapes[0].size);
      assert slots == [Slot(at, shapes[0].size, shapes[0].align)] + rest;
      PlacePacks(shapes[1..], at + shapes[0].size);
      PlaceHolds(shapes[1..], at + shapes[0].size);
      assert slots[1] == rest[0];
      forall i | 1 <= i < |slots| - 1
        ensures slots[i] == rest[i - 1] && slots[i + 1] == rest[i]
      {
      }
    }
  }

  /** Packed slots all end by the end of the last one. */
  lemma {:induction false} PackedWithin(slots: seq<Slot>, i: nat)
    requires Packed(slots) && i < |slots|
    ensures slots[i].offset + slots[i].size <= End(slots, 0)
    decreases |slots| - i
  {
    if i < |slots| - 1 {
      PackedWithin(slots, i + 1);
    }
  }

  /** A type with a size has an alignment, which divides the size; only a
      type of alignment zero (`void`) has size zero. */
  lemma {:induction false} SizeAligned(program: seq<Decl>, t: Type, depth: nat)
    requires SizeOf(program, t, depth).Done?
    ensures AlignOf(program, t, depth).Done?
    ensures AlignOf(program, t, depth).value == 0 ==> SizeOf(program, t, depth).value == 0
    ensures AlignOf(program, t, depth).value > 0 ==>
      SizeOf(program, t, depth).value > 0 && SizeOf(program, t, depth).value % AlignOf(program, t, depth).value == 0
    decreases depth, 3
  {
    match t
    case TyName(n) =>
      if FindBuiltin(Builtins, n).Some? {
        assert FindBuiltin(Builtins, n).value in Builtins;
      } else {
        var fields := StructFields(program, n).value;
        assert SizeOf(program, t, depth) == StructSize(program, t, fields, depth);
        if |fields| == 0 {
          assert false;
        } else {
          StructAligned(program, t, fields, depth);
        }
      }
    case TyPtr(_) =>
    case TyArray(_) =>
    case TyFunc =>
  }

  /** The struct case: the size is the end of the last field rounded up
      to the struct's alignment, and the last field has a size. */
  lemma {:induction false} StructAligned(program: seq<Decl>, t: Type, fields: seq<Param>, depth: nat)
    requires depth > 0 && |fields| > 0 && StructSize(program, t, fields, depth).Done?
    ensures AlignOf(program, t, depth).Done? && AlignOf(program, t, depth).value > 0
    ensures StructSize(program, t, fields, depth).value > 0
    ensures StructSize(program, t, fields, depth).value % AlignOf(program, t, depth).value == 0
    decreases depth, 1
  {
    var shapes := Shapes(program, fields, depth - 1).value;
    var a := AlignOf(program, t, depth).value;
    var slots := Place(shapes, 0);
    assert a > 0 && StructSize(program, t, fields, depth).value == RoundUp(End(slots, 0), a);
    var last := |fields| - 1;
    ShapesFit(program, fields, depth - 1, last);
    FieldSizePositive(program, fields[last].ty, depth - 1, shapes[last]);
    PlaceHolds(shapes, 0);
    assert End(slots, 0) >= slots[last].size > 0;
  }

  lemma {:induction false} FieldSizePositive(program: seq<Decl>, t: Type, depth: nat, sh: Shape)
    requires AlignOf(program, t, depth) == Done(sh.align) && SizeOf(program, t, depth) == Done(sh.size) && sh.align > 0
    ensures sh.size > 0
    decreases depth, 4
  {
    SizeAligned(program, t, depth);
  }

  // ---------------------------------------------------------------------
  // The memo on type nodes
  // ---------------------------------------------------------------------

  /** The cached sizes and alignments (`ty_size`, `ty_alignment`; -1 is
      absence), keyed by type. */
  datatype Memo = Memo(sizes: map<Type, nat>, aligns: map<Type, nat>)

  /** Every cached entry is what the computation would give. */
  predicate Consistent(program: seq<Decl>, memo: Memo) {
    (forall t :: t in memo.sizes ==> SizeOf(program, t, Depth(program)) == Done(memo.sizes[t])) &&
    (forall t :: t in memo.aligns ==> AlignOf(program, t, Depth(program)) == Done(memo.aligns[t]))
  }

  /** The memo after a builtin's size and alignment are both cached, as
      either function does for a builtin. */
  function CacheBuiltin(memo: Memo, t: Type, b: Builtin): Memo {
    Memo(memo.sizes[t := b.size], memo.aligns[t := b.alignment])
  }

  lemma BuiltinCached(program: seq<Decl>, memo: Memo, t: Type, b: Builtin)
    requires Consistent(program, memo) && t.TyName? && FindBuiltin(Builtins, t.name) == Some(b)
    ensures Consistent(program, CacheBuiltin(memo, t, b))
  {
  }

  /** `size_of_type` with its memo: a cached size is returned unchanged;
      otherwise the size is computed and cached, together with the
      alignment for a builtin. The memo never changes a result and only
      grows. */
  function SizeOfMemo(program: seq<Decl>, t: Type, memo: Memo): (r: (Outcome<nat>, Memo))
    requires Consistent(program, memo)
    ensures r.0 == SizeOf(program, t, Depth(program)) && Consistent(program, r.1)
    ensures t in memo.sizes ==> r.1 == memo
    ensures r.0.Done? ==> t in r.1.sizes
    ensures memo.sizes.Keys <= r.1.sizes.Keys && memo.aligns.Keys <= r.1.aligns.Keys
  {
    if t in memo.sizes then (Done(memo.sizes[t]), memo)
    else if t.TyName? && FindBuiltin(Builtins, t.name).Some? then
      var b := FindBuiltin(Builtins, t.name).value;
      BuiltinCached(program, memo, t, b);
      (Done(b.size), CacheBuiltin(memo, t, b))
    else
      match SizeOf(program, t, Depth(program))
      case Fail(m) => (Fail(m), memo)
      case Done(n) => (Done(n), memo.(sizes := memo.sizes[t := n]))
  }

  /** `alignment_of_type` with its memo. */
  function AlignOfMemo(program: seq<Decl>, t: Type, memo: Memo): (r: (Outcome<nat>, Memo))
    requires Consistent(program, memo)
    ensures r.0 == AlignOf(program, t, Depth(program)) && Consistent(program, r.1)
    ensures t in memo.aligns ==> r.1 == memo
    ensures r.0.Done? ==> t in r.1.aligns
    ensures memo.sizes.Keys <= r.1.sizes.Keys && memo.aligns.Keys <= r.1.aligns.Keys
  {
    if t in memo.aligns then (Done(memo.aligns[t]), memo)
    else if t.TyName? && FindBuiltin(Builtins, t.name).Some? then
      var b := FindBuiltin(Builtins, t.name).value;
      BuiltinCached(program, memo, t, b);
      (Done(b.alignment), CacheBuiltin(memo, t, b))
    else
      match AlignOf(program, t, Depth(program))
      case Fail(m) => (Fail(m), memo)
      case Done(n) => (Done(n), memo.(aligns := memo.aligns[t := n]))
  }

  // ---------------------------------------------------------------------
  // Locals
  // ---------------------------------------------------------------------

  /** The `let` bindings of an expression in the order
      `calculate_activation_record_expr` meets them: a binding's
      initialiser before the binding itself, operands left to right. */
  function LetsIn(e: Expr): seq<(string, Type)> {
    match e
    case BinOp(_, l, r) => LetsIn(l) + LetsIn(r)
    case Let(x, ann, i) => LetsIn(i) + [(x, ann)]
    case Call(_, args) => LetsInList(args)
    case New(_, args) => LetsInList(args)
    case Return(Some(a)) => LetsIn(a)
    case Loop(body) => LetsInList(body)
    case Deref(a) => LetsIn(a)
    case AddrOf(a) => LetsIn(a)
    case Member(c, _) => LetsIn(c)
    case If(c, a, b) => LetsIn(c) + LetsIn(a) + LetsIn(b)
    case _ => []
  }

  function LetsInList(es: seq<Expr>): seq<(string, Type)> {
    if |es| == 0 then [] else LetsIn(es[0]) + LetsInList(es[1..])
  }

  /** The frame gets one local per `let` the type checker numbers. */
  lemma {:induction false} LetsInCounts(e: Expr)
    ensures |LetsIn(e)| == Semantics.Lets(e)
  {
    match e
    case BinOp(_, l, r) => LetsInCounts(l); LetsInCounts(r);
    case Let(_, _, i) => LetsInCounts(i);
    case Call(_, args) => LetsInListCounts(args);
    case New(_, args) => LetsInListCounts(args);
    case Return(Some(a)) => LetsInCounts(a);
    case Loop(body) => LetsInListCounts(body);
    case Deref(a) => LetsInCounts(a);
    case AddrOf(a) => LetsInCounts(a);
    case Member(c, _) => LetsInCounts(c);
    case If(c, a, b) => LetsInCounts(c); LetsInCounts(a); LetsInCounts(b);
    case _ =>
  }

  lemma {:induction false} LetsInListCounts(es: seq<Expr>)
    ensures |LetsInList(es)| == Semantics.LetsList(es)
  {
    if |es| > 0 {
      LetsInCounts(es[0]);
      LetsInListCounts(es[1..]);
    }
  }

  /** The offset of a `let` local: below the lowest offset so far by its
      size, then one byte at a time down to a multiple of its alignment. */
  method LocalOffset(last: int, size: nat, align: nat) returns (offset: int)
    requires align == 1 || align == 4 || align == 8
    ensures offset % align == 0 && offset <= last - size < offset + align
  {
    offset := last - size;
    ghost var target := (last - size) - (last - size) % align;
    ModOfMultiplePlus((last - size) / align, align, 0);
    while UnsignedMod(offset, align) != 0
      invariant target <= offset <= last - size
      decreases offset - target
    {
      UnsignedModIsMod(offset, align);
      offset := offset - 1;
    }
    UnsignedModIsMod(offset, align);
  }

  /** A type a local can have: it has a size and a non-zero alignment (a
      zero alignment is a remainder by zero in the offset loop). */
  predicate Placeable(program: seq<Decl>, t: Type) {
    SizeOf(program, t, Depth(program)).Done? && AlignOf(program, t, Depth(program)).Done? &&
    AlignOf(program, t, Depth(program)).value > 0
  }

  /** A local's frame slot. */
  datatype Local = Local(name: string, size: nat, align: nat, offset: int)

  /** The slot holds the binding: its name, its type's size and alignment,
      at an offset the alignment divides. */
  predicate LocalFits(program: seq<Decl>, b: (string, Type), l: Local) {
    l.name == b.0 && Done(l.size) == SizeOf(program, b.1, Depth(program)) &&
    Done(l.align) == AlignOf(program, b.1, Depth(program)) && l.align > 0 && l.offset % l.align == 0
  }

  /** Each local lies wholly below the frame pointer and wholly below the
      one before it, as high as its alignment allows. */
  predicate Stacked(locals: seq<Local>) {
    (|locals| > 0 ==> locals[0].offset + locals[0].size <= 0 < locals[0].offset + locals[0].size + locals[0].align) &&
    forall i :: 0 <= i < |locals| - 1 ==>
      locals[i + 1].offset + locals[i + 1].size <= locals[i].offset <
      locals[i + 1].offset + locals[i + 1].size + locals[i + 1].align
  }

  lemma StackedSnoc(out: seq<Local>, l: Local)
    requires Stacked(out)
    requires var last := if |out| == 0 then 0 else out[|out| - 1].offset;
      l.offset + l.size <= last < l.offset + l.size + l.align
    ensures Stacked(out + [l])
  {
    var s := out + [l];
    forall i | 0 <= i < |s| - 1
      ensures s[i + 1].offset + s[i + 1].size <= s[i].offset < s[i + 1].offset + s[i + 1].size + s[i + 1].align
    {
      if i < |out| - 1 {
        assert s[i] == out[i] && s[i + 1] == out[i + 1];
      }
    }
  }

  /** The offsets of the `let` locals of a function body, in the order
      met: negative, aligned, each below the one before. */
  method PlaceLocals(program: seq<Decl>, lets: seq<(string, Type)>) returns (r: Outcome<seq<Local>>)
    ensures r.Fail? <==> exists i :: 0 <= i < |lets| && !Placeable(program, lets[i].1)
    ensures r.Done? ==> |r.value| == |lets| && Stacked(r.value)
    ensures r.Done? ==> forall i :: 0 <= i < |lets| ==> LocalFits(program, lets[i], r.value[i])
  {
    var out: seq<Local> := [];
    var last := 0;
    var i := 0;
    while i < |lets|
      invariant 0 <= i <= |lets| && |out| == i
      invariant forall k :: 0 <= k < i ==> Placeable(program, lets[k].1) && LocalFits(program, lets[k], out[k])
      invariant Stacked(out)
      invariant last == if i == 0 then 0 else out[i - 1].offset
    {
      var t := lets[i].1;
      if !Placeable(program, t) {
        return Fail("no size or alignment for a local");
      }
      var size := SizeOf(program, t, Depth(program)).value;
      var align := AlignOf(program, t, Depth(program)).value;
      var offset := LocalOffset(last, size, align);
      var local := Local(lets[i].0, size, align, offset);
      assert LocalFits(program, lets[i], local);
      StackedSnoc(out, local);
      out := out + [local];
      last := offset;
      i := i + 1;
    }
    return Done(out);
  }

  /** The locals end strictly below the frame pointer and strictly below
      one another: every placeable type has a non-zero size. */
  lemma {:induction false} LocalsDescend(program: seq<Decl>, lets: seq<(string, Type)>, locals: seq<Local>, i: nat)
    requires |locals| == |lets| && Stacked(locals) && i < |lets|
    requires forall k :: 0 <= k < |lets| ==> LocalFits(program, lets[k], locals[k])
    ensures locals[i].offset < 0
    ensures i > 0 ==> locals[i].offset < locals[i - 1].offset
    decreases i
  {
    assert LocalFits(program, lets[i], locals[i]);
    SizeAligned(program, lets[i].1, Depth(program));
    if i > 0 {
      LocalsDescend(program, lets, locals, i - 1);
    }
  }

  /** `frame_words`: the locals rounded up to the 16-byte stack
      alignment, in words; an even number of words covering every local. */
  function FrameWords(lastLocalOffset: int): (w: nat)
    requires lastLocalOffset <= 0
    ensures w % 2 == 0 && w * WordSize >= -lastLocalOffset && w * WordSize < -lastLocalOffset + StackAlignment
  {
    var up := RoundUp(-lastLocalOffset, StackAlignment);
    NumWordsOfAligned(up / StackAlignment);
    NumWords(up)
  }

  /** A multiple of the stack alignment is an even number of words. */
  lemma NumWordsOfAligned(q: nat)
    ensures NumWords(q * StackAlignment) == 2 * q
  {
    assert q * StackAlignment == (2 * q) * WordSize;
  }

  // ---------------------------------------------------------------------
  // Parameters
  // ---------------------------------------------------------------------

  /** The System V integer argument registers, in order. */
  const ArgumentRegs: seq<string> := ["rdi", "rsi", "rdx", "rcx", "r8", "r9"]

  /** Where a formal lives: above the frame pointer or in a register. */
  datatype Access = InFrame(offset: int) | InReg(reg: string)

  datatype Formal = Formal(name: string, size: nat, align: nat, access: Access)

  /** The formals of a parameter list and the offset after the last
      parameter passed on the stack. */
  datatype Placed = Placed(formals: seq<Formal>, nextOffset: nat)

  /** A parameter with its type's size and alignment. */
  datatype Sized = Sized(name: string, size: nat, align: nat)

  /** The size and alignment of each parameter's type. */
  function ParamSizes(program: seq<Decl>, params: seq<Param>): (r: Outcome<seq<Sized>>)
    ensures r.Done? ==> |r.value| == |params|
  {
    if |params| == 0 then Done([])
    else
      var t := params[0].ty;
      match SizeOf(program, t, Depth(program))
      case Fail(m) => Fail(m)
      case Done(size) =>
        match AlignOf(program, t, Depth(program))
        case Fail(m) => Fail(m)
        case Done(align) =>
          match ParamSizes(program, params[1..])
          case Fail(m) => Fail(m)
          case Done(rest) => Done([Sized(params[0].name, size, align)] + rest)
  }

  /** Every parameter's type has a size and an alignment exactly when
      `ParamSizes` succeeds, and then it lists them. */
  lemma {:induction false} ParamSizesMatch(program: seq<Decl>, params: seq<Param>)
    ensures ParamSizes(program, params).Done? <==>
      forall i :: 0 <= i < |params| ==>
        SizeOf(program, params[i].ty, Depth(program)).Done? && AlignOf(program, params[i].ty, Depth(program)).Done?
    ensures ParamSizes(program, params).Done? ==>
      forall i :: 0 <= i < |params| ==>
        var s := ParamSizes(program, params).value[i];
        s.name == params[i].name && Done(s.size) == SizeOf(program, params[i].ty, Depth(program)) &&
        Done(s.align) == AlignOf(program, params[i].ty, Depth(program))
    decreases |params|
  {
    if |params| > 0 {
      ParamSizesMatch(program, params[1..]);
      assert forall i :: 1 <= i < |params| ==> params[i] == params[1..][i - 1];
    }
  }

  /** The parameter loop of `calculate_activation_record_decl_func`. A
      parameter of at most a word takes the next free argument register;
      any other is put at the next argument offset rounded up to its
      alignment. The loop as written then advances the next argument
      offset by the size from where it was (`asWritten`); the corrected
      loop advances it from the end of the parameter just placed. */
  function Assign(ps: seq<Sized>, nextReg: nat, nextOffset: nat, asWritten: bool): (r: Outcome<Placed>)
    ensures r.Done? ==> |r.value.formals| == |ps|
    decreases |ps|
  {
    if |ps| == 0 then Done(Placed([], nextOffset))
    else
      var p := ps[0];
      if p.size <= WordSize && nextReg < |ArgumentRegs| then
        var f := Formal(p.name, p.size, p.align, InReg(ArgumentRegs[nextReg]));
        match Assign(ps[1..], nextReg + 1, nextOffset, asWritten)
        case Fail(m) => Fail(m)
        case Done(rest) => Done(Placed([f] + rest.formals, rest.nextOffset))
      else if p.align == 0 then Fail("division by zero")
      else
        var at := RoundUp(nextOffset, p.align);
        var f := Formal(p.name, p.size, p.align, InFrame(at));
        match Assign(ps[1..], nextReg, if asWritten then nextOffset + p.size else at + p.size, asWritten)
        case Fail(m) => Fail(m)
        case Done(rest) => Done(Placed([f] + rest.formals, rest.nextOffset))
  }

  /** The formals of a parameter list, from the first register and the
      first offset above the saved frame pointer and return address. */
  function PlaceParams(program: seq<Decl>, params: seq<Param>, asWritten: bool): Outcome<Placed> {
    match ParamSizes(program, params)
    case Fail(m) => Fail(m)
    case Done(ps) => Assign(ps, 0, FirstArgOffset, asWritten)
  }

  /** The number of formals among the first `i` passed in registers. */
  function RegsBefore(formals: seq<Formal>, i: nat): nat
    requires i <= |formals|
  {
    if i == 0 then 0 else RegsBefore(formals, i - 1) + (if formals[i - 1].access.InReg? then 1 else 0)
  }

  lemma {:induction false} RegsBeforeCons(f: Formal, rest: seq<Formal>, i: nat)
    requires i <= |rest|
    ensures RegsBefore([f] + rest, i + 1) == (if f.access.InReg? then 1 else 0) + RegsBefore(rest, i)
    decreases i
  {
    if i > 0 {
      RegsBeforeCons(f, rest, i - 1);
      assert ([f] + rest)[i] == rest[i - 1];
    }
  }

  /** Each formal keeps its parameter's name, size and alignment. */
  predicate Keeps(ps: seq<Sized>, formals: seq<Formal>) {
    |formals| == |ps| &&
    forall i :: 0 <= i < |ps| ==>
      formals[i].name == ps[i].name && formals[i].size == ps[i].size && formals[i].align == ps[i].align
  }

  /** A formal is in a register exactly when it fits a word and a register
      is left, and the registers are handed out in order from `nextReg`. */
  predicate RegsInOrder(formals: seq<Formal>, nextReg: nat) {
    forall i :: 0 <= i < |formals| ==>
      (formals[i].access.InReg? <==> formals[i].size <= WordSize && nextReg + RegsBefore(formals, i) < |ArgumentRegs|) &&
      (formals[i].access.InReg? ==> formals[i].access.reg == ArgumentRegs[nextReg + RegsBefore(formals, i)])
  }

  /** The formals on the stack are aligned, lie in `[lo, hi)` and do not
      overlap. */
  predicate StackArgs(formals: seq<Formal>, lo: int, hi: int) {
    (forall i :: 0 <= i < |formals| && formals[i].access.InFrame? ==>
       formals[i].align > 0 && formals[i].access.offset % formals[i].align == 0 &&
       lo <= formals[i].access.offset && formals[i].access.offset + formals[i].size <= hi) &&
    (forall i, j :: 0 <= i < j < |formals| && formals[i].access.InFrame? && formals[j].access.InFrame? ==>
       formals[i].access.offset + formals[i].size <= formals[j].access.offset)
  }

  /** Both placements fail only on a stack parameter of alignment zero. */
  lemma {:induction false} AssignFails(ps: seq<Sized>, nextReg: nat, nextOffset: nat, asWritten: bool)
    requires Assign(ps, nextReg, nextOffset, asWritten).Fail?
    ensures exists i :: 0 <= i < |ps| && ps[i].align == 0
    decreases |ps|
  {
    var p := ps[0];
    var inReg := p.size <= WordSize && nextReg < |ArgumentRegs|;
    if inReg || p.align > 0 {
      var next := if inReg then nextOffset else if asWritten then nextOffset + p.size else RoundUp(nextOffset, p.align) + p.size;
      AssignFails(ps[1..], if inReg then nextReg + 1 else nextReg, next, asWritten);
      var i :| 0 <= i < |ps[1..]| && ps[1..][i].align == 0;
      assert ps[i + 1].align == 0;
    }
  }

  /** Both placements keep every parameter's name, size and alignment. */
  lemma {:induction false} AssignKeeps(ps: seq<Sized>, nextReg: nat, nextOffset: nat, asWritten: bool)
    requires Assign(ps, nextReg, nextOffset, asWritten).Done?
    ensures Keeps(ps, Assign(ps, nextReg, nextOffset, asWritten).value.formals)
    decreases |ps|
  {
    if |ps| > 0 {
      var p := ps[0];
      var inReg := p.size <= WordSize && nextReg < |ArgumentRegs|;
      var next := if inReg then nextOffset else if asWritten then nextOffset + p.size else RoundUp(nextOffset, p.align) + p.size;
      var reg := if inReg then nextReg + 1 else nextReg;
      AssignKeeps(ps[1..], reg, next, asWritten);
      var formals := Assign(ps, nextReg, nextOffset, asWritten).value.formals;
      var rest := Assign(ps[1..], reg, next, asWritten).value.formals;
      assert formals == [formals[0]] + rest;
      KeepsCons(ps, formals[0], rest);
    }
  }

  lemma KeepsCons(ps: seq<Sized>, f: Formal, rest: seq<Formal>)
    requires |ps| > 0 && f.name == ps[0].name && f.size == ps[0].size && f.align == ps[0].align
    requires Keeps(ps[1..], rest)
    ensures Keeps(ps, [f] + rest)
  {
    var s := [f] + rest;
    forall i | 0 <= i < |ps|
      ensures s[i].name == ps[i].name && s[i].size == ps[i].size && s[i].align == ps[i].align
    {
      if i > 0 {
        assert s[i] == rest[i - 1] && ps[i] == ps[1..][i - 1];
      }
    }
  }

  lemma {:induction false} AssignRegs(ps: seq<Sized>, nextReg: nat, nextOffset: nat, asWritten: bool)
    requires Assign(ps, nextReg, nextOffset, asWritten).Done?
    ensures RegsInOrder(Assign(ps, nextReg, nextOffset, asWritten).value.formals, nextReg)
    decreases |ps|
  {
    if |ps| > 0 {
      var p := ps[0];
      var inReg := p.size <= WordSize && nextReg < |ArgumentRegs|;
      var next := if inReg then nextOffset else if asWritten then nextOffset + p.size else RoundUp(nextOffset, p.align) + p.size;
      var reg := if inReg then nextReg + 1 else nextReg;
      AssignRegs(ps[1..], reg, next, asWritten);
      var formals := Assign(ps, nextReg, nextOffset, asWritten).value.formals;
      var rest := Assign(ps[1..], reg, next, asWritten).value.formals;
      assert formals == [formals[0]] + rest;
      RegsInOrderCons(formals[0], rest, nextReg);
    }
  }

  lemma RegsInOrderCons(f: Formal, rest: seq<Formal>, nextReg: nat)
    requires f.access.InReg? <==> f.size <= WordSize && nextReg < |ArgumentRegs|
    requires f.access.InReg? ==> f.access.reg == ArgumentRegs[nextReg]
    requires RegsInOrder(rest, if f.access.InReg? then nextReg + 1 else nextReg)
    ensures RegsInOrder([f] + rest, nextReg)
  {
    var s := [f] + rest;
    forall i | 0 <= i < |s|
      ensures (s[i].access.InReg? <==> s[i].size <= WordSize && nextReg + RegsBefore(s, i) < |ArgumentRegs|) &&
              (s[i].access.InReg? ==> s[i].access.reg == ArgumentRegs[nextReg + RegsBefore(s, i)])
    {
      if i > 0 {
        RegsBeforeCons(f, rest, i - 1);
        assert s[i] == rest[i - 1];
      }
    }
  }

  /** The corrected placement keeps the stack arguments aligned, at or
      above the starting offset, below the final offset and apart. */
  lemma {:induction false} AssignApart(ps: seq<Sized>, nextReg: nat, nextOffset: nat)
    requires Assign(ps, nextReg, nextOffset, false).Done?
    ensures var p := Assign(ps, nextReg, nextOffset, false).value;
      nextOffset <= p.nextOffset && StackArgs(p.formals, nextOffset, p.nextOffset)
    decreases |ps|
  {
    if |ps| > 0 {
      var q := ps[0];
      var inReg := q.size <= WordSize && nextReg < |ArgumentRegs|;
      var next := if inReg then nextOffset else RoundUp(nextOffset, q.align) + q.size;
      var reg := if inReg then nextReg + 1 else nextReg;
      AssignApart(ps[1..], reg, next);
      var p := Assign(ps, nextReg, nextOffset, false).value;
      var rest := Assign(ps[1..], reg, next, false).value;
      assert p.formals == [p.formals[0]] + rest.formals && p.nextOffset == rest.nextOffset;
      StackArgsCons(p.formals[0], rest.formals, nextOffset, next, p.nextOffset);
    }
  }

  lemma StackArgsCons(f: Formal, rest: seq<Formal>, lo: int, mid: int, hi: int)
    requires StackArgs(rest, mid, hi) && lo <= mid <= hi
    requires f.access.InFrame? ==> f.align > 0 && f.access.offset % f.align == 0 && lo <= f.access.offset && f.access.offset + f.size <= mid
    ensures StackArgs([f] + rest, lo, hi)
  {
    var s := [f] + rest;
    forall i, j | 0 <= i < j < |s| && s[i].access.InFrame? && s[j].access.InFrame?
      ensures s[i].access.offset + s[i].size <= s[j].access.offset
    {
      assert s[j] == rest[j - 1];
      if i > 0 {
        assert s[i] == rest[i - 1];
      }
    }
    forall i | 0 <= i < |s| && s[i].access.InFrame?
      ensures s[i].align > 0 && s[i].access.offset % s[i].align == 0 &&
              lo <= s[i].access.offset && s[i].access.offset + s[i].size <= hi
    {
      if i > 0 {
        assert s[i] == rest[i - 1];
      }
    }
  }

  /** The corrected placement: formals keep their parameters' names,
      sizes and alignments; registers go to the word-sized parameters in
      order while they last; the rest sit above the return address,
      aligned and apart, below the final argument offset. */
  lemma ParamsPlaced(program: seq<Decl>, params: seq<Param>)
    ensures PlaceParams(program, params, false).Fail? ==>
      exists i :: 0 <= i < |params| && !Placeable(program, params[i].ty)
    ensures PlaceParams(program, params, false).Done? ==>
      var p := PlaceParams(program, params, false).value;
      |p.formals| == |params| &&
      (forall i :: 0 <= i < |params| ==>
         p.formals[i].name == params[i].name && Done(p.formals[i].size) == SizeOf(program, params[i].ty, Depth(program)) &&
         Done(p.formals[i].align) == AlignOf(program, params[i].ty, Depth(program))) &&
      RegsInOrder(p.formals, 0) && StackArgs(p.formals, FirstArgOffset, p.nextOffset)
  {
    ParamSizesMatch(program, params);
    if ParamSizes(program, params).Done? {
      var ps := ParamSizes(program, params).value;
      if Assign(ps, 0, FirstArgOffset, false).Fail? {
        AssignFails(ps, 0, FirstArgOffset, false);
        var i :| 0 <= i < |ps| && ps[i].align == 0;
        assert !Placeable(program, params[i].ty);
      } else {
        AssignKeeps(ps, 0, FirstArgOffset, false);
        AssignRegs(ps, 0, FirstArgOffset, false);
        AssignApart(ps, 0, FirstArgOffset);
      }
    } else {
      var i :| 0 <= i < |params| && !(SizeOf(program, params[i].ty, Depth(program)).Done? && AlignOf(program, params[i].ty, Depth(program)).Done?);
    }
  }

  /** `f(a, b, c, d, e, f: int, g: bool, h: int, i: bool)`: the six ints
      take the registers and the last three go on the stack. */
  const OverlapParams: seq<Param> :=
    seq(9, i requires 0 <= i < 9 =>
      Param(["a", "b", "c", "d", "e", "f", "g", "h", "i"][i], if i == 6 || i == 8 then TyName("bool") else TyName("int")))

  lemma ScalarShapes(program: seq<Decl>)
    ensures SizeOf(program, TyName("int"), Depth(program)) == Done(4) && AlignOf(program, TyName("int"), Depth(program)) == Done(4)
    ensures SizeOf(program, TyName("bool"), Depth(program)) == Done(1) && AlignOf(program, TyName("bool"), Depth(program)) == Done(1)
  {
    assert FindBuiltin(Builtins, "int") == Some(Builtins[0]);
    assert FindBuiltin(Builtins, "bool") == Some(Builtins[1]) by {
      assert Builtins[1..][0] == Builtins[1];
    }
  }

  /** Six ints, then a bool, an int and a bool. */
  lemma OverlapParamSizes()
    ensures var r := ParamSizes([], OverlapParams);
      r.Done? && |r.value| == 9 &&
      (forall i :: 0 <= i < 6 ==> r.value[i].size <= WordSize) &&
      r.value[6].size == r.value[6].align == 1 && r.value[7].size == r.value[7].align == 4 &&
      r.value[8].size == r.value[8].align == 1
  {
    ScalarShapes([]);
    ParamSizesMatch([], OverlapParams);
  }

  /** One step of `Assign`: the first formal, then the rest as placed
      from the next register and offset. */
  lemma AssignStep(ps: seq<Sized>, nextReg: nat, nextOffset: nat, asWritten: bool)
    requires |ps| > 0 && ((ps[0].size <= WordSize && nextReg < |ArgumentRegs|) || ps[0].align > 0)
    ensures var p := ps[0];
      var inReg := p.size <= WordSize && nextReg < |ArgumentRegs|;
      var at := if inReg then nextOffset else RoundUp(nextOffset, p.align);
      var rest := Assign(ps[1..], if inReg then nextReg + 1 else nextReg,
                         if inReg then nextOffset else if asWritten then nextOffset + p.size else at + p.size, asWritten);
      rest.Done? ==>
        Assign(ps, nextReg, nextOffset, asWritten) ==
        Done(Placed([Formal(p.name, p.size, p.align, if inReg then InReg(ArgumentRegs[nextReg]) else InFrame(at))] + rest.value.formals,
                    rest.value.nextOffset))
  {
  }

  lemma AssignRegStep(ps: seq<Sized>, nextReg: nat, nextOffset: nat, asWritten: bool)
    requires |ps| > 0 && ps[0].size <= WordSize && nextReg < |ArgumentRegs|
    requires Assign(ps[1..], nextReg + 1, nextOffset, asWritten).Done?
    ensures Assign(ps, nextReg, nextOffset, asWritten).Done?
    ensures Assign(ps, nextReg, nextOffset, asWritten).value.formals[1..] == Assign(ps[1..], nextReg + 1, nextOffset, asWritten).value.formals
  {
    var f := Assign(ps, nextReg, nextOffset, asWritten).value.formals;
    assert f == [f[0]] + Assign(ps[1..], nextReg + 1, nextOffset, asWritten).value.formals;
  }

  /** The first `n` parameters each fit a word. */
  predicate FitWords(ps: seq<Sized>, n: nat)
    requires n <= |ps|
  {
    forall i :: 0 <= i < n ==> ps[i].size <= WordSize
  }

  /** Parameters that all fit a word take the first registers without
      moving the argument offset. */
  lemma {:induction false} AssignRegPrefix(ps: seq<Sized>, n: nat, nextOffset: nat, asWritten: bool)
    requires n <= |ps| && n <= |ArgumentRegs| && FitWords(ps, n)
    requires Assign(ps[n..], n, nextOffset, asWritten).Done?
    ensures Assign(ps, 0, nextOffset, asWritten).Done?
    ensures Assign(ps, 0, nextOffset, asWritten).value.formals[n..] == Assign(ps[n..], n, nextOffset, asWritten).value.formals
    decreases n
  {
    if n > 0 {
      var here := ps[n - 1..];
      assert here[1..] == ps[n..] && here[0] == ps[n - 1];
      AssignRegStep(here, n - 1, nextOffset, asWritten);
      assert FitWords(ps, n - 1);
      AssignRegPrefix(ps, n - 1, nextOffset, asWritten);
      var f := Assign(ps, 0, nextOffset, asWritten).value.formals;
      assert f[n..] == f[n - 1..][1..];
    } else {
      assert ps[n..] == ps;
    }
  }

  /** The last three overlap parameters, placed after the registers run out. */
  lemma OverlapTail(ps: seq<Sized>, asWritten: bool)
    requires |ps| == 3 && ps[0].size == ps[0].align == 1 && ps[1].size == ps[1].align == 4 && ps[2].size == ps[2].align == 1
    ensures var r := Assign(ps, |ArgumentRegs|, FirstArgOffset, asWritten);
      r.Done? && |r.value.formals| == 3 &&
      r.value.formals[1].access == InFrame(20) && r.value.formals[1].size == 4 &&
      r.value.formals[2].access == InFrame(if asWritten then 21 else 24)
  {
    var last := if asWritten then 21 else 24;
    assert RoundUp(16, 1) == 16 && RoundUp(17, 4) == 20 && RoundUp(last, 1) == last;
    AssignStep(ps[2..], 6, last, asWritten);
    AssignStep(ps[1..], 6, 17, asWritten);
    assert ps[1..][1..] == ps[2..];
    AssignStep(ps, 6, 16, asWritten);
  }

  /** As written, `g` is at 16, `h` is rounded up to 20 but the next
      offset only advances to 21, so `i` at 21 lies inside `h`. */
  lemma ParamsOverlapAsWritten()
    ensures var w := PlaceParams([], OverlapParams, true);
      w.Done? && |w.value.formals| == 9 &&
      w.value.formals[7].access == InFrame(20) && w.value.formals[7].size == 4 &&
      w.value.formals[8].access == InFrame(21)
  {
    OverlapPlaced(true);
  }

  /** The corrected placement puts `i` after `h`, at 24. */
  lemma ParamsOverlapCorrected()
    ensures var c := PlaceParams([], OverlapParams, false);
      c.Done? && |c.value.formals| == 9 &&
      c.value.formals[7].access == InFrame(20) && c.value.formals[7].size == 4 &&
      c.value.formals[8].access == InFrame(24)
  {
    OverlapPlaced(false);
  }

  lemma OverlapPlaced(asWritten: bool)
    ensures var r := PlaceParams([], OverlapParams, asWritten);
      r.Done? && |r.value.formals| == 9 &&
      r.value.formals[7].access == InFrame(20) && r.value.formals[7].size == 4 &&
      r.value.formals[8].access == InFrame(if asWritten then 21 else 24)
  {
    OverlapParamSizes();
    var ps := ParamSizes([], OverlapParams).value;
    OverlapTail(ps[6..], asWritten);
    assert FitWords(ps, 6);
    AssignRegPrefix(ps, 6, FirstArgOffset, asWritten);
    var f := Assign(ps, 0, FirstArgOffset, asWritten).value.formals;
    assert f[7] == f[6..][1] && f[8] == f[6..][2];
  }

  // ---------------------------------------------------------------------
  // Frames
  // ---------------------------------------------------------------------

  /** The largest result that fits the result registers `rax` and `rdx`. */
  const MaxReturnSize: nat := 16

  /** A function's activation record: its formals and locals, the words
      of locals below the frame pointer and the words of stack arguments. */
  datatype Frame = Frame(name: string, formals: seq<Formal>, locals: seq<Local>, frameWords: nat, argsWords: nat)

  /** The lowest local offset, or 0 with no locals. */
  function LowestOffset(locals: seq<Local>): int {
    if |locals| == 0 then 0 else locals[|locals| - 1].offset
  }

  /** `calculate_activation_record_decl_func`, with the corrected
      parameter placement. It fails when the result does not fit two
      registers, when a parameter cannot be placed and when a local
      cannot be placed. */
  method FrameOf(program: seq<Decl>, d: Decl) returns (r: Outcome<Frame>)
    requires d.Func?
    ensures r.Done? <==>
      SizeOf(program, d.ret, Depth(program)).Done? && SizeOf(program, d.ret, Depth(program)).value <= MaxReturnSize &&
      PlaceParams(program, d.params, false).Done? &&
      forall i :: 0 <= i < |LetsInList(d.body)| ==> Placeable(program, LetsInList(d.body)[i].1)
    ensures r.Done? ==>
      var placed := PlaceParams(program, d.params, false).value;
      var lets := LetsInList(d.body);
      r.value.name == d.name && r.value.formals == placed.formals &&
      |r.value.locals| == |lets| == Semantics.LetsList(d.body) && Stacked(r.value.locals) &&
      (forall i :: 0 <= i < |lets| ==> LocalFits(program, lets[i], r.value.locals[i])) &&
      r.value.frameWords * WordSize >= -LowestOffset(r.value.locals) && r.value.frameWords % 2 == 0 &&
      r.value.argsWords * WordSize >= placed.nextOffset
  {
    var retSize := SizeOf(program, d.ret, Depth(program));
    if retSize.Fail? {
      return Fail(retSize.reason);
    }
    if retSize.value > MaxReturnSize {
      return Fail("TODO: larger return sizes");
    }
    var placed := PlaceParams(program, d.params, false);
    if placed.Fail? {
      return Fail(placed.reason);
    }
    var lets := LetsInList(d.body);
    LetsInListCounts(d.body);
    var locals := PlaceLocals(program, lets);
    if locals.Fail? {
      return Fail(locals.reason);
    }
    var lowest := LowestOffset(locals.value);
    if |locals.value| > 0 {
      LocalsDescend(program, lets, locals.value, |lets| - 1);
    }
    return Done(Frame(d.name, placed.value.formals, locals.value, FrameWords(lowest), NumWords(placed.value.nextOffset)));
  }

  /** The names of the functions of a program, in order. */
  function FuncNames(program: seq<Decl>): (r: seq<string>)
    ensures |r| <= |program|
  {
    if |program| == 0 then []
    else
      var last := program[|program| - 1];
      FuncNames(program[..|program| - 1]) + if last.Func? then [last.name] else []
  }

  /** The frames carry the names, in order. */
  predicate Named(frames: seq<Frame>, names: seq<string>) {
    |frames| == |names| && forall k :: 0 <= k < |frames| ==> frames[k].name == names[k]
  }

  /** `calculate_activation_records`: one frame per function, in order. */
  method Frames(program: seq<Decl>) returns (r: Outcome<seq<Frame>>)
    ensures r.Done? ==> Named(r.value, FuncNames(program))
  {
    var frames: seq<Frame> := [];
    var i := 0;
    while i < |program|
      invariant 0 <= i <= |program|
      invariant Named(frames, FuncNames(program[..i]))
    {
      assert program[..i + 1][..i] == program[..i];
      if program[i].Func? {
        var f := FrameOf(program, program[i]);
        if f.Fail? {
          return Fail(f.reason);
        }
        NamedSnoc(frames, FuncNames(program[..i]), f.value);
        frames := frames + [f.value];
      }
      i := i + 1;
    }
    assert program[..i] == program;
    return Done(frames);
  }

  lemma NamedSnoc(frames: seq<Frame>, names: seq<string>, f: Frame)
    requires Named(frames, names)
    ensures Named(frames + [f], names + [f.name])
  {
  }
}

=== FILE: allocator.dfy ===
/** The runtime's object allocator (runtime/runtime.c, `sl_alloc_des`).

    Objects are grouped by size: size class `n` (objects of `n` words) owns
    at most one page at a time, `pages[n]`.  A page descriptor records the
    class's object size and a 64-bit `allocated` bitmap (`inUse`), one bit per slot.
    Descriptors come in superpages of 64, at most 16 of them, and the unused
    ones are chained through `next` into the free list.

    Descriptors are named by their index in `descs`, superpage `s` holding
    indexes `64 * s` to `64 * s + 63`; a NULL pointer is `None`.  Superpages
    are only ever added, so the first unused one (`alloc_next_free_sp`) is
    the one after the last.  An object is named by its page, its slot and
    the word of the page's data where it starts.
 */
module Allocator {
  import opened Wrappers
  import Bitset

  const SizeClasses := 128
  const MaxSuperpages := 16
  const DescsPerSuperpage := 64
  const SlotsPerPage := 64
  /** The allocator asserts every object size is below this. */
  const MaxObjectWords := 64

  datatype Desc = Desc(objectSize: nat, inUse: Bitset.Word, next: Option<nat>)

  datatype Heap = Heap(pages: seq<Option<nat>>, counter: seq<int>, descs: seq<Desc>, freeList: Option<nat>)

  /** An allocated object: its page, its bit in the page's bitmap and its
      first word in the page's data. */
  datatype Object = Object(page: nat, slot: nat, word: nat)

  /** Every pointer of the allocator points at a descriptor that exists. */
  predicate Valid(h: Heap) {
    && |h.pages| == SizeClasses && |h.counter| == SizeClasses
    && |h.descs| % DescsPerSuperpage == 0 && |h.descs| <= MaxSuperpages * DescsPerSuperpage
    && (forall i :: 0 <= i < SizeClasses && h.pages[i].Some? ==> h.pages[i].value < |h.descs|)
    && (h.freeList.Some? ==> h.freeList.value < |h.descs|)
    && (forall q :: 0 <= q < |h.descs| && h.descs[q].next.Some? ==> h.descs[q].next.value < |h.descs|)
  }

  /** Every slot of a page is taken. */
  predicate Full(w: Bitset.Word) {
    forall c :: 0 <= c < SlotsPerPage ==> w[c]
  }

  /** The zero-initialised global `alloc`. */
  function Init(): (h: Heap)
    ensures Valid(h)
    ensures forall i :: 0 <= i < SizeClasses ==> h.pages[i].None? && h.counter[i] == 0
  {
    Heap(seq(SizeClasses, _ => None), seq(SizeClasses, _ => 0), [], None)
  }

  // ---------------------------------------------------------------------
  // Strings and slots
  // ---------------------------------------------------------------------

  /** `strlen`: the characters before the first NUL. */
  function StrLen(s: string): (n: nat)
    ensures n <= |s|
    ensures forall k :: 0 <= k < n ==> s[k] != '\0'
    ensures n < |s| ==> s[n] == '\0'
  {
    if |s| == 0 || s[0] == '\0' then 0 else 1 + StrLen(s[1..])
  }

  /** The lowest clear bit of `w` from bit `k` up, or none when they are all
      set. */
  function FreeSlot(w: Bitset.Word, k: nat): (r: Option<nat>)
    requires k <= SlotsPerPage
    ensures r.None? <==> forall c :: k <= c < SlotsPerPage ==> w[c]
    ensures r.Some? ==> k <= r.value < SlotsPerPage && !w[r.value]
    ensures r.Some? ==> forall c :: k <= c < r.value ==> w[c]
    decreases SlotsPerPage - k
  {
    if k == SlotsPerPage then None else if !w[k] then Some(k) else FreeSlot(w, k + 1)
  }

  /** `pd_find_slot`: scan the bitmap from bit 0 and claim the first clear
      bit.  The slot is `FreeSlot`'s and only its bit changes. */
  method FindSlot(inUse: Bitset.Word) returns (slot: Option<nat>, marked: Bitset.Word)
    ensures slot == FreeSlot(inUse, 0)
    ensures slot.Some? ==> marked[slot.value] && !inUse[slot.value]
    ensures forall c :: 0 <= c < SlotsPerPage && (slot.None? || c != slot.value) ==> marked[c] == inUse[c]
  {
    var i := 0;
    while i < SlotsPerPage
      invariant 0 <= i <= SlotsPerPage
      invariant forall c :: 0 <= c < i ==> inUse[c]
    {
      if !inUse[i] {
        slot, marked := Some(i), inUse[i := true];
        return;
      }
      i := i + 1;
    }
    slot, marked := None, inUse;
  }

  /** Where slot `slot` of a page of `size`-word objects starts in the
      page's data.  As written `base + i` on a `void **` steps one word per
      slot whatever the object size; corrected, slot `i` starts `i` objects
      in.  Either way an object of `size > 0` words at a slot below 64
      lies inside the page's `64 * size` words of data. */
  function SlotWord(slot: nat, size: nat, asWritten: bool): (w: nat)
    ensures slot < SlotsPerPage && size > 0 ==> w + size <= SlotsPerPage * size
  {
    if asWritten then slot
    else
      assert slot < SlotsPerPage ==> slot * size + size <= SlotsPerPage * size by {
        if slot < SlotsPerPage {
          var d := SlotsPerPage - (slot + 1);
          assert SlotsPerPage * size == (slot + 1) * size + d * size;
        }
      }
      slot * size
  }

  /** Corrected, the 64 slots of a page are disjoint and fill exactly the
      64 objects of `size` words the page's data is meant to hold. */
  lemma SlotsDisjoint(size: nat, i: nat, j: nat)
    requires i < j < SlotsPerPage
    ensures SlotWord(i, size, false) + size <= SlotWord(j, size, false)
    ensures SlotWord(j, size, false) + size <= SlotsPerPage * size
  {
    assert (i + 1) * size <= j * size by {
      var d := j - (i + 1);
      assert j * size == (i + 1) * size + d * size;
    }
    assert (j + 1) * size <= SlotsPerPage * size by {
      var d := SlotsPerPage - (j + 1);
      assert SlotsPerPage * size == (j + 1) * size + d * size;
    }
  }

  // ---------------------------------------------------------------------
  // Superpages and the free list
  // ---------------------------------------------------------------------

  /** The 64 zeroed descriptors of a new superpage starting at `base`.  As
      written descriptor `i` links to itself; corrected, to `i + 1`.  The
      last one keeps its zeroed (NULL) link. */
  function FreshDescs(base: nat, asWritten: bool): (ds: seq<Desc>)
    ensures |ds| == DescsPerSuperpage
  {
    seq(DescsPerSuperpage, i requires 0 <= i < DescsPerSuperpage =>
      Desc(0, Bitset.Zero(),
        if i == DescsPerSuperpage - 1 then None
        else Some(if asWritten then base + i else base + i + 1)))
  }

  /** `alloc_new_superpage`: fatal once all 16 superpages are in use;
      otherwise 64 fresh descriptors, the old ones and everything else
      untouched. */
  function NewSuperpage(h: Heap, asWritten: bool): (r: Outcome<Heap>)
    requires Valid(h)
    ensures r.Fail? <==> |h.descs| == MaxSuperpages * DescsPerSuperpage
    ensures r.Done? ==> Valid(r.value)
    ensures r.Done? ==> |r.value.descs| == |h.descs| + DescsPerSuperpage && r.value.descs[..|h.descs|] == h.descs
    ensures r.Done? ==> r.value.pages == h.pages && r.value.counter == h.counter && r.value.freeList == h.freeList
  {
    if |h.descs| == MaxSuperpages * DescsPerSuperpage then Fail("out of super pages")
    else Done(h.(descs := h.descs + FreshDescs(|h.descs|, asWritten)))
  }

  /** A free list that is not empty, a new superpage's descriptors when it
      was. */
  function Refill(h: Heap, asWritten: bool): (r: Outcome<Heap>)
    requires Valid(h)
    ensures r.Fail? <==> h.freeList.None? && |h.descs| == MaxSuperpages * DescsPerSuperpage
    ensures r.Done? ==> Valid(r.value) && r.value.freeList.Some?
    ensures r.Done? ==> r.value.pages == h.pages && r.value.counter == h.counter
    ensures r.Done? && h.freeList.Some? ==> r.value == h
    ensures r.Done? && h.freeList.None? ==>
      r.value.freeList == Some(|h.descs|) && r.value.descs[|h.descs|].inUse == Bitset.Zero()
  {
    if h.freeList.Some? then Done(h)
    else match NewSuperpage(h, asWritten)
      case Fail(e) => Fail(e)
      case Done(grown) => Done(grown.(freeList := Some(|h.descs|)))
  }

  /** The page size class `n` allocates from next: its own, else the head
      of the free list; `None` when a new superpage will be needed. */
  function NextPage(h: Heap, n: nat): Option<nat>
    requires |h.pages| == SizeClasses && n < SizeClasses
  {
    if h.pages[n].Some? then h.pages[n] else h.freeList
  }

  /** Unlinks the head of the free list and gives it to size class `n`,
      which records its object size there. */
  function TakeHead(h: Heap, n: nat): (r: Heap)
    requires Valid(h) && n < SizeClasses && h.freeList.Some?
    ensures Valid(r) && r.counter == h.counter && |r.descs| == |h.descs|
    ensures r.pages[n] == h.freeList && r.freeList == h.descs[h.freeList.value].next
    ensures forall i :: 0 <= i < SizeClasses && i != n ==> r.pages[i] == h.pages[i]
    ensures forall q :: 0 <= q < |h.descs| ==>
      && r.descs[q].inUse == h.descs[q].inUse && r.descs[q].next == h.descs[q].next
      && r.descs[q].objectSize == (if q == h.freeList.value then n else h.descs[q].objectSize)
  {
    var page := h.freeList.value;
    h.(pages := h.pages[n := Some(page)],
       freeList := h.descs[page].next,
       descs := h.descs[page := h.descs[page].(objectSize := n)])
  }

  /** The page of size class `n`: its current one, or the head of the free
      list, which is unlinked and given the class's object size. */
  function ClassPage(h: Heap, n: nat, asWritten: bool): (r: Outcome<Heap>)
    requires Valid(h) && n < SizeClasses
    ensures r.Fail? <==> NextPage(h, n).None? && |h.descs| == MaxSuperpages * DescsPerSuperpage
    ensures r.Done? ==> Valid(r.value) && r.value.pages[n].Some? && r.value.counter == h.counter
    ensures r.Done? ==> r.value.pages[n] == (if NextPage(h, n).Some? then NextPage(h, n) else Some(|h.descs|))
    ensures r.Done? && NextPage(h, n).Some? ==> r.value.descs[NextPage(h, n).value].inUse == h.descs[NextPage(h, n).value].inUse
    ensures r.Done? && NextPage(h, n).None? ==> r.value.descs[|h.descs|].inUse == Bitset.Zero()
  {
    if h.pages[n].Some? then Done(h)
    else match Refill(h, asWritten)
      case Fail(e) => Fail(e)
      case Done(filled) => Done(TakeHead(filled, n))
  }

  /** `counter[n] += 1`: the statistics of size class `n`. */
  function Count(h: Heap, n: nat): (r: Heap)
    requires Valid(h) && n < SizeClasses
    ensures Valid(r) && r.pages == h.pages && r.descs == h.descs && r.freeList == h.freeList
    ensures r.counter[n] == h.counter[n] + 1
    ensures forall i :: 0 <= i < SizeClasses && i != n ==> r.counter[i] == h.counter[i]
  {
    h.(counter := h.counter[n := h.counter[n] + 1])
  }

  /** The allocation proper (`pd_find_slot` on the class's page): fails
      when the page is full, else claims its lowest clear slot. */
  function ClaimSlot(h: Heap, n: nat, asWritten: bool): (r: Outcome<(Heap, Object)>)
    requires Valid(h) && n < SizeClasses && h.pages[n].Some?
    ensures r.Fail? <==> Full(h.descs[h.pages[n].value].inUse)
    ensures r.Done? ==>
      var (h', o) := r.value;
      && Valid(h') && h'.pages == h.pages && h'.counter == h.counter && h'.freeList == h.freeList
      && o.page == h.pages[n].value && o.slot < SlotsPerPage
      && !h.descs[o.page].inUse[o.slot] && h'.descs[o.page].inUse[o.slot]
  {
    var page := h.pages[n].value;
    var d := h.descs[page];
    match FreeSlot(d.inUse, 0)
    case None => Fail("TODO: implement garbage collection / add more pages?")
    case Some(slot) =>
      var marked := d.(inUse := d.inUse[slot := true]);
      Done((h.(descs := h.descs[page := marked]), Object(page, slot, SlotWord(slot, d.objectSize, asWritten))))
  }

  /** `sl_alloc_des`: an object as many words long as `descriptor`.  Fails
      when the size reaches 64, when the superpages run out, and when the
      page it comes from is full; otherwise it claims a slot that was clear
      in that page, the page now belonging to the class. */
  function AllocDes(h: Heap, descriptor: string, asWritten: bool): (r: Outcome<(Heap, Object)>)
    requires Valid(h)
    ensures r.Fail? <==>
      || StrLen(descriptor) >= MaxObjectWords
      || (NextPage(h, StrLen(descriptor)).None? && |h.descs| == MaxSuperpages * DescsPerSuperpage)
      || (NextPage(h, StrLen(descriptor)).Some? && Full(h.descs[NextPage(h, StrLen(descriptor)).value].inUse))
    ensures r.Done? ==>
      var (h', o) := r.value;
      && Valid(h') && h'.pages[StrLen(descriptor)] == Some(o.page)
      && o.page < |h'.descs| && o.slot < SlotsPerPage && h'.descs[o.page].inUse[o.slot]
      && (if NextPage(h, StrLen(descriptor)).Some?
          then o.page == NextPage(h, StrLen(descriptor)).value && !h.descs[o.page].inUse[o.slot]
          else o.page == |h.descs|)
      && h'.counter[StrLen(descriptor)] == h.counter[StrLen(descriptor)] + 1
  {
    var n := StrLen(descriptor);
    if n >= MaxObjectWords then Fail("TODO")
    else
      var counted := Count(h, n);
      match ClassPage(counted, n, asWritten)
      case Fail(e) => Fail(e)
      case Done(owned) => ClaimSlot(owned, n, asWritten)
  }

  // ---------------------------------------------------------------------
  // Ownership
  // ---------------------------------------------------------------------

  /** The first descriptor still on the free list; every one from there to
      the end of `descs` is free. */
  function Boundary(h: Heap): nat {
    if h.freeList.Some? then h.freeList.value else |h.descs|
  }

  /** What "each page manages allocations of a particular size" needs: a
      class's page lies before the free list and records the class's size,
      and the free list links each free descriptor to the one after it. */
  predicate Owned(h: Heap)
    requires Valid(h)
  {
    && (forall i :: 0 <= i < SizeClasses && h.pages[i].Some? ==>
          h.pages[i].value < Boundary(h) && h.descs[h.pages[i].value].objectSize == i)
    && (forall q :: Boundary(h) <= q < |h.descs| ==>
          h.descs[q].next == (if q + 1 < |h.descs| then Some(q + 1) else None))
  }

  /** Ownership does not look at the statistics. */
  lemma OwnedIgnoresCounter(h: Heap, h': Heap)
    requires Valid(h) && Valid(h') && Owned(h)
    requires h'.pages == h.pages && h'.descs == h.descs && h'.freeList == h.freeList
    ensures Owned(h')
  {
    assert Boundary(h') == Boundary(h);
  }

  lemma InitOwned()
    ensures Owned(Init())
  {
  }

  /** A corrected superpage extends the free list in order. */
  lemma RefillKeepsOwned(h: Heap)
    requires Valid(h) && Owned(h)
    ensures Refill(h, false).Done? ==> Owned(Refill(h, false).value)
  {
    if h.freeList.None? && Refill(h, false).Done? {
      var filled := Refill(h, false).value;
      var added := FreshDescs(|h.descs|, false);
      assert filled.descs == h.descs + added;
      forall q | Boundary(filled) <= q < |filled.descs|
        ensures filled.descs[q].next == (if q + 1 < |filled.descs| then Some(q + 1) else None)
      {
        assert filled.descs[q] == added[q - |h.descs|];
      }
    }
  }

  /** The head of the corrected free list is owned by no class, so giving
      it to class `n` keeps ownership. */
  lemma TakeHeadKeepsOwned(h: Heap, n: nat)
    requires Valid(h) && Owned(h) && n < SizeClasses && h.freeList.Some? && h.pages[n].None?
    ensures Owned(TakeHead(h, n))
  {
    var r := TakeHead(h, n);
    assert Boundary(r) == h.freeList.value + 1;
  }

  /** Taking a class's page from the corrected free list keeps ownership. */
  lemma ClassPageKeepsOwned(h: Heap, n: nat)
    requires Valid(h) && Owned(h) && n < SizeClasses
    ensures ClassPage(h, n, false).Done? ==> Owned(ClassPage(h, n, false).value)
  {
    if h.pages[n].None? && Refill(h, false).Done? {
      RefillKeepsOwned(h);
      TakeHeadKeepsOwned(Refill(h, false).value, n);
    }
  }

  /** Claiming a slot changes no page, size or link, and the slot's page
      belongs to class `n` alone. */
  lemma ClaimSlotKeepsOwned(h: Heap, n: nat)
    requires Valid(h) && Owned(h) && n < SizeClasses && h.pages[n].Some?
    ensures var r := ClaimSlot(h, n, false);
      r.Done? ==>
        var (h', o) := r.value;
        && Owned(h')
        && h'.descs[o.page].objectSize == n
        && forall i :: 0 <= i < SizeClasses && h'.pages[i] == Some(o.page) ==> i == n
  {
    if ClaimSlot(h, n, false).Done? {
      var h' := ClaimSlot(h, n, false).value.0;
      assert Boundary(h') == Boundary(h);
      assert forall q :: 0 <= q < |h.descs| ==> h'.descs[q].objectSize == h.descs[q].objectSize && h'.descs[q].next == h.descs[q].next;
    }
  }

  /** Corrected, every allocation comes from a page that records the
      object's size and that no other size class owns, and ownership is
      kept. */
  lemma AllocKeepsOwned(h: Heap, descriptor: string)
    requires Valid(h) && Owned(h)
    ensures var r := AllocDes(h, descriptor, false);
      r.Done? ==>
        var (h', o) := r.value;
        && Owned(h')
        && h'.descs[o.page].objectSize == StrLen(descriptor)
        && forall i :: 0 <= i < SizeClasses && h'.pages[i] == Some(o.page) ==> i == StrLen(descriptor)
  {
    var n := StrLen(descriptor);
    if n < MaxObjectWords {
      var counted := Count(h, n);
      OwnedIgnoresCounter(h, counted);
      ClassPageKeepsOwned(counted, n);
      var c := ClassPage(counted, n, false);
      if c.Done? {
        ClaimSlotKeepsOwned(c.value, n);
        assert AllocDes(h, descriptor, false) == ClaimSlot(c.value, n, false);
      }
    }
  }

  /** As written each fresh descriptor links to itself, so the free list
      never advances: a one-word and then a two-word object land in the
      same page, which now says its objects are two words long. */
  lemma SelfLinkSharesPage()
    ensures var r1 := AllocDes(Init(), "a", true);
      && r1.Done?
      && var r2 := AllocDes(r1.value.0, "ab", true);
      && r2.Done?
      && r2.value.0.pages[1] == r2.value.0.pages[2] == Some(0)
      && r2.value.0.descs[0].objectSize == 2
  {
    assert StrLen("a") == 1 && StrLen("ab") == 2;
    var h1 := AllocDes(Init(), "a", true).value.0;
    assert h1.pages[2].None? && h1.freeList == Some(0) && h1.descs[0].next == Some(0);
    assert !h1.descs[0].inUse[1];
  }

  /** As written two two-word objects taken one after the other share a
      word: the second starts one word after the first. */
  lemma AdjacentObjectsOverlap()
    ensures var r1 := AllocDes(Init(), "pp", true);
      && r1.Done?
      && var r2 := AllocDes(r1.value.0, "pp", true);
      && r2.Done?
      && r1.value.1.page == r2.value.1.page
      && r2.value.1.word < r1.value.1.word + 2
  {
    assert StrLen("pp") == 2;
  }

  /** Corrected, two objects of one page never share a word. */
  lemma ObjectsDisjoint(h: Heap, descriptor: string)
    requires Valid(h) && Owned(h)
    ensures var r := AllocDes(h, descriptor, false);
      r.Done? ==>
        var (h', o) := r.value;
        var size := StrLen(descriptor);
        && o.word == o.slot * size
        && forall c :: 0 <= c < SlotsPerPage && c != o.slot ==>
             SlotWord(c, size, false) + size <= o.word || o.word + size <= SlotWord(c, size, false)
  {
    AllocKeepsOwned(h, descriptor);
    var r := AllocDes(h, descriptor, false);
    if r.Done? {
      var o := r.value.1;
      var size := StrLen(descriptor);
      forall c | 0 <= c < SlotsPerPage && c != o.slot
        ensures SlotWord(c, size, false) + size <= o.word || o.word + size <= SlotWord(c, size, false)
      {
        if c < o.slot { SlotsDisjoint(size, c, o.slot); } else { SlotsDisjoint(size, o.slot, c); }
      }
    }
  }
}

=== FILE: arm64.dfy ===
/** The arm64 code generator (src/arm64.c): its register tables, the
    load/store suffixes and register names it prints, the registers a call
    clobbers, how a CJUMP becomes a branch, how a constant is loaded, and
    the frame maps it emits into the data segment for the runtime.
 */
module Arm64 {
  import opened Wrappers
  import Temp
  import Tree
  import Backend
  import Fragment

  // ---------------------------------------------------------------------
  // Register tables
  // ---------------------------------------------------------------------

  /** The register names by temp id (`arm64_registers`). */
  const Registers: seq<string> := [
    "x0", "x1", "x2", "x3", "x4", "x5", "x6", "x7",
    "x8", "x9", "x10", "x11", "x12", "x13", "x14", "x15",
    "x16", "x17", "x18", "x19", "x20", "x21", "x22", "x23",
    "x24", "x25", "x26", "x27", "x28", "fp", "x30", "sp"]

  const Fp := 29
  /** The link register, clobbered by every call. */
  const Lr := 30
  const Sp := 31
  /** Reserved by the platform. */
  const X18 := 18

  /** x0 to x7. */
  const ArgRegs: seq<int> := Range(0, 8)
  /** x19 to x28. */
  const CalleeSaves: seq<int> := Range(19, 29)
  /** x8 to x17; x18 is left out, being reserved. */
  const CallerSaves: seq<int> := Range(8, 18)

  /** The register numbers from `lo` up to, not including, `hi`. */
  function Range(lo: int, hi: int): (r: seq<int>)
    requires lo <= hi
    ensures |r| == hi - lo && forall i :: 0 <= i < |r| ==> r[i] == lo + i
  {
    seq(hi - lo, i requires 0 <= i < hi - lo => lo + i)
  }

  /** Membership in the register tables by range. */
  lemma TableRanges(id: int)
    ensures id in ArgRegs <==> 0 <= id < 8
    ensures id in CalleeSaves <==> 19 <= id < 29
    ensures id in CallerSaves <==> 8 <= id < 18
  {
    if 0 <= id < 8 { assert ArgRegs[id] == id; }
    if 19 <= id < 29 { assert CalleeSaves[id - 19] == id; }
    if 8 <= id < 18 { assert CallerSaves[id - 8] == id; }
  }

  /** `suff_from_size`: the load/store suffix; words and double words share
      the empty suffix, the register name telling them apart. */
  function SuffFromSize(size: nat): (r: Outcome<string>)
    ensures r.Done? <==> Backend.ValidSize(size)
    ensures r.Done? ==> (r.value == "" <==> size >= 4)
  {
    match size
    case 8 => Done("")
    case 4 => Done("")
    case 2 => Done("h")
    case 1 => Done("b")
    case _ => Fail("invalid size")
  }

  /** `arm64_register_for_size`: the name of a register at an operand
      size: unchanged for a double word, and an `x` register renamed to
      its `w` half otherwise.  Names of the wrong length, names that are
      not `sp`, `fp` or an `x` register, and invalid sizes fail an
      assertion. */
  function RegisterForSize(name: string, size: nat): (r: Outcome<string>)
    ensures r.Done? ==> 2 <= |name| && |r.value| == |name| && r.value[1..] == name[1..]
  {
    if !(2 <= |name| <= 3) || !(name == "sp" || name == "fp" || name[0] == 'x') || !Backend.ValidSize(size) then
      Fail("invalid register request")
    else if size == 8 || name[0] != 'x' then Done(name)
    else Done("w" + name[1..])
  }

  /** Every register's own name can be asked for at every size; a general
      register becomes its `w` form below a double word. */
  lemma RegisterForSizeNames(i: nat, size: nat)
    requires i < 32 && Backend.ValidSize(size)
    ensures RegisterForSize(Registers[i], size).Done?
    ensures var name := RegisterForSize(Registers[i], size).value;
      if size == 8 || i == Fp || i == Sp then name == Registers[i] else name[0] == 'w'
  {
  }

  /** The suffix and the register name together give away the width of
      a load or store of a general register. */
  lemma WidthIsVisible(name: string, a: nat, b: nat)
    requires RegisterForSize(name, a).Done? && RegisterForSize(name, b).Done?
    requires name[0] == 'x' && a != b
    ensures (SuffFromSize(a), RegisterForSize(name, a)) != (SuffFromSize(b), RegisterForSize(name, b))
  {
  }

  /** `calldefs`: the caller saves, then the link register, then the
      argument registers, each consed in front as a word. */
  function CallDefs(): (r: seq<Temp.Temp>)
    ensures |r| == |ArgRegs| + 1 + |CallerSaves|
    ensures forall t :: t in r ==> t.size == Backend.WordSize && t.id !in CalleeSaves
  {
    forall t | t in Backend.CallDefsOf(ArgRegs, Lr, CallerSaves)
      ensures t.size == Backend.WordSize && t.id !in CalleeSaves
    {
      Backend.CallDefsOfMembers(ArgRegs, Lr, CallerSaves, t.id);
      TableRanges(t.id);
    }
    Backend.CallDefsOf(ArgRegs, Lr, CallerSaves)
  }

  /** A call clobbers exactly the caller saves, the link register and the
      argument registers, each as a whole word, and none of the callee
      saves, the frame pointer, the stack pointer or x18. */
  lemma CallDefsRoles(id: int)
    ensures (exists t :: t in CallDefs() && t.id == id) <==> id in CallerSaves || id == Lr || id in ArgRegs
    ensures forall t :: t in CallDefs() ==> t.size == Backend.WordSize
    ensures id in CalleeSaves || id == Fp || id == Sp || id == X18 ==> forall t :: t in CallDefs() ==> t.id != id
  {
    Backend.CallDefsOfMembers(ArgRegs, Lr, CallerSaves, id);
    TableRanges(id);
    if id in CalleeSaves || id == Fp || id == Sp || id == X18 {
      assert !(id in CallerSaves || id == Lr || id in ArgRegs);
    }
  }

  // ---------------------------------------------------------------------
  // Constants
  // ---------------------------------------------------------------------

  /** A 16-bit field read back as a signed number. */
  function FromInt16(bits: nat): int
    requires bits < 0x1_0000
  {
    if bits < 0x8000 then bits else bits - 0x1_0000
  }

  /** `can_be_immediate`: the constant fits, unshifted, in a 16-bit
      signed field — exactly when its low 16 bits read back as itself. */
  predicate CanBeImmediate(v: int)
    ensures CanBeImmediate(v) <==> FromInt16(v % 0x1_0000) == v
  {
    -0x8000 <= v <= 0x7FFF
  }

  /** How a CONST is put in a register. */
  datatype ConstLoad = MovImm(imm: int) | LdrLiteral(value: int)

  function LoadConst(v: int): (r: ConstLoad)
    ensures r.MovImm? ==> FromInt16(r.imm % 0x1_0000) == v
    ensures r.LdrLiteral? ==> r.value == v && !CanBeImmediate(v)
  {
    if CanBeImmediate(v) then MovImm(v) else LdrLiteral(v)
  }

  // ---------------------------------------------------------------------
  // Conditional branches
  // ---------------------------------------------------------------------

  /** The condition codes used after `cmp lhs, rhs`. */
  datatype Cond = BEq | BNe | BGt | BGe | BLt | BLe | BLs | BHi

  /** A CJUMP's branch: a compare-with-zero on one operand, or `cmp` of the
      left operand with the right one followed by a conditional branch. */
  datatype Branch = Cbz(onRight: bool) | Cbnz(onRight: bool) | CmpBranch(cond: Cond)

  predicate CondHolds(c: Cond, a: int, b: int) {
    match c
    case BEq => a == b
    case BNe => a != b
    case BGt => a > b
    case BGe => a >= b
    case BLt => a < b
    case BLe => a <= b
    case BLs => Backend.Unsigned(a) <= Backend.Unsigned(b)
    case BHi => Backend.Unsigned(a) > Backend.Unsigned(b)
  }

  /** Whether the branch is taken, `a` and `b` the operands' values. */
  predicate Taken(br: Branch, a: int, b: int) {
    match br
    case Cbz(r) => (if r then b else a) == 0
    case Cbnz(r) => (if r then b else a) != 0
    case CmpBranch(c) => CondHolds(c, a, b)
  }

  predicate IsZero(e: Tree.Exp) {
    e.Const? && e.value == 0
  }

  /** The branch for `CJUMP(op, lhs, rhs)`: an equality test against a
      constant zero becomes `cbz`/`cbnz` on the other operand (the left
      zero tried first); otherwise a condition code, where unsigned
      less-than and greater-or-equal have none and fail an assertion. */
  function BranchFor(op: Tree.RelOp, lhs: Tree.Exp, rhs: Tree.Exp): (r: Outcome<Branch>)
    ensures r.Fail? <==> op == Tree.Ult || op == Tree.Uge
    ensures r.Done? && (r.value.Cbz? || r.value.Cbnz?) ==>
      (op == Tree.Eq || op == Tree.Ne) && (if r.value.onRight then IsZero(lhs) else IsZero(rhs))
  {
    if (op == Tree.Eq || op == Tree.Ne) && IsZero(lhs) then
      Done(if op == Tree.Eq then Cbz(true) else Cbnz(true))
    else if (op == Tree.Eq || op == Tree.Ne) && IsZero(rhs) then
      Done(if op == Tree.Eq then Cbz(false) else Cbnz(false))
    else
      match op
      case Eq => Done(CmpBranch(BEq))
      case Ne => Done(CmpBranch(BNe))
      case Gt => Done(CmpBranch(BGt))
      case Ge => Done(CmpBranch(BGe))
      case Lt => Done(CmpBranch(BLt))
      case Le => Done(CmpBranch(BLe))
      case Ult => Fail("TREE_RELOP_ULT")
      case Ule => Done(CmpBranch(BLs))
      case Ugt => Done(CmpBranch(BHi))
      case Uge => Fail("TREE_RELOP_UGE")
  }

  /** With `a` and `b` the values of the CJUMP's operands (a constant
      operand's value being its constant), the branch chosen is taken
      exactly when `a op b`. */
  lemma BranchDecides(op: Tree.RelOp, lhs: Tree.Exp, rhs: Tree.Exp, a: int, b: int)
    requires lhs.Const? ==> a == lhs.value
    requires rhs.Const? ==> b == rhs.value
    requires BranchFor(op, lhs, rhs).Done?
    ensures Taken(BranchFor(op, lhs, rhs).value, a, b) <==> Backend.Holds(op, a, b)
  {
  }

  // ---------------------------------------------------------------------
  // Frame maps (emit_data_segment)
  // ---------------------------------------------------------------------

  /** The index of a register among the callee saves, or the count of
      callee saves when it is not one (`get_callee_save_idx`). */
  function CalleeSaveIdx(reg: int): (i: nat)
    ensures i <= |CalleeSaves|
    ensures i < |CalleeSaves| ==> CalleeSaves[i] == reg
    ensures i == |CalleeSaves| <==> reg !in CalleeSaves
  {
    IndexFrom(reg, 0)
  }

  function IndexFrom(reg: int, k: nat): (i: nat)
    requires k <= |CalleeSaves|
    ensures k <= i <= |CalleeSaves|
    ensures i < |CalleeSaves| ==> CalleeSaves[i] == reg
    ensures i == |CalleeSaves| <==> reg !in CalleeSaves[k..]
    decreases |CalleeSaves| - k
  {
    if k == |CalleeSaves| then k
    else if CalleeSaves[k] == reg then k
    else
      assert CalleeSaves[k..] == [CalleeSaves[k]] + CalleeSaves[k + 1..];
      IndexFrom(reg, k + 1)
  }

  /** The spilled registers of a frame map: ten register numbers. */
  const SpillSlots := 10

  /** Two callee-save indexes in one byte, the first in the low nibble. */
  function PackPair(lo: nat, hi: nat): bv8
    requires lo < 16 && hi < 16
  {
    (lo as bv8) | ((hi as bv8) << 4)
  }

  /** The five `spill_reg` bytes: the callee-save index of each spilled
      register, two to a byte. */
  function PackSpillRegs(spill: seq<int>): (bytes: seq<bv8>)
    requires |spill| == SpillSlots
    ensures |bytes| == SpillSlots / 2
  {
    seq(SpillSlots / 2, k requires 0 <= k < SpillSlots / 2 =>
      PackPair(CalleeSaveIdx(spill[2 * k]), CalleeSaveIdx(spill[2 * k + 1])))
  }

  /** Byte `j` of the packing holds spilled registers `2j` and `2j + 1`. */
  lemma PackedByte(spill: seq<int>, j: nat)
    requires |spill| == SpillSlots && j < SpillSlots / 2
    ensures PackSpillRegs(spill)[j] == PackPair(CalleeSaveIdx(spill[2 * j]), CalleeSaveIdx(spill[2 * j + 1]))
  {
  }

  /** What a frame map says about one function's frame, before emission. */
  datatype MapInfo = MapInfo(argWords: nat, localWords: nat, spillWords: nat, spillRegs: seq<int>)

  const Uint16Max := 0xFFFF

  /** One emitted frame map, as the runtime's `frame_map_t` sees it. */
  datatype Entry = Entry(
    prev: Option<nat>,
    retLabel: string,
    csBitmap: nat,
    numArgWords: nat,
    numFrameWords: nat,
    numSpillWords: nat,
    spillReg: seq<bv8>)

  /** The data a frame map's entry is emitted from. */
  predicate Emittable(m: MapInfo) {
    m.argWords <= Uint16Max && m.localWords <= Uint16Max && m.spillWords <= m.localWords &&
    |m.spillRegs| == SpillSlots
  }

  /** The callee-save bitmap recorded for a return label, 0 when there is
      none (the table returns NULL), read as 32 bits. */
  function CsBitmapFor(bitmaps: map<string, nat>, ret: string): (r: nat)
    ensures r < 0x1_0000_0000
  {
    if ret in bitmaps then bitmaps[ret] % 0x1_0000_0000 else 0
  }

  /** The frame-map fragments of a fragment list, in list order. */
  function FrameMapsOf<F>(frags: seq<Fragment.Frag<F, MapInfo>>): (r: seq<(MapInfo, string)>)
    ensures forall p :: p in r ==> Fragment.FrameMap(p.0, p.1) in frags
  {
    if |frags| == 0 then []
    else
      var rest := FrameMapsOf(frags[1..]);
      assert forall f :: f in frags[1..] ==> f in frags;
      if frags[0].FrameMap? then [(frags[0].frameMap, frags[0].retLabel)] + rest else rest
  }

  /** The entry `emit_frame_map_entry` writes for map number `num`: it
      links to the entry emitted before it, or to nothing for the first. */
  function EntryFor(m: MapInfo, ret: string, bitmaps: map<string, nat>, num: nat): Entry
    requires |m.spillRegs| == SpillSlots
  {
    Entry(if num == 0 then None else Some(num - 1), ret, CsBitmapFor(bitmaps, ret),
      m.argWords, m.localWords, m.spillWords, PackSpillRegs(m.spillRegs))
  }

  /** `emit_frame_map_entry` for the maps from number `num` on.  Too many
      argument or local words are fatal; more spill words than local words
      fail an assertion. */
  function EmitEntries(maps: seq<(MapInfo, string)>, bitmaps: map<string, nat>, num: nat): (r: Outcome<seq<Entry>>)
    ensures r.Done? ==> |r.value| == |maps|
    decreases |maps|
  {
    if |maps| == 0 then Done([])
    else
      var (m, ret) := maps[0];
      if m.argWords > Uint16Max then Fail("num arg words > uint16_max")
      else if m.localWords > Uint16Max then Fail("num local words > uint16_max")
      else if m.spillWords > m.localWords || |m.spillRegs| != SpillSlots then Fail("spill words exceed local words")
      else
        match EmitEntries(maps[1..], bitmaps, num + 1)
        case Done(rest) => Done([EntryFor(m, ret, bitmaps, num)] + rest)
        case Fail(msg) => Fail(msg)
  }

  /** The frame maps of a program and the root the runtime starts from
      (`_sl_rt_frame_maps`, emitted only when there is an entry). */
  datatype FrameMaps = FrameMaps(entries: seq<Entry>, root: Option<nat>)

  function EmitFrameMaps<F>(frags: seq<Fragment.Frag<F, MapInfo>>, bitmaps: map<string, nat>): (r: Outcome<FrameMaps>)
    ensures r.Fail? <==> exists k :: 0 <= k < |FrameMapsOf(frags)| && !Emittable(FrameMapsOf(frags)[k].0)
    ensures r.Done? ==> |r.value.entries| == |FrameMapsOf(frags)|
    ensures r.Done? ==> (r.value.root.Some? <==> |r.value.entries| > 0)
    ensures r.Done? && r.value.root.Some? ==> r.value.root.value == |r.value.entries| - 1
  {
    var maps := FrameMapsOf(frags);
    EmitEntriesFail(maps, bitmaps, 0);
    match EmitEntries(maps, bitmaps, 0)
    case Done(es) => Done(FrameMaps(es, if |es| > 0 then Some(|es| - 1) else None))
    case Fail(msg) =>
      var k :| 0 <= k < |maps| && !Emittable(maps[k].0);
      assert 0 <= k < |FrameMapsOf(frags)| && !Emittable(FrameMapsOf(frags)[k].0);
      Fail(msg)
  }

  /** Emission fails exactly when some map cannot be emitted. */
  lemma {:induction false} EmitEntriesFail(maps: seq<(MapInfo, string)>, bitmaps: map<string, nat>, num: nat)
    ensures EmitEntries(maps, bitmaps, num).Fail? <==> exists k :: 0 <= k < |maps| && !Emittable(maps[k].0)
    decreases |maps|
  {
    if |maps| > 0 {
      var tl := maps[1..];
      EmitEntriesFail(tl, bitmaps, num + 1);
      if exists k :: 0 <= k < |tl| && !Emittable(tl[k].0) {
        var k :| 0 <= k < |tl| && !Emittable(tl[k].0);
        assert maps[k + 1] == tl[k];
      }
      if exists k :: 1 <= k < |maps| && !Emittable(maps[k].0) {
        var k :| 1 <= k < |maps| && !Emittable(maps[k].0);
        assert maps[k] == tl[k - 1];
      }
    }
  }

  /** Entry `k` describes map `k` and links to entry `k - 1`. */
  lemma {:induction false} EmitEntriesContent(maps: seq<(MapInfo, string)>, bitmaps: map<string, nat>, num: nat)
    requires EmitEntries(maps, bitmaps, num).Done?
    ensures forall k :: 0 <= k < |maps| ==>
      Emittable(maps[k].0) &&
      EmitEntries(maps, bitmaps, num).value[k] == EntryFor(maps[k].0, maps[k].1, bitmaps, num + k)
    decreases |maps|
  {
    if |maps| > 0 {
      var tl := maps[1..];
      EmitEntriesContent(tl, bitmaps, num + 1);
      var es, rest := EmitEntries(maps, bitmaps, num).value, EmitEntries(tl, bitmaps, num + 1).value;
      assert es == [EntryFor(maps[0].0, maps[0].1, bitmaps, num)] + rest;
      forall k | 1 <= k < |maps|
        ensures Emittable(maps[k].0) && es[k] == EntryFor(maps[k].0, maps[k].1, bitmaps, num + k)
      {
        assert es[k] == rest[k - 1] && maps[k] == tl[k - 1];
      }
    }
  }

  /** Every header field the runtime reads as a 16-bit number reads back
      as the value emitted. */
  lemma HeaderFieldsFit(maps: seq<(MapInfo, string)>, bitmaps: map<string, nat>, k: nat)
    requires EmitEntries(maps, bitmaps, 0).Done? && k < |maps|
    ensures var e := EmitEntries(maps, bitmaps, 0).value[k];
      e.numArgWords % 0x1_0000 == e.numArgWords &&
      e.numFrameWords % 0x1_0000 == e.numFrameWords &&
      e.numSpillWords % 0x1_0000 == e.numSpillWords
  {
    EmitEntriesContent(maps, bitmaps, 0);
  }
}

=== FILE: assem.dfy ===
/** Machine instructions before register allocation (src/assem.c).

    An instruction keeps its assembly text with `s0`/`d0`-style
    placeholders, the temps it defines and uses, and for an operation the
    labels it may jump to (`None` when it falls through).
 */
module Assem {
  import Temp
  import opened Wrappers
  import ConsList

  /** `assm_instr_t`, one constructor per `ai_tag`. */
  datatype Instr =
    | Oper(assem: string, dst: seq<Temp.Temp>, src: seq<Temp.Temp>, jump: Option<seq<string>>)
    | ILabel(assem: string, name: string)
    | IMove(assem: string, moveDst: Temp.Temp, moveSrc: Temp.Temp)

  /** `ASSM_INSTR_OPER = 1`, `LABEL`, `MOVE`. */
  function InstrTag(i: Instr): (tag: int)
    ensures 1 <= tag <= 3
    ensures tag == 1 <==> i.Oper?
    ensures tag == 2 <==> i.ILabel?
  {
    match i
    case Oper(_, _, _, _) => 1
    case ILabel(_, _) => 2
    case IMove(_, _, _) => 3
  }

  /** The temps an instruction defines. */
  function Defs(i: Instr): seq<Temp.Temp> {
    match i
    case Oper(_, d, _, _) => d
    case ILabel(_, _) => []
    case IMove(_, d, _) => [d]
  }

  /** The temps an instruction uses. */
  function Uses(i: Instr): seq<Temp.Temp> {
    match i
    case Oper(_, _, s, _) => s
    case ILabel(_, _) => []
    case IMove(_, _, s) => [s]
  }

  /** `assm_list_reverse`: `list_rev_go(instrs, NULL)`. */
  function ListReverse(instrs: ConsList.List<Instr>): (r: ConsList.List<Instr>)
    ensures ConsList.Elems(r) == ConsList.Rev(ConsList.Elems(instrs))
    ensures instrs.Nil? ==> r.Nil?
  {
    ConsList.RevGo(instrs, ConsList.Nil)
  }

  /** Reversal keeps the length, and reversing twice gives back the list. */
  lemma ListReverseTwice(instrs: ConsList.List<Instr>)
    ensures |ConsList.Elems(ListReverse(instrs))| == |ConsList.Elems(instrs)|
    ensures ListReverse(ListReverse(instrs)) == instrs
  {
    ConsList.ReverseTwice(instrs);
  }
}

=== FILE: ast.dfy ===
/** The abstract syntax tree (src/ast.c, with the forms src/semantics.c
    uses) and the `ast_printf` format interpreter.

    Declarations, types and expressions are datatypes; the `dl_list` and
    `ex_list` chains are sequences (`dl_append`/`ex_append` are
    `ConsList.Append`).  Symbols are interned in the compiler, so comparing
    two symbol pointers is comparing two strings here.
 */
module Ast {
  import opened Wrappers
  import Decimal
  import ConsList

  /** `sl_type_t`: a named type, a pointer, an array.  `TyFunc` is the
      type `ty_type_func` gives a function name in the root scope. */
  datatype Type = TyName(name: string) | TyPtr(pointee: Type) | TyArray(elem: Type) | TyFunc

  /** The binary-operator tokens of the lexer (`ex_op`). */
  datatype Op =
    | Add | Sub | Mul | Div | BitAnd | BitOr | BitXor | Lsh | Rsh
    | Lt | Gt | Le | Ge | EqOp | NeOp | LAnd | LOr

  /** `sl_expr_t`, one constructor per `ex_tag`. */
  datatype Expr =
    | Int(value: int)
    | Bool(value: int)
    | VoidE
    | BinOp(op: Op, left: Expr, right: Expr)
    | Let(name: string, ann: Type, init: Expr)
    | Call(fn: string, args: seq<Expr>)
    | New(ctor: string, args: seq<Expr>)
    | Var(name: string)
    | Return(result: Option<Expr>)
    | Break
    | Loop(body: seq<Expr>)
    | Deref(arg: Expr)
    | AddrOf(arg: Expr)
    | Member(composite: Expr, member: string)
    | If(cond: Expr, cons: Expr, alt: Expr)

  /** `SL_DECL_PARAM`: a parameter or a struct field. */
  datatype Param = Param(name: string, ty: Type)

  /** `SL_DECL_STRUCT` and `SL_DECL_FUNC`. */
  datatype Decl =
    | Struct(name: string, fields: seq<Param>)
    | Func(name: string, params: seq<Param>, ret: Type, body: seq<Expr>)

  // ---------------------------------------------------------------------
  // ty_print
  // ---------------------------------------------------------------------

  predicate Printable(t: Type) {
    match t
    case TyName(_) => true
    case TyPtr(p) => Printable(p)
    case TyArray(p) => Printable(p)
    case TyFunc => false
  }

  /** `ty_print`: the name; `*` before a pointee; `[]` after an element.
      A function type reaches the "missing case" assertion. */
  function TyPrint(t: Type): (r: Option<string>)
    ensures r.Some? <==> Printable(t)
  {
    match t
    case TyName(n) => Some(n)
    case TyPtr(p) => (match TyPrint(p) case Some(s) => Some("*" + s) case None => None)
    case TyArray(p) => (match TyPrint(p) case Some(s) => Some(s + "[]") case None => None)
    case TyFunc => None
  }

  function Repeat(s: string, n: nat): string {
    if n == 0 then "" else s + Repeat(s, n - 1)
  }

  function Stars(t: Type): nat {
    match t
    case TyPtr(p) => 1 + Stars(p)
    case TyArray(p) => Stars(p)
    case _ => 0
  }

  function Brackets(t: Type): nat {
    match t
    case TyPtr(p) => Brackets(p)
    case TyArray(p) => 1 + Brackets(p)
    case _ => 0
  }

  function BaseName(t: Type): string {
    match t
    case TyName(n) => n
    case TyPtr(p) => BaseName(p)
    case TyArray(p) => BaseName(p)
    case TyFunc => ""
  }

  lemma RepeatSuffix(s: string, n: nat)
    ensures Repeat(s, n) + s == s + Repeat(s, n)
  {
    if n > 0 {
      RepeatSuffix(s, n - 1);
    }
  }

  /** The printed type is every `*` of the type, then the base name, then
      every `[]`, however pointers and arrays nest. */
  lemma {:induction false} TyPrintShape(t: Type)
    requires Printable(t)
    ensures TyPrint(t) == Some(Repeat("*", Stars(t)) + BaseName(t) + Repeat("[]", Brackets(t)))
  {
    match t
    case TyName(n) =>
      assert "" + n + "" == n;
    case TyPtr(p) =>
      TyPrintShape(p);
      var a, b, c := Repeat("*", Stars(p)), BaseName(p), Repeat("[]", Brackets(p));
      assert TyPrint(t) == Some("*" + (a + b + c));
      assert Repeat("*", Stars(t)) == "*" + a;
      assert "*" + (a + b + c) == ("*" + a) + b + c;
    case TyArray(p) =>
      TyPrintShape(p);
      var a, b, c := Repeat("*", Stars(p)), BaseName(p), Repeat("[]", Brackets(p));
      assert TyPrint(t) == Some((a + b + c) + "[]");
      RepeatSuffix("[]", Brackets(p));
      assert Repeat("[]", Brackets(t)) == c + "[]";
      assert (a + b + c) + "[]" == a + b + (c + "[]");
    case TyFunc =>
  }

  /** Hence the printed form does not tell a pointer to an array from an
      array of pointers. */
  lemma TyPrintAmbiguous(n: string)
    ensures TyPrint(TyPtr(TyArray(TyName(n)))) == TyPrint(TyArray(TyPtr(TyName(n))))
    ensures TyPtr(TyArray(TyName(n))) != TyArray(TyPtr(TyName(n)))
  {
    assert TyPrint(TyArray(TyName(n))) == Some(n + "[]");
    assert TyPrint(TyPtr(TyName(n))) == Some("*" + n);
    assert "*" + (n + "[]") == ("*" + n) + "[]";
  }

  // ---------------------------------------------------------------------
  // ast_printf
  // ---------------------------------------------------------------------

  /** A variadic argument.  `%D` and `%E` take the rendering `dl_print`
      and `ex_print` would write. */
  datatype Arg = IntArg(i: int) | StrArg(s: string) | TypeArg(t: Type) | DeclArg(text: string) | ExprArg(text: string)

  /** The `%d` loop as written: `num % 10` is put out first, so the digits
      come least significant first; the do-while prints "0" for zero. */
  function DigitsAsWritten(n: nat): (s: string)
    ensures |s| >= 1
    decreases n
  {
    [Decimal.DigitChar(n % 10)] + (if n / 10 == 0 then "" else DigitsAsWritten(n / 10))
  }

  /** The as-written digits are the decimal numeral backwards. */
  lemma {:induction false} DigitsAsWrittenReversed(n: nat)
    ensures DigitsAsWritten(n) == ConsList.Rev(Decimal.NatToString(n))
    decreases n
  {
    if n >= 10 {
      DigitsAsWrittenReversed(n / 10);
      var h := Decimal.NatToString(n / 10);
      assert Decimal.NatToString(n) == h + [Decimal.DigitChar(n % 10)];
      RevSnoc(h, Decimal.DigitChar(n % 10));
    } else {
      assert Decimal.NatToString(n) == [Decimal.DigitChar(n)];
    }
  }

  lemma RevSnoc(s: string, c: char)
    ensures ConsList.Rev(s + [c]) == [c] + ConsList.Rev(s)
  {
    var t := s + [c];
    assert |ConsList.Rev(t)| == |t|;
    forall k | 0 <= k < |t|
      ensures ConsList.Rev(t)[k] == ([c] + ConsList.Rev(s))[k]
    {
      if k > 0 {
        assert ConsList.Rev(t)[k] == t[|t| - 1 - k] == s[|s| - k];
      }
    }
  }

  /** The rendering of a number by `%d`: as written, or most significant
      digit first. */
  function Digits(n: nat, asWritten: bool): string {
    if asWritten then DigitsAsWritten(n) else Decimal.NatToString(n)
  }

  /** The interpreter loop of `ast_printf`.  It stops at the end of the
      format or at a NUL; a `%` just before the end puts out nothing.
      A negative `%d`, an unknown directive, an unprintable `%T`, or an
      argument missing or of the wrong kind stops the program, so only a
      format with a `%` can fail. */
  function Render(fmt: string, args: seq<Arg>, asWritten: bool): (r: Outcome<string>)
    ensures r.Fail? ==> exists i :: 0 <= i < |fmt| && fmt[i] == '%'
    decreases |fmt|
  {
    if |fmt| == 0 || fmt[0] == '\0' then Done("")
    else if fmt[0] != '%' then
      match Render(fmt[1..], args, asWritten)
      case Done(s) => Done([fmt[0]] + s)
      case Fail(why) =>
        assert forall i :: 0 <= i < |fmt| - 1 ==> fmt[1..][i] == fmt[i + 1];
        Fail(why)
    else if |fmt| == 1 || fmt[1] == '\0' then Done("")
    else
      match Directive(fmt[1], args, asWritten)
      case Fail(why) => Fail(why)
      case Done((out, more)) =>
        match Render(fmt[2..], more, asWritten)
        case Done(s) => Done(out + s)
        case Fail(why) => Fail(why)
  }

  /** One `%c` directive: its text and the arguments left after it.  `%%`
      takes no argument and every other directive takes one. */
  function Directive(c: char, args: seq<Arg>, asWritten: bool): (r: Outcome<(string, seq<Arg>)>)
    ensures r.Done? && c == '%' ==> r.value.1 == args
    ensures r.Done? && c != '%' ==> |args| > 0 && r.value.1 == args[1..]
    ensures r.Done? <==> (c == '%' ||
      (|args| > 0 && ((c == 'd' && args[0].IntArg? && args[0].i >= 0) || (c == 's' && args[0].StrArg?) ||
                      (c == 'D' && args[0].DeclArg?) || (c == 'E' && args[0].ExprArg?) ||
                      (c == 'T' && args[0].TypeArg? && Printable(args[0].t)))))
  {
    match c
    case '%' => Done(("%", args))
    case 'd' =>
      if |args| == 0 || !args[0].IntArg? then Fail("va_arg")
      else if args[0].i < 0 then Fail("TODO: negative numbers")
      else Done((Digits(args[0].i, asWritten), args[1..]))
    case 's' =>
      if |args| == 0 || !args[0].StrArg? then Fail("va_arg")
      else Done((args[0].s, args[1..]))
    case 'D' =>
      if |args| == 0 || !args[0].DeclArg? then Fail("va_arg")
      else Done((args[0].text, args[1..]))
    case 'E' =>
      if |args| == 0 || !args[0].ExprArg? then Fail("va_arg")
      else Done((args[0].text, args[1..]))
    case 'T' =>
      if |args| == 0 || !args[0].TypeArg? then Fail("va_arg")
      else if !Printable(args[0].t) then Fail("ty_print missing case")
      else Done((TyPrint(args[0].t).value, args[1..]))
    case _ => Fail("need to add another fmt specifier")
  }

  /** `ast_printf` as written. */
  function PrintfAsWritten(fmt: string, args: seq<Arg>): (r: Outcome<string>) {
    Render(fmt, args, true)
  }

  /** `ast_printf` with `%d` printing the usual decimal numeral. */
  function Printf(fmt: string, args: seq<Arg>): (r: Outcome<string>) {
    Render(fmt, args, false)
  }

  predicate Plain(fmt: string) {
    forall i :: 0 <= i < |fmt| ==> fmt[i] != '%' && fmt[i] != '\0'
  }

  /** Text without a directive in front of the rest of the format is
      copied in front of whatever the rest renders to. */
  lemma {:induction false} PlainPrefix(pre: string, rest: string, args: seq<Arg>, asWritten: bool)
    requires Plain(pre)
    ensures Render(pre + rest, args, asWritten) ==
              match Render(rest, args, asWritten)
              case Done(s) => Done(pre + s)
              case Fail(why) => Fail(why)
    decreases |pre|
  {
    if |pre| == 0 {
      assert pre + rest == rest;
      var r := Render(rest, args, asWritten);
      if r.Done? {
        assert pre + r.value == r.value;
      }
    } else {
      PlainPrefix(pre[1..], rest, args, asWritten);
      assert (pre + rest)[0] == pre[0];
      assert (pre + rest)[1..] == pre[1..] + rest;
      var r := Render(rest, args, asWritten);
      if r.Done? {
        assert [pre[0]] + (pre[1..] + r.value) == pre + r.value;
      }
    }
  }

  /** Characters other than `%` are copied as they are. */
  lemma PlainCopied(fmt: string, args: seq<Arg>, asWritten: bool)
    requires Plain(fmt)
    ensures Render(fmt, args, asWritten) == Done(fmt)
  {
    PlainPrefix(fmt, "", args, asWritten);
    assert fmt + "" == fmt;
  }

  /** Text, then one directive, then text: what the directive `%c` puts
      out, between the copied text on either side, when it renders to
      `out` without touching the rest of the arguments. */
  lemma DirectiveBetween(pre: string, c: char, post: string, args: seq<Arg>, out: string, asWritten: bool)
    requires Plain(pre) && Plain(post) && c != '\0'
    requires Render("%" + [c], args, asWritten) == Done(out)
    requires c == '%' ==> args == []
    requires c != '%' ==> |args| == 1
    ensures Render(pre + "%" + [c] + post, args, asWritten) == Done(pre + out + post)
  {
    var d := "%" + [c];
    DirectiveThen(c, post, args, out, asWritten);
    PlainPrefix(pre, d + post, args, asWritten);
    assert pre + "%" + [c] + post == pre + (d + post);
    assert pre + (out + post) == pre + out + post;
  }

  /** One directive followed by plain text. */
  lemma DirectiveThen(c: char, post: string, args: seq<Arg>, out: string, asWritten: bool)
    requires Plain(post) && c != '\0'
    requires Render("%" + [c], args, asWritten) == Done(out)
    requires c == '%' ==> args == []
    requires c != '%' ==> |args| == 1
    ensures Render("%" + [c] + post, args, asWritten) == Done(out + post)
  {
    var d := "%" + [c];
    assert d[2..] == [] && (d + post)[2..] == post;
    assert (d + post)[0] == '%' && (d + post)[1] == c;
    if c != '%' {
      assert args[1..] == [];
    }
    assert Render(d[2..], [], asWritten) == Done("");
    var x := Directive(c, args, asWritten);
    assert x.Done? && x.value.1 == [];
    assert out == x.value.0 + "" == x.value.0;
    PlainCopied(post, [], asWritten);
    assert Render(d + post, args, asWritten) == Done(x.value.0 + post);
  }

  /** What each directive puts out on its own. */
  lemma Directives(a: Arg, asWritten: bool)
    ensures Render("%%", [], asWritten) == Done("%")
    ensures a.StrArg? ==> Render("%s", [a], asWritten) == Done(a.s)
    ensures a.IntArg? && a.i >= 0 ==> Render("%d", [a], asWritten) == Done(Digits(a.i, asWritten))
    ensures a.IntArg? && a.i < 0 ==> Render("%d", [a], asWritten).Fail?
    ensures a.TypeArg? && Printable(a.t) ==> Render("%T", [a], asWritten) == Done(TyPrint(a.t).value)
    ensures !a.IntArg? ==> Render("%d", [a], asWritten).Fail?
  {
    assert "%%"[2..] == "%s"[2..] == "%d"[2..] == "%T"[2..] == [];
    assert [a][1..] == [];
    assert Render([], [], asWritten) == Done("");
    assert "%" + "" == "%";
    match a
    case StrArg(x) => assert x + "" == x;
    case IntArg(i) => if i >= 0 { assert Digits(i, asWritten) + "" == Digits(i, asWritten); }
    case TypeArg(t) => if Printable(t) { assert TyPrint(t).value + "" == TyPrint(t).value; }
    case _ =>
  }

  /** A `%` at the very end of the format puts out nothing. */
  lemma TrailingPercent(pre: string, args: seq<Arg>, asWritten: bool)
    requires Plain(pre)
    ensures Render(pre + "%", args, asWritten) == Done(pre)
  {
    PlainPrefix(pre, "%", args, asWritten);
    assert pre + "" == pre;
  }

  /** As written, `%d` prints the decimal numeral backwards; corrected,
      it prints a numeral that reads back as the number printed. */
  lemma PrintfDigits(n: nat)
    ensures PrintfAsWritten("%d", [IntArg(n)]) == Done(ConsList.Rev(Decimal.NatToString(n)))
    ensures Printf("%d", [IntArg(n)]) == Done(Decimal.NatToString(n))
    ensures Decimal.ParseNat(Printf("%d", [IntArg(n)]).value) == n
  {
    Directives(IntArg(n), true);
    Directives(IntArg(n), false);
    DigitsAsWrittenReversed(n);
    Decimal.ParseNatToString(n);
  }

  /** 12 comes out as "21". */
  lemma TwelvePrintsBackwards()
    ensures PrintfAsWritten("%d", [IntArg(12)]) == Done("21")
    ensures Printf("%d", [IntArg(12)]) == Done("12")
  {
    PrintfDigits(12);
    assert Decimal.NatToString(1) == "1";
    assert Decimal.NatToString(12) == Decimal.NatToString(1) + "2";
    assert Decimal.NatToString(12) == "12";
    assert ConsList.Rev("12") == "21";
  }
}

=== FILE: backend.dfy ===
/** What the two code generators share (src/x86_64.c and src/arm64.c have
    the same `munch_args`, `munch_stack_args` and `emit`, over different
    register tables): which temps a call reads its arguments from, where the
    stack arguments are stored, the order the instructions come back in,
    and the meaning of the comparison operators the conditional jumps
    decide.
 */
module Backend {
  import opened Wrappers
  import Temp
  import Tree
  import ConsList
  import Activation

  const WordSize := 8
  const StackAlignment := 16

  // ---------------------------------------------------------------------
  // Stack arguments (munch_stack_args)
  // ---------------------------------------------------------------------

  /** The operand sizes `suff_from_size` has an instruction suffix for
      (src/x86_64.c:139-150, src/arm64.c:140-151); any other size fails its
      assertion. */
  predicate ValidSize(size: nat) {
    size == 1 || size == 2 || size == 4 || size == 8
  }

  /** Every stack argument has a size the store instruction can spell:
      none is larger than a word (the first assertion of
      `munch_stack_args`) and each has a suffix (the assertion in
      `suff_from_size`, which also rules out the size 0 that
      `round_up_size` would divide by). */
  predicate StackSizesOk(sizes: seq<nat>) {
    forall i :: 0 <= i < |sizes| ==> ValidSize(sizes[i])
  }

  /** The running total after the first `k` stack arguments: rounded up
      to each argument's size, then that size added. */
  function End(sizes: seq<nat>, k: nat): nat
    requires k <= |sizes| && StackSizesOk(sizes)
  {
    if k == 0 then 0 else Activation.RoundUp(End(sizes, k - 1), sizes[k - 1]) + sizes[k - 1]
  }

  /** The offset the store of argument `i` uses.  As written, it is the
      running total before rounding; corrected, it is the rounded total,
      the slot the running total accounts for. */
  function StoreOffset(sizes: seq<nat>, i: nat, asWritten: bool): nat
    requires i < |sizes| && StackSizesOk(sizes)
  {
    if asWritten then End(sizes, i) else Activation.RoundUp(End(sizes, i), sizes[i])
  }

  /** The stack area `munch_stack_args` reserves: the total rounded up to
      the stack alignment. */
  function Reserved(sizes: seq<nat>): (r: nat)
    requires StackSizesOk(sizes)
    ensures r % StackAlignment == 0 && r >= End(sizes, |sizes|)
  {
    Activation.RoundUp(End(sizes, |sizes|), StackAlignment)
  }

  /** `munch_stack_args`: the store offsets, or a failure when an argument
      is larger than a word (the assertion before the loop) or has a size
      the store's suffix cannot spell (the assertion in `suff_from_size`). */
  function StackArgs(sizes: seq<nat>, asWritten: bool): (r: Outcome<seq<nat>>)
    ensures r.Done? <==> forall i :: 0 <= i < |sizes| ==> sizes[i] in {1, 2, 4, 8}
    ensures r.Fail? && (exists i :: 0 <= i < |sizes| && sizes[i] > WordSize) ==>
      r.reason == "TODO: larger stack args"
    ensures r.Done? ==>
      |r.value| == |sizes| &&
      forall i :: 0 <= i < |sizes| ==> r.value[i] == StoreOffset(sizes, i, asWritten)
  {
    if exists i :: 0 <= i < |sizes| && sizes[i] > WordSize then Fail("TODO: larger stack args")
    else if !StackSizesOk(sizes) then Fail("invalid size")
    else Done(seq(|sizes|, i requires 0 <= i < |sizes| => StoreOffset(sizes, i, asWritten)))
  }

  lemma {:induction false} EndGrows(sizes: seq<nat>, i: nat, j: nat)
    requires i <= j <= |sizes| && StackSizesOk(sizes)
    ensures End(sizes, i) <= End(sizes, j)
    decreases j - i
  {
    if i < j {
      EndGrows(sizes, i, j - 1);
    }
  }

  /** With the corrected offsets each argument is stored aligned to its
      size, the stored bytes of different arguments do not overlap and come
      in argument order, and all lie inside the reserved area. */
  lemma {:induction false} StackSlotsSound(sizes: seq<nat>, i: nat, j: nat)
    requires StackSizesOk(sizes) && i < j < |sizes|
    ensures StoreOffset(sizes, i, false) % sizes[i] == 0
    ensures StoreOffset(sizes, i, false) + sizes[i] <= StoreOffset(sizes, j, false)
    ensures StoreOffset(sizes, j, false) + sizes[j] <= Reserved(sizes)
  {
    var oi, oj := StoreOffset(sizes, i, false), StoreOffset(sizes, j, false);
    assert End(sizes, i + 1) == oi + sizes[i];
    assert End(sizes, j + 1) == oj + sizes[j];
    EndGrows(sizes, i + 1, j);
    assert End(sizes, j) <= oj;
    EndGrows(sizes, j + 1, |sizes|);
  }

  /** As written, a four-byte argument after a one-byte one is stored at
      offset 1, not at the offset 4 the running total reserves for it, so
      the store is misaligned. */
  lemma StackStoreMisaligned()
    ensures StackArgs([1, 4], true) == Done([0, 1])
    ensures StackArgs([1, 4], false) == Done([0, 4])
    ensures StoreOffset([1, 4], 1, true) % 4 != 0
  {
    assert End([1, 4], 1) == 1;
    assert Activation.RoundUp(1, 4) == 4 by {
      Activation.RoundUpLeast(1, 4, 1);
    }
    assert StackArgs([1, 4], true).value == [0, 1];
    assert StackArgs([1, 4], false).value == [0, 4];
  }

  // ---------------------------------------------------------------------
  // Register arguments (munch_args)
  // ---------------------------------------------------------------------

  /** The temps a call reads its arguments from, starting at argument
      register `idx`: an argument of at most a word goes to the next
      register, sized to it (disposition unset); a larger one fails the
      assertion; once the registers run out the rest go on the stack and
      add no temps.  `sizedMoves` says whether the move into the register
      spells the size in its suffix, as x86-64's `mov%s` does
      (src/x86_64.c:296) and arm64's plain `mov` does not
      (src/arm64.c:288); when it does, a size without a suffix fails. */
  function ArgTemps(regs: seq<int>, sizes: seq<nat>, idx: nat, sizedMoves: bool): (r: Outcome<seq<Temp.Temp>>)
    ensures r.Done? ==> |r.value| <= |sizes|
    ensures r.Done? ==> forall i :: 0 <= i < |r.value| ==> r.value[i].size == sizes[i] <= WordSize
    decreases |sizes|
  {
    if |sizes| == 0 then Done([])
    else if idx < |regs| then
      if sizes[0] <= WordSize then
        if sizedMoves && !ValidSize(sizes[0]) then Fail("invalid size")
        else
          match ArgTemps(regs, sizes[1..], idx + 1, sizedMoves)
          case Done(rest) => Done([Temp.Temp(regs[idx], sizes[0], 0)] + rest)
          case Fail(m) => Fail(m)
      else if sizes[0] <= 2 * WordSize then Fail("TODO: larger arguments")
      else Fail("go away large arguments")
    else
      match StackArgs(sizes, true)
      case Done(_) => Done([])
      case Fail(m) => Fail(m)
  }

  /** The smaller of two counts. */
  function Min(a: nat, b: nat): nat {
    if a <= b then a else b
  }

  /** The argument that makes `munch_args` fail, counted from `idx`: a
      register argument larger than a word, or without a suffix when the
      move spells one; a stack argument without a store suffix. */
  predicate BadArg(regs: seq<int>, sizes: seq<nat>, idx: nat, sizedMoves: bool, i: nat)
    requires i < |sizes|
  {
    if idx + i < |regs| then sizes[i] > WordSize || (sizedMoves && !ValidSize(sizes[i]))
    else !ValidSize(sizes[i])
  }

  /** `munch_args` fails exactly when some argument is too large for its
      register or has a size its move or store cannot spell; otherwise
      argument `i` is read from register `regs[idx + i]`, sized to the
      argument, for as many arguments as there are registers left. */
  lemma {:induction false} ArgTempsMeaning(regs: seq<int>, sizes: seq<nat>, idx: nat, sizedMoves: bool)
    ensures ArgTemps(regs, sizes, idx, sizedMoves).Fail? <==>
      exists i :: 0 <= i < |sizes| && BadArg(regs, sizes, idx, sizedMoves, i)
    ensures ArgTemps(regs, sizes, idx, sizedMoves).Done? ==>
      var ts := ArgTemps(regs, sizes, idx, sizedMoves).value;
      |ts| == Min(|sizes|, if idx < |regs| then |regs| - idx else 0) &&
      forall i :: 0 <= i < |ts| ==> ts[i] == Temp.Temp(regs[idx + i], sizes[i], 0)
    decreases |sizes|
  {
    if |sizes| > 0 {
      if idx < |regs| {
        var tl, next := sizes[1..], idx + 1;
        ArgTempsMeaning(regs, tl, next, sizedMoves);
        forall i | 1 <= i < |sizes|
          ensures BadArg(regs, sizes, idx, sizedMoves, i) == BadArg(regs, tl, next, sizedMoves, i - 1)
        {
        }
        if exists i :: 1 <= i < |sizes| && BadArg(regs, sizes, idx, sizedMoves, i) {
          var i :| 1 <= i < |sizes| && BadArg(regs, sizes, idx, sizedMoves, i);
          assert BadArg(regs, tl, next, sizedMoves, i - 1);
        }
        if exists i :: 0 <= i < |tl| && BadArg(regs, tl, next, sizedMoves, i) {
          var i :| 0 <= i < |tl| && BadArg(regs, tl, next, sizedMoves, i);
          assert BadArg(regs, sizes, idx, sizedMoves, i + 1);
        }
        assert BadArg(regs, sizes, idx, sizedMoves, 0) <==>
          sizes[0] > WordSize || (sizedMoves && !ValidSize(sizes[0]));
      } else {
        forall i | 0 <= i < |sizes| ensures BadArg(regs, sizes, idx, sizedMoves, i) == !ValidSize(sizes[i]) {
        }
        if !StackSizesOk(sizes) {
          var i :| 0 <= i < |sizes| && !ValidSize(sizes[i]);
          assert BadArg(regs, sizes, idx, sizedMoves, i);
        }
      }
    }
  }

  /** On x86-64 a three-byte argument fails even in a register, since its
      move has no suffix, while arm64 passes it; on the stack both fail. */
  lemma OddSizedArguments()
    ensures ArgTemps([7], [3], 0, true).Fail?
    ensures ArgTemps([7], [3], 0, false) == Done([Temp.Temp(7, 3, 0)])
    ensures ArgTemps([], [3], 0, false).Fail?
    ensures StackArgs([3], false).Fail?
  {
    ArgTempsMeaning([7], [3], 0, false);
    assert forall i :: 0 <= i < 1 ==> !BadArg([7], [3], 0, false, i);
    var r := ArgTemps([7], [3], 0, false);
    assert |r.value| == 1 && r.value[0] == Temp.Temp(7, 3, 0);
    assert r.value == [Temp.Temp(7, 3, 0)];
    assert !StackSizesOk([3]) by { assert !ValidSize([3][0]); }
  }

  // ---------------------------------------------------------------------
  // Registers a call clobbers (calldefs)
  // ---------------------------------------------------------------------

  /** A register as a whole word. */
  function Word(id: int): Temp.Temp {
    Temp.Temp(id, WordSize, 0)
  }

  /** Conses each of `ids`, in order, onto the front of `c` as a word. */
  function ConsWords(ids: seq<int>, c: seq<Temp.Temp>): (r: seq<Temp.Temp>)
    ensures |r| == |ids| + |c|
    decreases |ids|
  {
    if |ids| == 0 then c else ConsWords(ids[1..], [Word(ids[0])] + c)
  }

  /** `calldefs`: the caller saves, then the special register, then the
      argument registers: one word for each. */
  function CallDefsOf(args: seq<int>, special: int, callers: seq<int>): (r: seq<Temp.Temp>)
    ensures |r| == |args| + 1 + |callers|
  {
    ConsWords(args, [Word(special)] + ConsWords(callers, []))
  }

  lemma {:induction false} ConsWordsMembers(ids: seq<int>, c: seq<Temp.Temp>, t: Temp.Temp)
    ensures t in ConsWords(ids, c) <==> t in c || (t.id in ids && t == Word(t.id))
    decreases |ids|
  {
    if |ids| > 0 {
      ConsWordsMembers(ids[1..], [Word(ids[0])] + c, t);
      assert ids == [ids[0]] + ids[1..];
    }
  }

  /** The registers a call clobbers are exactly the argument registers,
      the special register and the caller saves, each as a whole word. */
  lemma CallDefsOfMembers(args: seq<int>, special: int, callers: seq<int>, id: int)
    ensures (exists t :: t in CallDefsOf(args, special, callers) && t.id == id) <==>
      id in args || id == special || id in callers
    ensures forall t :: t in CallDefsOf(args, special, callers) ==> t == Word(t.id)
  {
    var inner := [Word(special)] + ConsWords(callers, []);
    forall t ensures t in CallDefsOf(args, special, callers) <==>
      (t.id in args || t.id == special || t.id in callers) && t == Word(t.id)
    {
      ConsWordsMembers(args, inner, t);
      ConsWordsMembers(callers, [], t);
    }
    if id in args || id == special || id in callers {
      assert Word(id) in CallDefsOf(args, special, callers);
    }
  }

  // ---------------------------------------------------------------------
  // Emission order (emit, x86_64_codegen, arm64_codegen)
  // ---------------------------------------------------------------------

  /** The instruction list after emitting `emitted` in order: `emit`
      conses each new instruction onto the front. */
  function Emitted<T>(emitted: seq<T>): ConsList.List<T> {
    if |emitted| == 0 then ConsList.Nil
    else ConsList.Cons(emitted[|emitted| - 1], Emitted(emitted[..|emitted| - 1]))
  }

  /** The code generator reverses the emitted list once at the end
      (`assm_list_reverse`). */
  function Codegen<T>(emitted: seq<T>): ConsList.List<T> {
    ConsList.RevGo(Emitted(emitted), ConsList.Nil)
  }

  lemma {:induction false} EmittedBackwards<T>(emitted: seq<T>)
    ensures ConsList.Elems(Emitted(emitted)) == ConsList.Rev(emitted)
  {
    var n := |emitted|;
    if n > 0 {
      var p := emitted[..n - 1];
      EmittedBackwards(p);
      assert ConsList.Elems(Emitted(emitted)) == [emitted[n - 1]] + ConsList.Rev(p);
      forall i | 0 <= i < n
        ensures ([emitted[n - 1]] + ConsList.Rev(p))[i] == ConsList.Rev(emitted)[i]
      {
        if i > 0 {
          assert ([emitted[n - 1]] + ConsList.Rev(p))[i] == ConsList.Rev(p)[i - 1];
        }
      }
    }
  }

  /** The generated instructions come back in the order they were
      emitted. */
  lemma CodegenInOrder<T>(emitted: seq<T>)
    ensures ConsList.Elems(Codegen(emitted)) == emitted
  {
    EmittedBackwards(emitted);
    ConsList.RevRev(emitted);
  }

  // ---------------------------------------------------------------------
  // What a comparison means
  // ---------------------------------------------------------------------

  const Word64: nat := 0x1_0000_0000_0000_0000

  /** A 64-bit value read as unsigned (the operands are the signed
      values). */
  function Unsigned(a: int): (u: nat)
    ensures u < Word64
  {
    a % Word64
  }

  /** Whether `a op b` holds, `a` the left operand of the CJUMP. */
  predicate Holds(op: Tree.RelOp, a: int, b: int) {
    match op
    case Eq => a == b
    case Ne => a != b
    case Lt => a < b
    case Gt => a > b
    case Le => a <= b
    case Ge => a >= b
    case Ult => Unsigned(a) < Unsigned(b)
    case Ule => Unsigned(a) <= Unsigned(b)
    case Ugt => Unsigned(a) > Unsigned(b)
    case Uge => Unsigned(a) >= Unsigned(b)
  }

  /** Equality and inequality do not depend on the operand order. */
  lemma EqualitySymmetric(op: Tree.RelOp, a: int, b: int)
    requires op == Tree.Eq || op == Tree.Ne
    ensures Holds(op, a, b) == Holds(op, b, a)
  {
  }
}

=== FILE: bitset.dfy ===
/** The bit sets of the liveness pass (src/liveness.c).

    A set of indices below `len` is held in `BitsetLen(len)` 64-bit words:
    index `i` is bit `i & 63` of word `i >> 6`, which for the non-negative
    indices used here are `i % 64` and `i / 64`.  A word is modelled by
    its 64 bits, bit `c` at position `c`; the C operators on `uint64_t`
    become the same operations bit by bit, and `__builtin_popcountll` and
    `__builtin_ctzll` become counting the set bits and finding the lowest.
 */
module Bitset {
  import opened Wrappers

  /** A `uint64_t`, bit `c` at position `c`. */
  type Word = w: seq<bool> | |w| == 64 witness Zero()

  type Words = seq<Word>

  /** The word `0`. */
  function Zero(): (w: seq<bool>)
    ensures |w| == 64 && forall c :: 0 <= c < 64 ==> !w[c]
  {
    seq(64, _ => false)
  }

  /** `x | y`. */
  function Or(x: Word, y: Word): (r: Word)
    ensures forall c :: 0 <= c < 64 ==> (r[c] <==> x[c] || y[c])
  {
    seq(64, c requires 0 <= c < 64 => x[c] || y[c])
  }

  /** `x & ~y`. */
  function AndNot(x: Word, y: Word): (r: Word)
    ensures forall c :: 0 <= c < 64 ==> (r[c] <==> x[c] && !y[c])
  {
    seq(64, c requires 0 <= c < 64 => x[c] && !y[c])
  }

  /** `BitsetLen`: the words needed for `n` elements. */
  function BitsetLen(n: nat): (w: nat)
    ensures w * 64 >= n && w * 64 < n + 64
  {
    (n + 63) / 64
  }

  /** `IsBitSet`. */
  predicate Member(s: Words, i: nat)
    requires i / 64 < |s|
  {
    s[i / 64][i % 64]
  }

  // ---------------------------------------------------------------------
  // Counting and the lowest bit
  // ---------------------------------------------------------------------

  /** The number of set bits of `w` below `b`: `__builtin_popcountll` is
      `PopBelow(w, 64)`. */
  function PopBelow(w: Word, b: nat): nat
    requires b <= 64
  {
    if b == 0 then 0 else PopBelow(w, b - 1) + (if w[b - 1] then 1 else 0)
  }

  /** `__builtin_ctzll` on a non-zero word, searching up from bit `k`. */
  function LowestFrom(w: Word, k: nat): (b: nat)
    requires k <= 64 && exists c :: k <= c < 64 && w[c]
    ensures k <= b < 64 && w[b]
    ensures forall c :: k <= c < b ==> !w[c]
    decreases 64 - k
  {
    if w[k] then k else LowestFrom(w, k + 1)
  }

  /** The number of members below `n`. */
  function CountBelow(s: Words, n: nat): nat
    requires n <= 64 * |s|
  {
    if n == 0 then 0 else CountBelow(s, n - 1) + (if Member(s, n - 1) then 1 else 0)
  }

  /** The popcounts of the first `k` words, added up. */
  function WordsBelow(s: Words, k: nat): nat
    requires k <= |s|
  {
    if k == 0 then 0 else WordsBelow(s, k - 1) + PopBelow(s[k - 1], 64)
  }

  /** Index `64 k + b` is bit `b` of word `k`. */
  lemma MemberOfWord(s: Words, k: nat, b: nat)
    requires k < |s| && b < 64
    ensures (64 * k + b) / 64 == k && (64 * k + b) % 64 == b
    ensures Member(s, 64 * k + b) <==> s[k][b]
  {
  }

  lemma {:induction false} CountWithinWord(s: Words, k: nat, b: nat)
    requires k < |s| && b <= 64
    ensures CountBelow(s, 64 * k + b) == CountBelow(s, 64 * k) + PopBelow(s[k], b)
  {
    if b > 0 {
      CountWithinWord(s, k, b - 1);
      MemberOfWord(s, k, b - 1);
    }
  }

  /** Adding up the popcounts of whole words counts the members. */
  lemma {:induction false} WordsCountMembers(s: Words, k: nat)
    requires k <= |s|
    ensures WordsBelow(s, k) == CountBelow(s, 64 * k)
  {
    if k > 0 {
      WordsCountMembers(s, k - 1);
      CountWithinWord(s, k - 1, 64);
      assert 64 * (k - 1) + 64 == 64 * k;
    }
  }

  lemma {:induction false} CountZero(s: Words, n: nat)
    requires n <= 64 * |s|
    ensures CountBelow(s, n) == 0 <==> forall i: nat :: i < n ==> !Member(s, i)
  {
    if n > 0 {
      CountZero(s, n - 1);
    }
  }

  // ---------------------------------------------------------------------
  // The operations
  // ---------------------------------------------------------------------

  /** `node_set2_clear`. */
  function Clear(n: nat): (s: Words)
    ensures |s| == BitsetLen(n)
    ensures forall i: nat :: i / 64 < |s| ==> !Member(s, i)
  {
    seq(BitsetLen(n), _ => Zero())
  }

  /** `SetBit` (`node_set2_add`): `i` becomes a member and nothing else
      changes. */
  function Add(s: Words, i: nat): (r: Words)
    requires i / 64 < |s|
    ensures |r| == |s| && Member(r, i)
    ensures forall j: nat :: j / 64 < |s| && j != i ==> (Member(r, j) <==> Member(s, j))
  {
    var r := s[i / 64 := s[i / 64][i % 64 := true]];
    forall j: nat | j / 64 < |s| && j != i ensures Member(r, j) <==> Member(s, j) {
      SameSlot(i, j);
    }
    r
  }

  /** `ClearBit` (`node_set2_remove`): `i` stops being a member and nothing
      else changes. */
  function Remove(s: Words, i: nat): (r: Words)
    requires i / 64 < |s|
    ensures |r| == |s| && !Member(r, i)
    ensures forall j: nat :: j / 64 < |s| && j != i ==> (Member(r, j) <==> Member(s, j))
  {
    var r := s[i / 64 := s[i / 64][i % 64 := false]];
    forall j: nat | j / 64 < |s| && j != i ensures Member(r, j) <==> Member(s, j) {
      SameSlot(i, j);
    }
    r
  }

  /** Two different indices differ in their word or in their bit. */
  lemma SameSlot(i: nat, j: nat)
    requires i != j
    ensures i / 64 != j / 64 || i % 64 != j % 64
  {
  }

  /** `node_set2_union`: word-wise OR, from the last word down. */
  method Union(a: Words, b: Words) returns (dst: Words)
    requires |a| == |b|
    ensures |dst| == |a|
    ensures forall j: nat :: j / 64 < |a| ==> (Member(dst, j) <==> Member(a, j) || Member(b, j))
  {
    dst := a;
    var i := |a|;
    while i > 0
      invariant 0 <= i <= |a| && |dst| == |a|
      invariant forall k :: i <= k < |a| ==> dst[k] == Or(a[k], b[k])
    {
      i := i - 1;
      dst := dst[i := Or(a[i], b[i])];
    }
  }

  /** `node_set2_minus`: word-wise AND-NOT, from the last word down. */
  method Minus(a: Words, b: Words) returns (dst: Words)
    requires |a| == |b|
    ensures |dst| == |a|
    ensures forall j: nat :: j / 64 < |a| ==> (Member(dst, j) <==> Member(a, j) && !Member(b, j))
  {
    dst := a;
    var i := |a|;
    while i > 0
      invariant 0 <= i <= |a| && |dst| == |a|
      invariant forall k :: i <= k < |a| ==> dst[k] == AndNot(a[k], b[k])
    {
      i := i - 1;
      dst := dst[i := AndNot(a[i], b[i])];
    }
  }

  /** `node_set2_count`: the popcounts added from the last word down; the
      number of members. */
  method Count(s: Words) returns (total: nat)
    ensures total == CountBelow(s, 64 * |s|)
    ensures total == 0 <==> forall i: nat :: i < 64 * |s| ==> !Member(s, i)
  {
    total := 0;
    var i := |s|;
    while i > 0
      invariant 0 <= i <= |s|
      invariant total + WordsBelow(s, i) == WordsBelow(s, |s|)
    {
      i := i - 1;
      total := total + PopBelow(s[i], 64);
    }
    WordsCountMembers(s, |s|);
    CountZero(s, 64 * |s|);
  }

  /** Sets with the same members have the same words. */
  lemma SameMembersSameWords(s: Words, t: Words, k: nat)
    requires |s| == |t| && k < |s|
    requires forall i: nat :: i / 64 < |s| ==> (Member(s, i) <==> Member(t, i))
    ensures s[k] == t[k]
  {
    forall c | 0 <= c < 64 ensures s[k][c] == t[k][c] {
      MemberOfWord(s, k, c);
      MemberOfWord(t, k, c);
    }
  }

  /** `node_set2_eq`: word by word from the last; true exactly when the two
      sets have the same members. */
  method Equal(s: Words, t: Words) returns (r: bool)
    requires |s| == |t|
    ensures r <==> s == t
    ensures r <==> forall i: nat :: i / 64 < |s| ==> (Member(s, i) <==> Member(t, i))
  {
    var i := |s|;
    while i > 0
      invariant 0 <= i <= |s|
      invariant forall k :: i <= k < |s| ==> s[k] == t[k]
    {
      i := i - 1;
      if s[i] != t[i] {
        if forall j: nat :: j / 64 < |s| ==> (Member(s, j) <==> Member(t, j)) {
          SameMembersSameWords(s, t, i);
        }
        return false;
      }
    }
    assert s == t;
    r := true;
  }

  /** `node_set2_first_idx`: the smallest member; an empty set fails the
      assertion. */
  method FirstIdx(s: Words) returns (r: Outcome<nat>)
    ensures r.Fail? <==> forall i: nat :: i / 64 < |s| ==> !Member(s, i)
    ensures r.Done? ==> r.value / 64 < |s| && Member(s, r.value) &&
                        forall j: nat :: j < r.value ==> !Member(s, j)
  {
    var i := 0;
    while i < |s|
      invariant 0 <= i <= |s|
      invariant forall k :: 0 <= k < i ==> s[k] == Zero()
    {
      if s[i] != Zero() {
        var c :| 0 <= c < 64 && s[i][c] != Zero()[c];
        var b := LowestFrom(s[i], 0);
        MemberOfWord(s, i, b);
        forall j: nat | j < 64 * i + b ensures !Member(s, j) {
          MemberOfWord(s, j / 64, j % 64);
        }
        return Done(64 * i + b);
      }
      i := i + 1;
    }
    r := Fail("set is empty");
  }
}

=== FILE: canonical.dfy ===
/** Canonicalisation of IR trees (src/canonical.c).

    `do_stm`/`do_exp` pull every ESEQ out of a tree: the statements an
    expression needs are hoisted in front of the statement that uses it,
    and an expression whose value could be changed by statements hoisted
    after it is first saved in a fresh temp (`reorder`).  `linear` then
    flattens the nested SEQs into a list, and `basic_blocks` cuts the list
    into blocks that start with a label and end with a jump.

    The temp supply is threaded through as a `Temp.TempState`.
 */
module Canonical {
  import opened Tree
  import Temp

  /** `EXP(CONST 0)`, the statement `reorder` gives for an empty list. */
  const Nop: Stm := ExpS(Const(0))

  /** `is_nop`: an expression statement whose expression is a constant. */
  predicate IsNop(s: Stm) {
    s.ExpS? && s.exp.Const?
  }

  /** `seq`: drops a no-op on either side. */
  function SeqS(s1: Stm, s2: Stm): (r: Stm)
    ensures IsNop(s1) ==> r == s2
    ensures !IsNop(s1) && IsNop(s2) ==> r == s1
    ensures !IsNop(s1) && !IsNop(s2) ==> r == Seq(s1, s2)
  {
    if IsNop(s1) then s2 else if IsNop(s2) then s1 else Seq(s1, s2)
  }

  /** `commute`: `s` cannot change the value of `e`, because `s` does
      nothing or `e` is a name or a constant. */
  predicate Commute(s: Stm, e: Exp) {
    IsNop(s) || e.Name? || e.Const?
  }

  /** The `te_size` the model keeps for an expression: a memory read's, a
      call's, or a temp's own size; other nodes carry none here. */
  function SizeOf(e: Exp): nat {
    match e
    case Mem(_, sz) => sz
    case Call(_, _, sz) => sz
    case TempE(t) => t.size
    case _ => 0
  }

  /** `temp_newtemp` as canonicalisation calls it: the next id, holding a
      value of `size` bytes. */
  function Fresh(ts: Temp.TempState, size: nat): (r: (Temp.Temp, Temp.TempState))
    ensures r.0.id == ts.nextTemp && r.0.size == size
    ensures r.1 == ts.(nextTemp := ts.nextTemp + 1)
  {
    (Temp.Temp(ts.nextTemp, size, 0), ts.(nextTemp := ts.nextTemp + 1))
  }

  // ---------------------------------------------------------------------
  // Sizes, for termination only.
  // ---------------------------------------------------------------------

  function ESize(e: Exp): nat {
    match e
    case BinOpE(_, l, r) => 1 + ESize(l) + ESize(r)
    case Mem(a, _) => 1 + ESize(a)
    case Call(f, args, _) => 1 + ESize(f) + ListSize(args)
    case ESeq(s, x) => 2 + SSize(s) + ESize(x)
    case _ => 1
  }

  function ListSize(es: seq<Exp>): nat {
    if |es| == 0 then 0 else ESize(es[0]) + ListSize(es[1..])
  }

  function SSize(s: Stm): nat {
    match s
    case Move(d, x) => 1 + ESize(d) + ESize(x)
    case ExpS(e) => 1 + ESize(e)
    case Jump(t, _) => 1 + ESize(t)
    case CJump(_, l, r, _, _) => 1 + ESize(l) + ESize(r)
    case Seq(a, b) => 1 + SSize(a) + SSize(b)
    case Label(_) => 1
  }

  lemma ListSizeCons(e: Exp, es: seq<Exp>)
    ensures ListSize([e] + es) == ESize(e) + ListSize(es)
  {
    assert ([e] + es)[1..] == es;
  }

  lemma ListSizeTwo(a: Exp, b: Exp)
    ensures ListSize([a, b]) == ESize(a) + ESize(b) && ListSize([a]) == ESize(a)
  {
    assert [a, b][1..] == [b];
    assert [b][1..] == [] && [a][1..] == [];
    assert ListSize([b]) == ESize(b) + ListSize([]);
    assert ListSize([a]) == ESize(a) + ListSize([]);
  }

  lemma AllWfCons(f: Exp, args: seq<Exp>)
    requires WfE(f) && forall i :: 0 <= i < |args| ==> WfE(args[i])
    ensures AllWf([f] + args)
  {
    forall i | 0 <= i < |[f] + args|
      ensures WfE(([f] + args)[i])
    {
      if i > 0 {
        assert ([f] + args)[i] == args[i - 1];
      }
    }
  }

  // ---------------------------------------------------------------------
  // Shape predicates.
  // ---------------------------------------------------------------------

  predicate NoESeqE(e: Exp) {
    match e
    case ESeq(_, _) => false
    case BinOpE(_, l, r) => NoESeqE(l) && NoESeqE(r)
    case Mem(a, _) => NoESeqE(a)
    case Call(f, args, _) => NoESeqE(f) && forall i :: 0 <= i < |args| ==> NoESeqE(args[i])
    case _ => true
  }

  predicate AllNoESeq(es: seq<Exp>) {
    forall i :: 0 <= i < |es| ==> NoESeqE(es[i])
  }

  predicate NoESeqS(s: Stm) {
    match s
    case Move(d, x) => NoESeqE(d) && NoESeqE(x)
    case ExpS(e) => NoESeqE(e)
    case Jump(t, _) => NoESeqE(t)
    case CJump(_, l, r, _, _) => NoESeqE(l) && NoESeqE(r)
    case Seq(a, b) => NoESeqS(a) && NoESeqS(b)
    case Label(_) => true
  }

  /** A move destination the canonicaliser knows how to take apart: a
      temp, a memory cell, or an ESEQ ending in one. */
  predicate Dest(d: Exp) {
    d.TempE? || d.Mem? || (d.ESeq? && Dest(d.exp))
  }

  /** Every move in the tree has a destination `Dest` accepts (the
      translator only builds such moves). */
  predicate WfE(e: Exp) {
    match e
    case BinOpE(_, l, r) => WfE(l) && WfE(r)
    case Mem(a, _) => WfE(a)
    case Call(f, args, _) => WfE(f) && forall i :: 0 <= i < |args| ==> WfE(args[i])
    case ESeq(s, x) => WfS(s) && WfE(x)
    case _ => true
  }

  predicate AllWf(es: seq<Exp>) {
    forall i :: 0 <= i < |es| ==> WfE(es[i])
  }

  predicate WfS(s: Stm) {
    match s
    case Move(d, x) => Dest(d) && WfE(d) && WfE(x)
    case ExpS(e) => WfE(e)
    case Jump(t, _) => WfE(t)
    case CJump(_, l, r, _, _) => WfE(l) && WfE(r)
    case Seq(a, b) => WfS(a) && WfS(b)
    case Label(_) => true
  }

  /** The temp counter only moves forward and the label counter is not
      touched. */
  predicate Advances(ts: Temp.TempState, ts': Temp.TempState) {
    ts'.nextTemp >= ts.nextTemp && ts'.nextLabel == ts.nextLabel
  }

  /** A leaf that needs no rewriting. */
  predicate Leaf(e: Exp) {
    e.Const? || e.Name? || e.TempE?
  }

  // ---------------------------------------------------------------------
  // The rewriting functions.
  // ---------------------------------------------------------------------

  /** `rebuild_move_temp_call`, with the call's size taken from the
      closure in full (see `RebuildMoveTempCallAsWritten`). */
  function RebuildMoveTempCall(dst: Exp, el: seq<Exp>, callSize: nat): (s: Stm)
    requires |el| >= 1
    ensures s.Move? && s.dst == dst && s.src == Call(el[0], el[1..], callSize)
  {
    Move(dst, Call(el[0], el[1..], callSize))
  }

  /** `reorder`: canonicalises each expression of the list in turn and
      returns the statements to run first and the list of replacement
      expressions, one per input.  The head's statements run first.  When
      the statements hoisted for the rest of the list cannot change the
      head's value, the canonical head stays in place; otherwise it is
      saved in a temp drawn after every temp the list needed, by a move
      that runs between the head's statements and the rest's, and the
      temp replaces it. */
  function Reorder(asWritten: bool, ts: Temp.TempState, es: seq<Exp>): (r: (Stm, seq<Exp>, Temp.TempState))
    ensures |r.1| == |es| && Advances(ts, r.2)
    ensures AllWf(es) ==> NoESeqS(r.0) && AllNoESeq(r.1)
    ensures |es| == 0 ==> r.0 == Nop && r.1 == [] && r.2 == ts
    ensures (forall i :: 0 <= i < |es| ==> Leaf(es[i])) ==> IsNop(r.0) && r.1 == es && r.2 == ts
    ensures |es| > 0 && (es[0].Const? || es[0].Name?) ==> r.1[0] == es[0]
    ensures |es| > 0 ==>
      var (stms, e, ts1) := ReorderHead(asWritten, ts, es[0]);
      var (stms2, el, ts2) := Reorder(asWritten, ts1, es[1..]);
      if Commute(stms2, e) then
        r.0 == SeqS(stms, stms2) && r.1 == [e] + el && r.2 == ts2
      else
        var t := Temp.Temp(ts2.nextTemp, SizeOf(e), 0);
        r.0 == SeqS(SeqS(stms, Move(TempE(t), e)), stms2) && r.1 == [TempE(t)] + el &&
        r.2 == ts2.(nextTemp := t.id + 1)
    decreases ListSize(es), 3
  {
    if |es| == 0 then (Nop, [], ts)
    else
      assert ListSize(es) == ESize(es[0]) + ListSize(es[1..]);
      var (stms, e, ts1) := ReorderHead(asWritten, ts, es[0]);
      var (stms2, el, ts2) := Reorder(asWritten, ts1, es[1..]);
      if Commute(stms2, e) then
        (SeqS(stms, stms2), [e] + el, ts2)
      else
        var (t, ts3) := Fresh(ts2, SizeOf(e));
        (SeqS(SeqS(stms, Move(TempE(t), e)), stms2), [TempE(t)] + el, ts3)
  }

  /** The head of a `reorder` list, canonicalised.  A call is first
      wrapped as `ESEQ(MOVE(TEMP t, call), TEMP t)` with `t` the next
      temp: its statements end by moving the rebuilt call, with as many
      arguments, into `t`, and `TEMP t` stands for it.  Anything else goes
      through `do_exp`. */
  function ReorderHead(asWritten: bool, ts: Temp.TempState, head: Exp): (r: (Stm, Exp, Temp.TempState))
    ensures Advances(ts, r.2)
    ensures WfE(head) ==> NoESeqS(r.0) && NoESeqE(r.1)
    ensures head.Call? ==>
      var t := Temp.Temp(ts.nextTemp, head.size, 0);
      r.1 == TempE(t) && r.2.nextTemp > t.id &&
      LastStm(r.0).Move? && LastStm(r.0).dst == TempE(t) && LastStm(r.0).src.Call? &&
      LastStm(r.0).src.size == (if asWritten then 0 else head.size) &&
      |LastStm(r.0).src.args| == |head.args|
    ensures !head.Call? ==> r == DoExp(asWritten, ts, head)
    decreases ESize(head), 2
  {
    if head.Call? then
      var (t, ts0) := Fresh(ts, head.size);
      ListSizeCons(head.func, head.args);
      var (s, ts0') := MoveTempCall(asWritten, ts0, TempE(t), head.func, head.args, head.size);
      (SeqS(s, Nop), TempE(t), ts0')
    else DoExp(asWritten, ts, head)
  }

  /** `do_stm` on `MOVE(dst, CALL(f, args))`: canonicalises the function
      and its arguments, then moves the rebuilt call into `dst`; the
      move is the statement's last part.  The rebuilt call keeps its size
      under the corrected rules and has size 0 as written. */
  function MoveTempCall(asWritten: bool, ts: Temp.TempState, dst: Exp, f: Exp, args: seq<Exp>, size: nat)
    : (r: (Stm, Temp.TempState))
    requires NoESeqE(dst)
    ensures Advances(ts, r.1)
    ensures WfE(f) && AllWf(args) ==> NoESeqS(r.0)
    ensures LastStm(r.0).Move? && LastStm(r.0).dst == dst && LastStm(r.0).src.Call?
    ensures LastStm(r.0).src.size == (if asWritten then 0 else size) && |LastStm(r.0).src.args| == |args|
    decreases ListSize([f] + args), 4
  {
    var (stms, el, ts1) := Reorder(asWritten, ts, [f] + args);
    var m := if asWritten then RebuildMoveTempCallAsWritten(MoveCallClosure(dst, size), el)
             else RebuildMoveTempCall(dst, el, size);
    LastOfSeq(stms, m);
    if WfE(f) && AllWf(args) then
      AllWfCons(f, args);
      (SeqS(stms, m), ts1)
    else
      (SeqS(stms, m), ts1)
  }

  /** `do_exp`: the statements to run first and an ESEQ-free
      expression with the same value. */
  function DoExp(asWritten: bool, ts: Temp.TempState, e: Exp): (r: (Stm, Exp, Temp.TempState))
    ensures Advances(ts, r.2)
    ensures WfE(e) ==> NoESeqS(r.0) && NoESeqE(r.1)
    ensures Leaf(e) ==> r.0 == Nop && r.1 == e && r.2 == ts
    decreases ESize(e), 1
  {
    match e
    case BinOpE(op, l, rhs) =>
      ListSizeTwo(l, rhs);
      var (stms, el, ts1) := Reorder(asWritten, ts, [l, rhs]);
      (stms, BinOpE(op, el[0], el[1]), ts1)
    case Mem(a, sz) =>
      ListSizeTwo(a, a);
      var (stms, el, ts1) := Reorder(asWritten, ts, [a]);
      (stms, Mem(el[0], sz), ts1)
    case ESeq(s, x) =>
      var (stms, ts1) := DoStm(asWritten, ts, s);
      var (stms2, x', ts2) := DoExp(asWritten, ts1, x);
      (SeqS(stms, stms2), x', ts2)
    case Call(f, args, sz) =>
      ListSizeCons(f, args);
      var (stms, el, ts1) := Reorder(asWritten, ts, [f] + args);
      if WfE(e) then
        AllWfCons(f, args);
        (stms, Call(el[0], el[1..], sz), ts1)
      else
        (stms, Call(el[0], el[1..], sz), ts1)
    case _ =>
      (SeqS(Nop, Nop), e, ts)
  }

  /** `do_stm`: an ESEQ-free statement with the same effect. */
  function DoStm(asWritten: bool, ts: Temp.TempState, s: Stm): (r: (Stm, Temp.TempState))
    ensures Advances(ts, r.1)
    ensures WfS(s) ==> NoESeqS(r.0)
    ensures s.Label? ==> r.0 == s && r.1 == ts
    decreases SSize(s), 1
  {
    match s
    case Seq(a, b) =>
      var (a', ts1) := DoStm(asWritten, ts, a);
      var (b', ts2) := DoStm(asWritten, ts1, b);
      (SeqS(a', b'), ts2)
    case Jump(t, labels) =>
      ListSizeTwo(t, t);
      var (stms, el, ts1) := Reorder(asWritten, ts, [t]);
      (SeqS(stms, Jump(el[0], labels)), ts1)
    case CJump(op, l, rhs, yes, no) =>
      ListSizeTwo(l, rhs);
      var (stms, el, ts1) := Reorder(asWritten, ts, [l, rhs]);
      (SeqS(stms, CJump(op, el[0], el[1], yes, no)), ts1)
    case Move(dst, src) =>
      DoMove(asWritten, ts, dst, src)
    case ExpS(e) =>
      DoExpStm(asWritten, ts, e)
    case Label(_) =>
      (SeqS(Nop, s), ts)
  }

  /** `do_stm` on `MOVE(dst, src)`, by the form of the destination; a
      destination of no known form leaves the statement as it is. */
  function DoMove(asWritten: bool, ts: Temp.TempState, dst: Exp, src: Exp): (r: (Stm, Temp.TempState))
    ensures Advances(ts, r.1)
    ensures WfS(Move(dst, src)) ==> NoESeqS(r.0)
    decreases SSize(Move(dst, src)), 0
  {
    if dst.TempE? && src.Call? then
      ListSizeCons(src.func, src.args);
      assert ESize(src) == 1 + ESize(src.func) + ListSize(src.args);
      assert WfE(src) ==> WfE(src.func) && AllWf(src.args);
      MoveTempCall(asWritten, ts, dst, src.func, src.args, src.size)
    else if dst.TempE? then
      ListSizeTwo(src, src);
      var (stms, el, ts1) := Reorder(asWritten, ts, [src]);
      (SeqS(stms, Move(dst, el[0])), ts1)
    else if dst.Mem? then
      ListSizeTwo(dst.addr, src);
      assert ESize(dst) == 1 + ESize(dst.addr);
      assert WfE(dst) ==> WfE(dst.addr);
      var (stms, el, ts1) := Reorder(asWritten, ts, [dst.addr, src]);
      (SeqS(stms, Move(Mem(el[0], dst.size), el[1])), ts1)
    else if dst.ESeq? then
      var s' := Seq(dst.stm, Move(dst.exp, src));
      assert SSize(s') < SSize(Move(dst, src)) by {
        assert ESize(dst) == 2 + SSize(dst.stm) + ESize(dst.exp);
      }
      assert WfE(dst) ==> WfS(dst.stm) && WfE(dst.exp);
      assert Dest(dst) ==> Dest(dst.exp);
      assert WfS(Move(dst, src)) ==> WfS(s');
      DoStm(asWritten, ts, s')
    else
      (SeqS(Nop, Move(dst, src)), ts)
  }

  /** `do_stm` on `EXP(e)`: a call keeps its place as a statement;
      anything else is canonicalised as a one-element list. */
  function DoExpStm(asWritten: bool, ts: Temp.TempState, e: Exp): (r: (Stm, Temp.TempState))
    ensures Advances(ts, r.1)
    ensures WfE(e) ==> NoESeqS(r.0)
    decreases SSize(ExpS(e)), 0
  {
    if e.Call? then
      ListSizeCons(e.func, e.args);
      assert ESize(e) == 1 + ESize(e.func) + ListSize(e.args);
      var (stms, el, ts1) := Reorder(asWritten, ts, [e.func] + e.args);
      if WfE(e) then
        AllWfCons(e.func, e.args);
        (SeqS(stms, ExpS(Call(el[0], el[1..], e.size))), ts1)
      else
        (SeqS(stms, ExpS(Call(el[0], el[1..], e.size))), ts1)
    else
      ListSizeTwo(e, e);
      var (stms, el, ts1) := Reorder(asWritten, ts, [e]);
      (SeqS(stms, ExpS(el[0])), ts1)
  }

  /** The statement a tree of SEQs runs last. */
  function LastStm(s: Stm): Stm {
    if s.Seq? then LastStm(s.second) else s
  }

  lemma LastOfSeq(a: Stm, b: Stm)
    requires !IsNop(b)
    ensures LastStm(SeqS(a, b)) == LastStm(b)
  {
  }

  // ---------------------------------------------------------------------
  // linear
  // ---------------------------------------------------------------------

  /** Reference flattening of a SEQ tree, left to right. */
  function Flatten(s: Stm): (r: seq<Stm>)
    ensures |r| >= 1
  {
    if s.Seq? then Flatten(s.first) + Flatten(s.second) else [s]
  }

  predicate NoSeq(l: seq<Stm>) {
    forall i :: 0 <= i < |l| ==> !l[i].Seq?
  }

  /** `linear`: conses the leaves of the SEQ tree `head` onto `tail`,
      rightmost first. */
  function Linear(head: Stm, tail: seq<Stm>): (r: seq<Stm>)
    ensures r == Flatten(head) + tail
    ensures NoSeq(tail) ==> NoSeq(r)
  {
    if head.Seq? then
      var r := Linear(head.first, Linear(head.second, tail));
      assert Flatten(head) + tail == Flatten(head.first) + (Flatten(head.second) + tail);
      r
    else [head] + tail
  }

  /** The statements of a tree other than no-ops. */
  function Effects(l: seq<Stm>): seq<Stm> {
    if |l| == 0 then [] else (if IsNop(l[0]) then [] else [l[0]]) + Effects(l[1..])
  }

  lemma {:induction false} EffectsAppend(a: seq<Stm>, b: seq<Stm>)
    ensures Effects(a + b) == Effects(a) + Effects(b)
  {
    if |a| == 0 {
      assert a + b == b;
    } else {
      assert (a + b)[1..] == a[1..] + b;
      EffectsAppend(a[1..], b);
    }
  }

  /** `seq` loses nothing but no-ops: the effects of the combined
      statement are those of the first followed by those of the second. */
  lemma SeqKeepsEffects(s1: Stm, s2: Stm)
    ensures Effects(Flatten(SeqS(s1, s2))) == Effects(Flatten(s1)) + Effects(Flatten(s2))
  {
    EffectsAppend(Flatten(s1), Flatten(s2));
    if IsNop(s1) {
      assert Effects(Flatten(s1)) == [];
    } else if IsNop(s2) {
      assert Effects(Flatten(s2)) == [];
    }
  }

  /** `linearise`: `linear(do_stm(s), NULL)`, a list with neither SEQ nor
      ESEQ. */
  function Linearise(asWritten: bool, ts: Temp.TempState, s: Stm): (r: (seq<Stm>, Temp.TempState))
    ensures |r.0| >= 1 && NoSeq(r.0) && Advances(ts, r.1)
    ensures WfS(s) ==> forall i :: 0 <= i < |r.0| ==> NoESeqS(r.0[i])
  {
    var (s', ts1) := DoStm(asWritten, ts, s);
    FlattenKeepsNoESeq(s');
    (Linear(s', []), ts1)
  }

  lemma {:induction false} FlattenKeepsNoESeq(s: Stm)
    ensures NoESeqS(s) ==> forall i :: 0 <= i < |Flatten(s)| ==> NoESeqS(Flatten(s)[i])
  {
    if s.Seq? {
      FlattenKeepsNoESeq(s.first);
      FlattenKeepsNoESeq(s.second);
    }
  }

  // ---------------------------------------------------------------------
  // The call-size closure of rebuild_move_temp_call.
  // ---------------------------------------------------------------------

  /** The closure `do_stm` builds for `MOVE(TEMP t, CALL ...)`:
      `{temp, call_size}`, two machine words. */
  datatype MoveCallClosure = MoveCallClosure(temp: Exp, callSize: nat)

  /** `memcpy` of the first `words` machine words of the closure into a
      zeroed copy. */
  function CopyWords(cl: MoveCallClosure, words: nat): (r: MoveCallClosure)
    ensures words >= 2 ==> r == cl
    ensures words == 1 ==> r == MoveCallClosure(cl.temp, 0)
  {
    MoveCallClosure(if words >= 1 then cl.temp else Const(0), if words >= 2 then cl.callSize else 0)
  }

  /** `sizeof` a pointer and of the closure, in words. */
  const PointerWords := 1
  const ClosureWords := 2

  /** `rebuild_move_temp_call` as written: `memcpy(&cl_, cl, sizeof cl)`
      measures the pointer `cl`, not the closure, so only the temp is
      copied and the rebuilt call has size 0 whatever size it had. */
  function RebuildMoveTempCallAsWritten(cl: MoveCallClosure, el: seq<Exp>): (s: Stm)
    requires |el| >= 1
    ensures s.Move? && s.dst == cl.temp && s.src.Call? && s.src.size == 0
  {
    var cl' := CopyWords(cl, PointerWords);
    Move(cl'.temp, Call(el[0], el[1..], cl'.callSize))
  }

  /** With the whole closure copied, the rebuilt move keeps the size of the
      call it replaces; as written, a call returning four bytes comes back
      with size 0. */
  lemma MoveTempCallKeepsSize(t: Temp.Temp, f: Exp, size: nat)
    requires size > 0
    ensures var cl := MoveCallClosure(TempE(t), size);
      var fixed := CopyWords(cl, ClosureWords);
      RebuildMoveTempCall(fixed.temp, [f], fixed.callSize) == Move(TempE(t), Call(f, [], size)) &&
      RebuildMoveTempCallAsWritten(cl, [f]) == Move(TempE(t), Call(f, [], 0))
  {
  }

  // ---------------------------------------------------------------------
  // basic_blocks
  // ---------------------------------------------------------------------

  predicate IsJump(s: Stm) {
    s.Jump? || s.CJump?
  }

  /** The index of the last statement before the next label (or of the
      last statement): the dead code after a jump. */
  function SkipDead(stmts: seq<Stm>, i: nat): (j: nat)
    requires i < |stmts|
    ensures i <= j < |stmts|
    ensures j + 1 == |stmts| || stmts[j + 1].Label?
    ensures forall k :: i < k <= j ==> !stmts[k].Label?
    decreases |stmts| - i
  {
    if i + 1 < |stmts| && !stmts[i + 1].Label? then SkipDead(stmts, i + 1) else i
  }

  /** The block's closing jump when the block does not end in one: to the
      next statement's label, or to `done` at the end. */
  function CloseBlock(stmts: seq<Stm>, i: nat, curr: seq<Stm>, done: string): (b: seq<Stm>)
    requires i < |stmts| && (i + 1 == |stmts| || stmts[i + 1].Label?) && |curr| >= 1
    ensures |b| == |curr| || (|b| == |curr| + 1 && !IsJump(curr[|curr| - 1]))
    ensures IsJump(b[|b| - 1]) && b[..|curr|] == curr
  {
    if IsJump(curr[|curr| - 1]) then curr
    else curr + [JumpTo(if i + 1 < |stmts| then stmts[i + 1].name else done)]
  }

  /** The loop of `basic_blocks` as written, from statement `i` with the
      block under construction `curr` and the finished blocks `acc`.
      After a jump followed by dead code the block is not closed: the
      next label joins it, and if the list ends instead the block is
      never appended. */
  function BlocksAsWritten(stmts: seq<Stm>, i: nat, curr: seq<Stm>, acc: seq<seq<Stm>>, done: string)
    : (r: seq<seq<Stm>>)
    requires i <= |stmts|
    ensures |r| >= |acc| && r[..|acc|] == acc
    decreases |stmts| - i
  {
    if i == |stmts| then acc
    else
      var s := stmts[i];
      var curr' := curr + [s];
      if i + 1 == |stmts| || stmts[i + 1].Label? then
        BlocksAsWritten(stmts, i + 1, [], acc + [CloseBlock(stmts, i, curr', done)], done)
      else if IsJump(s) then
        BlocksAsWritten(stmts, SkipDead(stmts, i) + 1, curr', acc, done)
      else
        BlocksAsWritten(stmts, i + 1, curr', acc, done)
  }

  /** The corrected loop: a jump followed by dead code closes its block
      before the dead code is skipped. */
  function Blocks(stmts: seq<Stm>, i: nat, curr: seq<Stm>, acc: seq<seq<Stm>>, done: string)
    : (r: seq<seq<Stm>>)
    requires i <= |stmts|
    ensures |r| >= |acc| && r[..|acc|] == acc
    decreases |stmts| - i
  {
    if i == |stmts| then acc
    else
      var s := stmts[i];
      var curr' := curr + [s];
      if i + 1 == |stmts| || stmts[i + 1].Label? then
        Blocks(stmts, i + 1, [], acc + [CloseBlock(stmts, i, curr', done)], done)
      else if IsJump(s) then
        Blocks(stmts, SkipDead(stmts, i) + 1, [], acc + [curr'], done)
      else
        Blocks(stmts, i + 1, curr', acc, done)
  }

  /** A well-formed block: a label, then statements that are neither
      labels nor jumps, then a jump. */
  predicate BlockOk(b: seq<Stm>) {
    |b| >= 2 && b[0].Label? && IsJump(b[|b| - 1]) &&
    forall k :: 0 < k < |b| - 1 ==> !b[k].Label? && !IsJump(b[k])
  }

  /** The block under construction: empty at a label, or a label followed
      by plain statements. */
  predicate Open(curr: seq<Stm>) {
    |curr| == 0 || (curr[0].Label? && forall k :: 0 < k < |curr| ==> !curr[k].Label? && !IsJump(curr[k]))
  }

  lemma {:induction false} BlocksWellFormed(stmts: seq<Stm>, i: nat, curr: seq<Stm>, acc: seq<seq<Stm>>, done: string)
    requires i <= |stmts| && Open(curr)
    requires i < |stmts| && |curr| == 0 ==> stmts[i].Label?
    requires i < |stmts| && |curr| > 0 ==> !stmts[i].Label?
    requires forall n :: 0 <= n < |acc| ==> BlockOk(acc[n])
    ensures forall n :: 0 <= n < |Blocks(stmts, i, curr, acc, done)| ==> BlockOk(Blocks(stmts, i, curr, acc, done)[n])
    decreases |stmts| - i
  {
    if i < |stmts| {
      var s := stmts[i];
      var curr' := curr + [s];
      assert curr'[0].Label?;
      if i + 1 == |stmts| || stmts[i + 1].Label? {
        var b := CloseBlock(stmts, i, curr', done);
        assert BlockOk(b) by {
          if IsJump(s) {
            assert |curr| > 0;
          } else {
            assert b == curr' + [b[|b| - 1]];
          }
        }
        BlocksWellFormed(stmts, i + 1, [], acc + [b], done);
      } else if IsJump(s) {
        assert |curr| > 0;
        BlocksWellFormed(stmts, SkipDead(stmts, i) + 1, [], acc + [curr'], done);
      } else {
        BlocksWellFormed(stmts, i + 1, curr', acc, done);
      }
    }
  }

  /** The statements control can reach under the rule `basic_blocks`
      follows: after a jump, everything up to the next label is dead.
      `dead` says whether the list starts inside such a run. */
  function LiveFrom(stmts: seq<Stm>, dead: bool): (r: seq<Stm>)
    ensures |r| <= |stmts|
    decreases |stmts|
  {
    if |stmts| == 0 then []
    else if stmts[0].Label? then [stmts[0]] + LiveFrom(stmts[1..], false)
    else if dead then LiveFrom(stmts[1..], true)
    else [stmts[0]] + LiveFrom(stmts[1..], IsJump(stmts[0]))
  }

  function Live(stmts: seq<Stm>): seq<Stm> {
    LiveFrom(stmts, false)
  }

  /** A list of live statements with a jump added after each one that is
      not a jump but ends its block, because a label or the end of the
      list comes next: to that label, or to `done`. */
  function AddJumps(l: seq<Stm>, done: string): seq<Stm>
    decreases |l|
  {
    if |l| == 0 then []
    else
      var closes := !IsJump(l[0]) && (|l| == 1 || l[1].Label?);
      [l[0]] + (if closes then [JumpTo(if |l| == 1 then done else l[1].name)] else []) + AddJumps(l[1..], done)
  }

  /** The statements of a list of blocks, end to end. */
  function Concat(bs: seq<seq<Stm>>): seq<Stm> {
    if |bs| == 0 then [] else Concat(bs[..|bs| - 1]) + bs[|bs| - 1]
  }

  lemma ConcatSnoc(bs: seq<seq<Stm>>, b: seq<Stm>)
    ensures Concat(bs + [b]) == Concat(bs) + b
  {
    assert (bs + [b])[..|bs|] == bs;
  }

  /** At a label, or at the end, it makes no difference whether the list
      started in dead code. */
  lemma LiveAtLabel(stmts: seq<Stm>, dead: bool)
    requires |stmts| == 0 || stmts[0].Label?
    ensures LiveFrom(stmts, dead) == LiveFrom(stmts, false)
  {
  }

  /** The dead run after a jump at `i`, up to `j`, contributes nothing. */
  lemma {:induction false} LiveSkipsDead(stmts: seq<Stm>, i: nat, j: nat)
    requires i <= j < |stmts|
    requires forall k :: i < k <= j ==> !stmts[k].Label?
    requires j + 1 == |stmts| || stmts[j + 1].Label?
    ensures LiveFrom(stmts[i + 1..], true) == LiveFrom(stmts[j + 1..], false)
    decreases j - i
  {
    if i == j {
      LiveAtLabel(stmts[j + 1..], true);
    } else {
      assert stmts[i + 1..][1..] == stmts[i + 2..];
      assert !stmts[i + 1..][0].Label?;
      LiveSkipsDead(stmts, i + 1, j);
    }
  }

  /** One step of `Live` from statement `i`: it is kept, and the rest is
      dead when it is a jump. */
  lemma LiveStep(stmts: seq<Stm>, i: nat)
    requires i < |stmts|
    ensures Live(stmts[i..]) == [stmts[i]] + LiveFrom(stmts[i + 1..], IsJump(stmts[i]))
  {
    assert stmts[i..][0] == stmts[i] && stmts[i..][1..] == stmts[i + 1..];
  }

  /** One step of `AddJumps`. */
  lemma AddJumpsCons(s: Stm, l: seq<Stm>, done: string)
    ensures AddJumps([s] + l, done) ==
      [s] + (if !IsJump(s) && (|l| == 0 || l[0].Label?) then [JumpTo(if |l| == 0 then done else l[0].name)] else []) +
      AddJumps(l, done)
  {
    assert ([s] + l)[1..] == l;
  }

  /** The live statements from a statement that is not a label start with
      it. */
  lemma LiveHead(stmts: seq<Stm>, dead: bool)
    requires |stmts| > 0 && (stmts[0].Label? || !dead)
    ensures |LiveFrom(stmts, dead)| > 0 && LiveFrom(stmts, dead)[0] == stmts[0]
  {
  }

  /** The jump `CloseBlock` adds after statement `i`, before a label or
      the end: none after a jump. */
  function Closing(stmts: seq<Stm>, i: nat, done: string): seq<Stm>
    requires i < |stmts| && (i + 1 == |stmts| || stmts[i + 1].Label?)
  {
    if IsJump(stmts[i]) then [] else [JumpTo(if i + 1 < |stmts| then stmts[i + 1].name else done)]
  }

  /** Statement `i`, before a label or the end, is live and followed by
      its closing jump. */
  lemma CloseStepJumps(stmts: seq<Stm>, i: nat, done: string)
    requires i < |stmts| && (i + 1 == |stmts| || stmts[i + 1].Label?)
    ensures AddJumps(Live(stmts[i..]), done) == [stmts[i]] + Closing(stmts, i, done) + AddJumps(Live(stmts[i + 1..]), done)
  {
    var s, rest := stmts[i], stmts[i + 1..];
    LiveStep(stmts, i);
    LiveAtLabel(rest, IsJump(s));
    AddJumpsCons(s, Live(rest), done);
    if i + 1 < |stmts| {
      LiveHead(rest, false);
    } else {
      assert rest == [];
    }
  }

  /** Closing the block at statement `i`, before a label or the end,
      adds the statement and its closing jump. */
  lemma CloseStepKeepsLive(stmts: seq<Stm>, i: nat, curr: seq<Stm>, acc: seq<seq<Stm>>, done: string)
    requires i < |stmts| && (i + 1 == |stmts| || stmts[i + 1].Label?)
    ensures Concat(acc + [CloseBlock(stmts, i, curr + [stmts[i]], done)]) + AddJumps(Live(stmts[i + 1..]), done) ==
      Concat(acc) + curr + AddJumps(Live(stmts[i..]), done)
  {
    var b := CloseBlock(stmts, i, curr + [stmts[i]], done);
    assert b == curr + ([stmts[i]] + Closing(stmts, i, done));
    ConcatSnoc(acc, b);
    CloseStepJumps(stmts, i, done);
    Regroup(Concat(acc), curr, [stmts[i]] + Closing(stmts, i, done), AddJumps(Live(stmts[i + 1..]), done));
  }

  /** Closing the block at a jump at `i` and skipping the dead run up to
      `j` adds the jump alone. */
  lemma JumpStepKeepsLive(stmts: seq<Stm>, i: nat, j: nat, curr: seq<Stm>, acc: seq<seq<Stm>>, done: string)
    requires i <= j < |stmts| && IsJump(stmts[i])
    requires forall k :: i < k <= j ==> !stmts[k].Label?
    requires j + 1 == |stmts| || stmts[j + 1].Label?
    ensures Concat(acc + [curr + [stmts[i]]]) + AddJumps(Live(stmts[j + 1..]), done) ==
      Concat(acc) + curr + AddJumps(Live(stmts[i..]), done)
  {
    ConcatSnoc(acc, curr + [stmts[i]]);
    LiveStep(stmts, i);
    LiveSkipsDead(stmts, i, j);
    AddJumpsCons(stmts[i], Live(stmts[j + 1..]), done);
  }

  /** A statement that neither jumps nor ends its block is added alone. */
  lemma PlainStepKeepsLive(stmts: seq<Stm>, i: nat, done: string)
    requires i + 1 < |stmts| && !stmts[i + 1].Label? && !IsJump(stmts[i])
    ensures [stmts[i]] + AddJumps(Live(stmts[i + 1..]), done) == AddJumps(Live(stmts[i..]), done)
  {
    LiveStep(stmts, i);
    LiveHead(stmts[i + 1..], false);
    AddJumpsCons(stmts[i], Live(stmts[i + 1..]), done);
  }

  /** What `BlocksKeepLive` states, from loop state (`i`, `curr`,
      `acc`). */
  predicate KeepsLive(stmts: seq<Stm>, i: nat, curr: seq<Stm>, acc: seq<seq<Stm>>, done: string)
    requires i <= |stmts|
  {
    Concat(Blocks(stmts, i, curr, acc, done)) == Concat(acc) + curr + AddJumps(Live(stmts[i..]), done)
  }

  lemma CloseBranchKeepsLive(stmts: seq<Stm>, i: nat, curr: seq<Stm>, acc: seq<seq<Stm>>, done: string)
    requires i < |stmts| && (i + 1 == |stmts| || stmts[i + 1].Label?)
    requires KeepsLive(stmts, i + 1, [], acc + [CloseBlock(stmts, i, curr + [stmts[i]], done)], done)
    ensures KeepsLive(stmts, i, curr, acc, done)
  {
    var acc' := acc + [CloseBlock(stmts, i, curr + [stmts[i]], done)];
    assert Blocks(stmts, i, curr, acc, done) == Blocks(stmts, i + 1, [], acc', done);
    assert Concat(acc') + [] == Concat(acc');
    CloseStepKeepsLive(stmts, i, curr, acc, done);
  }

  lemma JumpBranchKeepsLive(stmts: seq<Stm>, i: nat, curr: seq<Stm>, acc: seq<seq<Stm>>, done: string)
    requires i + 1 < |stmts| && !stmts[i + 1].Label? && IsJump(stmts[i])
    requires KeepsLive(stmts, SkipDead(stmts, i) + 1, [], acc + [curr + [stmts[i]]], done)
    ensures KeepsLive(stmts, i, curr, acc, done)
  {
    var j := SkipDead(stmts, i);
    var acc' := acc + [curr + [stmts[i]]];
    assert Blocks(stmts, i, curr, acc, done) == Blocks(stmts, j + 1, [], acc', done);
    assert Concat(acc') + [] == Concat(acc');
    JumpStepKeepsLive(stmts, i, j, curr, acc, done);
  }

  lemma PlainBranchKeepsLive(stmts: seq<Stm>, i: nat, curr: seq<Stm>, acc: seq<seq<Stm>>, done: string)
    requires i + 1 < |stmts| && !stmts[i + 1].Label? && !IsJump(stmts[i])
    requires KeepsLive(stmts, i + 1, curr + [stmts[i]], acc, done)
    ensures KeepsLive(stmts, i, curr, acc, done)
  {
    assert Blocks(stmts, i, curr, acc, done) == Blocks(stmts, i + 1, curr + [stmts[i]], acc, done);
    PlainStepKeepsLive(stmts, i, done);
    Regroup(Concat(acc), curr, [stmts[i]], AddJumps(Live(stmts[i + 1..]), done));
  }

  lemma Regroup(a: seq<Stm>, b: seq<Stm>, c: seq<Stm>, d: seq<Stm>)
    ensures a + (b + c) + d == a + b + (c + d)
  {
  }

  /** The corrected loop keeps exactly the live statements, in order, and
      adds only the jumps that close blocks: the blocks it returns, end to
      end, are the finished blocks, then the block under construction,
      then the live statements from `i` with their closing jumps. */
  lemma {:induction false} BlocksKeepLive(stmts: seq<Stm>, i: nat, curr: seq<Stm>, acc: seq<seq<Stm>>, done: string)
    requires i <= |stmts|
    requires i == |stmts| ==> curr == []
    ensures Concat(Blocks(stmts, i, curr, acc, done)) == Concat(acc) + curr + AddJumps(Live(stmts[i..]), done)
    decreases |stmts| - i
  {
    if i == |stmts| {
      assert stmts[i..] == [];
    } else if i + 1 == |stmts| || stmts[i + 1].Label? {
      BlocksKeepLive(stmts, i + 1, [], acc + [CloseBlock(stmts, i, curr + [stmts[i]], done)], done);
      CloseBranchKeepsLive(stmts, i, curr, acc, done);
    } else if IsJump(stmts[i]) {
      BlocksKeepLive(stmts, SkipDead(stmts, i) + 1, [], acc + [curr + [stmts[i]]], done);
      JumpBranchKeepsLive(stmts, i, curr, acc, done);
    } else {
      BlocksKeepLive(stmts, i + 1, curr + [stmts[i]], acc, done);
      PlainBranchKeepsLive(stmts, i, curr, acc, done);
    }
  }

  /** `basic_blocks`: draws the `done` label, puts a fresh label in front
      of a list that does not start with one, and cuts the list into
      blocks, by the loop as written or by the corrected one; returns the
      blocks and `done`.  `stmts` is the non-empty output of `linearise`.
      Under the corrected loop every block is well formed, and the blocks
      end to end are the live statements, after the start label when one
      was added, with the jumps that close blocks. */
  function BasicBlocks(asWritten: bool, ts: Temp.TempState, stmts: seq<Stm>): (r: (seq<seq<Stm>>, string, Temp.TempState))
    requires |stmts| >= 1 && ts.nextLabel >= 0
    ensures !asWritten ==> forall n :: 0 <= n < |r.0| ==> BlockOk(r.0[n])
    ensures r.1 == Temp.NewLabel(ts).0
    ensures r.2.nextTemp == ts.nextTemp
    ensures r.2.nextLabel == ts.nextLabel + (if stmts[0].Label? then 1 else 2)
    ensures !asWritten ==>
      var body := if stmts[0].Label? then stmts else [Label(Temp.NewLabel(Temp.NewLabel(ts).1).0)] + stmts;
      Concat(r.0) == AddJumps(Live(body), r.1)
  {
    var (done, ts1) := Temp.NewLabel(ts);
    var (body, ts2) :=
      if stmts[0].Label? then (stmts, ts1)
      else
        var (start, ts2) := Temp.NewLabel(ts1);
        ([Label(start)] + stmts, ts2);
    if asWritten then
      (BlocksAsWritten(body, 0, [], [], done), done, ts2)
    else
      BlocksWellFormed(body, 0, [], [], done);
      BlocksKeepLive(body, 0, [], [], done);
      assert body[0..] == body;
      (Blocks(body, 0, [], [], done), done, ts2)
  }

  /** As written, a jump followed by dead code at the end of the list
      loses its block: nothing comes back for `L: JUMP M; EXP 1`, though
      `L` and the jump are live, where the corrected loop returns the
      block `L: JUMP M`. */
  lemma TrailingDeadCodeLosesBlock(l: string, m: string, done: string)
    ensures var stmts := [Label(l), JumpTo(m), ExpS(Const(1))];
      BlocksAsWritten(stmts, 0, [], [], done) == [] &&
      Blocks(stmts, 0, [], [], done) == [[Label(l), JumpTo(m)]] &&
      AddJumps(Live(stmts), done) == [Label(l), JumpTo(m)]
  {
    var stmts := [Label(l), JumpTo(m), ExpS(Const(1))];
    assert SkipDead(stmts, 1) == 2;
    assert [] + [Label(l)] == [Label(l)] && [Label(l)] + [JumpTo(m)] == [Label(l), JumpTo(m)];
    assert [] + [[Label(l), JumpTo(m)]] == [[Label(l), JumpTo(m)]];
    assert BlocksAsWritten(stmts, 0, [], [], done) == BlocksAsWritten(stmts, 1, [Label(l)], [], done);
    assert BlocksAsWritten(stmts, 1, [Label(l)], [], done) == BlocksAsWritten(stmts, 3, [Label(l), JumpTo(m)], [], done);
    assert Blocks(stmts, 0, [], [], done) == Blocks(stmts, 1, [Label(l)], [], done);
    assert Blocks(stmts, 1, [Label(l)], [], done) == Blocks(stmts, 3, [], [[Label(l), JumpTo(m)]], done);
    BlocksKeepLive(stmts, 0, [], [], done);
    assert stmts[0..] == stmts;
    ConcatSnoc([], [Label(l), JumpTo(m)]);
    assert Concat([[Label(l), JumpTo(m)]]) == [Label(l), JumpTo(m)];
    assert Concat([]) + [] == [];
  }

  /** As written, a jump followed by dead code and then a label merges the
      two blocks: `L: JUMP M; EXP 1; K: EXP 2` gives the single block
      `L: JUMP M; K: EXP 2; JUMP done`, with a label and a jump inside. */
  lemma DeadCodeMergesBlocks(l: string, m: string, k: string, done: string)
    ensures var stmts := [Label(l), JumpTo(m), ExpS(Const(1)), Label(k), ExpS(Const(2))];
      BlocksAsWritten(stmts, 0, [], [], done) ==
        [[Label(l), JumpTo(m), Label(k), ExpS(Const(2)), JumpTo(done)]] &&
      !BlockOk(BlocksAsWritten(stmts, 0, [], [], done)[0]) &&
      Blocks(stmts, 0, [], [], done) ==
        [[Label(l), JumpTo(m)], [Label(k), ExpS(Const(2)), JumpTo(done)]]
  {
    var stmts := [Label(l), JumpTo(m), ExpS(Const(1)), Label(k), ExpS(Const(2))];
    assert SkipDead(stmts, 1) == 2;
    var merged := [Label(l), JumpTo(m), Label(k), ExpS(Const(2))];
    assert [] + [Label(l)] == [Label(l)] && [Label(l)] + [JumpTo(m)] == [Label(l), JumpTo(m)];
    assert [Label(l), JumpTo(m)] + [Label(k)] == [Label(l), JumpTo(m), Label(k)];
    assert [Label(l), JumpTo(m), Label(k)] + [ExpS(Const(2))] == merged;
    assert [] + [[Label(l), JumpTo(m)]] == [[Label(l), JumpTo(m)]];
    assert [] + [Label(k)] == [Label(k)] && [Label(k)] + [ExpS(Const(2))] == [Label(k), ExpS(Const(2))];
    assert [] + [merged + [JumpTo(done)]] == [merged + [JumpTo(done)]];
    var merged' := merged + [JumpTo(done)];
    assert merged' == [Label(l), JumpTo(m), Label(k), ExpS(Const(2)), JumpTo(done)];
    assert merged'[2].Label?;
    var second := [Label(k), ExpS(Const(2)), JumpTo(done)];
    assert |stmts| == 5 && stmts[4] == ExpS(Const(2));
    assert CloseBlock(stmts, 4, [Label(k)] + [stmts[4]], done) == second;
    assert Blocks(stmts, 4, [Label(k)], [[Label(l), JumpTo(m)]], done) == Blocks(stmts, 5, [], [[Label(l), JumpTo(m)]] + [second], done);
    assert [[Label(l), JumpTo(m)]] + [second] == [[Label(l), JumpTo(m)], second];
    assert BlocksAsWritten(stmts, 0, [], [], done) == BlocksAsWritten(stmts, 1, [Label(l)], [], done);
    assert BlocksAsWritten(stmts, 1, [Label(l)], [], done) == BlocksAsWritten(stmts, 3, [Label(l), JumpTo(m)], [], done);
    assert BlocksAsWritten(stmts, 3, [Label(l), JumpTo(m)], [], done) == BlocksAsWritten(stmts, 4, [Label(l), JumpTo(m), Label(k)], [], done);
    assert CloseBlock(stmts, 4, merged, done) == merged + [JumpTo(done)];
    assert BlocksAsWritten(stmts, 4, [Label(l), JumpTo(m), Label(k)], [], done) == [merged + [JumpTo(done)]];
    assert Blocks(stmts, 0, [], [], done) == Blocks(stmts, 1, [Label(l)], [], done);
    assert Blocks(stmts, 1, [Label(l)], [], done) == Blocks(stmts, 3, [], [[Label(l), JumpTo(m)]], done);
    assert Blocks(stmts, 3, [], [[Label(l), JumpTo(m)]], done) == Blocks(stmts, 4, [Label(k)], [[Label(l), JumpTo(m)]], done);
    assert CloseBlock(stmts, 4, [Label(k), ExpS(Const(2))], done) == [Label(k), ExpS(Const(2)), JumpTo(done)];
  }

  /** The whole of `basic_blocks` on `L: JUMP M; EXP 1`: as written no
      block comes back, corrected the one block `L: JUMP M`. */
  lemma BasicBlocksDropsTrailingBlock(ts: Temp.TempState, l: string, m: string)
    requires ts.nextLabel >= 0
    ensures BasicBlocks(true, ts, [Label(l), JumpTo(m), ExpS(Const(1))]).0 == []
    ensures BasicBlocks(false, ts, [Label(l), JumpTo(m), ExpS(Const(1))]).0 == [[Label(l), JumpTo(m)]]
  {
    TrailingDeadCodeLosesBlock(l, m, Temp.NewLabel(ts).0);
  }

  /** `canonicalise_tree`: every fragment body is replaced by its
      linearised statement list, in order; `basic_blocks` then runs on
      each list only for the labels it draws, its blocks being dropped.
      Every body becomes a non-empty list without SEQ (and without ESEQ
      when the body was well formed), and each fragment draws at least
      one label, so no label is reused across fragments. */
  method CanonicaliseTree(asWritten: bool, ts: Temp.TempState, bodies: seq<Stm>)
    returns (r: seq<seq<Stm>>, ts': Temp.TempState)
    requires ts.nextLabel >= 0
    ensures |r| == |bodies|
    ensures forall i :: 0 <= i < |r| ==> |r[i]| >= 1 && NoSeq(r[i])
    ensures forall i :: 0 <= i < |r| && WfS(bodies[i]) ==>
              forall k :: 0 <= k < |r[i]| ==> NoESeqS(r[i][k])
    ensures ts'.nextTemp >= ts.nextTemp && ts'.nextLabel >= ts.nextLabel + |bodies|
  {
    r := [];
    ts' := ts;
    var i := 0;
    while i < |bodies|
      invariant 0 <= i <= |bodies| && |r| == i
      invariant forall j :: 0 <= j < i ==> |r[j]| >= 1 && NoSeq(r[j])
      invariant forall j :: 0 <= j < i && WfS(bodies[j]) ==>
                  forall k :: 0 <= k < |r[j]| ==> NoESeqS(r[j][k])
      invariant ts'.nextTemp >= ts.nextTemp && ts'.nextLabel >= ts.nextLabel + i
    {
      var (stmts, ts1) := Linearise(asWritten, ts', bodies[i]);
      var (_, _, ts2) := BasicBlocks(asWritten, ts1, stmts);
      r := r + [stmts];
      ts' := ts2;
      i := i + 1;
    }
  }
}

=== FILE: cgraph.dfy ===
/** The C node-graph engine (src/graph.c).

    A graph is a dense array of node records; record `u` holds the indices
    of its successors and of its predecessors.  Callers hold handles, pairs
    of a graph identity and an index.  In this implementation `lv_mk_edge`
    is idempotent, so successor and predecessor arrays never hold a
    duplicate, and there is no edge removal.
 */
module CGraph {
  import Sorting

  /** `node_rep_t`: successor and predecessor index arrays. */
  datatype NodeRep = NodeRep(succ: seq<nat>, pred: seq<nat>)

  /** `lv_graph_t`; `id` stands for the graph's address. */
  datatype Graph = Graph(id: nat, nodes: seq<NodeRep>)

  /** `lv_node_t`: the graph it belongs to and its index there. */
  datatype Node = Node(graph: nat, idx: nat)

  const EmptyRep := NodeRep([], [])

  /** There is an edge u -> v: v is recorded among u's successors. */
  ghost predicate Edge(g: Graph, u: nat, v: nat) {
    u < |g.nodes| && v in g.nodes[u].succ
  }

  /** u is recorded among v's predecessors. */
  ghost predicate BackEdge(g: Graph, v: nat, u: nat) {
    v < |g.nodes| && u in g.nodes[v].pred
  }

  ghost predicate Distinct(s: seq<nat>) {
    forall i, j :: 0 <= i < j < |s| ==> s[i] != s[j]
  }

  /** The representation invariant: successor and predecessor arrays mirror
      each other exactly (which also keeps every stored index in range), and
      no array holds an index twice. */
  ghost predicate Valid(g: Graph) {
    (forall u, v :: Edge(g, u, v) <==> BackEdge(g, v, u)) &&
    (forall u :: 0 <= u < |g.nodes| ==> Distinct(g.nodes[u].succ) && Distinct(g.nodes[u].pred))
  }

  /** `h` is a handle into `g`. */
  predicate Owns(g: Graph, h: Node) {
    h.graph == g.id && h.idx < |g.nodes|
  }

  /** `lv_new_graph`: zeroed memory, so no nodes. */
  function NewGraph(id: nat): (g: Graph)
    ensures g.id == id && |g.nodes| == 0
    ensures Valid(g)
  {
    Graph(id, [])
  }

  /** `lv_graph_length`. */
  function Length(g: Graph): nat {
    |g.nodes|
  }

  /** `lv_new_node`: appends an empty record and returns a handle to it. */
  function NewNode(g: Graph): (r: (Graph, Node))
    ensures r.0.id == g.id && Length(r.0) == Length(g) + 1
    ensures r.1 == Node(g.id, Length(g)) && Owns(r.0, r.1)
    ensures forall i :: 0 <= i < Length(g) ==> r.0.nodes[i] == g.nodes[i]
    ensures r.0.nodes[r.1.idx] == EmptyRep
    ensures Valid(g) ==> Valid(r.0)
  {
    var g' := g.(nodes := g.nodes + [EmptyRep]);
    assert forall u, v :: Edge(g', u, v) <==> Edge(g, u, v);
    assert forall u, v :: BackEdge(g', v, u) <==> BackEdge(g, v, u);
    (g', Node(g.id, |g.nodes|))
  }

  /** `node_array_contains`: linear search. */
  function Contains(a: seq<nat>, x: nat): (r: bool)
    ensures r <==> x in a
  {
    if |a| == 0 then false
    else if a[0] == x then true
    else
      assert a == [a[0]] + a[1..];
      Contains(a[1..], x)
  }

  /** `lv_mk_edge`: adds from -> to unless it is already present.  Both
      handles must come from the same graph (asserted in the source). */
  function MkEdge(g: Graph, from: Node, to: Node): (r: Graph)
    requires Valid(g) && Owns(g, from) && Owns(g, to)
    ensures r.id == g.id && Length(r) == Length(g)
    ensures Edge(r, from.idx, to.idx) && BackEdge(r, to.idx, from.idx)
    ensures forall u, v :: Edge(r, u, v) <==> Edge(g, u, v) || (u == from.idx && v == to.idx)
    ensures forall v, u :: BackEdge(r, v, u) <==> BackEdge(g, v, u) || (v == to.idx && u == from.idx)
    ensures forall i :: 0 <= i < Length(g) && i != from.idx && i != to.idx ==> r.nodes[i] == g.nodes[i]
    ensures to.idx in g.nodes[from.idx].succ ==> r == g
    ensures to.idx !in g.nodes[from.idx].succ ==>
      r.nodes[from.idx].succ == g.nodes[from.idx].succ + [to.idx] &&
      r.nodes[to.idx].pred == g.nodes[to.idx].pred + [from.idx]
    ensures Valid(r)
  {
    if Contains(g.nodes[from.idx].succ, to.idx) then
      assert BackEdge(g, to.idx, from.idx) by {
        assert Edge(g, from.idx, to.idx);
      }
      g
    else
      AddEdge(g, from.idx, to.idx)
  }

  /** The two `arrpush` calls of `lv_mk_edge` for an absent edge. */
  function AddEdge(g: Graph, f: nat, t: nat): (r: Graph)
    requires f < |g.nodes| && t < |g.nodes| && t !in g.nodes[f].succ
    ensures r.id == g.id && |r.nodes| == |g.nodes|
    ensures forall u, v :: Edge(r, u, v) <==> Edge(g, u, v) || (u == f && v == t)
    ensures forall v, u :: BackEdge(r, v, u) <==> BackEdge(g, v, u) || (v == t && u == f)
    ensures forall i :: 0 <= i < |g.nodes| && i != f && i != t ==> r.nodes[i] == g.nodes[i]
    ensures r.nodes[f].succ == g.nodes[f].succ + [t] && r.nodes[t].pred == g.nodes[t].pred + [f]
    ensures Valid(g) ==> Valid(r)
  {
    AddEdgeFacts(g, f, t);
    Push2(g, f, t)
  }

  function Push2(g: Graph, f: nat, t: nat): Graph
    requires f < |g.nodes| && t < |g.nodes|
  {
    var n1 := g.nodes[f := g.nodes[f].(succ := g.nodes[f].succ + [t])];
    g.(nodes := n1[t := n1[t].(pred := n1[t].pred + [f])])
  }

  lemma AddEdgeFacts(g: Graph, f: nat, t: nat)
    requires f < |g.nodes| && t < |g.nodes| && t !in g.nodes[f].succ
    ensures var r := Push2(g, f, t);
      r.id == g.id && |r.nodes| == |g.nodes| &&
      (forall u, v :: Edge(r, u, v) <==> Edge(g, u, v) || (u == f && v == t)) &&
      (forall v, u :: BackEdge(r, v, u) <==> BackEdge(g, v, u) || (v == t && u == f)) &&
      (forall i :: 0 <= i < |g.nodes| && i != f && i != t ==> r.nodes[i] == g.nodes[i]) &&
      (Valid(g) ==> Valid(r))
  {
    var r := Push2(g, f, t);
    assert r.nodes[f].succ == g.nodes[f].succ + [t];
    assert r.nodes[t].pred == g.nodes[t].pred + [f];
    assert forall u :: 0 <= u < |g.nodes| && u != f ==> r.nodes[u].succ == g.nodes[u].succ;
    assert forall v :: 0 <= v < |g.nodes| && v != t ==> r.nodes[v].pred == g.nodes[v].pred;
    if Valid(g) {
      assert f !in g.nodes[t].pred by {
        assert !Edge(g, f, t);
      }
      forall u | 0 <= u < |r.nodes|
        ensures Distinct(r.nodes[u].succ) && Distinct(r.nodes[u].pred)
      {
        assert Distinct(g.nodes[u].succ) && Distinct(g.nodes[u].pred);
      }
    }
  }

  /** Applying `lv_mk_edge` twice is the same as applying it once. */
  lemma MkEdgeIdempotent(g: Graph, from: Node, to: Node)
    requires Valid(g) && Owns(g, from) && Owns(g, to)
    ensures MkEdge(MkEdge(g, from, to), from, to) == MkEdge(g, from, to)
  {
    var g1 := MkEdge(g, from, to);
    assert Edge(g1, from.idx, to.idx);
  }

  /** `lv_nodes`: a fresh handle for every index, built by prepending from
      the last index down, so the list is in ascending index order. */
  method AllNodes(g: Graph) returns (r: seq<Node>)
    ensures |r| == Length(g)
    ensures forall i :: 0 <= i < |r| ==> r[i] == Node(g.id, i)
  {
    r := [];
    var i := |g.nodes| - 1;
    while i >= 0
      invariant -1 <= i < |g.nodes|
      invariant |r| == |g.nodes| - 1 - i
      invariant forall k :: 0 <= k < |r| ==> r[k] == Node(g.id, i + 1 + k)
    {
      r := [Node(g.id, i)] + r;
      i := i - 1;
    }
  }

  /** `lv_node_it`: cursor over one of a record's index arrays. */
  datatype NodeIt = NodeIt(elems: seq<nat>, graph: nat, i: nat)

  /** `lv_succ`: an iterator at the start of n's successor array. */
  function SuccIt(g: Graph, n: Node): (cur: NodeIt)
    requires Owns(g, n)
    ensures cur.elems == g.nodes[n.idx].succ && cur.graph == g.id && cur.i == 0
  {
    NodeIt(g.nodes[n.idx].succ, g.id, 0)
  }

  /** The predecessor iterator.  The source declares `lv_pred` but leaves it
      unimplemented; this is its evident analogue of `lv_succ`. */
  function PredIt(g: Graph, n: Node): (cur: NodeIt)
    requires Owns(g, n)
    ensures cur.elems == g.nodes[n.idx].pred && cur.graph == g.id && cur.i == 0
  {
    NodeIt(g.nodes[n.idx].pred, g.id, 0)
  }

  /** `lv_node_it_next`: yields the handle at the cursor and advances, or
      reports exhaustion. */
  function ItNext(it: NodeIt): (r: (ItStep, NodeIt))
    ensures it.i < |it.elems| ==> r.0 == Yield(Node(it.graph, it.elems[it.i])) && r.1 == it.(i := it.i + 1)
    ensures it.i >= |it.elems| ==> r.0 == Exhausted && r.1 == it
  {
    if it.i < |it.elems| then (Yield(Node(it.graph, it.elems[it.i])), it.(i := it.i + 1))
    else (Exhausted, it)
  }

  datatype ItStep = Exhausted | Yield(node: Node)

  /** Every handle a `for` loop over the iterator sees, in order. */
  function Drain(it: NodeIt): (r: seq<Node>)
    ensures |r| == if it.i <= |it.elems| then |it.elems| - it.i else 0
    ensures forall k :: 0 <= k < |r| ==> r[k] == Node(it.graph, it.elems[it.i + k])
    decreases |it.elems| - it.i
  {
    var (y, next) := ItNext(it);
    match y
    case Exhausted => []
    case Yield(n) => [n] + Drain(next)
  }

  /** Iterating `lv_succ(n)` visits n's successors in insertion order, each
      bound to n's graph. */
  lemma SuccOrder(g: Graph, n: Node)
    requires Owns(g, n)
    ensures |Drain(SuccIt(g, n))| == |g.nodes[n.idx].succ|
    ensures forall k :: 0 <= k < |g.nodes[n.idx].succ| ==>
      Drain(SuccIt(g, n))[k] == Node(g.id, g.nodes[n.idx].succ[k])
  {
    var it := SuccIt(g, n);
    assert it.i == 0 && it.elems == g.nodes[n.idx].succ;
  }

  /** `lv_node_list_free`: one handle and one list cell released per element. */
  method NodeListFree(nl: seq<Node>) returns (handlesFreed: nat, cellsFreed: nat)
    ensures handlesFreed == |nl| && cellsFreed == |nl|
  {
    var rest := nl;
    handlesFreed, cellsFreed := 0, 0;
    while rest != []
      invariant handlesFreed == cellsFreed == |nl| - |rest|
      decreases |rest|
    {
      rest := rest[1..];
      handlesFreed := handlesFreed + 1;
      cellsFreed := cellsFreed + 1;
    }
  }

  /** `node_array_push_if_missing`. */
  function PushIfMissing(a: seq<nat>, x: nat): (r: seq<nat>)
    ensures Distinct(a) ==> Distinct(r)
    ensures forall y :: y in r <==> y in a || y == x
  {
    if Contains(a, x) then a else a + [x]
  }

  /** The deduplicating union loop of `lv_adj`. */
  function PushAll(a: seq<nat>, xs: seq<nat>): (r: seq<nat>)
    ensures Distinct(a) ==> Distinct(r)
    ensures forall y :: y in r <==> y in a || y in xs
    decreases |xs|
  {
    if |xs| == 0 then a
    else
      assert xs == [xs[0]] + xs[1..];
      PushAll(PushIfMissing(a, xs[0]), xs[1..])
  }

  function Id(x: nat): int { x }

  predicate StrictlyAscending(s: seq<nat>) {
    forall i, j :: 0 <= i < j < |s| ==> s[i] < s[j]
  }

  function Indices(r: seq<Node>): (ix: seq<nat>)
    ensures |ix| == |r| && forall k :: 0 <= k < |r| ==> ix[k] == r[k].idx
  {
    if |r| == 0 then [] else [r[0].idx] + Indices(r[1..])
  }

  /** The index array `lv_adj` builds: pred then succ pushed when missing,
      then sorted. */
  function AdjIndices(rep: NodeRep): (ix: seq<nat>)
    ensures StrictlyAscending(ix)
    ensures forall v :: v in ix <==> v in rep.pred || v in rep.succ
  {
    var adj := PushAll(PushAll([], rep.pred), rep.succ);
    var sorted := Sorting.SortBy(adj, Id);
    assert forall y :: y in sorted <==> y in adj by {
      assert forall y :: y in sorted <==> y in multiset(sorted);
    }
    SortedDistinctAscending(adj, sorted);
    sorted
  }

  /** `lv_adj`: the union of n's predecessors and successors, without
      duplicates, sorted, then consed from the back into an ascending list
      of fresh handles. */
  method Adj(g: Graph, n: Node) returns (r: seq<Node>)
    requires Owns(g, n)
    ensures forall k :: 0 <= k < |r| ==> r[k].graph == g.id
    ensures StrictlyAscending(Indices(r))
    ensures forall v :: v in Indices(r) <==> v in g.nodes[n.idx].pred || v in g.nodes[n.idx].succ
  {
    var sorted := AdjIndices(g.nodes[n.idx]);
    r := Handles(g.id, sorted);
  }

  /** The list `lv_adj` returns: a fresh node handle per index, consed
      from the last index to the first. */
  method Handles(id: nat, ix: seq<nat>) returns (r: seq<Node>)
    ensures Indices(r) == ix
    ensures forall k :: 0 <= k < |r| ==> r[k].graph == id
  {
    r := [];
    var i := |ix|;
    while i > 0
      invariant 0 <= i <= |ix|
      invariant Indices(r) == ix[i..]
      invariant forall k :: 0 <= k < |r| ==> r[k].graph == id
    {
      i := i - 1;
      IndicesCons(Node(id, ix[i]), r);
      assert ix[i..] == [ix[i]] + ix[i + 1..];
      r := [Node(id, ix[i])] + r;
    }
    assert ix[0..] == ix;
  }

  lemma IndicesCons(a: Node, r: seq<Node>)
    ensures Indices([a] + r) == [a.idx] + Indices(r)
  {
    assert ([a] + r)[1..] == r;
  }

  /** A sorted permutation of a duplicate-free sequence is strictly
      ascending. */
  lemma SortedDistinctAscending(a: seq<nat>, s: seq<nat>)
    requires Distinct(a) && multiset(s) == multiset(a) && Sorting.SortedBy(s, Id)
    ensures StrictlyAscending(s)
  {
    forall i, j | 0 <= i < j < |s|
      ensures s[i] < s[j]
    {
      if s[i] == s[j] {
        TwoOccurrences(s, i, j);
        DistinctCount(a, s[i]);
      }
      assert Id(s[i]) <= Id(s[j]);
    }
  }

  /** Equal elements at two positions count twice. */
  lemma TwoOccurrences(s: seq<nat>, i: nat, j: nat)
    requires i < j < |s| && s[i] == s[j]
    ensures multiset(s)[s[i]] >= 2
  {
    var x := s[i];
    assert s == s[..j] + s[j..];
    assert multiset(s) == multiset(s[..j]) + multiset(s[j..]);
    assert s[..j][i] == x;
    assert x in multiset(s[..j]);
    assert s[j..][0] == x;
    assert x in multiset(s[j..]);
  }

  lemma {:induction false} DistinctCount(a: seq<nat>, x: nat)
    requires Distinct(a)
    ensures multiset(a)[x] <= 1
  {
    if |a| > 0 {
      assert a == [a[0]] + a[1..];
      assert Distinct(a[1..]);
      DistinctCount(a[1..], x);
      if a[0] == x {
        assert x !in a[1..];
      }
    }
  }

  /** `lv_is_succ`: m is among n's successors. */
  function IsSucc(g: Graph, n: Node, m: Node): (r: bool)
    requires Owns(g, n)
    ensures r <==> Edge(g, n.idx, m.idx)
  {
    Contains(g.nodes[n.idx].succ, m.idx)
  }

  /** `lv_is_adj`: an edge in either direction; both handles must share the
      graph (asserted in the source). */
  function IsAdj(g: Graph, n: Node, m: Node): (r: bool)
    requires Owns(g, n) && Owns(g, m)
    ensures r <==> Edge(g, n.idx, m.idx) || Edge(g, m.idx, n.idx)
  {
    IsSucc(g, m, n) || IsSucc(g, n, m)
  }

  /** Adjacency does not depend on the order of the handles. */
  lemma IsAdjSymmetric(g: Graph, n: Node, m: Node)
    requires Owns(g, n) && Owns(g, m)
    ensures IsAdj(g, n, m) == IsAdj(g, m, n)
  {
  }

  /** `lv_eq`: same graph and same index. */
  function Eq(a: Node, b: Node): (r: bool)
    ensures r <==> a == b
  {
    a.graph == b.graph && a.idx == b.idx
  }

  /** The expectations of `test_graph`, for any starting graph: two fresh
      nodes are distinct and unadjacent, and one `lv_mk_edge` makes them
      adjacent both ways but a successor only one way. */
  lemma FreshNodesScenario(g: Graph)
    requires Valid(g)
    ensures var (g1, n) := NewNode(g); var (g2, m) := NewNode(g1);
      Length(g1) == Length(g) + 1 && Length(g2) == Length(g) + 2 &&
      !Eq(n, m) && !IsAdj(g2, n, m) &&
      var g3 := MkEdge(g2, n, m);
      IsAdj(g3, n, m) && IsAdj(g3, m, n) && IsSucc(g3, n, m) && !IsSucc(g3, m, n)
  {
    var (g1, n) := NewNode(g);
    var (g2, m) := NewNode(g1);
    assert g2.nodes[n.idx] == EmptyRep;
    assert !Edge(g2, m.idx, n.idx) && !Edge(g2, n.idx, m.idx);
  }
}

=== FILE: conslist.dfy ===
/** Singly linked cons lists (src/list.c) and the tail-recursive reversal
    used for instruction lists (src/assem.c).

    A C list is a chain of `{head, tail}` cells ending in NULL; `Nil` is
    NULL.  `Elems` is the abstraction to a sequence used in every contract.
 */
module ConsList {

  datatype List<T> = Nil | Cons(head: T, tail: List<T>)

  /** The elements of a list, front to back. */
  function Elems<T>(l: List<T>): seq<T> {
    match l
    case Nil => []
    case Cons(h, t) => [h] + Elems(t)
  }

  /** The list whose cells hold `s` in order. */
  function FromSeq<T>(s: seq<T>): (l: List<T>)
    ensures Elems(l) == s
  {
    if |s| == 0 then Nil else Cons(s[0], FromSeq(s[1..]))
  }

  /** A list is determined by its elements. */
  lemma {:induction false} ElemsInjective<T>(a: List<T>, b: List<T>)
    requires Elems(a) == Elems(b)
    ensures a == b
  {
    match a
    case Nil =>
      assert |Elems(b)| == 0;
    case Cons(h, t) =>
      assert Elems(b) != [];
      assert Elems(b)[0] == h && Elems(b)[1..] == Elems(t);
      ElemsInjective(t, b.tail);
  }

  /** The reference reversal of a sequence. */
  function Rev<T>(s: seq<T>): (r: seq<T>)
    ensures |r| == |s|
    ensures forall i :: 0 <= i < |s| ==> r[i] == s[|s| - 1 - i]
  {
    if |s| == 0 then [] else Rev(s[1..]) + [s[0]]
  }

  lemma RevRev<T>(s: seq<T>)
    ensures Rev(Rev(s)) == s
  {
    assert forall i :: 0 <= i < |s| ==> Rev(Rev(s))[i] == s[i];
  }

  /** `list_cons`: a fresh cell holding `h` in front of `t`. */
  function ListCons<T>(h: T, t: List<T>): (r: List<T>)
    ensures r.Cons? && r.head == h && r.tail == t
    ensures Elems(r) == [h] + Elems(t)
  {
    Cons(h, t)
  }

  /** `list_length`: counts cells until NULL. */
  method Length<T>(l: List<T>) returns (n: int)
    ensures n == |Elems(l)|
  {
    n := 0;
    var cur := l;
    while cur.Cons?
      invariant n + |Elems(cur)| == |Elems(l)|
      decreases cur
    {
      n := n + 1;
      cur := cur.tail;
    }
  }

  /** `list_reverse`: re-links each cell in front of the reversed prefix. */
  method Reverse<T>(l: List<T>) returns (r: List<T>)
    ensures Elems(r) == Rev(Elems(l))
  {
    r := Nil;
    var cur := l;
    while cur.Cons?
      invariant Rev(Elems(l)) == Rev(Elems(cur)) + Elems(r)
      decreases cur
    {
      assert Rev(Elems(cur)) == Rev(Elems(cur.tail)) + [cur.head];
      r := Cons(cur.head, r);
      cur := cur.tail;
    }
  }

  /** `list_rev_go`: moves the cells of `inp` onto the front of `out`. */
  function RevGo<T>(inp: List<T>, out: List<T>): (r: List<T>)
    ensures Elems(r) == Rev(Elems(inp)) + Elems(out)
  {
    match inp
    case Nil => out
    case Cons(h, t) =>
      assert Rev(Elems(inp)) == Rev(Elems(t)) + [h];
      RevGo(t, Cons(h, out))
  }

  /** Reversal keeps the length, and reversing twice gives back the list. */
  lemma ReverseTwice<T>(l: List<T>)
    ensures |Elems(RevGo(l, Nil))| == |Elems(l)|
    ensures RevGo(RevGo(l, Nil), Nil) == l
  {
    RevRev(Elems(l));
    ElemsInjective(RevGo(RevGo(l, Nil), Nil), l);
  }

  /** The append helpers of the IR, the AST and the fragment lists
      (`tree_exp_append`, `dl_append`, `ex_append`): a NULL head gives
      `x`; otherwise the walk reaches the final cell and links `x` after
      it, and the original head is returned. */
  function Append<T>(hd: List<T>, x: List<T>): (r: List<T>)
    ensures Elems(r) == Elems(hd) + Elems(x)
    ensures hd.Nil? ==> r == x
    ensures hd.Cons? ==> r.Cons? && r.head == hd.head
  {
    match hd
    case Nil => x
    case Cons(h, t) => Cons(h, Append(t, x))
  }

  /** Appending in two steps is appending once. */
  lemma {:induction false} AppendAssoc<T>(a: List<T>, b: List<T>, c: List<T>)
    ensures Append(Append(a, b), c) == Append(a, Append(b, c))
  {
    match a
    case Nil =>
    case Cons(_, t) => AppendAssoc(t, b, c);
  }
}

=== FILE: dataflow.dfy ===
/** The live-in / live-out computation of `interference_graph` in
    src/liveness.c, on the sets the bit sets stand for (the `Bitset` module
    relates the word operations to set membership).

    Flow nodes are `0 .. n-1` and temps have already been numbered
    `0 .. m-1`.  The worklist starts with every node of the visiting order;
    each step takes the first node of the order still in the worklist,
    recomputes

        in[x]  = use[x] + (out[x] - def[x])      (with the OLD out[x])
        out[x] = union of in[s] for s in succ[x]

    and, if either set changed, puts `x` and its predecessors back.
 */
module Dataflow {

  /** The liveness problem of one flow graph. */
  datatype Flow = Flow(n: nat, m: nat, edges: set<(nat, nat)>, def: seq<set<nat>>, use: seq<set<nat>>)

  /** Every member of `s` is a temp number below `m`. */
  ghost predicate Within(s: set<nat>, m: nat) {
    forall t :: t in s ==> t < m
  }

  ghost predicate Valid(f: Flow) {
    |f.def| == f.n && |f.use| == f.n &&
    (forall e :: e in f.edges ==> e.0 < f.n && e.1 < f.n) &&
    forall v :: 0 <= v < f.n ==> Within(f.def[v], f.m) && Within(f.use[v], f.m)
  }

  /** `lv_succ`. */
  function Succ(f: Flow, v: nat): (s: set<nat>)
    ensures forall w :: w in s <==> (v, w) in f.edges
  {
    set e | e in f.edges && e.0 == v :: e.1
  }

  /** `lv_pred`. */
  function Pred(f: Flow, v: nat): (s: set<nat>)
    ensures forall u :: u in s <==> (u, v) in f.edges
  {
    set e | e in f.edges && e.1 == v :: e.0
  }

  /** The union of `live[s]` over the nodes `s` of `ss`. */
  function UnionIn(ss: set<nat>, live: seq<set<nat>>): (r: set<nat>)
    ensures forall t :: t in r <==> exists s :: s in ss && s < |live| && t in live[s]
  {
    set s, t | s in ss && s < |live| && t in live[s] :: t
  }

  /** The node sets of a table, one per flow node, all within the temps. */
  ghost predicate Bounded(f: Flow, live: seq<set<nat>>) {
    |live| == f.n && forall v :: 0 <= v < f.n ==> Within(live[v], f.m)
  }

  /** Pointwise inclusion of two tables. */
  ghost predicate Below(a: seq<set<nat>>, b: seq<set<nat>>) {
    |a| == |b| && forall v :: 0 <= v < |a| ==> a[v] <= b[v]
  }

  /** The two dataflow equations at node `v`. */
  ghost predicate SolvesAt(f: Flow, v: nat, liveIn: seq<set<nat>>, liveOut: seq<set<nat>>)
    requires Valid(f) && v < f.n && |liveIn| == f.n && |liveOut| == f.n
  {
    liveIn[v] == f.use[v] + (liveOut[v] - f.def[v]) &&
    liveOut[v] == UnionIn(Succ(f, v), liveIn)
  }

  /** The equations hold at every node of `nodes`. */
  ghost predicate Solves(f: Flow, nodes: seq<nat>, liveIn: seq<set<nat>>, liveOut: seq<set<nat>>)
    requires Valid(f)
  {
    |liveIn| == f.n && |liveOut| == f.n &&
    forall v :: v in nodes && v < f.n ==> SolvesAt(f, v, liveIn, liveOut)
  }

  /** Every predecessor of a node of the order is in the order, as it is
      for the depth-first search over predecessors that builds it. */
  ghost predicate PredClosed(f: Flow, order: seq<nat>) {
    forall e :: e in f.edges && e.1 in order ==> e.0 in order
  }

  // ---------------------------------------------------------------------
  // Loop invariants
  // ---------------------------------------------------------------------

  /** Each set is below what its equation gives, so a step only adds. */
  ghost predicate Grow(f: Flow, liveIn: seq<set<nat>>, liveOut: seq<set<nat>>)
    requires Valid(f) && |liveIn| == f.n && |liveOut| == f.n
  {
    forall v :: 0 <= v < f.n ==>
      liveIn[v] <= f.use[v] + (liveOut[v] - f.def[v]) &&
      liveOut[v] <= UnionIn(Succ(f, v), liveIn)
  }

  /** The equations hold at every node of the order off the worklist. */
  ghost predicate Settled(f: Flow, order: seq<nat>, wl: set<nat>, liveIn: seq<set<nat>>, liveOut: seq<set<nat>>)
    requires Valid(f) && |liveIn| == f.n && |liveOut| == f.n
  {
    forall v :: v in order && v < f.n && v !in wl ==> SolvesAt(f, v, liveIn, liveOut)
  }

  /** Below every solution on the order's nodes. */
  ghost predicate Least(f: Flow, order: seq<nat>, liveIn: seq<set<nat>>, liveOut: seq<set<nat>>)
    requires Valid(f)
  {
    forall inS, outS :: Solves(f, order, inS, outS) ==> Below(liveIn, inS) && Below(liveOut, outS)
  }

  /** The (node, temp, side) triples not yet in the tables: shrinks as the
      tables grow. */
  function Missing(f: Flow, liveIn: seq<set<nat>>, liveOut: seq<set<nat>>): set<(nat, nat, bool)>
    requires |liveIn| == f.n && |liveOut| == f.n
  {
    set v, j, b | 0 <= v < f.n && 0 <= j < f.m && b in {true, false} &&
                  j !in (if b then liveIn[v] else liveOut[v]) :: (v, j, b)
  }

  /** The first position of the order whose node is on the worklist
      (the selection loop of the fixpoint). */
  function FirstIn(order: seq<nat>, wl: set<nat>, k: nat): (i: nat)
    requires k <= |order| && exists p :: k <= p < |order| && order[p] in wl
    ensures k <= i < |order| && order[i] in wl
    ensures forall p :: k <= p < i ==> order[p] !in wl
    decreases |order| - k
  {
    if order[k] in wl then k else FirstIn(order, wl, k + 1)
  }

  // ---------------------------------------------------------------------
  // One step
  // ---------------------------------------------------------------------

  lemma UnionInMono(ss: set<nat>, a: seq<set<nat>>, b: seq<set<nat>>)
    requires Below(a, b)
    ensures UnionIn(ss, a) <= UnionIn(ss, b)
  {
  }

  lemma UnionInBounded(f: Flow, ss: set<nat>, live: seq<set<nat>>)
    requires Bounded(f, live)
    ensures Within(UnionIn(ss, live), f.m)
  {
  }

  /** A step keeps `Grow`, only adds to the two tables and stays within the
      temps. */
  lemma StepGrow(f: Flow, x: nat, in0: seq<set<nat>>, out0: seq<set<nat>>, in1: seq<set<nat>>, out1: seq<set<nat>>)
    requires Valid(f) && x < f.n && Bounded(f, in0) && Bounded(f, out0)
    requires Grow(f, in0, out0)
    requires in1 == in0[x := f.use[x] + (out0[x] - f.def[x])]
    requires out1 == out0[x := UnionIn(Succ(f, x), in0)]
    ensures Below(in0, in1) && Below(out0, out1)
    ensures Bounded(f, in1) && Bounded(f, out1)
    ensures Grow(f, in1, out1)
  {
    assert Below(in0, in1);
    UnionInBounded(f, Succ(f, x), in0);
    forall v | 0 <= v < f.n
      ensures out1[v] <= UnionIn(Succ(f, v), in1)
    {
      UnionInMono(Succ(f, v), in0, in1);
    }
  }

  /** A step keeps every settled node settled, given that a change puts the
      node and its predecessors back. */
  lemma StepSettled(f: Flow, order: seq<nat>, x: nat, wl1: set<nat>,
                    in0: seq<set<nat>>, out0: seq<set<nat>>, in1: seq<set<nat>>, out1: seq<set<nat>>)
    requires Valid(f) && x < f.n && |in0| == f.n && |out0| == f.n
    requires Settled(f, order, wl1 + {x}, in0, out0)
    requires in1 == in0[x := f.use[x] + (out0[x] - f.def[x])]
    requires out1 == out0[x := UnionIn(Succ(f, x), in0)]
    requires in1 != in0 || out1 != out0 ==> x in wl1 && Pred(f, x) <= wl1
    ensures Settled(f, order, wl1, in1, out1)
  {
    if in1 == in0 && out1 == out0 {
      assert SolvesAt(f, x, in1, out1);
    } else {
      forall v | v in order && v < f.n && v !in wl1
        ensures SolvesAt(f, v, in1, out1)
      {
        assert v != x && (v, x) !in f.edges;
        assert UnionIn(Succ(f, v), in1) == UnionIn(Succ(f, v), in0);
      }
    }
  }

  /** A step stays below every solution. */
  lemma StepLeast(f: Flow, order: seq<nat>, x: nat,
                  in0: seq<set<nat>>, out0: seq<set<nat>>, in1: seq<set<nat>>, out1: seq<set<nat>>)
    requires Valid(f) && x < f.n && x in order && |in0| == f.n && |out0| == f.n
    requires Least(f, order, in0, out0)
    requires in1 == in0[x := f.use[x] + (out0[x] - f.def[x])]
    requires out1 == out0[x := UnionIn(Succ(f, x), in0)]
    ensures Least(f, order, in1, out1)
  {
    forall inS, outS | Solves(f, order, inS, outS)
      ensures Below(in1, inS) && Below(out1, outS)
    {
      assert SolvesAt(f, x, inS, outS);
      UnionInMono(Succ(f, x), in0, inS);
    }
  }

  /** A step that changes a table removes a missing triple. */
  lemma StepMissing(f: Flow, in0: seq<set<nat>>, out0: seq<set<nat>>, in1: seq<set<nat>>, out1: seq<set<nat>>)
    requires Bounded(f, in1) && Bounded(f, out1)
    requires Below(in0, in1) && Below(out0, out1)
    requires in1 != in0 || out1 != out0
    ensures Missing(f, in1, out1) < Missing(f, in0, out0)
  {
    assert Missing(f, in1, out1) <= Missing(f, in0, out0);
    if in1 != in0 {
      var v :| 0 <= v < f.n && in1[v] != in0[v];
      var j :| j in in1[v] && j !in in0[v];
      assert (v, j, true) in Missing(f, in0, out0) - Missing(f, in1, out1);
    } else {
      var v :| 0 <= v < f.n && out1[v] != out0[v];
      var j :| j in out1[v] && j !in out0[v];
      assert (v, j, false) in Missing(f, in0, out0) - Missing(f, in1, out1);
    }
  }

  /** The loop invariants of `Solve`. */
  ghost predicate Invariant(f: Flow, order: seq<nat>, wl: set<nat>, liveIn: seq<set<nat>>, liveOut: seq<set<nat>>)
    requires Valid(f)
  {
    Bounded(f, liveIn) && Bounded(f, liveOut) &&
    (forall v :: v in wl ==> v in order) &&
    Grow(f, liveIn, liveOut) &&
    Settled(f, order, wl, liveIn, liveOut) &&
    (forall v :: 0 <= v < f.n && v !in order ==> liveIn[v] == {} && liveOut[v] == {}) &&
    Least(f, order, liveIn, liveOut)
  }

  /** Empty tables with the whole order on the worklist. */
  lemma Init(f: Flow, order: seq<nat>, wl: set<nat>, liveIn: seq<set<nat>>, liveOut: seq<set<nat>>)
    requires Valid(f)
    requires liveIn == seq(f.n, _ => {}) && liveOut == seq(f.n, _ => {})
    requires wl == set v | v in order
    ensures Invariant(f, order, wl, liveIn, liveOut)
  {
  }

  /** Taking nodes off the worklist's complement keeps them settled. */
  lemma SettledMono(f: Flow, order: seq<nat>, wl0: set<nat>, wl1: set<nat>, liveIn: seq<set<nat>>, liveOut: seq<set<nat>>)
    requires Valid(f) && |liveIn| == f.n && |liveOut| == f.n
    requires Settled(f, order, wl0, liveIn, liveOut) && wl0 <= wl1
    ensures Settled(f, order, wl1, liveIn, liveOut)
  {
  }

  /** One iteration keeps the invariants. */
  lemma StepInvariant(f: Flow, order: seq<nat>, x: nat, wl0: set<nat>, wl1: set<nat>,
                      in0: seq<set<nat>>, out0: seq<set<nat>>, in1: seq<set<nat>>, out1: seq<set<nat>>)
    requires Valid(f) && PredClosed(f, order)
    requires Invariant(f, order, wl0, in0, out0) && x in wl0 && x < f.n
    requires in1 == in0[x := f.use[x] + (out0[x] - f.def[x])]
    requires out1 == out0[x := UnionIn(Succ(f, x), in0)]
    requires wl1 == if in1 != in0 || out1 != out0 then wl0 + Pred(f, x) else wl0 - {x}
    ensures Invariant(f, order, wl1, in1, out1)
  {
    StepGrow(f, x, in0, out0, in1, out1);
    StepLeast(f, order, x, in0, out0, in1, out1);
    SettledMono(f, order, wl0, wl1 + {x}, in0, out0);
    StepSettled(f, order, x, wl1, in0, out0, in1, out1);
  }

  /** One iteration either adds to a table or shortens the worklist. */
  lemma StepDecreases(f: Flow, x: nat, wl0: set<nat>, wl1: set<nat>,
                      in0: seq<set<nat>>, out0: seq<set<nat>>, in1: seq<set<nat>>, out1: seq<set<nat>>)
    requires Valid(f) && Bounded(f, in1) && Bounded(f, out1) && x in wl0
    requires Below(in0, in1) && Below(out0, out1)
    requires wl1 == if in1 != in0 || out1 != out0 then wl0 + Pred(f, x) else wl0 - {x}
    ensures Missing(f, in1, out1) < Missing(f, in0, out0) ||
            (Missing(f, in1, out1) == Missing(f, in0, out0) && |wl1| < |wl0|)
  {
    if in1 != in0 || out1 != out0 {
      StepMissing(f, in0, out0, in1, out1);
    } else {
      assert wl1 < wl0;
    }
  }

  /** One iteration as `Solve` performs it. */
  lemma Step(f: Flow, order: seq<nat>, x: nat, wl0: set<nat>, wl1: set<nat>,
             in0: seq<set<nat>>, out0: seq<set<nat>>, in1: seq<set<nat>>, out1: seq<set<nat>>)
    requires Valid(f) && PredClosed(f, order)
    requires Invariant(f, order, wl0, in0, out0) && x in wl0 && x < f.n
    requires in1 == in0[x := f.use[x] + (out0[x] - f.def[x])]
    requires out1 == out0[x := UnionIn(Succ(f, x), in0)]
    requires wl1 == if in1[x] != in0[x] || out1[x] != out0[x] then wl0 - {x} + {x} + Pred(f, x) else wl0 - {x}
    ensures Invariant(f, order, wl1, in1, out1)
    ensures Missing(f, in1, out1) < Missing(f, in0, out0) ||
            (Missing(f, in1, out1) == Missing(f, in0, out0) && |wl1| < |wl0|)
  {
    assert in1[x] != in0[x] || out1[x] != out0[x] <==> in1 != in0 || out1 != out0;
    assert wl0 - {x} + {x} + Pred(f, x) == wl0 + Pred(f, x);
    StepInvariant(f, order, x, wl0, wl1, in0, out0, in1, out1);
    StepGrow(f, x, in0, out0, in1, out1);
    StepDecreases(f, x, wl0, wl1, in0, out0, in1, out1);
  }

  // ---------------------------------------------------------------------
  // The fixpoint
  // ---------------------------------------------------------------------

  /** The worklist iteration.  At the end the equations hold at every node
      of the order, the nodes outside it keep empty sets, and the result is
      the least solution: below every table pair solving the equations on
      the order's nodes. */
  method Solve(f: Flow, order: seq<nat>) returns (liveIn: seq<set<nat>>, liveOut: seq<set<nat>>)
    requires Valid(f)
    requires forall k :: 0 <= k < |order| ==> order[k] < f.n
    requires PredClosed(f, order)
    ensures Solves(f, order, liveIn, liveOut)
    ensures forall v :: 0 <= v < f.n && v !in order ==> liveIn[v] == {} && liveOut[v] == {}
    ensures Least(f, order, liveIn, liveOut)
    ensures Bounded(f, liveIn) && Bounded(f, liveOut)
  {
    liveIn := seq(f.n, _ => {});
    liveOut := seq(f.n, _ => {});
    var wl := set v | v in order;
    Init(f, order, wl, liveIn, liveOut);
    while wl != {}
      invariant Invariant(f, order, wl, liveIn, liveOut)
      decreases Missing(f, liveIn, liveOut), |wl|
    {
      ghost var y :| y in wl;
      var i := FirstIn(order, wl, 0);
      var x := order[i];
      ghost var wl0 := wl;
      wl := wl - {x};
      var newIn := f.use[x] + (liveOut[x] - f.def[x]);
      var newOut := UnionIn(Succ(f, x), liveIn);
      var changed := newIn != liveIn[x] || newOut != liveOut[x];
      ghost var in0, out0 := liveIn, liveOut;
      liveIn := liveIn[x := newIn];
      liveOut := liveOut[x := newOut];
      if changed {
        wl := wl + {x} + Pred(f, x);
      }
      Step(f, order, x, wl0, wl, in0, out0, liveIn, liveOut);
    }
  }
}

=== FILE: decimal.dfy ===
/** Decimal rendering of non-negative integers, as `printf("%d")` does it,
    with a parser as its inverse.  Used for label names and for the `%d`
    directive of the AST printer.
 */
module Decimal {

  function DigitChar(d: nat): (c: char)
    requires d < 10
    ensures '0' <= c <= '9'
  {
    (d + '0' as int) as char
  }

  function DigitValue(c: char): (d: nat)
    requires '0' <= c <= '9'
    ensures d < 10
  {
    (c as int - '0' as int)
  }

  ghost predicate AllDigits(s: string) {
    forall i :: 0 <= i < |s| ==> '0' <= s[i] <= '9'
  }

  /** Most significant digit first, no leading zeros, "0" for zero. */
  function NatToString(n: nat): (s: string)
    ensures |s| >= 1 && AllDigits(s)
    ensures |s| > 1 ==> s[0] != '0'
    decreases n
  {
    if n < 10 then [DigitChar(n)]
    else NatToString(n / 10) + [DigitChar(n % 10)]
  }

  /** Reads a digit string, most significant first. */
  function ParseNat(s: string): nat
    requires AllDigits(s)
  {
    if |s| == 0 then 0
    else ParseNat(s[..|s| - 1]) * 10 + DigitValue(s[|s| - 1])
  }

  lemma {:induction false} ParseNatToString(n: nat)
    ensures ParseNat(NatToString(n)) == n
    decreases n
  {
    var s := NatToString(n);
    if n >= 10 {
      ParseNatToString(n / 10);
      assert s[..|s| - 1] == NatToString(n / 10);
    }
  }

  /** Different numbers print differently. */
  lemma NatToStringInjective(a: nat, b: nat)
    requires NatToString(a) == NatToString(b)
    ensures a == b
  {
    ParseNatToString(a);
    ParseNatToString(b);
  }
}

=== FILE: dynarray.dfy ===
/** The growable array of src/array.h and src/array.c.

    An array is a `{data, len, cap}` triple.  `data` is NULL or a buffer of
    `cap` slots obtained from a zeroing allocator, modelled as `zero` in
    every new slot.  `arrgrow` doubles the capacity (from 1 when it was 0)
    and copies the live prefix; `arrpush` grows first when full.
 */
module DynArray {
  import opened Wrappers

  datatype Arr<T> = Arr(data: Option<seq<T>>, len: int, cap: int)

  /** The shape every array keeps: `len <= cap`, and a buffer of exactly
      `cap` slots whenever there is one (a NULL buffer has no capacity). */
  predicate Valid<T>(a: Arr<T>) {
    0 <= a.len <= a.cap &&
    match a.data
    case None => a.cap == 0
    case Some(buf) => |buf| == a.cap
  }

  /** The live elements `data[0..len)`. */
  function Contents<T>(a: Arr<T>): seq<T>
    requires Valid(a)
  {
    match a.data
    case None => []
    case Some(buf) => buf[..a.len]
  }

  /** The zero-initialised array `{}`. */
  function Empty<T>(): (a: Arr<T>)
    ensures Valid(a) && a.len == 0 && a.cap == 0 && a.data == None
  {
    Arr(None, 0, 0)
  }

  /** `arrgrow`: a new zeroed buffer of twice the capacity (2 when the
      capacity was 0) with the first `len` elements copied over. */
  method Grow<T>(a: Arr<T>, zero: T) returns (b: Arr<T>)
    requires Valid(a)
    ensures Valid(b) && b.data.Some?
    ensures b.cap == (if a.cap == 0 then 2 else 2 * a.cap)
    ensures b.len == a.len
    ensures Contents(b) == Contents(a)
  {
    var cap := if a.cap == 0 then 1 else a.cap;
    var buf2 := seq(2 * cap, _ => zero);
    if a.len > 0 {
      var prev := a.data.value;
      var i := 0;
      while i < a.len
        invariant 0 <= i <= a.len
        invariant |buf2| == 2 * cap
        invariant buf2[..i] == prev[..i]
      {
        buf2 := buf2[i := prev[i]];
        i := i + 1;
      }
    }
    b := Arr(Some(buf2), a.len, 2 * cap);
  }

  /** `arrpush`: grows only when `len >= cap`, then stores `v` at index
      `len` and bumps `len`. */
  method Push<T>(a: Arr<T>, v: T, zero: T) returns (b: Arr<T>)
    requires Valid(a)
    ensures Valid(b)
    ensures b.len == a.len + 1
    ensures Contents(b) == Contents(a) + [v]
    ensures b.cap == (if a.len < a.cap then a.cap else if a.cap == 0 then 2 else 2 * a.cap)
  {
    var c := a;
    if a.len >= a.cap {
      c := Grow(a, zero);
    }
    var buf := c.data.value;
    b := Arr(Some(buf[c.len := v]), c.len + 1, c.cap);
    assert Contents(b) == buf[..c.len] + [v];
  }

  /** `arrfree`: releases a buffer and zeroes the counters; with no buffer
      it does nothing. */
  function Free<T>(a: Arr<T>): (b: Arr<T>)
    ensures a.data.Some? ==> b.data == None && b.len == 0 && b.cap == 0
    ensures a.data.None? ==> b == a
  {
    if a.data.Some? then Arr(None, 0, 0) else a
  }

  /** The expectations of `test_array`: pushing 1, 2, 3 onto `{}` gives
      length 3, capacity at least 3 and elements 1, 2, 3; freeing then
      leaves length 0, capacity 0 and no buffer. */
  method PushThreeThenFree() returns (pushed: Arr<int>, freed: Arr<int>)
    ensures pushed.len == 3 && pushed.cap >= 3 && Valid(pushed)
    ensures forall i :: 0 <= i < pushed.len ==> Contents(pushed)[i] == i + 1
    ensures freed.len == 0 && freed.cap == 0 && freed.data == None
  {
    var a := Empty<int>();
    a := Push(a, 1, 0);
    a := Push(a, 2, 0);
    a := Push(a, 3, 0);
    pushed := a;
    freed := Free(a);
  }
}

=== FILE: format.dfy ===
/** Quoted, escaped rendering of string literals (src/format.c).

    Three routines share one character mapping: `fmt_escaped_len` sizes the
    buffer, `fmt_snprint_escaped` fills it, and `fprint_str_escaped` writes
    the same text to a stream.  A C string is a character sequence without
    NUL.
 */
module Format {
  import opened Wrappers

  ghost predicate IsCString(s: string) {
    forall i :: 0 <= i < |s| ==> s[i] != '\0'
  }

  predicate NeedsEscape(c: char) {
    c == '\\' || c == '"' || c == '\n' || c == '\t'
  }

  /** The text one source character becomes. */
  function EscapeChar(c: char): (t: string)
    ensures |t| == (if NeedsEscape(c) then 2 else 1)
    ensures NeedsEscape(c) ==> t[0] == '\\'
    ensures t[|t| - 1] != '\n' && t[|t| - 1] != '\t'
  {
    match c
    case '\\' => "\\\\"
    case '"' => "\\\""
    case '\n' => "\\n"
    case '\t' => "\\t"
    case _ => [c]
  }

  /** The escaped body, without the surrounding quotes: every character
      becomes one or two. */
  function Escape(s: string): (r: string)
    ensures |s| <= |r| <= 2 * |s|
  {
    if |s| == 0 then [] else EscapeChar(s[0]) + Escape(s[1..])
  }

  lemma {:induction false} EscapeAppend(a: string, b: string)
    ensures Escape(a + b) == Escape(a) + Escape(b)
  {
    if |a| == 0 {
      assert a + b == b;
    } else {
      assert (a + b)[1..] == a[1..] + b;
      EscapeAppend(a[1..], b);
    }
  }

  /** The escaped body holds no raw newline or tab. */
  lemma {:induction false} EscapeHasNoControl(s: string)
    ensures forall i :: 0 <= i < |Escape(s)| ==> Escape(s)[i] != '\n' && Escape(s)[i] != '\t'
  {
    if |s| > 0 {
      EscapeHasNoControl(s[1..]);
      var e := EscapeChar(s[0]);
      assert forall i :: 0 <= i < |e| ==> e[i] != '\n' && e[i] != '\t';
    }
  }

  /** Reads an escaped body back; `None` for a dangling or unknown escape. */
  function Unescape(t: string): Option<string>
    decreases |t|
  {
    if |t| == 0 then Some([])
    else if t[0] != '\\' then
      match Unescape(t[1..])
      case None => None
      case Some(rest) => Some([t[0]] + rest)
    else if |t| < 2 then None
    else
      var c := match t[1]
        case '\\' => Some('\\')
        case '"' => Some('"')
        case 'n' => Some('\n')
        case 't' => Some('\t')
        case _ => None;
      match (c, Unescape(t[2..]))
      case (Some(ch), Some(rest)) => Some([ch] + rest)
      case _ => None
  }

  /** The escaping loses nothing: reading the body back gives the string. */
  lemma {:induction false} EscapeRoundTrip(s: string)
    ensures Unescape(Escape(s)) == Some(s)
  {
    if |s| > 0 {
      EscapeRoundTrip(s[1..]);
      UnescapeStep(s[0], Escape(s[1..]));
      assert s == [s[0]] + s[1..];
    }
  }

  /** Reading back one escaped character in front of more text. */
  lemma UnescapeStep(c: char, rest: string)
    ensures Unescape(EscapeChar(c) + rest) ==
              match Unescape(rest)
              case None => None
              case Some(r) => Some([c] + r)
  {
    var t := EscapeChar(c) + rest;
    if NeedsEscape(c) {
      assert t[0] == '\\' && t[2..] == rest;
      if c == '\\' {
        assert t[1] == '\\';
      } else if c == '"' {
        assert t[1] == '"';
      } else if c == '\n' {
        assert t[1] == 'n';
      } else {
        assert t[1] == 't';
      }
    } else {
      assert t[0] == c && t[1..] == rest;
    }
  }

  /** `fmt_escaped_len`: 3 (two quotes and the NUL) plus 2 for every
      character that needs escaping and 1 for every other. */
  method EscapedLen(s: string) returns (required: nat)
    requires IsCString(s)
    ensures required == |Escape(s)| + 3
    ensures |s| + 3 <= required <= 2 * |s| + 3
  {
    required := 3;
    var i := 0;
    while i < |s|
      invariant 0 <= i <= |s|
      invariant required == |Escape(s[..i])| + 3
      invariant i + 3 <= required <= 2 * i + 3
    {
      EscapeAppend(s[..i], [s[i]]);
      assert s[..i + 1] == s[..i] + [s[i]];
      if NeedsEscape(s[i]) {
        required := required + 2;
      } else {
        required := required + 1;
      }
      i := i + 1;
    }
    assert s[..i] == s;
  }

  /** The `switch` of `fmt_snprint_escaped`: the bytes it stores for one
      character. */
  method EscapeSwitch(c: char) returns (piece: string)
    ensures piece == EscapeChar(c)
  {
    if c == '\\' {
      piece := ['\\', c];
    } else if c == '"' {
      piece := ['\\', '"'];
    } else if c == '\n' {
      piece := ['\\', 'n'];
    } else if c == '\t' {
      piece := ['\\', 't'];
    } else {
      piece := [c];
    }
  }

  /** `fmt_snprint_escaped`: asserts the buffer is large enough, then
      writes an opening quote, the escaped characters, a closing quote and
      a NUL.  On success `r` holds the bytes written, in order. */
  method SnprintEscaped(bufLen: nat, s: string) returns (r: Outcome<string>)
    requires IsCString(s)
    ensures r.Done? <==> bufLen >= |Escape(s)| + 3
    ensures r.Done? ==> r.value == "\"" + Escape(s) + "\"\0"
    ensures r.Done? ==> |r.value| <= bufLen
  {
    var required := EscapedLen(s);
    if bufLen < required {
      return Fail("buf_len >= required");
    }
    var dst := "\"";
    var i := 0;
    while i < |s|
      invariant 0 <= i <= |s|
      invariant dst == "\"" + Escape(s[..i])
    {
      EscapeAppend(s[..i], [s[i]]);
      assert s[..i + 1] == s[..i] + [s[i]];
      var piece := EscapeSwitch(s[i]);
      dst := dst + piece;
      i := i + 1;
    }
    assert s[..i] == s;
    dst := dst + ['"'] + ['\0'];
    return Done(dst);
  }

  /** `fprint_str_escaped`: the characters put to the stream. */
  method FprintStrEscaped(s: string) returns (out: string)
    requires IsCString(s)
    ensures out == "\"" + Escape(s) + "\""
    ensures |out| == |Escape(s)| + 2
  {
    out := ['"'];
    var i := 0;
    while i < |s|
      invariant 0 <= i <= |s|
      invariant out == "\"" + Escape(s[..i])
    {
      EscapeAppend(s[..i], [s[i]]);
      assert s[..i + 1] == s[..i] + [s[i]];
      out := out + EscapeChar(s[i]);
      i := i + 1;
    }
    assert s[..i] == s;
    out := out + ['"'];
  }

  /** The stream writer and the buffer writer agree, except for the NUL. */
  method StreamMatchesBuffer(s: string) returns (streamed: string, buffered: string)
    requires IsCString(s)
    ensures buffered == streamed + "\0"
    ensures |buffered| == |Escape(s)| + 3
  {
    streamed := FprintStrEscaped(s);
    var r := SnprintEscaped(|Escape(s)| + 3, s);
    buffered := r.value;
  }
}

=== FILE: fragment.dfy ===
/** Fragments of the output program and their list (src/fragment.c).

    A fragment list is a chain of fragments whose head remembers, in
    `fr_last`, the head of the segment most recently appended, so that
    the next append can start its walk there.  The chain is the sequence
    `frags` and `last` is the position of that segment's head.
 */
module Fragment {
  import Tree
  import opened Wrappers

  /** `sl_fragment_t`.  The frame and the frame map are the activation
      records' own types, passed as type parameters. */
  datatype Frag<F, M> =
    | Code(body: Tree.Stm, frame: F)
    | StringFrag(sym: string, text: string)
    | FrameMap(frameMap: M, retLabel: string)

  /** A fragment list: `frags` in chain order, `last` the head's `fr_last`. */
  datatype FragList<F, M> = FragList(frags: seq<Frag<F, M>>, last: Option<nat>)

  /** `fr_last`, when set, names a node of the chain. */
  predicate Valid<F, M>(l: FragList<F, M>) {
    l.last.Some? ==> l.last.value < |l.frags|
  }

  /** A freshly built fragment: alone in its list, `fr_list` and
      `fr_last` NULL (the arena hands out zeroed memory). */
  function Single<F, M>(f: Frag<F, M>): (l: FragList<F, M>)
    ensures Valid(l) && l.frags == [f] && l.last.None?
  {
    FragList([f], None)
  }

  /** `sl_code_fragment`: asserts a body and a frame. */
  function CodeFragment<F, M>(body: Option<Tree.Stm>, frame: Option<F>): (r: Outcome<FragList<F, M>>)
    ensures r.Done? <==> body.Some? && frame.Some?
    ensures r.Done? ==> r.value == Single(Code(body.value, frame.value))
  {
    if body.None? || frame.None? then Fail("body && frame")
    else Done(Single(Code(body.value, frame.value)))
  }

  /** `sl_string_fragment`: asserts a label and a string. */
  function StringFragment<F, M>(sym: Option<string>, text: Option<string>): (r: Outcome<FragList<F, M>>)
    ensures r.Done? <==> sym.Some? && text.Some?
    ensures r.Done? ==> r.value == Single(StringFrag(sym.value, text.value))
  {
    if sym.None? || text.None? then Fail("label && string")
    else Done(Single(StringFrag(sym.value, text.value)))
  }

  /** `sl_frame_map_fragment`: asserts a map and a return label. */
  function FrameMapFragment<F, M>(frameMap: Option<M>, retLabel: Option<string>): (r: Outcome<FragList<F, M>>)
    ensures r.Done? <==> frameMap.Some? && retLabel.Some?
    ensures r.Done? ==> r.value == Single(FrameMap(frameMap.value, retLabel.value))
  {
    if frameMap.None? || retLabel.None? then Fail("map && ret_label")
    else Done(Single(FrameMap(frameMap.value, retLabel.value)))
  }

  /** The walk of `fr_append` from node `i` along `fr_list` to the final
      node; returns that node's position and the number of steps. */
  function WalkToEnd<F, M>(frags: seq<Frag<F, M>>, i: nat): (r: (nat, nat))
    requires i < |frags|
    ensures r.0 == |frags| - 1 && r.1 == |frags| - 1 - i
    decreases |frags| - i
  {
    if i + 1 == |frags| then (i, 0)
    else var (j, n) := WalkToEnd(frags, i + 1); (j, n + 1)
  }

  /** `fr_append`.  An empty head gives `x`.  Otherwise the walk starts at
      `fr_last` when set and at the head when not, `x` is linked after the
      final node, and the head's `fr_last` becomes `x`'s head (NULL when
      `x` is empty). */
  function Append<F, M>(hd: FragList<F, M>, x: FragList<F, M>): (r: FragList<F, M>)
    requires Valid(hd) && Valid(x)
    ensures Valid(r)
    ensures r.frags == hd.frags + x.frags
    ensures |hd.frags| > 0 && |x.frags| > 0 ==> r.last == Some(|hd.frags|) && r.frags[|hd.frags|] == x.frags[0]
  {
    if |hd.frags| == 0 then x
    else
      var start := if hd.last.Some? then hd.last.value else 0;
      var (final, _) := WalkToEnd(hd.frags, start);
      FragList(hd.frags[..final + 1] + x.frags, if |x.frags| > 0 then Some(final + 1) else None)
  }

  /** The steps the walk of `fr_append` takes: from a set `fr_last` it
      only crosses the segment appended last, never the nodes before it. */
  function AppendSteps<F, M>(hd: FragList<F, M>): (n: nat)
    requires Valid(hd) && |hd.frags| > 0
    ensures hd.last.Some? ==> n == |hd.frags| - 1 - hd.last.value
    ensures hd.last.None? ==> n == |hd.frags| - 1
  {
    WalkToEnd(hd.frags, if hd.last.Some? then hd.last.value else 0).1
  }

  /** Appending fragments one at a time: each append walks only the
      fragments added by the append before it, and the list holds every
      fragment in order. */
  lemma AppendChain<F, M>(a: Frag<F, M>, b: Frag<F, M>, c: Frag<F, M>)
    ensures var l := Append(Append(Single(a), Single(b)), Single(c));
      l.frags == [a, b, c] && l.last == Some(2) &&
      AppendSteps(Append(Single(a), Single(b))) == 0
  {
    var ab := Append(Single(a), Single(b));
    assert ab.frags == [a, b] && ab.last == Some(1);
    assert [a, b] + [c] == [a, b, c];
  }

  /** Appending is associative on the fragments. */
  lemma AppendAssoc<F, M>(a: FragList<F, M>, b: FragList<F, M>, c: FragList<F, M>)
    requires Valid(a) && Valid(b) && Valid(c)
    ensures Append(Append(a, b), c).frags == Append(a, Append(b, c)).frags
  {
    assert (a.frags + b.frags) + c.frags == a.frags + (b.frags + c.frags);
  }
}

=== FILE: hashtable.dfy ===
/** The bounded-probe hash table (src/interfaces/table.c), as written.

    Buckets are an open-addressed array of `{key, value}` bindings, NULL
    key meaning an empty slot.  A lookup starts at `hash(key) & (size-1)`
    and walks forward while the slot is occupied, inside the array, and
    fewer than 12 slots from the start.  `Table_put` takes the first empty
    slot the walk stops at, or doubles the table (`rehash`) and tries again.

    A key is a `const void *` that every operation asserts is not NULL.
    It is modelled by a number naming its class under the table's `cmp`,
    so `cmp(x, y) == 0` is `x == y`; 0 is kept for NULL and the classes
    are numbered from 1 (a temp whose id is `n` is key `n + 1`).  Values
    are numbered the same way, NULL being 0.  The size
    is always a power of two (see `SizeFor`), for which `h & (size-1)` is
    `h % size`.
 */
module HashTable {
  import opened Wrappers

  const Null: nat := 0
  const InitialSize: nat := 128
  const ProbeLimit: nat := 12
  const TwoTo32: nat := 0x1_0000_0000

  datatype Binding = Binding(key: nat, value: nat)

  /** `struct Table`.  `hash` is the table's hash function;
      `nullSafeHash` says whether it may be applied to a NULL key (true of
      the default `hashatom`, false of one that dereferences its key). */
  datatype Table = Table(size: nat, length: int, timestamp: nat, buckets: seq<Binding>,
                         hash: nat -> nat, nullSafeHash: bool)

  /** Shape kept by every operation: one binding per slot, and a slot's
      value is NULL exactly when its key is (the buckets come from
      `calloc`, `Table_put` asserts a non-NULL value, and removal clears
      both fields). */
  predicate Shaped(t: Table) {
    t.size >= 1 && |t.buckets| == t.size && PairedNulls(t.buckets)
  }

  predicate PairedNulls(b: seq<Binding>) {
    forall j :: 0 <= j < |b| ==> (b[j].key == Null <==> b[j].value == Null)
  }

  /** `hashatom`: the key's address shifted right by two, as an `unsigned`. */
  function HashAtom(key: nat): nat {
    (key / 4) % TwoTo32
  }

  function Pow2(k: nat): (p: nat)
    ensures p >= 1
  {
    if k == 0 then 1 else 2 * Pow2(k - 1)
  }

  /** The bucket count `Table_new` picks: start at 128 and double while
      below the hint. */
  function SizeFor(size: nat, hint: int): (r: nat)
    requires size >= InitialSize
    ensures r >= size && r >= hint
    ensures exists k: nat :: r == size * Pow2(k)
    ensures r == size || r / 2 < hint
    decreases if hint > size then hint - size else 0
  {
    if size < hint then
      var r := SizeFor(2 * size, hint);
      assert exists k: nat :: r == size * Pow2(k) by {
        var k: nat :| r == 2 * size * Pow2(k);
        assert r == size * Pow2(k + 1);
      }
      r
    else
      assert size == size * Pow2(0);
      size
  }

  /** `Table_new`: asserts a non-negative hint; the smallest size
      128 * 2^k that is at least the hint, all buckets empty.  A NULL hash
      means `hashatom`. */
  function New(hint: int, hash: Option<nat -> nat>, nullSafe: bool): (t: Table)
    requires hint >= 0
    ensures Shaped(t) && t.length == 0 && t.timestamp == 0
    ensures t.size >= hint && exists k: nat :: t.size == InitialSize * Pow2(k)
    ensures t.size == InitialSize || t.size / 2 < hint
    ensures forall j :: 0 <= j < t.size ==> t.buckets[j] == Binding(Null, Null)
    ensures hash.None? ==> t.nullSafeHash
  {
    var size := SizeFor(InitialSize, hint);
    match hash
    case None => Table(size, 0, 0, seq(size, _ => Binding(Null, Null)), HashAtom, true)
    case Some(h) => Table(size, 0, 0, seq(size, _ => Binding(Null, Null)), h, nullSafe)
  }

  /** `hash(key) & (size - 1)`. */
  function Start(t: Table, key: nat): (s: nat)
    requires t.size >= 1
    ensures s < t.size
  {
    t.hash(key) % t.size
  }

  /** Where the probe loop stops: the first slot from `p` that is past the
      end, empty, or 12 slots from the start `s`. */
  function Stop(b: seq<Binding>, s: nat, p: nat): (q: nat)
    requires s <= p <= |b| && p <= s + ProbeLimit
    ensures p <= q <= |b| && q <= s + ProbeLimit
    ensures forall m :: p <= m < q ==> b[m].key != Null
    ensures q == |b| || q == s + ProbeLimit || b[q].key == Null
    decreases |b| - p
  {
    if p < |b| && b[p].key != Null && p < s + ProbeLimit then Stop(b, s, p + 1) else p
  }

  /** The first slot in `[lo, hi)` holding `key`. */
  function FindFirst(b: seq<Binding>, key: nat, lo: nat, hi: nat): (r: Option<nat>)
    requires lo <= hi <= |b|
    ensures r.Some? ==> lo <= r.value < hi && b[r.value].key == key
    ensures r.Some? ==> forall m :: lo <= m < r.value ==> b[m].key != key
    ensures r.None? ==> forall m :: lo <= m < hi ==> b[m].key != key
    decreases hi - lo
  {
    if lo == hi then None
    else if b[lo].key == key then Some(lo)
    else FindFirst(b, key, lo + 1, hi)
  }

  /** The last slot in `[lo, hi)` holding `key`. */
  function FindLast(b: seq<Binding>, key: nat, lo: nat, hi: nat): (r: Option<nat>)
    requires lo <= hi <= |b|
    ensures r.Some? ==> lo <= r.value < hi && b[r.value].key == key
    ensures r.Some? ==> forall m :: r.value < m < hi ==> b[m].key != key
    ensures r.None? ==> forall m :: lo <= m < hi ==> b[m].key != key
    decreases hi - lo
  {
    if lo == hi then None
    else if b[hi - 1].key == key then Some(hi - 1)
    else FindLast(b, key, lo, hi - 1)
  }

  /** `Table_get`: the value of the first matching key on the probe walk,
      else NULL.  The key must not be NULL (asserted in the source). */
  function Get(t: Table, key: nat): (v: nat)
    requires Shaped(t) && key != Null
    ensures v != Null ==> exists j :: 0 <= j < t.size && t.buckets[j] == Binding(key, v)
    ensures (forall j :: 0 <= j < t.size ==> t.buckets[j].key != key) ==> v == Null
  {
    var s := Start(t, key);
    match FindFirst(t.buckets, key, s, Stop(t.buckets, s, s))
    case Some(m) => t.buckets[m].value
    case None => Null
  }

  /** The first empty slot from `p` on, or the end. */
  function FirstEmpty(b: seq<Binding>, p: nat): (q: nat)
    requires p <= |b|
    ensures p <= q <= |b|
    ensures forall m :: p <= m < q ==> b[m].key != Null
    ensures q < |b| ==> b[q].key == Null
    decreases |b| - p
  {
    if p < |b| && b[p].key != Null then FirstEmpty(b, p + 1) else p
  }

  /** No key is bound twice. */
  ghost predicate Unique(b: seq<Binding>) {
    forall i, j :: 0 <= i < |b| && 0 <= j < |b| && i != j && b[i].key != Null ==> b[i].key != b[j].key
  }

  /** `rehash`, from slot `p` on: re-inserts the binding of every slot of
      the old array, empty ones included, at the first free slot from its
      hash in the doubled array, failing the two placement assertions. */
  function RehashFrom(t: Table, nb: seq<Binding>, p: nat): (r: Outcome<seq<Binding>>)
    requires Shaped(t) && p <= t.size && |nb| == 2 * t.size
    ensures r.Done? ==> |r.value| == |nb|
    decreases t.size - p
  {
    if p == t.size then Done(nb)
    else
      var kp := t.buckets[p].key;
      if kp == Null && !t.nullSafeHash then Fail("hash of a NULL key")
      else
        var i := t.hash(kp) % |nb|;
        var q := FirstEmpty(nb, i);
        if q >= |nb| then Fail("q < new_buckets + new_size")
        else if q >= i + ProbeLimit then Fail("q < new_buckets + i + 12")
        else RehashFrom(t, nb[q := t.buckets[p]], p + 1)
  }

  /** `rehash`: doubles the table.  Every binding of the new array is one
      of the old array's (nothing is invented or overwritten). */
  function Rehash(t: Table): (r: Outcome<Table>)
    requires Shaped(t)
    ensures r.Done? ==> Shaped(r.value) && r.value.size == 2 * t.size
    ensures r.Done? ==> r.value.length == t.length && r.value.timestamp == t.timestamp
    ensures r.Done? ==> r.value.hash == t.hash && r.value.nullSafeHash == t.nullSafeHash
    ensures r.Done? ==> BindingsOf(r.value.buckets, t.buckets)
  {
    var nb := seq(2 * t.size, _ => Binding(Null, Null));
    match RehashFrom(t, nb, 0)
    case Fail(e) => Fail(e)
    case Done(b) =>
      RehashShaped(t, nb, 0);
      RehashKeepsBindings(t, nb, 0);
      Done(t.(size := 2 * t.size, buckets := b))
  }

  /** Every binding of `b` is also a binding of `src`. */
  ghost predicate BindingsOf(b: seq<Binding>, src: seq<Binding>) {
    forall j :: 0 <= j < |b| && b[j].key != Null ==> exists i :: 0 <= i < |src| && src[i] == b[j]
  }

  lemma {:induction false} RehashKeepsBindings(t: Table, nb: seq<Binding>, p: nat)
    requires Shaped(t) && p <= t.size && |nb| == 2 * t.size && BindingsOf(nb, t.buckets)
    ensures RehashFrom(t, nb, p).Done? ==> BindingsOf(RehashFrom(t, nb, p).value, t.buckets)
    decreases t.size - p
  {
    if p < t.size {
      var kp := t.buckets[p].key;
      if !(kp == Null && !t.nullSafeHash) {
        var i := t.hash(kp) % |nb|;
        var q := FirstEmpty(nb, i);
        if q < |nb| && q < i + ProbeLimit {
          var nb' := nb[q := t.buckets[p]];
          assert BindingsOf(nb', t.buckets) by {
            forall j | 0 <= j < |nb'| && nb'[j].key != Null
              ensures exists i :: 0 <= i < |t.buckets| && t.buckets[i] == nb'[j]
            {
              if j == q {
                assert t.buckets[p] == nb'[j];
              }
            }
          }
          RehashKeepsBindings(t, nb', p + 1);
        }
      }
    }
  }

  lemma {:induction false} RehashShaped(t: Table, nb: seq<Binding>, p: nat)
    requires Shaped(t) && p <= t.size && |nb| == 2 * t.size && PairedNulls(nb)
    ensures RehashFrom(t, nb, p).Done? ==> PairedNulls(RehashFrom(t, nb, p).value)
    decreases t.size - p
  {
    if p < t.size {
      var kp := t.buckets[p].key;
      if !(kp == Null && !t.nullSafeHash) {
        var i := t.hash(kp) % |nb|;
        var q := FirstEmpty(nb, i);
        if q < |nb| && q < i + ProbeLimit {
          RehashShaped(t, nb[q := t.buckets[p]], p + 1);
        }
      }
    }
  }

  /** `timestamp++` on an `unsigned`. */
  function Tick(ts: nat): nat {
    (ts + 1) % TwoTo32
  }

  /** The part of `Table_put` before any rehash: the last slot on the walk
      that holds `key` is overwritten and its value returned; failing that,
      the empty slot the walk stopped at receives the binding and NULL is
      returned; no other slot changes.  None when neither slot exists (the
      walk ran into the end of the array or twelve occupied slots). */
  function PutInPlace(t: Table, key: nat, value: nat): (r: Option<(Table, nat)>)
    requires Shaped(t) && key != Null && value != Null
    ensures var s := Start(t, key); var p := Stop(t.buckets, s, s);
            var last := FindLast(t.buckets, key, s, p);
            (last.Some? ==>
               r.Some? && r.value.1 == t.buckets[last.value].value &&
               r.value.0.buckets == t.buckets[last.value := Binding(key, value)]) &&
            (last.None? ==>
               (r.Some? <==> p < t.size && t.buckets[p].key == Null) &&
               (r.Some? ==> r.value.1 == Null && r.value.0.buckets == t.buckets[p := Binding(key, value)]))
    ensures r.Some? ==> Shaped(r.value.0) && r.value.0.size == t.size && r.value.0.hash == t.hash
    ensures r.Some? ==> r.value.0.nullSafeHash == t.nullSafeHash && r.value.0.timestamp == Tick(t.timestamp)
    ensures r.Some? ==> r.value.0.length == t.length + (if r.value.1 == Null then 1 else 0)
  {
    var b := t.buckets;
    var s := Start(t, key);
    var p := Stop(b, s, s);
    match FindLast(b, key, s, p)
    case Some(q) =>
      Some((t.(buckets := b[q := Binding(key, value)], timestamp := Tick(t.timestamp)), b[q].value))
    case None =>
      if p < t.size && b[p].key == Null then
        Some((t.(buckets := b[p := Binding(key, value)], length := t.length + 1,
                 timestamp := Tick(t.timestamp)), Null))
      else None
  }

  /** `Table_put`: asserts non-NULL key and value.  The walk remembers the
      last matching slot; with a match the value is replaced, otherwise the
      key goes into the empty slot the walk stopped at (`PutInPlace`), or
      the table is rehashed and the put retried.  Returns the new table and
      the previous value (NULL for a new key).  `fuel` bounds the retries:
      the source can rehash without end when twelve occupied slots keep
      blocking the window.  In every case the new table binds `key` to
      `value` in some slot, and a non-NULL result is a value `key` had
      before. */
  function Put(t: Table, key: nat, value: nat, fuel: nat): (r: Outcome<(Table, nat)>)
    requires Shaped(t) && key != Null && value != Null
    ensures r.Done? ==> Shaped(r.value.0) && r.value.0.hash == t.hash
    ensures r.Done? ==> r.value.0.timestamp == Tick(t.timestamp)
    ensures r.Done? ==> r.value.0.length == t.length + (if r.value.1 == Null then 1 else 0)
    ensures r.Done? ==> exists j :: 0 <= j < |r.value.0.buckets| && r.value.0.buckets[j] == Binding(key, value)
    ensures r.Done? && r.value.1 != Null ==>
              exists j :: 0 <= j < t.size && t.buckets[j] == Binding(key, r.value.1)
    ensures PutInPlace(t, key, value).Some? ==> r == Done(PutInPlace(t, key, value).value)
    decreases fuel
  {
    match PutInPlace(t, key, value)
    case Some(x) =>
      PutInPlaceBinds(t, key, value);
      Done(x)
    case None =>
      if fuel == 0 then Fail("rehash retries exhausted")
      else
        match Rehash(t)
        case Fail(e) => Fail(e)
        case Done(t2) =>
          var r2 := Put(t2, key, value, fuel - 1);
          PutOldValue(t, t2, key, r2);
          r2
  }

  /** After an in-place put, `key` is bound to `value`, and a non-NULL
      result was bound to `key` before. */
  lemma PutInPlaceBinds(t: Table, key: nat, value: nat)
    requires Shaped(t) && key != Null && value != Null && PutInPlace(t, key, value).Some?
    ensures var x := PutInPlace(t, key, value).value;
      (exists j :: 0 <= j < |x.0.buckets| && x.0.buckets[j] == Binding(key, value)) &&
      (x.1 != Null ==> exists j :: 0 <= j < t.size && t.buckets[j] == Binding(key, x.1))
  {
    var b := t.buckets;
    var s := Start(t, key);
    var p := Stop(b, s, s);
    var x := PutInPlace(t, key, value).value;
    match FindLast(b, key, s, p)
    case Some(q) =>
      assert x.0.buckets[q] == Binding(key, value) && b[q] == Binding(key, x.1);
    case None =>
      assert x.0.buckets[p] == Binding(key, value);
  }

  /** A value the retried put returns after a rehash was bound to `key`
      before the rehash. */
  lemma PutOldValue(t: Table, t2: Table, key: nat, r2: Outcome<(Table, nat)>)
    requires |t.buckets| == t.size && key != Null && BindingsOf(t2.buckets, t.buckets)
    requires r2.Done? && r2.value.1 != Null ==>
               exists j :: 0 <= j < t2.size && j < |t2.buckets| && t2.buckets[j] == Binding(key, r2.value.1)
    ensures r2.Done? && r2.value.1 != Null ==>
              exists j :: 0 <= j < t.size && t.buckets[j] == Binding(key, r2.value.1)
  {
    if r2.Done? && r2.value.1 != Null {
      var j :| 0 <= j < t2.size && j < |t2.buckets| && t2.buckets[j] == Binding(key, r2.value.1);
      assert t2.buckets[j].key != Null;
    }
  }

  /** `Table_remove`: bumps the timestamp; clears the first matching slot
      on the walk and returns its value, or returns NULL.  `length` is left
      as it was.  The key must not be NULL (asserted in the source).
      Exactly the slot `Table_get` would read is emptied: slots holding
      other keys are kept, and one binding fewer remains exactly when the
      result is not NULL. */
  function Remove(t: Table, key: nat): (r: (Table, nat))
    requires Shaped(t) && key != Null
    ensures Shaped(r.0) && r.0.length == t.length && r.0.size == t.size
    ensures r.0.timestamp == Tick(t.timestamp)
    ensures r.1 == Get(t, key)
    ensures var s := Start(t, key); var m := FindFirst(t.buckets, key, s, Stop(t.buckets, s, s));
            (m.Some? ==> r.0.buckets == t.buckets[m.value := Binding(Null, Null)]) &&
            (m.None? ==> r.0.buckets == t.buckets)
    ensures forall j :: 0 <= j < t.size && t.buckets[j].key != key ==> r.0.buckets[j] == t.buckets[j]
    ensures Count(r.0.buckets) == Count(t.buckets) - (if r.1 == Null then 0 else 1)
  {
    var b := t.buckets;
    var s := Start(t, key);
    var t' := t.(timestamp := Tick(t.timestamp));
    match FindFirst(b, key, s, Stop(b, s, s))
    case Some(m) =>
      CountUpdate(b, m, Binding(Null, Null));
      (t'.(buckets := b[m := Binding(Null, Null)]), b[m].value)
    case None => (t', Null)
  }

  /** `Table_length`. */
  function Length(t: Table): int {
    t.length
  }

  /** The number of occupied slots. */
  function Count(b: seq<Binding>): (n: nat)
    ensures n <= |b|
  {
    if |b| == 0 then 0 else Count(b[..|b| - 1]) + Occupies(b[|b| - 1])
  }

  function Occupies(x: Binding): nat {
    if x.key != Null then 1 else 0
  }

  lemma {:induction false} CountUpdate(b: seq<Binding>, j: nat, x: Binding)
    requires j < |b|
    ensures Count(b[j := x]) == Count(b) - Occupies(b[j]) + Occupies(x)
    decreases |b|
  {
    var b' := b[j := x];
    if j < |b| - 1 {
      assert b'[..|b| - 1] == b[..|b| - 1][j := x];
      CountUpdate(b[..|b| - 1], j, x);
    } else {
      assert b'[..|b| - 1] == b[..|b| - 1];
    }
  }

  lemma {:induction false} CountEmpty(n: nat)
    ensures Count(seq(n, _ => Binding(Null, Null))) == 0
  {
    if n > 0 {
      assert seq(n, _ => Binding(Null, Null))[..n - 1] == seq(n - 1, _ => Binding(Null, Null));
      CountEmpty(n - 1);
    }
  }

  // ---------------------------------------------------------------------
  // Behaviour of the table as written.
  // ---------------------------------------------------------------------

  /** When the twelve slots from a key's start are taken by other keys and
      the thirteenth is free, `Table_put` stores the key in the thirteenth
      slot, one past where `Table_get` stops looking: the put succeeds and
      a following get returns NULL. */
  lemma PutBeyondWindowIsLost(t: Table, key: nat, value: nat, fuel: nat)
    requires Shaped(t) && key != Null && value != Null
    requires Start(t, key) + ProbeLimit < t.size
    requires forall m :: Start(t, key) <= m < Start(t, key) + ProbeLimit ==>
               t.buckets[m].key != Null && t.buckets[m].key != key
    requires t.buckets[Start(t, key) + ProbeLimit].key == Null
    ensures Put(t, key, value, fuel).Done?
    ensures Get(Put(t, key, value, fuel).value.0, key) == Null
  {
    var s := Start(t, key);
    assert Stop(t.buckets, s, s) == s + ProbeLimit;
    var t' := Put(t, key, value, fuel).value.0;
    assert t'.buckets == t.buckets[s + ProbeLimit := Binding(key, value)];
    assert Stop(t'.buckets, s, s) == s + ProbeLimit;
  }

  /** `Table_remove` empties the slot, and the walk of every key stored
      further along the same run then stops there: a key two slots into
      its run is no longer found once the key in front of it is removed. */
  lemma RemoveHidesFollowingKey(t: Table, k1: nat, k2: nat)
    requires Shaped(t) && k1 != Null && k2 != Null && k1 != k2
    requires Start(t, k1) == Start(t, k2) && Start(t, k1) + 1 < t.size
    requires t.buckets[Start(t, k1)].key == k1 && t.buckets[Start(t, k1) + 1].key == k2
    ensures Get(t, k2) == t.buckets[Start(t, k1) + 1].value != Null
    ensures Get(Remove(t, k1).0, k2) == Null
  {
    var s := Start(t, k1);
    assert Stop(t.buckets, s, s) >= s + 2 by {
      assert Stop(t.buckets, s, s) == Stop(t.buckets, s, s + 1);
    }
    assert Remove(t, k1).0.buckets == t.buckets[s := Binding(Null, Null)];
  }

  /** `Table_remove` returns the value but leaves `length` as it was, so
      `Table_length` overcounts by one after every successful removal. */
  lemma RemoveKeepsLength(t: Table, key: nat)
    requires Shaped(t) && key != Null && Get(t, key) != Null
    ensures Remove(t, key).0.length == t.length
    ensures Count(Remove(t, key).0.buckets) == Count(t.buckets) - 1
  {
    var s := Start(t, key);
    var m := FindFirst(t.buckets, key, s, Stop(t.buckets, s, s)).value;
    CountUpdate(t.buckets, m, Binding(Null, Null));
  }

  /** `rehash` hashes the key of every old slot, empty ones included; with
      a hash that dereferences its key (such as the one the interference
      graph uses for temps) a put that needs a rehash fails as soon as slot
      0 is empty, e.g. with the key in the last slot and a second key
      hashing there. */
  lemma RehashHashesNull(t: Table, key: nat, value: nat, fuel: nat)
    requires Shaped(t) && key != Null && value != Null && fuel > 0 && !t.nullSafeHash
    requires t.size >= 2 && Start(t, key) == t.size - 1
    requires t.buckets[t.size - 1].key != Null && t.buckets[t.size - 1].key != key
    requires t.buckets[0].key == Null
    ensures Put(t, key, value, fuel) == Fail("hash of a NULL key")
  {
    var s := Start(t, key);
    assert Stop(t.buckets, s, s) == t.size;
  }

  // ---------------------------------------------------------------------
  // The corrected table: every walk covers the whole window of twelve
  // slots, skipping empty ones, so removal leaves no hole in anyone's
  // path; rehash moves occupied slots only; removal decrements length.
  // ---------------------------------------------------------------------

  /** One past the last slot of the window starting at `s`. */
  function WindowEnd(size: nat, s: nat): (e: nat)
    requires s <= size
    ensures s <= e <= size && e <= s + ProbeLimit
    ensures e == size || e == s + ProbeLimit
  {
    if s + ProbeLimit < size then s + ProbeLimit else size
  }

  /** Slot `j` lies in the window of its key. */
  ghost predicate InWindow(b: seq<Binding>, hash: nat -> nat, j: nat)
    requires j < |b|
  {
    var s := hash(b[j].key) % |b|;
    s <= j < s + ProbeLimit
  }

  ghost predicate Windowed(b: seq<Binding>, hash: nat -> nat) {
    forall j :: 0 <= j < |b| && b[j].key != Null ==> InWindow(b, hash, j)
  }

  /** The corrected table's invariant: well shaped, keys unique, each key
      within its window, and `length` the number of bindings. */
  ghost predicate WInv(t: Table) {
    Shaped(t) && Unique(t.buckets) && Windowed(t.buckets, t.hash) && t.length == Count(t.buckets)
  }

  /** Reference lookup: the value bound to `key` anywhere in `b[..hi]`,
      found by scanning every slot, or NULL. */
  function Scan(b: seq<Binding>, key: nat, hi: nat): (v: nat)
    requires hi <= |b|
  {
    match FindFirst(b, key, 0, hi)
    case Some(j) => b[j].value
    case None => Null
  }

  function Lookup(b: seq<Binding>, key: nat): nat {
    Scan(b, key, |b|)
  }

  /** Corrected `Table_get`: the first match anywhere in the window. */
  function WindowGet(t: Table, key: nat): (v: nat)
    requires WInv(t) && key != Null
    ensures v == Lookup(t.buckets, key)
  {
    var s := Start(t, key);
    var hi := WindowEnd(t.size, s);
    var whole := FindFirst(t.buckets, key, 0, t.size);
    assert whole.Some? ==> InWindow(t.buckets, t.hash, whole.value);
    match FindFirst(t.buckets, key, s, hi)
    case Some(m) => t.buckets[m].value
    case None => Null
  }

  lemma {:induction false} FindFirstOther(b: seq<Binding>, key: nat, lo: nat, hi: nat, q: nat, x: Binding)
    requires lo <= hi <= |b| && q < |b| && b[q].key != key && x.key != key
    ensures FindFirst(b[q := x], key, lo, hi) == FindFirst(b, key, lo, hi)
    decreases hi - lo
  {
    if lo < hi {
      FindFirstOther(b, key, lo + 1, hi, q, x);
    }
  }

  /** A slot update that neither removes nor adds `key` leaves its lookup
      alone. */
  lemma LookupOther(b: seq<Binding>, q: nat, x: Binding, key: nat)
    requires q < |b| && b[q].key != key && x.key != key
    ensures Lookup(b[q := x], key) == Lookup(b, key)
  {
    FindFirstOther(b, key, 0, |b|, q, x);
  }

  /** Lookup of the key stored at slot `j` of a table with unique keys. */
  lemma LookupAt(b: seq<Binding>, j: nat)
    requires j < |b| && b[j].key != Null && Unique(b)
    ensures Lookup(b, b[j].key) == b[j].value
  {
  }

  /** The corrected `rehash`, from slot `p` on: only occupied slots move,
      each to the first empty slot of its window in the doubled array. */
  function WindowRehashFrom(t: Table, nb: seq<Binding>, p: nat): (r: Outcome<seq<Binding>>)
    requires Shaped(t) && p <= t.size && |nb| == 2 * t.size
    ensures r.Done? ==> |r.value| == |nb|
    decreases t.size - p
  {
    if p == t.size then Done(nb)
    else if t.buckets[p].key == Null then WindowRehashFrom(t, nb, p + 1)
    else
      var i := t.hash(t.buckets[p].key) % |nb|;
      match FindFirst(nb, Null, i, WindowEnd(|nb|, i))
      case None => Fail("q < new_buckets + i + 12")
      case Some(q) => WindowRehashFrom(t, nb[q := t.buckets[p]], p + 1)
  }

  /** What `WindowRehashFrom` keeps: the new array is a well-formed
      windowed table whose bindings are those of the first `p` old slots. */
  ghost predicate Moved(t: Table, nb: seq<Binding>, p: nat)
    requires p <= |t.buckets|
  {
    PairedNulls(nb) && Unique(nb) && Windowed(nb, t.hash) &&
    Count(nb) == Count(t.buckets[..p]) &&
    forall k :: k != Null ==> Lookup(nb, k) == Scan(t.buckets, k, p)
  }

  lemma {:induction false} WindowRehashFromMoves(t: Table, nb: seq<Binding>, p: nat)
    requires Shaped(t) && Unique(t.buckets) && p <= t.size && |nb| == 2 * t.size
    requires Moved(t, nb, p)
    ensures WindowRehashFrom(t, nb, p).Done? ==> Moved(t, WindowRehashFrom(t, nb, p).value, t.size)
    decreases t.size - p
  {
    if p < t.size {
      var kp := t.buckets[p].key;
      if kp == Null {
        SkipEmptyMoves(t, nb, p);
        WindowRehashFromMoves(t, nb, p + 1);
      } else {
        var i := t.hash(kp) % |nb|;
        match FindFirst(nb, Null, i, WindowEnd(|nb|, i))
        case None =>
        case Some(q) =>
          MoveOneMoves(t, nb, p, q);
          WindowRehashFromMoves(t, nb[q := t.buckets[p]], p + 1);
      }
    }
  }

  /** An empty old slot moves nothing. */
  lemma SkipEmptyMoves(t: Table, nb: seq<Binding>, p: nat)
    requires Shaped(t) && p < t.size && |nb| == 2 * t.size
    requires Moved(t, nb, p) && t.buckets[p].key == Null
    ensures Moved(t, nb, p + 1)
  {
    var b := t.buckets;
    assert b[..p + 1][..p] == b[..p] && b[..p + 1][p] == b[p];
    assert Count(b[..p + 1]) == Count(b[..p]) + Occupies(b[p]);
    forall k | k != Null
      ensures Scan(b, k, p + 1) == Scan(b, k, p)
    {
      ScanSkipsEmpty(b, k, p);
    }
  }

  /** A scan reads past an empty slot as if it were not there. */
  lemma ScanSkipsEmpty(b: seq<Binding>, k: nat, p: nat)
    requires p < |b| && b[p].key == Null && k != Null
    ensures Scan(b, k, p + 1) == Scan(b, k, p)
  {
    var r1 := FindFirst(b, k, 0, p + 1);
    if r1.Some? {
      assert r1.value < p;
    }
  }

  /** An occupied old slot moves to the first empty slot `q` of its
      window. */
  lemma MoveOneMoves(t: Table, nb: seq<Binding>, p: nat, q: nat)
    requires Shaped(t) && Unique(t.buckets) && p < t.size && |nb| == 2 * t.size
    requires Moved(t, nb, p) && t.buckets[p].key != Null
    requires FindFirst(nb, Null, t.hash(t.buckets[p].key) % |nb|,
                       WindowEnd(|nb|, t.hash(t.buckets[p].key) % |nb|)) == Some(q)
    ensures Moved(t, nb[q := t.buckets[p]], p + 1)
  {
    var b := t.buckets;
    assert b[..p + 1][..p] == b[..p];
    NotYetMoved(t, nb, p);
    CountUpdate(nb, q, b[p]);
    MovedLookups(t, nb, p, q, nb[q := b[p]]);
    MovedWindowed(nb, q, b[p], t.hash);
  }

  /** The key of an old slot not yet moved is in no slot of the new array. */
  lemma NotYetMoved(t: Table, nb: seq<Binding>, p: nat)
    requires Shaped(t) && Unique(t.buckets) && p < t.size
    requires Moved(t, nb, p) && t.buckets[p].key != Null
    ensures forall j :: 0 <= j < |nb| ==> nb[j].key != t.buckets[p].key
  {
    var kp := t.buckets[p].key;
    assert Scan(t.buckets, kp, p) == Null;
    if exists j :: 0 <= j < |nb| && nb[j].key == kp {
      var j :| 0 <= j < |nb| && nb[j].key == kp;
      LookupAt(nb, j);
    }
  }

  lemma MovedLookups(t: Table, nb: seq<Binding>, p: nat, q: nat, nb': seq<Binding>)
    requires Shaped(t) && Unique(t.buckets) && p < t.size && q < |nb|
    requires Moved(t, nb, p) && t.buckets[p].key != Null && nb[q].key == Null
    requires forall j :: 0 <= j < |nb| ==> nb[j].key != t.buckets[p].key
    requires nb' == nb[q := t.buckets[p]]
    ensures forall k :: k != Null ==> Lookup(nb', k) == Scan(t.buckets, k, p + 1)
  {
    var b := t.buckets;
    var kp := b[p].key;
    forall k | k != Null
      ensures Lookup(nb', k) == Scan(b, k, p + 1)
    {
      if k == kp {
        LookupAt(nb', q);
      } else {
        LookupOther(nb, q, b[p], k);
      }
    }
  }

  lemma MovedWindowed(nb: seq<Binding>, q: nat, x: Binding, hash: nat -> nat)
    requires Windowed(nb, hash) && q < |nb|
    requires hash(x.key) % |nb| <= q < hash(x.key) % |nb| + ProbeLimit
    ensures Windowed(nb[q := x], hash)
  {
    var nb' := nb[q := x];
    forall j | 0 <= j < |nb'| && nb'[j].key != Null
      ensures InWindow(nb', hash, j)
    {
      if j != q {
        assert InWindow(nb, hash, j);
      }
    }
  }

  /** Corrected `rehash`: doubles the table and keeps every binding. */
  function WindowRehash(t: Table): (r: Outcome<Table>)
    requires WInv(t)
    ensures r.Done? ==> WInv(r.value) && r.value.size == 2 * t.size
    ensures r.Done? ==> r.value.hash == t.hash && r.value.timestamp == t.timestamp
    ensures r.Done? ==> forall k :: k != Null ==> Lookup(r.value.buckets, k) == Lookup(t.buckets, k)
  {
    var nb := seq(2 * t.size, _ => Binding(Null, Null));
    CountEmpty(2 * t.size);
    assert t.buckets[..0] == [];
    assert t.buckets[..t.size] == t.buckets;
    WindowRehashFromMoves(t, nb, 0);
    match WindowRehashFrom(t, nb, 0)
    case Fail(e) => Fail(e)
    case Done(b) => Done(t.(size := 2 * t.size, buckets := b))
  }

  /** Corrected `Table_put`: replaces the value of a key found in its
      window, else takes the window's first empty slot, else rehashes and
      retries (at most `fuel` times).  The new table binds `key` to
      `value`, every other key as before, and the result is the previous
      value. */
  function WindowPut(t: Table, key: nat, value: nat, fuel: nat): (r: Outcome<(Table, nat)>)
    requires WInv(t) && key != Null && value != Null
    ensures r.Done? ==> WInv(r.value.0) && r.value.0.hash == t.hash
    ensures r.Done? ==> r.value.1 == Lookup(t.buckets, key)
    ensures r.Done? ==> Lookup(r.value.0.buckets, key) == value
    ensures r.Done? ==> forall k :: k != Null && k != key ==>
                          Lookup(r.value.0.buckets, k) == Lookup(t.buckets, k)
    decreases fuel
  {
    var b := t.buckets;
    var s := Start(t, key);
    var hi := WindowEnd(t.size, s);
    assert WindowGet(t, key) == Lookup(b, key);
    match FindFirst(b, key, s, hi)
    case Some(q) =>
      var b' := b[q := Binding(key, value)];
      WindowPutAt(t, q, Binding(key, value));
      Done((t.(buckets := b', timestamp := Tick(t.timestamp)), b[q].value))
    case None =>
      match FindFirst(b, Null, s, hi)
      case Some(e) =>
        var b' := b[e := Binding(key, value)];
        WindowPutAt(t, e, Binding(key, value));
        Done((t.(buckets := b', length := t.length + 1, timestamp := Tick(t.timestamp)), Null))
      case None =>
        if fuel == 0 then Fail("rehash retries exhausted")
        else
          match WindowRehash(t)
          case Fail(e) => Fail(e)
          case Done(t2) => WindowPut(t2, key, value, fuel - 1)
  }

  /** Writing binding `x` into slot `q` of its key's window, where `q`
      held that key or nothing and the key is bound nowhere else. */
  lemma WindowPutAt(t: Table, q: nat, x: Binding)
    requires WInv(t) && q < t.size && x.key != Null && x.value != Null
    requires t.buckets[q].key == x.key || t.buckets[q].key == Null
    requires forall j :: 0 <= j < t.size && j != q ==> t.buckets[j].key != x.key
    requires InWindow(t.buckets[q := x], t.hash, q)
    ensures var b' := t.buckets[q := x];
      PairedNulls(b') && Unique(b') && Windowed(b', t.hash) &&
      Count(b') == Count(t.buckets) + (if t.buckets[q].key == Null then 1 else 0) &&
      Lookup(b', x.key) == x.value &&
      forall k :: k != Null && k != x.key ==> Lookup(b', k) == Lookup(t.buckets, k)
  {
    var b := t.buckets;
    var b' := b[q := x];
    CountUpdate(b, q, x);
    LookupAt(b', q);
    forall k | k != Null && k != x.key
      ensures Lookup(b', k) == Lookup(b, k)
    {
      LookupOther(b, q, x, k);
    }
    assert Windowed(b', t.hash) by {
      forall j | 0 <= j < |b'| && b'[j].key != Null
        ensures InWindow(b', t.hash, j)
      {
        if j != q {
          assert InWindow(b, t.hash, j);
        }
      }
    }
  }

  /** Corrected `Table_remove`: clears the key's slot if it is in the
      window, decrements `length`, and returns the old value. */
  function WindowRemove(t: Table, key: nat): (r: (Table, nat))
    requires WInv(t) && key != Null
    ensures WInv(r.0) && r.0.size == t.size && r.0.hash == t.hash
    ensures r.1 == Lookup(t.buckets, key)
    ensures Lookup(r.0.buckets, key) == Null
    ensures forall k :: k != Null && k != key ==> Lookup(r.0.buckets, k) == Lookup(t.buckets, k)
    ensures r.0.length == t.length - (if r.1 == Null then 0 else 1)
  {
    var b := t.buckets;
    var s := Start(t, key);
    assert WindowGet(t, key) == Lookup(b, key);
    match FindFirst(b, key, s, WindowEnd(t.size, s))
    case Some(m) =>
      var b' := b[m := Binding(Null, Null)];
      CountUpdate(b, m, Binding(Null, Null));
      forall k | k != Null && k != key
        ensures Lookup(b', k) == Lookup(b, k)
      {
        LookupOther(b, m, Binding(Null, Null), k);
      }
      assert Windowed(b', t.hash) by {
        forall j | 0 <= j < |b'| && b'[j].key != Null
          ensures InWindow(b', t.hash, j)
        {
          assert InWindow(b, t.hash, j);
        }
      }
      (t.(buckets := b', length := t.length - 1, timestamp := Tick(t.timestamp)), b[m].value)
    case None =>
      (t.(timestamp := Tick(t.timestamp)), Null)
  }

  /** The key/value pairs of the occupied slots, in slot order. */
  function Pairs(b: seq<Binding>): (r: seq<nat>)
    ensures |r| == 2 * Count(b)
  {
    if |b| == 0 then []
    else
      var x := b[|b| - 1];
      Pairs(b[..|b| - 1]) + (if x.key != Null then [x.key, x.value] else [])
  }

  /** `Table_toArray`: key, value, key, value, ... over the occupied slots
      in slot order, then `end`.  In a table whose length counts its
      bindings this fills exactly the `2 * length + 1` entries the source
      allocates. */
  method ToArray(t: Table, end: nat) returns (arr: seq<nat>)
    requires Shaped(t)
    ensures arr == Pairs(t.buckets) + [end]
    ensures |arr| == 2 * Count(t.buckets) + 1
    ensures WInv(t) ==> |arr| == 2 * t.length + 1
  {
    arr := [];
    var i := 0;
    while i < t.size
      invariant 0 <= i <= t.size
      invariant arr == Pairs(t.buckets[..i])
    {
      assert t.buckets[..i + 1][..i] == t.buckets[..i];
      var p := t.buckets[i];
      if p.key != Null {
        arr := arr + [p.key, p.value];
      }
      i := i + 1;
    }
    assert t.buckets[..i] == t.buckets;
    arr := arr + [end];
  }

  /** `Table_map`: calls `apply` on every occupied slot in slot order and
      stores the value it returns, asserting that value is not NULL.  Keys
      and empty slots are untouched. */
  method Map(t: Table, apply: (nat, nat) -> nat) returns (r: Outcome<Table>)
    requires Shaped(t)
    ensures r.Done? <==> forall j :: 0 <= j < t.size && t.buckets[j].key != Null ==>
                           apply(t.buckets[j].key, t.buckets[j].value) != Null
    ensures r.Done? ==> Shaped(r.value) && r.value.size == t.size
    ensures r.Done? ==> r.value.length == t.length && r.value.timestamp == t.timestamp
    ensures r.Done? ==> forall j :: 0 <= j < t.size ==>
              r.value.buckets[j] == (if t.buckets[j].key == Null then t.buckets[j]
                                     else Binding(t.buckets[j].key, apply(t.buckets[j].key, t.buckets[j].value)))
  {
    var b := t.buckets;
    var i := 0;
    while i < t.size
      invariant 0 <= i <= t.size && |b| == t.size
      invariant forall j :: 0 <= j < i && t.buckets[j].key != Null ==>
                  apply(t.buckets[j].key, t.buckets[j].value) != Null
      invariant forall j :: 0 <= j < t.size ==>
                  b[j] == (if j >= i || t.buckets[j].key == Null then t.buckets[j]
                           else Binding(t.buckets[j].key, apply(t.buckets[j].key, t.buckets[j].value)))
    {
      var p := b[i];
      if p.key != Null {
        var v := apply(p.key, p.value);
        if v == Null {
          return Fail("p->value");
        }
        b := b[i := Binding(p.key, v)];
      }
      i := i + 1;
    }
    r := Done(t.(buckets := b));
  }
}

=== FILE: interference.dfy ===
/** The interference graph of one function body (`interference_graph` in
    src/liveness.c), built on the control-flow graph.

    Every temp named in a def or use list gets an interference node, in the
    order the flow nodes and their def-then-use lists meet them; temps are
    told apart by id.  The live sets then come from the worklist fixpoint
    of the `Dataflow` module, visiting the flow nodes in a given order, and
    from them:

      * at a node that is not a move, each def interferes with each
        live-out;
      * at a move `d <- u`, each def interferes with each live-out other
        than `u`, and the pair `(d, u)` is recorded as a move;
      * each node with a non-empty live-out set maps to its live-out temps,
        highest interference index first.
 */
module Interference {
  import opened Wrappers
  import Temp
  import NodeTrie
  import Liveness
  import Dataflow

  // ---------------------------------------------------------------------
  // Numbering the temps (ig_get_node_for_temp)
  // ---------------------------------------------------------------------

  /** Some temp of `ts` has the id `id`. */
  predicate HasId(ts: seq<Temp.Temp>, id: int) {
    exists i :: 0 <= i < |ts| && ts[i].id == id
  }

  /** No two temps of `ts` share an id. */
  predicate DistinctIds(ts: seq<Temp.Temp>) {
    forall i, j :: 0 <= i < j < |ts| ==> ts[i].id != ts[j].id
  }

  /** The interference nodes created while meeting the temps `ts` in order:
      a temp whose id has no node yet gets the next one. */
  function Number(ts: seq<Temp.Temp>): (r: seq<Temp.Temp>)
    ensures DistinctIds(r)
    ensures forall t :: t in ts ==> HasId(r, t.id)
    ensures forall t :: t in r ==> t in ts
  {
    if |ts| == 0 then []
    else
      var p, t := Number(ts[..|ts| - 1]), ts[|ts| - 1];
      assert forall u :: u in ts[..|ts| - 1] ==> u in ts;
      assert forall u :: u in ts ==> u in ts[..|ts| - 1] || u == t;
      assert forall i :: 0 <= i < |p| ==> (p + [t])[i] == p[i];
      assert (p + [t])[|p|] == t;
      if HasId(p, t.id) then p else p + [t]
  }

  /** Meeting more temps never renumbers the temps already met: the
      numbering of a prefix is a prefix of the numbering. */
  lemma {:induction false} NumberPrefix(ts: seq<Temp.Temp>, k: nat)
    requires k <= |ts|
    ensures |Number(ts[..k])| <= |Number(ts)|
    ensures Number(ts[..k]) == Number(ts)[..|Number(ts[..k])|]
    decreases |ts|
  {
    if k < |ts| {
      var init := ts[..|ts| - 1];
      assert init[..k] == ts[..k];
      NumberPrefix(init, k);
    } else {
      assert ts[..k] == ts;
    }
  }

  /** Each node holds the first temp met with its id. */
  lemma {:induction false} NumberFirst(ts: seq<Temp.Temp>, i: nat)
    requires i < |Number(ts)|
    ensures exists p :: 0 <= p < |ts| && ts[p] == Number(ts)[i] &&
                        forall q :: 0 <= q < p ==> ts[q].id != ts[p].id
  {
    var init, t := ts[..|ts| - 1], ts[|ts| - 1];
    var p := Number(init);
    assert Number(ts) == if HasId(p, t.id) then p else p + [t];
    if i < |p| {
      assert Number(ts)[i] == p[i];
      NumberFirst(init, i);
      var w :| 0 <= w < |init| && init[w] == p[i] && forall q :: 0 <= q < w ==> init[q].id != init[w].id;
      assert ts[w] == init[w];
      assert forall q :: 0 <= q < w ==> ts[q] == init[q];
    } else {
      assert Number(ts) == p + [t] && Number(ts)[i] == t;
      forall q | 0 <= q < |ts| - 1 ensures ts[q].id != t.id {
        assert ts[q] == init[q] && init[q] in init;
      }
      assert ts[|ts| - 1] == Number(ts)[i];
    }
  }

  /** The position of the node for `id`. */
  function IndexOf(nums: seq<Temp.Temp>, id: int): (i: nat)
    requires HasId(nums, id)
    ensures i < |nums| && nums[i].id == id
  {
    if nums[|nums| - 1].id == id then |nums| - 1
    else
      assert HasId(nums[..|nums| - 1], id) by {
        var w :| 0 <= w < |nums| && nums[w].id == id;
        assert nums[..|nums| - 1][w].id == id;
      }
      IndexOf(nums[..|nums| - 1], id)
  }

  /** With distinct ids, the node of a temp is the one holding its id. */
  lemma IndexOfUnique(nums: seq<Temp.Temp>, id: int, i: nat)
    requires DistinctIds(nums) && HasId(nums, id)
    requires i < |nums| && nums[i].id == id
    ensures IndexOf(nums, id) == i
  {
  }

  /** The temps the numbering loop meets in the first `k` flow nodes: each
      node's def list, then its use list. */
  function Met(g: Liveness.FlowGraph, k: nat): seq<Temp.Temp> {
    if k == 0 then []
    else Met(g, k - 1) + Liveness.TempsAt(g.def, k - 1) + Liveness.TempsAt(g.use, k - 1)
  }

  lemma {:induction false} MetHolds(g: Liveness.FlowGraph, k: nat, v: nat)
    requires v < k
    ensures forall t :: t in Liveness.TempsAt(g.def, v) ==> t in Met(g, k)
    ensures forall t :: t in Liveness.TempsAt(g.use, v) ==> t in Met(g, k)
  {
    if v < k - 1 {
      MetHolds(g, k - 1, v);
    }
  }

  /** The interference nodes: one per temp id named in the flow graph. */
  function Nodes(g: Liveness.FlowGraph): seq<Temp.Temp> {
    Number(Met(g, g.size))
  }

  /** The interference nodes of a temp list. */
  function NodeSet(nums: seq<Temp.Temp>, l: seq<Temp.Temp>): (s: set<nat>)
    ensures forall i :: i in s ==> i < |nums|
  {
    set t | t in l && HasId(nums, t.id) :: IndexOf(nums, t.id)
  }

  /** The node sets of the temp lists of the first `k` flow nodes. */
  function NodeSets(nums: seq<Temp.Temp>, t: NodeTrie.Trie<seq<Temp.Temp>>, k: nat): (r: seq<set<nat>>)
    ensures |r| == k && forall v :: 0 <= v < k ==> Dataflow.Within(r[v], |nums|)
  {
    if k == 0 then [] else NodeSets(nums, t, k - 1) + [NodeSet(nums, Liveness.TempsAt(t, k - 1))]
  }

  lemma {:induction false} NodeSetsAt(nums: seq<Temp.Temp>, t: NodeTrie.Trie<seq<Temp.Temp>>, k: nat, v: nat)
    requires v < k
    ensures NodeSets(nums, t, k)[v] == NodeSet(nums, Liveness.TempsAt(t, v))
  {
    if v < k - 1 {
      NodeSetsAt(nums, t, k - 1, v);
    }
  }

  /** The liveness problem of the flow graph, on interference nodes. */
  function FlowOf(g: Liveness.FlowGraph): Dataflow.Flow {
    var nums := Nodes(g);
    Dataflow.Flow(g.size, |nums|, g.edges, NodeSets(nums, g.def, g.size), NodeSets(nums, g.use, g.size))
  }

  /** The def set of a flow node holds the node of every temp of its def
      list and nothing else; the same for uses. */
  lemma FlowSets(g: Liveness.FlowGraph, v: nat, i: nat)
    requires v < g.size
    ensures i in FlowOf(g).def[v] <==> i < |Nodes(g)| && HasId(Liveness.TempsAt(g.def, v), Nodes(g)[i].id)
    ensures i in FlowOf(g).use[v] <==> i < |Nodes(g)| && HasId(Liveness.TempsAt(g.use, v), Nodes(g)[i].id)
  {
    var nums := Nodes(g);
    MetHolds(g, g.size, v);
    NodeSetsAt(nums, g.def, g.size, v);
    NodeSetsAt(nums, g.use, g.size, v);
    forall l: seq<Temp.Temp> | l == Liveness.TempsAt(g.def, v) || l == Liveness.TempsAt(g.use, v)
      ensures i in NodeSet(nums, l) <==> i < |nums| && HasId(l, nums[i].id)
    {
      if i < |nums| && HasId(l, nums[i].id) {
        var w :| 0 <= w < |l| && l[w].id == nums[i].id;
        assert l[w] in l;
        IndexOfUnique(nums, nums[i].id, i);
      }
    }
  }

  /** A control graph within its nodes makes a well-formed problem. */
  lemma FlowValid(g: Liveness.FlowGraph)
    requires forall e :: e in g.edges ==> e.0 < g.size && e.1 < g.size
    ensures Dataflow.Valid(FlowOf(g))
  {
  }

  // ---------------------------------------------------------------------
  // Interference and moves
  // ---------------------------------------------------------------------

  /** The members of `s` below `m`, highest first. */
  function Descending(s: set<nat>, m: nat): (r: seq<nat>)
    ensures forall j :: j in r <==> j in s && j < m
    ensures forall a, b :: 0 <= a < b < |r| ==> r[a] > r[b]
  {
    if m == 0 then []
    else
      var rest := Descending(s, m - 1);
      assert forall j :: j in rest ==> j < m - 1;
      assert forall a :: 0 <= a < |rest| ==> rest[a] in rest;
      (if m - 1 in s then [m - 1] else []) + rest
  }

  /** The defs at `v` interfere with its live-outs, except that at a move
      the source does not interfere with the destination. */
  predicate Interferes(f: Dataflow.Flow, isMove: set<nat>, v: nat, liveOut: seq<set<nat>>, d: nat, t: nat)
    requires v < |f.def| && v < |f.use| && v < |liveOut|
  {
    d in f.def[v] && t in liveOut[v] && (v in isMove ==> t !in f.use[v])
  }

  /** The interference edges contributed by node `v`. */
  function NodeEdges(f: Dataflow.Flow, isMove: set<nat>, v: nat, liveOut: seq<set<nat>>): (r: set<(nat, nat)>)
    requires v < |f.def| && v < |f.use| && v < |liveOut|
    ensures forall d: nat, t: nat :: (d, t) in r <==> Interferes(f, isMove, v, liveOut, d, t)
  {
    set d, t | d in f.def[v] && t in liveOut[v] && (v in isMove ==> t !in f.use[v]) :: (d, t)
  }

  /** The move pairs `(d, u)` recorded at move node `v`, whose one use is
      `u`, consed on in increasing order of `d`: one pair per definition
      at `v` below `m`, highest first. */
  function NodeMoves(f: Dataflow.Flow, v: nat, u: nat): (r: seq<(nat, nat)>)
    requires v < |f.def|
    ensures forall p :: p in r <==> p.0 in f.def[v] && p.0 < f.m && p.1 == u
    ensures forall a, b :: 0 <= a < b < |r| ==> r[a].0 > r[b].0
  {
    var ds := Descending(f.def[v], f.m);
    var r := seq(|ds|, i requires 0 <= i < |ds| => (ds[i], u));
    forall p | p in r ensures p.0 in ds && p.1 == u {
      var i :| 0 <= i < |r| && r[i] == p;
    }
    forall p: (nat, nat) | p.0 in ds && p.1 == u ensures p in r {
      var i :| 0 <= i < |ds| && ds[i] == p.0;
      assert r[i] == p;
    }
    r
  }

  /** A set of one member below `m` lists as that member. */
  lemma OneMember(s: set<nat>, m: nat)
    requires |s| == 1 && Dataflow.Within(s, m)
    ensures |Descending(s, m)| > 0 && s == {Descending(s, m)[0]}
  {
    var x :| x in s;
    assert x in Descending(s, m);
    assert |s - {x}| == 0;
    assert s == {x} by {
      assert s - {x} == {};
    }
  }

  /** The single use of a node with exactly one. */
  function OnlyUse(f: Dataflow.Flow, v: nat): (u: nat)
    requires v < |f.use| && |f.use[v]| == 1 && Dataflow.Within(f.use[v], f.m)
    ensures f.use[v] == {u}
  {
    OneMember(f.use[v], f.m);
    Descending(f.use[v], f.m)[0]
  }

  /** A move node whose use count is not one, which fails the assertion. */
  predicate BadMove(f: Dataflow.Flow, isMove: set<nat>, v: nat)
    requires v < |f.def| && v < |f.use|
  {
    v in isMove && f.def[v] != {} && |f.use[v]| != 1
  }

  /** Some node of `order[..k]` is a bad move. */
  predicate BadMoveIn(f: Dataflow.Flow, isMove: set<nat>, order: seq<nat>, k: nat)
    requires k <= |order| && forall i :: 0 <= i < |order| ==> order[i] < |f.def| && order[i] < |f.use|
  {
    exists i :: 0 <= i < k && BadMove(f, isMove, order[i])
  }

  /** The well-formedness of the problem the edge loop relies on. */
  ghost predicate Ready(f: Dataflow.Flow, order: seq<nat>, liveOut: seq<set<nat>>) {
    Dataflow.Valid(f) && |liveOut| == f.n && forall i :: 0 <= i < |order| ==> order[i] < f.n
  }

  /** The moves list after the first `k` nodes of the order: each move node
      conses its pairs onto the front. */
  function MovesUpTo(f: Dataflow.Flow, isMove: set<nat>, order: seq<nat>, k: nat): seq<(nat, nat)>
    requires Ready(f, order, seq(f.n, _ => {}))
    requires k <= |order| && !BadMoveIn(f, isMove, order, k)
  {
    if k == 0 then []
    else
      var v := order[k - 1];
      assert !BadMove(f, isMove, v);
      var rest := MovesUpTo(f, isMove, order, k - 1);
      if v in isMove && f.def[v] != {} then NodeMoves(f, v, OnlyUse(f, v)) + rest else rest
  }

  /** `interference_graph`'s edge loop: the edges and the moves over the
      whole order, or a failure at a move node without exactly one use. */
  method EdgesAndMoves(f: Dataflow.Flow, isMove: set<nat>, order: seq<nat>, liveOut: seq<set<nat>>)
    returns (r: Outcome<(set<(nat, nat)>, seq<(nat, nat)>)>)
    requires Ready(f, order, liveOut)
    ensures r.Fail? <==> BadMoveIn(f, isMove, order, |order|)
    ensures r.Done? ==> forall d: nat, t: nat :: (d, t) in r.value.0 <==>
      exists i :: 0 <= i < |order| && Interferes(f, isMove, order[i], liveOut, d, t)
    ensures r.Done? ==> r.value.1 == MovesUpTo(f, isMove, order, |order|)
  {
    var edges: set<(nat, nat)> := {};
    var moves: seq<(nat, nat)> := [];
    var k := 0;
    while k < |order|
      invariant k <= |order| && !BadMoveIn(f, isMove, order, k)
      invariant forall d: nat, t: nat :: (d, t) in edges <==>
        exists i :: 0 <= i < k && Interferes(f, isMove, order[i], liveOut, d, t)
      invariant moves == MovesUpTo(f, isMove, order, k)
    {
      var v := order[k];
      if v in isMove && f.def[v] != {} {
        if |f.use[v]| != 1 {
          return Fail("move node does not have exactly one use");
        }
        moves := NodeMoves(f, v, OnlyUse(f, v)) + moves;
      }
      edges := edges + NodeEdges(f, isMove, v, liveOut);
      k := k + 1;
    }
    r := Done((edges, moves));
  }

  // ---------------------------------------------------------------------
  // Live-outs as temp lists
  // ---------------------------------------------------------------------

  /** The temps of the node set `s`, highest index first. */
  function LiveOutTemps(nums: seq<Temp.Temp>, s: set<nat>): (r: seq<Temp.Temp>)
    ensures forall t :: t in r <==> exists j :: j in s && j < |nums| && nums[j] == t
  {
    var js := Descending(s, |nums|);
    assert forall i :: 0 <= i < |js| ==> js[i] in js;
    var r := seq(|js|, i requires 0 <= i < |js| => nums[js[i]]);
    assert forall j :: j in s && j < |nums| ==> nums[j] in r by {
      forall j | j in s && j < |nums| ensures nums[j] in r {
        var i :| 0 <= i < |js| && js[i] == j;
        assert r[i] == nums[j];
      }
    }
    r
  }

  /** The live-out map: a node of the order maps to its live-out temps,
      highest index first, when there are any; every other node is
      absent. */
  method LiveOuts(nums: seq<Temp.Temp>, order: seq<nat>, liveOut: seq<set<nat>>)
    returns (t: NodeTrie.Trie<seq<Temp.Temp>>)
    requires forall i :: 0 <= i < |order| ==> order[i] < |liveOut|
    ensures forall v: nat ::
              NodeTrie.Get(t, v) == (if v in order && liveOut[v] != {} then Some(LiveOutTemps(nums, liveOut[v])) else None)
  {
    t := NodeTrie.StoreAll(order, (v: nat) =>
      if v < |liveOut| && liveOut[v] != {} then Some(LiveOutTemps(nums, liveOut[v])) else None);
  }

  // ---------------------------------------------------------------------
  // interference_graph
  // ---------------------------------------------------------------------

  /** `igraph_and_table`: the interference graph, as its node temps, its
      edges and its moves, with the live-out map of the flow graph. */
  datatype IGraph = IGraph(
    temps: seq<Temp.Temp>,
    edges: set<(nat, nat)>,
    moves: seq<(nat, nat)>,
    liveOuts: NodeTrie.Trie<seq<Temp.Temp>>)

  /** What a successful run computes on the problem `f` with interference
      nodes `nums`: the live sets are the least solution of the liveness
      equations on the order's nodes, and empty elsewhere; each def
      interferes with the live-outs of its node (at a move, all but the
      source); the moves are listed last node first; and each node of the
      order with live-outs maps to their temps. */
  ghost predicate Describes(f: Dataflow.Flow, isMove: set<nat>, order: seq<nat>, nums: seq<Temp.Temp>,
                            ig: IGraph, liveIn: seq<set<nat>>, liveOut: seq<set<nat>>)
  {
    Ready(f, order, liveOut) && !BadMoveIn(f, isMove, order, |order|) &&
    ig.temps == nums &&
    Dataflow.Bounded(f, liveIn) && Dataflow.Bounded(f, liveOut) &&
    Dataflow.Solves(f, order, liveIn, liveOut) &&
    Dataflow.Least(f, order, liveIn, liveOut) &&
    (forall v :: 0 <= v < f.n && v !in order ==> liveIn[v] == {} && liveOut[v] == {}) &&
    (forall d: nat, t: nat :: (d, t) in ig.edges <==>
       exists i :: 0 <= i < |order| && Interferes(f, isMove, order[i], liveOut, d, t)) &&
    ig.moves == MovesUpTo(f, isMove, order, |order|) &&
    forall v: nat ::
      NodeTrie.Get(ig.liveOuts, v) == (if v in order && liveOut[v] != {} then Some(LiveOutTemps(nums, liveOut[v])) else None)
  }

  /** The body of `interference_graph` once the problem is set up. */
  method Build(f: Dataflow.Flow, isMove: set<nat>, order: seq<nat>, nums: seq<Temp.Temp>)
    returns (r: Outcome<IGraph>, liveIn: seq<set<nat>>, liveOut: seq<set<nat>>)
    requires Dataflow.Valid(f) && forall i :: 0 <= i < |order| ==> order[i] < f.n
    requires Dataflow.PredClosed(f, order)
    ensures r.Fail? <==> BadMoveIn(f, isMove, order, |order|)
    ensures r.Done? ==> Describes(f, isMove, order, nums, r.value, liveIn, liveOut)
  {
    liveIn, liveOut := Dataflow.Solve(f, order);
    var em := EdgesAndMoves(f, isMove, order, liveOut);
    if em.Fail? {
      return Fail(em.reason), liveIn, liveOut;
    }
    var outs := LiveOuts(nums, order, liveOut);
    r := Done(IGraph(nums, em.value.0, em.value.1, outs));
  }

  /** Every flow node is in the order: the depth-first search over
      predecessors from the exit node reached them all. */
  predicate CoversAll(n: nat, order: seq<nat>) {
    forall v :: 0 <= v < n ==> v in order
  }

  /** `interference_graph`, visiting the flow nodes in `order`, the result
      of `topological_sort` (every predecessor of a node in the order is in
      it too).  It fails when there is no flow node or no temp (a node-set
      table of no rows or no columns), when the order misses a flow node
      (`topological_sort` leaves a zeroed entry for it at the front, and
      the worklist's `lv_succ` on it reads through a null graph), and at a
      move node without exactly one use; otherwise it computes what
      `Describes` says on the flow graph's problem. */
  method InterferenceGraph(g: Liveness.FlowGraph, order: seq<nat>)
    returns (r: Outcome<IGraph>, liveIn: seq<set<nat>>, liveOut: seq<set<nat>>)
    requires forall e :: e in g.edges ==> e.0 < g.size && e.1 < g.size
    requires forall i :: 0 <= i < |order| ==> order[i] < g.size
    requires Dataflow.PredClosed(FlowOf(g), order)
    ensures r.Fail? <==>
      g.size == 0 || |Nodes(g)| == 0 || !CoversAll(g.size, order) ||
      BadMoveIn(FlowOf(g), g.isMove, order, |order|)
    ensures r.Done? ==> Describes(FlowOf(g), g.isMove, order, Nodes(g), r.value, liveIn, liveOut)
  {
    var nums := Nodes(g);
    if g.size == 0 || |nums| == 0 {
      return Fail("node set table without rows or columns"), [], [];
    }
    if !CoversAll(g.size, order) {
      return Fail("null node in the topological order"), [], [];
    }
    FlowValid(g);
    r, liveIn, liveOut := Build(FlowOf(g), g.isMove, order, nums);
  }

  /** A one-temp list whose temp has a node has a one-node set. */
  lemma SingleNodeSet(nums: seq<Temp.Temp>, l: seq<Temp.Temp>)
    requires |l| == 1 && HasId(nums, l[0].id)
    ensures NodeSet(nums, l) == {IndexOf(nums, l[0].id)}
  {
    assert l[0] in l;
  }

  /** A flow graph whose move nodes each have one def and one use never
      fails the move assertion. */
  lemma WellFormedMovesPass(g: Liveness.FlowGraph, order: seq<nat>)
    requires forall i :: 0 <= i < |order| ==> order[i] < g.size
    requires Liveness.MovesWellFormed(g)
    ensures !BadMoveIn(FlowOf(g), g.isMove, order, |order|)
  {
    var f, nums := FlowOf(g), Nodes(g);
    forall i | 0 <= i < |order| ensures !BadMove(f, g.isMove, order[i]) {
      var v := order[i];
      if v in g.isMove {
        var l := Liveness.TempsAt(g.use, v);
        assert |l| == 1 && l[0] in l;
        MetHolds(g, g.size, v);
        SingleNodeSet(nums, l);
        NodeSetsAt(nums, g.use, g.size, v);
      }
    }
  }
}

=== FILE: liveness.dfy ===
/** Building the control-flow graph of one function body from its
    instructions (`instrs2graph` and `temp_list_sort` in src/liveness.c).

    Node `k` is instruction `k`.  An operation or a move gets an edge from
    the instruction before it; a label gets one unless the instruction
    before it is an operation with jump targets.  Each jump adds an edge to
    the node of its target label, the last label of that name when a name
    repeats; a target with no label fails the assertion.
 */
module Liveness {
  import opened Wrappers
  import Temp
  import Assem
  import Sorting
  import NodeTrie

  function TempId(t: Temp.Temp): int {
    t.id
  }

  /** `temp_list_sort`: a list of fewer than two temps comes back as it is,
      any other is sorted by id. */
  function SortTemps(tl: seq<Temp.Temp>): (r: seq<Temp.Temp>)
    ensures Sorting.SortedBy(r, TempId) && |r| == |tl|
    ensures |tl| < 2 ==> r == tl
  {
    if |tl| < 2 then tl else Sorting.SortBy(tl, TempId)
  }

  /** The sorted list holds the same temps. */
  lemma SortTempsPermutes(tl: seq<Temp.Temp>)
    ensures multiset(SortTemps(tl)) == multiset(tl)
  {
  }

  /** `lv_flowgraph_t`: the control graph, the def and use lists per node
      and the move nodes. */
  datatype FlowGraph = FlowGraph(
    size: nat,
    edges: set<(nat, nat)>,
    def: NodeTrie.Trie<seq<Temp.Temp>>,
    use: NodeTrie.Trie<seq<Temp.Temp>>,
    isMove: set<nat>)

  /** `nt_get` read as a temp list: a missing node has the empty list. */
  function TempsAt(t: NodeTrie.Trie<seq<Temp.Temp>>, k: nat): seq<Temp.Temp> {
    match NodeTrie.Get(t, k)
    case None => []
    case Some(l) => l
  }

  // ---------------------------------------------------------------------
  // The graph the instructions describe
  // ---------------------------------------------------------------------

  /** The last of the first `n` instructions that is the label `l`. */
  function LabelNode(instrs: seq<Assem.Instr>, l: string, n: nat): (r: Option<nat>)
    requires n <= |instrs|
    ensures r.Some? ==> r.value < n && instrs[r.value] == Assem.ILabel(instrs[r.value].assem, l)
    ensures r.Some? ==> forall k :: r.value < k < n ==> !(instrs[k].ILabel? && instrs[k].name == l)
    ensures r.None? ==> forall k :: 0 <= k < n ==> !(instrs[k].ILabel? && instrs[k].name == l)
  {
    if n == 0 then None
    else if instrs[n - 1].ILabel? && instrs[n - 1].name == l then Some(n - 1)
    else LabelNode(instrs, l, n - 1)
  }

  /** Instruction `k` is an operation with jump targets. */
  predicate Jumps(instrs: seq<Assem.Instr>, k: nat) {
    k < |instrs| && instrs[k].Oper? && instrs[k].jump.Some?
  }

  /** Control can fall from instruction `b - 1` into instruction `b`. */
  predicate FallsInto(instrs: seq<Assem.Instr>, b: nat) {
    0 < b < |instrs| && (!instrs[b].ILabel? || !Jumps(instrs, b - 1))
  }

  /** Instruction `a` jumps to the label at node `b`. */
  predicate JumpsTo(instrs: seq<Assem.Instr>, a: nat, b: nat) {
    Jumps(instrs, a) &&
    exists l :: l in instrs[a].jump.value && LabelNode(instrs, l, |instrs|) == Some(b)
  }

  predicate Edge(instrs: seq<Assem.Instr>, a: nat, b: nat) {
    (a + 1 == b && FallsInto(instrs, b)) || JumpsTo(instrs, a, b)
  }

  /** Some jump names a label no instruction defines. */
  predicate MissingLabel(instrs: seq<Assem.Instr>) {
    exists a, l :: 0 <= a < |instrs| && Jumps(instrs, a) && l in instrs[a].jump.value &&
                        LabelNode(instrs, l, |instrs|).None?
  }

  /** Each move node has one def and one use. */
  predicate MovesWellFormed(g: FlowGraph) {
    forall k :: k in g.isMove ==> |TempsAt(g.def, k)| == 1 && |TempsAt(g.use, k)| == 1
  }

  // ---------------------------------------------------------------------
  // instrs2graph
  // ---------------------------------------------------------------------


  // The first loop of `instrs2graph` builds five things at once; each is
  // given here by its own function over the first `k` instructions.

  /** The fall-through edges. */
  function FallEdges(instrs: seq<Assem.Instr>, k: nat): set<(nat, nat)>
    requires k <= |instrs|
  {
    if k <= 1 then {}
    else if instrs[k - 1].ILabel? && Jumps(instrs, k - 2) then FallEdges(instrs, k - 1)
    else FallEdges(instrs, k - 1) + {(k - 2, k - 1)}
  }

  /** The label table, `Table_put` letting a later label replace an
      earlier one of the same name. */
  function Labels(instrs: seq<Assem.Instr>, k: nat): map<string, nat>
    requires k <= |instrs|
  {
    if k == 0 then map[]
    else if instrs[k - 1].ILabel? then Labels(instrs, k - 1)[instrs[k - 1].name := k - 1]
    else Labels(instrs, k - 1)
  }

  /** The move nodes (`nodeset_upsert(&ismove, node)`). */
  function Moves(instrs: seq<Assem.Instr>, k: nat): set<nat>
    requires k <= |instrs|
  {
    if k == 0 then {}
    else if instrs[k - 1].IMove? then Moves(instrs, k - 1) + {k - 1}
    else Moves(instrs, k - 1)
  }

  /** The list an instruction stores in the def map, if any: an
      operation's sorted destinations when it has some, a move's
      destination: present exactly when the instruction defines something,
      and then the definitions sorted by id. */
  function DefEntry(i: Assem.Instr): (r: Option<seq<Temp.Temp>>)
    ensures r.Some? <==> |Assem.Defs(i)| > 0
    ensures r.Some? ==> Sorting.SortedBy(r.value, TempId) && multiset(r.value) == multiset(Assem.Defs(i))
  {
    SortTempsPermutes(Assem.Defs(i));
    match i
    case Oper(_, dst, _, _) => if |dst| > 0 then Some(SortTemps(dst)) else None
    case ILabel(_, _) => None
    case IMove(_, d, _) => Some([d])
  }

  /** The list an instruction stores in the use map, likewise from the
      sources. */
  function UseEntry(i: Assem.Instr): (r: Option<seq<Temp.Temp>>)
    ensures r.Some? <==> |Assem.Uses(i)| > 0
    ensures r.Some? ==> Sorting.SortedBy(r.value, TempId) && multiset(r.value) == multiset(Assem.Uses(i))
  {
    SortTempsPermutes(Assem.Uses(i));
    match i
    case Oper(_, _, src, _) => if |src| > 0 then Some(SortTemps(src)) else None
    case ILabel(_, _) => None
    case IMove(_, _, s) => Some([s])
  }

  /** The def lists: the trie after each instruction stored its entry. */
  function DefTrie(instrs: seq<Assem.Instr>): NodeTrie.Trie<seq<Temp.Temp>> {
    NodeTrie.FromEntries(seq(|instrs|, j requires 0 <= j < |instrs| => DefEntry(instrs[j])))
  }

  /** The use lists. */
  function UseTrie(instrs: seq<Assem.Instr>): NodeTrie.Trie<seq<Temp.Temp>> {
    NodeTrie.FromEntries(seq(|instrs|, j requires 0 <= j < |instrs| => UseEntry(instrs[j])))
  }

  /** The entry read back as a list is the instruction's sorted temps. */
  lemma EntryLists(i: Assem.Instr)
    ensures (match DefEntry(i) case None => [] case Some(l) => l) == SortTemps(Assem.Defs(i))
    ensures (match UseEntry(i) case None => [] case Some(l) => l) == SortTemps(Assem.Uses(i))
  {
  }

  lemma {:induction false} FirstPassEdges(instrs: seq<Assem.Instr>, k: nat)
    requires k <= |instrs|
    ensures forall a: nat, b: nat :: (a, b) in FallEdges(instrs, k) <==> a + 1 == b && b < k && FallsInto(instrs, b)
  {
    if k > 0 {
      FirstPassEdges(instrs, k - 1);
    }
  }

  lemma {:induction false} FirstPassLabels(instrs: seq<Assem.Instr>, k: nat)
    requires k <= |instrs|
    ensures forall l :: l in Labels(instrs, k) <==> LabelNode(instrs, l, k).Some?
    ensures forall l :: l in Labels(instrs, k) ==> LabelNode(instrs, l, k) == Some(Labels(instrs, k)[l])
  {
    if k > 0 {
      FirstPassLabels(instrs, k - 1);
    }
  }

  lemma {:induction false} FirstPassMoves(instrs: seq<Assem.Instr>, k: nat)
    requires k <= |instrs|
    ensures forall j: nat :: j in Moves(instrs, k) <==> j < k && instrs[j].IMove?
  {
    if k > 0 {
      FirstPassMoves(instrs, k - 1);
    }
  }


  /** Each node's def and use lists are its instruction's temps, sorted. */
  lemma TrieLists(instrs: seq<Assem.Instr>, j: nat)
    requires j < |instrs|
    ensures TempsAt(DefTrie(instrs), j) == SortTemps(Assem.Defs(instrs[j]))
    ensures TempsAt(UseTrie(instrs), j) == SortTemps(Assem.Uses(instrs[j]))
  {
    NodeTrie.FromEntriesGet(seq(|instrs|, j requires 0 <= j < |instrs| => DefEntry(instrs[j])), j);
    NodeTrie.FromEntriesGet(seq(|instrs|, j requires 0 <= j < |instrs| => UseEntry(instrs[j])), j);
    EntryLists(instrs[j]);
  }

  /** The jump edges of the instructions before `a` whose target is in
      the label table. */
  function JumpEdges(instrs: seq<Assem.Instr>, labels: map<string, nat>, a: nat): set<(nat, nat)>
    requires a <= |instrs|
  {
    set x, l | 0 <= x < a && Jumps(instrs, x) && l in instrs[x].jump.value && l in labels :: (x, labels[l])
  }

  /** The edges of jump `a` to the targets among `js`. */
  function TargetEdges(labels: map<string, nat>, a: nat, js: seq<string>): set<(nat, nat)> {
    set l | l in js && l in labels :: (a, labels[l])
  }

  lemma JumpEdgesNext(instrs: seq<Assem.Instr>, labels: map<string, nat>, a: nat)
    requires a < |instrs|
    ensures JumpEdges(instrs, labels, a + 1) ==
      JumpEdges(instrs, labels, a) + if Jumps(instrs, a) then TargetEdges(labels, a, instrs[a].jump.value) else {}
  {
  }

  lemma TargetEdgesNext(labels: map<string, nat>, a: nat, js: seq<string>, i: nat)
    requires i < |js| && js[i] in labels
    ensures TargetEdges(labels, a, js[..i + 1]) == TargetEdges(labels, a, js[..i]) + {(a, labels[js[i]])}
  {
    assert js[..i + 1] == js[..i] + [js[i]];
  }

  /** The fall-through and jump edges, with the label table of the whole
      body, are the edges the instructions describe. */
  lemma EdgesMeaning(instrs: seq<Assem.Instr>, labels: map<string, nat>, fall: set<(nat, nat)>)
    requires forall a: nat, b: nat :: (a, b) in fall <==> a + 1 == b && FallsInto(instrs, b)
    requires forall l :: l in labels <==> LabelNode(instrs, l, |instrs|).Some?
    requires forall l :: l in labels ==> LabelNode(instrs, l, |instrs|) == Some(labels[l])
    ensures forall a: nat, b: nat :: (a, b) in fall + JumpEdges(instrs, labels, |instrs|) <==> Edge(instrs, a, b)
  {
    forall a: nat, b: nat
      ensures (a, b) in JumpEdges(instrs, labels, |instrs|) <==> JumpsTo(instrs, a, b)
    {
      if JumpsTo(instrs, a, b) {
        var l :| l in instrs[a].jump.value && LabelNode(instrs, l, |instrs|) == Some(b);
        assert (a, labels[l]) in JumpEdges(instrs, labels, |instrs|);
      }
    }
  }

  /** The edges from jump `a` to each of its targets `js`, added to
      `edges`; a target missing from the label table fails. */
  method AddTargets(labels: map<string, nat>, a: nat, js: seq<string>, edges: set<(nat, nat)>)
    returns (r: Outcome<set<(nat, nat)>>)
    ensures r.Fail? <==> exists l :: l in js && l !in labels
    ensures r.Done? ==> r.value == edges + TargetEdges(labels, a, js)
  {
    var acc := edges;
    var i := 0;
    while i < |js|
      invariant 0 <= i <= |js|
      invariant acc == edges + TargetEdges(labels, a, js[..i])
      invariant forall q :: 0 <= q < i ==> js[q] in labels
    {
      if js[i] !in labels {
        return Fail("jump target has no label");
      }
      TargetEdgesNext(labels, a, js, i);
      acc := acc + {(a, labels[js[i]])};
      i := i + 1;
    }
    assert js[..i] == js;
    r := Done(acc);
  }

  /** The second loop of `instrs2graph`: an edge from each jump to the
      node of each target label, failing on a target the label table does
      not have. */
  method AddJumpEdges(instrs: seq<Assem.Instr>, labels: map<string, nat>, fall: set<(nat, nat)>)
    returns (r: Outcome<set<(nat, nat)>>)
    ensures r.Fail? <==> exists a, l :: 0 <= a < |instrs| && Jumps(instrs, a) && l in instrs[a].jump.value && l !in labels
    ensures r.Done? ==> r.value == fall + JumpEdges(instrs, labels, |instrs|)
  {
    var edges := fall;
    var a := 0;
    while a < |instrs|
      invariant 0 <= a <= |instrs|
      invariant edges == fall + JumpEdges(instrs, labels, a)
      invariant forall x, l :: 0 <= x < a && Jumps(instrs, x) && l in instrs[x].jump.value ==> l in labels
    {
      JumpEdgesNext(instrs, labels, a);
      if Jumps(instrs, a) {
        var added := AddTargets(labels, a, instrs[a].jump.value, edges);
        if added.Fail? {
          return Fail(added.reason);
        }
        edges := added.value;
      }
      a := a + 1;
    }
    r := Done(edges);
  }

  /** `instrs2graph`: the control-flow graph of the instructions, or a
      failure when a jump names a label that is not there. */
  method Instrs2Graph(instrs: seq<Assem.Instr>) returns (r: Outcome<FlowGraph>)
    ensures r.Fail? <==> MissingLabel(instrs)
    ensures r.Done? ==> r.value.size == |instrs|
    ensures r.Done? ==> forall a: nat, b: nat :: (a, b) in r.value.edges <==> Edge(instrs, a, b)
    ensures r.Done? ==> forall k :: 0 <= k < |instrs| ==>
      TempsAt(r.value.def, k) == SortTemps(Assem.Defs(instrs[k])) &&
      TempsAt(r.value.use, k) == SortTemps(Assem.Uses(instrs[k]))
    ensures r.Done? ==> forall k: nat :: k in r.value.isMove <==> k < |instrs| && instrs[k].IMove?
  {
    var fall, labels := FallEdges(instrs, |instrs|), Labels(instrs, |instrs|);
    FirstPassLabels(instrs, |instrs|);
    var edges := AddJumpEdges(instrs, labels, fall);
    if edges.Fail? {
      return Fail(edges.reason);
    }
    FirstPassEdges(instrs, |instrs|);
    FirstPassMoves(instrs, |instrs|);
    EdgesMeaning(instrs, labels, fall);
    forall j | 0 <= j < |instrs|
      ensures TempsAt(DefTrie(instrs), j) == SortTemps(Assem.Defs(instrs[j]))
      ensures TempsAt(UseTrie(instrs), j) == SortTemps(Assem.Uses(instrs[j]))
    {
      TrieLists(instrs, j);
    }
    r := Done(FlowGraph(|instrs|, edges.value, DefTrie(instrs), UseTrie(instrs), Moves(instrs, |instrs|)));
  }

  /** The graph the instructions give: each move node has one def and one
      use. */
  lemma MovesOfInstrs(instrs: seq<Assem.Instr>, g: FlowGraph)
    requires forall k :: 0 <= k < |instrs| ==>
      TempsAt(g.def, k) == SortTemps(Assem.Defs(instrs[k])) &&
      TempsAt(g.use, k) == SortTemps(Assem.Uses(instrs[k]))
    requires forall k: nat :: k in g.isMove <==> k < |instrs| && instrs[k].IMove?
    ensures MovesWellFormed(g)
  {
    forall k | k in g.isMove
      ensures |TempsAt(g.def, k)| == 1 && |TempsAt(g.use, k)| == 1
    {
      var i := instrs[k];
      assert i.IMove?;
      assert Assem.Defs(i) == [i.moveDst] && Assem.Uses(i) == [i.moveSrc];
      assert SortTemps(Assem.Defs(i)) == [i.moveDst] && SortTemps(Assem.Uses(i)) == [i.moveSrc];
    }
  }
}

=== FILE: nodetrie.dfy ===
/** The map from flow-graph nodes to temp lists of the liveness pass
    (`lv_node_temps_map_t`, `nt_upsert` and `nt_get` in src/liveness.c):
    a 4-ary hash trie.  A lookup compares the key at each node and
    otherwise descends into the child picked by the top two bits of the
    hash, shifting the hash left by two for the next level.

    Keys are node indices: all nodes of one map belong to the same flow
    graph, so `lv_eq` comes down to comparing indices.
 */
module NodeTrie {
  import opened Wrappers

  datatype Trie<V> =
    | Leaf
    | Branch(key: nat, value: V, c0: Trie<V>, c1: Trie<V>, c2: Trie<V>, c3: Trie<V>)

  /** 2^32: hash values are `uint32_t`. */
  const Modulus: nat := 0x1_0000_0000

  /** Bitwise exclusive or. */
  function Xor(a: nat, b: nat): nat
    decreases a + b
  {
    if a == 0 then b
    else if b == 0 then a
    else 2 * Xor(a / 2, b / 2) + (if a % 2 == b % 2 then 0 else 1)
  }

  /** `uint32_t x = n->lvn_idx`: the index cut down to 32 bits. */
  function KeyBits(k: nat): nat {
    k % Modulus
  }

  /** `lv_node_hash`: a 32-bit xorshift-multiply mixer, with `>>` as
      division by a power of two and the wrap-around of `*` written out.
      The result is a `uint32_t`. */
  function NodeHash(x0: nat): (h: nat)
    ensures h < Modulus
  {
    var x1 := Xor(x0, x0 / 0x8000);
    var x2 := x1 * 0x2c1b3c6d % Modulus;
    var x3 := Xor(x2, x2 / 0x1000);
    var x4 := x3 * 0x297a2d39 % Modulus;
    Pow2Is32Bits();
    XorBelow(x4, x4 / 0x8000, 32);
    Xor(x4, x4 / 0x8000)
  }

  function Pow2(n: nat): (p: nat)
    ensures p >= 1
  {
    if n == 0 then 1 else 2 * Pow2(n - 1)
  }

  /** Exclusive or of two `n`-bit numbers is an `n`-bit number. */
  lemma {:induction false} XorBelow(a: nat, b: nat, n: nat)
    requires a < Pow2(n) && b < Pow2(n)
    ensures Xor(a, b) < Pow2(n)
    decreases a + b
  {
    if a != 0 && b != 0 {
      XorBelow(a / 2, b / 2, n - 1);
    }
  }

  lemma {:induction false} Pow2Add(a: nat, b: nat)
    ensures Pow2(a + b) == Pow2(a) * Pow2(b)
    decreases a
  {
    if a > 0 {
      Pow2Add(a - 1, b);
    }
  }

  lemma Pow2Is32Bits()
    ensures Pow2(32) == Modulus
  {
    assert Pow2(2) == 4;
    Pow2Add(2, 2);
    Pow2Add(4, 4);
    Pow2Add(8, 8);
    Pow2Add(16, 16);
  }

  /** `4^(15 - i)` for the sixteen digit positions. */
  const DigitWeights: seq<nat> := [
    0x4000_0000, 0x1000_0000, 0x400_0000, 0x100_0000, 0x40_0000, 0x10_0000, 0x4_0000, 0x1_0000,
    0x4000, 0x1000, 0x400, 0x100, 0x40, 0x10, 0x4, 0x1]

  /** The successive values of `h >> 30` as a walk shifts `h` left by two:
      the sixteen base-4 digits of the 32-bit hash, most significant
      first.  Once they are used up the shifted hash is 0, so every later
      level descends into child 0. */
  function Path(h: nat): (p: seq<nat>)
    ensures |p| == 16
  {
    seq(16, i requires 0 <= i < 16 => h / DigitWeights[i] % 4)
  }

  /** The child index at the current level. */
  function Head(p: seq<nat>): nat {
    if |p| == 0 then 0 else p[0]
  }

  /** The digits left for the next level. */
  function Tail(p: seq<nat>): seq<nat> {
    if |p| == 0 then [] else p[1..]
  }

  /** `child[h >> 30]`. */
  function Child<V>(t: Trie<V>, p: seq<nat>): Trie<V>
    requires t.Branch?
  {
    var d := Head(p);
    if d == 0 then t.c0 else if d == 1 then t.c1 else if d == 2 then t.c2 else t.c3
  }

  /** The walk of `nt_upsert` without an arena, with `h` the hash still
      unused: `None` is the NULL it returns for a missing key. */
  function GetAt<V>(t: Trie<V>, k: nat, h: seq<nat>): (r: Option<V>)
    ensures r.Some? ==> k in Keys(t)
  {
    match t
    case Leaf => None
    case Branch(key, v, _, _, _, _) =>
      if key == k then Some(v) else GetAt(Child(t, h), k, Tail(h))
  }

  /** The walk of `nt_upsert` with an arena followed by the store through
      the returned pointer: an existing node gets the new value, otherwise
      a node is allocated at the empty slot the walk ends on. */
  function PutAt<V>(t: Trie<V>, k: nat, v: V, h: seq<nat>): Trie<V> {
    match t
    case Leaf => Branch(k, v, Leaf, Leaf, Leaf, Leaf)
    case Branch(key, w, c0, c1, c2, c3) =>
      if key == k then Branch(key, v, c0, c1, c2, c3)
      else
        var d := Head(h);
        if d == 0 then Branch(key, w, PutAt(c0, k, v, Tail(h)), c1, c2, c3)
        else if d == 1 then Branch(key, w, c0, PutAt(c1, k, v, Tail(h)), c2, c3)
        else if d == 2 then Branch(key, w, c0, c1, PutAt(c2, k, v, Tail(h)), c3)
        else Branch(key, w, c0, c1, c2, PutAt(c3, k, v, Tail(h)))
  }

  /** The digits of the hash of a key. */
  function KeyPath(k: nat): seq<nat> {
    Path(NodeHash(KeyBits(k)))
  }

  /** `nt_get`: NULL for a key never stored. */
  function Get<V>(t: Trie<V>, k: nat): (r: Option<V>)
    ensures r.Some? ==> k in Keys(t)
  {
    GetAt(t, k, KeyPath(k))
  }

  /** `*nt_upsert(&t, k, ar) = v`: the key is then stored, with `v`. */
  function Put<V>(t: Trie<V>, k: nat, v: V): (r: Trie<V>)
    ensures Get(r, k) == Some(v)
    ensures Keys(r) == Keys(t) + {k}
  {
    GetPutSame(t, k, v, KeyPath(k));
    PutKeys(t, k, v, KeyPath(k));
    PutAt(t, k, v, KeyPath(k))
  }

  /** The keys stored in a trie. */
  function Keys<V>(t: Trie<V>): set<nat> {
    match t
    case Leaf => {}
    case Branch(key, _, c0, c1, c2, c3) => {key} + Keys(c0) + Keys(c1) + Keys(c2) + Keys(c3)
  }

  lemma {:induction false} GetPutSame<V>(t: Trie<V>, k: nat, v: V, h: seq<nat>)
    ensures GetAt(PutAt(t, k, v, h), k, h) == Some(v)
  {
    match t
    case Leaf =>
    case Branch(key, w, c0, c1, c2, c3) =>
      if key != k {
        var d := Head(h);
        if d == 0 { GetPutSame(c0, k, v, Tail(h)); }
        else if d == 1 { GetPutSame(c1, k, v, Tail(h)); }
        else if d == 2 { GetPutSame(c2, k, v, Tail(h)); }
        else { GetPutSame(c3, k, v, Tail(h)); }
      }
  }

  /** Storing under `k` leaves every other key's lookup alone, whatever
      the two hashes are: the walks only ever compare keys. */
  lemma {:induction false} GetPutOther<V>(t: Trie<V>, k: nat, v: V, h: seq<nat>, k2: nat, h2: seq<nat>)
    requires k != k2
    ensures GetAt(PutAt(t, k, v, h), k2, h2) == GetAt(t, k2, h2)
  {
    match t
    case Leaf =>
    case Branch(key, w, c0, c1, c2, c3) =>
      if key != k && key != k2 {
        var d := Head(h);
        if d == 0 { GetPutOther(c0, k, v, Tail(h), k2, Tail(h2)); }
        else if d == 1 { GetPutOther(c1, k, v, Tail(h), k2, Tail(h2)); }
        else if d == 2 { GetPutOther(c2, k, v, Tail(h), k2, Tail(h2)); }
        else { GetPutOther(c3, k, v, Tail(h), k2, Tail(h2)); }
      }
  }

  lemma {:induction false} PutKeys<V>(t: Trie<V>, k: nat, v: V, h: seq<nat>)
    ensures Keys(PutAt(t, k, v, h)) == Keys(t) + {k}
  {
    match t
    case Leaf =>
    case Branch(key, w, c0, c1, c2, c3) =>
      if key != k {
        var d := Head(h);
        if d == 0 { PutKeys(c0, k, v, Tail(h)); }
        else if d == 1 { PutKeys(c1, k, v, Tail(h)); }
        else if d == 2 { PutKeys(c2, k, v, Tail(h)); }
        else { PutKeys(c3, k, v, Tail(h)); }
      }
  }

  /** The trie behaves as a map: a lookup after a store finds the stored
      value under its key and the old answer under every other key. */
  lemma GetPut<V>(t: Trie<V>, k: nat, v: V, k2: nat)
    ensures Get(Put(t, k, v), k2) == if k2 == k then Some(v) else Get(t, k2)
    ensures Keys(Put(t, k, v)) == Keys(t) + {k}
  {
    PutKeys(t, k, v, KeyPath(k));
    if k2 == k {
      GetPutSame(t, k, v, KeyPath(k));
    } else {
      GetPutOther(t, k, v, KeyPath(k), k2, KeyPath(k2));
    }
  }

  /** The trie built by storing `entries[j]` under `j`, for each `j < k`
      in order, skipping the missing ones, with `path` giving each key's
      digits. */
  function FromEntriesAt<V>(entries: seq<Option<V>>, k: nat, path: nat -> seq<nat>): Trie<V>
    requires k <= |entries|
  {
    if k == 0 then Leaf
    else if entries[k - 1].Some? then PutAt(FromEntriesAt(entries, k - 1, path), k - 1, entries[k - 1].value, path(k - 1))
    else FromEntriesAt(entries, k - 1, path)
  }

  lemma {:induction false} FromEntriesGetAt<V>(entries: seq<Option<V>>, k: nat, j: nat, path: nat -> seq<nat>)
    requires k <= |entries|
    ensures GetAt(FromEntriesAt(entries, k, path), j, path(j)) == if j < k then entries[j] else None
  {
    if k > 0 {
      FromEntriesGetAt(entries, k - 1, j, path);
      if entries[k - 1].Some? {
        if j == k - 1 {
          GetPutSame(FromEntriesAt(entries, k - 1, path), k - 1, entries[k - 1].value, path(k - 1));
        } else {
          GetPutOther(FromEntriesAt(entries, k - 1, path), k - 1, entries[k - 1].value, path(k - 1), j, path(j));
        }
      }
    }
  }

  /** The trie built by storing `entries[j]` under `j`, for each `j < k`
      in order, skipping the missing ones. */
  function FromEntries<V>(entries: seq<Option<V>>): Trie<V> {
    FromEntriesAt(entries, |entries|, KeyPath)
  }

  /** Looking up `j` finds what was stored under it, and nothing beyond. */
  lemma FromEntriesGet<V>(entries: seq<Option<V>>, j: nat)
    ensures Get(FromEntries(entries), j) == if j < |entries| then entries[j] else None
  {
    FromEntriesGetAt(entries, |entries|, j, KeyPath);
  }

  /** The value of the last store under `j` among `puts`. */
  function LastStored<V>(puts: seq<(nat, V)>, j: nat): Option<V> {
    if |puts| == 0 then None
    else if puts[|puts| - 1].0 == j then Some(puts[|puts| - 1].1)
    else LastStored(puts[..|puts| - 1], j)
  }

  function FromPutsAt<V>(puts: seq<(nat, V)>, path: nat -> seq<nat>): Trie<V> {
    if |puts| == 0 then Leaf
    else PutAt(FromPutsAt(puts[..|puts| - 1], path), puts[|puts| - 1].0, puts[|puts| - 1].1, path(puts[|puts| - 1].0))
  }

  lemma {:induction false} FromPutsGetAt<V>(puts: seq<(nat, V)>, j: nat, path: nat -> seq<nat>)
    ensures GetAt(FromPutsAt(puts, path), j, path(j)) == LastStored(puts, j)
  {
    if |puts| > 0 {
      var init, last := puts[..|puts| - 1], puts[|puts| - 1];
      FromPutsGetAt(init, j, path);
      if j == last.0 {
        GetPutSame(FromPutsAt(init, path), last.0, last.1, path(last.0));
      } else {
        GetPutOther(FromPutsAt(init, path), last.0, last.1, path(last.0), j, path(j));
      }
    }
  }

  /** The trie after the stores `puts`, in order. */
  function FromPuts<V>(puts: seq<(nat, V)>): Trie<V> {
    FromPutsAt(puts, KeyPath)
  }

  /** One more store is one more `Put`. */
  lemma FromPutsSnoc<V>(puts: seq<(nat, V)>, k: nat, v: V)
    ensures FromPuts(puts + [(k, v)]) == Put(FromPuts(puts), k, v)
  {
    assert (puts + [(k, v)])[..|puts|] == puts;
  }

  /** A lookup after a sequence of stores finds the last value stored under
      its key. */
  lemma FromPutsGet<V>(puts: seq<(nat, V)>, j: nat)
    ensures Get(FromPuts(puts), j) == LastStored(puts, j)
  {
    FromPutsGetAt(puts, j, KeyPath);
  }

  /** The stores made by visiting the first `k` keys of `order`, storing
      `val(v)` under `v` when there is one. */
  function StoresFor<V>(order: seq<nat>, val: nat -> Option<V>, k: nat): seq<(nat, V)>
    requires k <= |order|
  {
    if k == 0 then []
    else
      var v := order[k - 1];
      StoresFor(order, val, k - 1) + (match val(v) case Some(x) => [(v, x)] case None => [])
  }

  lemma {:induction false} StoresForLast<V>(order: seq<nat>, val: nat -> Option<V>, k: nat, v: nat)
    requires k <= |order|
    ensures LastStored(StoresFor(order, val, k), v) == if v in order[..k] then val(v) else None
  {
    if k > 0 {
      StoresForLast(order, val, k - 1, v);
      var w := order[k - 1];
      assert order[..k] == order[..k - 1] + [w];
      var puts := StoresFor(order, val, k - 1);
      if val(w).Some? {
        var p := (w, val(w).value);
        assert StoresFor(order, val, k) == puts + [p];
        assert (puts + [p])[..|puts|] == puts;
      } else {
        assert StoresFor(order, val, k) == puts;
      }
    }
  }

  /** Visiting the keys of `order` and upserting `val(v)` under each key
      `v` that has one: afterwards exactly the visited keys with a value are
      present, each with its value. */
  method StoreAll<V>(order: seq<nat>, val: nat -> Option<V>) returns (t: Trie<V>)
    ensures forall v: nat :: Get(t, v) == if v in order then val(v) else None
  {
    t := Leaf;
    ghost var puts: seq<(nat, V)> := [];
    var k := 0;
    while k < |order|
      invariant k <= |order|
      invariant puts == StoresFor(order, val, k) && t == FromPuts(puts)
    {
      var v := order[k];
      match val(v) {
        case Some(x) =>
          FromPutsSnoc(puts, v, x);
          t := Put(t, v, x);
          puts := puts + [(v, x)];
        case None =>
      }
      k := k + 1;
    }
    forall v: nat ensures Get(t, v) == if v in order then val(v) else None {
      FromPutsGet(puts, v);
      StoresForLast(order, val, |order|, v);
      assert order[..|order|] == order;
    }
  }

  /** Storing twice under one key keeps only the second value. */
  lemma {:induction false} PutPutAt<V>(t: Trie<V>, k: nat, v1: V, v2: V, h: seq<nat>)
    ensures PutAt(PutAt(t, k, v1, h), k, v2, h) == PutAt(t, k, v2, h)
  {
    match t
    case Leaf =>
    case Branch(key, w, c0, c1, c2, c3) =>
      if key != k {
        var d := Head(h);
        if d == 0 { PutPutAt(c0, k, v1, v2, Tail(h)); }
        else if d == 1 { PutPutAt(c1, k, v1, v2, Tail(h)); }
        else if d == 2 { PutPutAt(c2, k, v1, v2, Tail(h)); }
        else { PutPutAt(c3, k, v1, v2, Tail(h)); }
      }
  }

  lemma PutPut<V>(t: Trie<V>, k: nat, v1: V, v2: V)
    ensures Put(Put(t, k, v1), k, v2) == Put(t, k, v2)
  {
    PutPutAt(t, k, v1, v2, KeyPath(k));
  }
}

=== FILE: rewrites.dfy ===
/** The struct-equality rewrite (src/rewrites.c): after type checking,
    `x == y` on a struct wider than a word becomes the conjunction of the
    field comparisons, and `x != y` their disjunction.

    The rewrite reads the type the checker recorded on every expression
    (`ex_type`), so it works on a typed copy of the expression tree. It
    is written once with a switch for the code as written: the patched
    node of a one-field struct is not looked at again, and a `return`
    without a value is recursed into. The corrected rewrite decomposes
    every wide comparison, to the bottom, and skips a bare `return`.
 */
module Rewrites {
  import opened Wrappers
  import opened Ast
  import Semantics
  import Activation

  /** An expression with the type the checker recorded on it. */
  datatype TExpr = TExpr(ty: Type, node: Node)

  /** The expression forms of `Ast.Expr`, with typed operands. */
  datatype Node =
    | TInt(value: int)
    | TBool(value: int)
    | TVoid
    | TBinOp(op: Op, left: TExpr, right: TExpr)
    | TLet(name: string, ann: Type, init: TExpr)
    | TCall(fn: string, args: seq<TExpr>)
    | TNew(ctor: string, args: seq<TExpr>)
    | TVar(name: string)
    | TReturn(result: Option<TExpr>)
    | TBreak
    | TLoop(body: seq<TExpr>)
    | TDeref(arg: TExpr)
    | TAddrOf(arg: TExpr)
    | TMember(composite: TExpr, member: string)
    | TIf(cond: TExpr, cons: TExpr, alt: TExpr)

  /** The untyped expression. */
  function Erase(e: TExpr): Expr {
    match e.node
    case TInt(v) => Int(v)
    case TBool(v) => Bool(v)
    case TVoid => VoidE
    case TBinOp(op, l, r) => BinOp(op, Erase(l), Erase(r))
    case TLet(x, ann, i) => Let(x, ann, Erase(i))
    case TCall(fn, args) => Call(fn, EraseList(args))
    case TNew(ctor, args) => New(ctor, EraseList(args))
    case TVar(x) => Var(x)
    case TReturn(None) => Return(None)
    case TReturn(Some(a)) => Return(Some(Erase(a)))
    case TBreak => Break
    case TLoop(body) => Loop(EraseList(body))
    case TDeref(a) => Deref(Erase(a))
    case TAddrOf(a) => AddrOf(Erase(a))
    case TMember(c, m) => Member(Erase(c), m)
    case TIf(c, a, b) => If(Erase(c), Erase(a), Erase(b))
  }

  function EraseList(es: seq<TExpr>): (r: seq<Expr>)
    ensures |r| == |es|
  {
    if |es| == 0 then [] else [Erase(es[0])] + EraseList(es[1..])
  }

  predicate IsLvalue(e: TExpr) {
    Semantics.IsLvalue(Erase(e))
  }

  predicate IsComparison(op: Op) {
    op == EqOp || op == NeOp
  }

  /** `&&` joins the field comparisons of `==`, `||` those of `!=`. */
  function Combinator(op: Op): Op {
    if op == EqOp then LAnd else LOr
  }

  /** `l.f op r.f`, typed bool, each access typed with the field's type. */
  function FieldCmp(op: Op, l: TExpr, r: TExpr, f: Param): TExpr {
    TExpr(Semantics.BoolT, TBinOp(op, TExpr(f.ty, TMember(l, f.name)), TExpr(f.ty, TMember(r, f.name))))
  }

  /** One field comparison per field, in declaration order. */
  function FieldCmps(op: Op, l: TExpr, r: TExpr, fields: seq<Param>): (r': seq<TExpr>)
    ensures |r'| == |fields|
  {
    if |fields| == 0 then [] else [FieldCmp(op, l, r, fields[0])] + FieldCmps(op, l, r, fields[1..])
  }

  /** The left-nested chain `((c1 comb c2) comb c3) comb ...`, typed bool. */
  function FoldLeft(comb: Op, cs: seq<TExpr>): TExpr
    requires |cs| > 0
    decreases |cs|
  {
    if |cs| == 1 then cs[0] else TExpr(Semantics.BoolT, TBinOp(comb, FoldLeft(comb, cs[..|cs| - 1]), cs[|cs| - 1]))
  }

  /** The operands of a left-nested chain of `comb`. */
  function Operands(comb: Op, e: TExpr): seq<TExpr> {
    match e.node
    case TBinOp(op, a, b) => if op == comb then Operands(comb, a) + [b] else [e]
    case _ => [e]
  }

  /** Does the size check of the rewrite find the type wider than a word? */
  function Wide(program: seq<Decl>, t: Type): Outcome<bool> {
    match Activation.SizeOf(program, t, Activation.Depth(program))
    case Fail(m) => Fail(m)
    case Done(size) => Done(size > Activation.WordSize)
  }

  /** `rewrite_decompose_equal_expr`. `depth` bounds how many wide
      comparisons deep the decomposition goes, as the struct nesting
      bounds it in the source. */
  function Rewrite(program: seq<Decl>, e: TExpr, depth: nat, asWritten: bool): (r: Outcome<TExpr>)
    ensures r.Done? ==> r.value.ty == e.ty
    decreases depth, e, 2
  {
    match e.node
    case TBinOp(op, l, r) =>
      if IsComparison(op) then
        match Wide(program, l.ty)
        case Fail(m) => Fail(m)
        case Done(wide) =>
          if wide then Decompose(program, e, depth, asWritten)
          else RewriteBinOp(program, e, depth, asWritten)
      else RewriteBinOp(program, e, depth, asWritten)
    case TLet(x, ann, i) =>
      (match Rewrite(program, i, depth, asWritten)
       case Fail(m) => Fail(m)
       case Done(i') => Done(TExpr(e.ty, TLet(x, ann, i'))))
    case TCall(fn, args) =>
      (match RewriteList(program, args, depth, asWritten)
       case Fail(m) => Fail(m)
       case Done(args') => Done(TExpr(e.ty, TCall(fn, args'))))
    case TNew(ctor, args) =>
      (match RewriteList(program, args, depth, asWritten)
       case Fail(m) => Fail(m)
       case Done(args') => Done(TExpr(e.ty, TNew(ctor, args'))))
    case TReturn(None) =>
      if asWritten then Fail("null dereference: return without a value") else Done(e)
    case TReturn(Some(a)) =>
      (match Rewrite(program, a, depth, asWritten)
       case Fail(m) => Fail(m)
       case Done(a') => Done(TExpr(e.ty, TReturn(Some(a')))))
    case TLoop(body) =>
      (match RewriteList(program, body, depth, asWritten)
       case Fail(m) => Fail(m)
       case Done(body') => Done(TExpr(e.ty, TLoop(body'))))
    case TDeref(a) =>
      (match Rewrite(program, a, depth, asWritten)
       case Fail(m) => Fail(m)
       case Done(a') => Done(TExpr(e.ty, TDeref(a'))))
    case TAddrOf(a) =>
      (match Rewrite(program, a, depth, asWritten)
       case Fail(m) => Fail(m)
       case Done(a') => Done(TExpr(e.ty, TAddrOf(a'))))
    case TMember(c, m) =>
      (match Rewrite(program, c, depth, asWritten)
       case Fail(msg) => Fail(msg)
       case Done(c') => Done(TExpr(e.ty, TMember(c', m))))
    case TIf(c, a, b) =>
      (match Rewrite(program, c, depth, asWritten)
       case Fail(m) => Fail(m)
       case Done(c') =>
         match Rewrite(program, a, depth, asWritten)
         case Fail(m) => Fail(m)
         case Done(a') =>
           match Rewrite(program, b, depth, asWritten)
           case Fail(m) => Fail(m)
           case Done(b') => Done(TExpr(e.ty, TIf(c', a', b'))))
    case _ => Done(e)
  }

  /** A binary operation left in place, its operands rewritten. */
  function RewriteBinOp(program: seq<Decl>, e: TExpr, depth: nat, asWritten: bool): (r: Outcome<TExpr>)
    requires e.node.TBinOp?
    ensures r.Done? ==> r.value.ty == e.ty && r.value.node.TBinOp? && r.value.node.op == e.node.op
    decreases depth, e, 1
  {
    match Rewrite(program, e.node.left, depth, asWritten)
    case Fail(m) => Fail(m)
    case Done(l') =>
      match Rewrite(program, e.node.right, depth, asWritten)
      case Fail(m) => Fail(m)
      case Done(r') => Done(TExpr(e.ty, TBinOp(e.node.op, l', r')))
  }

  /** The fields of a wide comparison `l op r`. The source asserts that
      the comparison is typed bool, that the operand type names a
      declared struct and that both operands are l-values; it reads the
      first field without checking there is one. */
  function CompareFields(program: seq<Decl>, e: TExpr): (r: Outcome<seq<Param>>)
    requires e.node.TBinOp?
    ensures r.Done? ==> |r.value| > 0
  {
    var l := e.node.left;
    if e.ty != Semantics.BoolT then Fail("a comparison not typed bool")
    else if !l.ty.TyName? then Fail("a wide comparison of a type that is not a struct")
    else
      match Activation.StructFields(program, l.ty.name)
      case None => Fail("no struct declaration")
      case Some(fields) =>
        if !IsLvalue(l) || !IsLvalue(e.node.right) then Fail("a compared struct that is not an l-value")
        else if |fields| == 0 then Fail("null dereference: a struct without fields")
        else Done(fields)
  }

  /** The wide comparison `l op r` replaced by its field comparisons. */
  function Decompose(program: seq<Decl>, e: TExpr, depth: nat, asWritten: bool): (r: Outcome<TExpr>)
    requires e.node.TBinOp?
    ensures r.Done? ==> r.value.ty == e.ty
    decreases depth, e, 1
  {
    var TBinOp(op, l, r) := e.node;
    match CompareFields(program, e)
    case Fail(m) => Fail(m)
    case Done(fields) =>
      if depth == 0 then Fail("struct nesting deeper than the program")
      else
        if asWritten && |fields| == 1 then SingleField(program, e, fields[0], depth - 1)
        else Rewrite(program, FoldLeft(Combinator(op), FieldCmps(op, l, r, fields)), depth - 1, asWritten)
  }

  /** As written, the node of a one-field comparison is patched into the
      field comparison, and only the two field accesses are visited again. */
  function SingleField(program: seq<Decl>, e: TExpr, f: Param, depth: nat): (r: Outcome<TExpr>)
    requires e.node.TBinOp?
    ensures r.Done? ==> r.value.ty == e.ty
    decreases depth + 1, e, 0
  {
    var TBinOp(op, la, ra) := FieldCmp(e.node.op, e.node.left, e.node.right, f).node;
    match Rewrite(program, la, depth, true)
    case Fail(m) => Fail(m)
    case Done(la') =>
      match Rewrite(program, ra, depth, true)
      case Fail(m) => Fail(m)
      case Done(ra') => Done(TExpr(e.ty, TBinOp(op, la', ra')))
  }

  function RewriteList(program: seq<Decl>, es: seq<TExpr>, depth: nat, asWritten: bool): (r: Outcome<seq<TExpr>>)
    ensures r.Done? ==> |r.value| == |es|
    decreases depth, es
  {
    if |es| == 0 then Done([])
    else
      match Rewrite(program, es[0], depth, asWritten)
      case Fail(m) => Fail(m)
      case Done(e') =>
        match RewriteList(program, es[1..], depth, asWritten)
        case Fail(m) => Fail(m)
        case Done(rest) => Done([e'] + rest)
  }

  /** A typed declaration: a struct, or a function with typed body. */
  datatype TDecl =
    | TStruct(name: string, fields: seq<Param>)
    | TFunc(name: string, params: seq<Param>, ret: Type, body: seq<TExpr>)

  function Untyped(d: TDecl): Decl {
    match d
    case TStruct(n, fs) => Struct(n, fs)
    case TFunc(n, ps, ret, body) => Func(n, ps, ret, EraseList(body))
  }

  function UntypedProgram(tp: seq<TDecl>): (r: seq<Decl>)
    ensures |r| == |tp|
  {
    if |tp| == 0 then [] else [Untyped(tp[0])] + UntypedProgram(tp[1..])
  }

  /** `rewrite_decompose_equal`: every function body rewritten, struct
      declarations left alone.  Corrected, each function keeps its
      signature and its body has no wide comparison left. */
  function RewriteProgram(tp: seq<TDecl>, asWritten: bool): (r: Outcome<seq<TDecl>>)
    ensures r.Done? ==> |r.value| == |tp|
    ensures !asWritten && r.Done? ==> forall i :: 0 <= i < |tp| ==>
      (tp[i].TStruct? ==> r.value[i] == tp[i]) &&
      (tp[i].TFunc? ==> r.value[i].TFunc? && r.value[i].name == tp[i].name && r.value[i].params == tp[i].params &&
                        r.value[i].ret == tp[i].ret && NoWideList(UntypedProgram(tp), r.value[i].body))
  {
    RewriteDeclsShape(UntypedProgram(tp), tp);
    RewriteDecls(UntypedProgram(tp), tp, asWritten)
  }

  function RewriteDecls(program: seq<Decl>, ds: seq<TDecl>, asWritten: bool): (r: Outcome<seq<TDecl>>)
    ensures r.Done? ==> |r.value| == |ds|
  {
    if |ds| == 0 then Done([])
    else
      var head: Outcome<TDecl> :=
        match ds[0]
        case TStruct(_, _) => Done(ds[0])
        case TFunc(n, ps, ret, body) =>
          match RewriteList(program, body, Activation.Depth(program), asWritten)
          case Fail(m) => Fail(m)
          case Done(body') => Done(TFunc(n, ps, ret, body'));
      match head
      case Fail(m) => Fail(m)
      case Done(d) =>
        match RewriteDecls(program, ds[1..], asWritten)
        case Fail(m) => Fail(m)
        case Done(rest) => Done([d] + rest)
  }

  /** No comparison left that the rewrite would decompose. */
  predicate NoWide(program: seq<Decl>, e: TExpr)
    decreases e, 1
  {
    match e.node
    case TBinOp(op, l, r) =>
      (IsComparison(op) ==> Wide(program, l.ty) == Done(false)) && NoWide(program, l) && NoWide(program, r)
    case TLet(_, _, i) => NoWide(program, i)
    case TCall(_, args) => NoWideList(program, args)
    case TNew(_, args) => NoWideList(program, args)
    case TReturn(Some(a)) => NoWide(program, a)
    case TLoop(body) => NoWideList(program, body)
    case TDeref(a) => NoWide(program, a)
    case TAddrOf(a) => NoWide(program, a)
    case TMember(c, _) => NoWide(program, c)
    case TIf(c, a, b) => NoWide(program, c) && NoWide(program, a) && NoWide(program, b)
    case _ => true
  }

  predicate NoWideList(program: seq<Decl>, es: seq<TExpr>)
    decreases es
  {
    |es| == 0 || (NoWide(program, es[0]) && NoWideList(program, es[1..]))
  }

  /** The operands of a comb chain built from operands that are not
      themselves comb nodes are those operands, in order. */
  lemma {:induction false} OperandsOfFold(comb: Op, cs: seq<TExpr>)
    requires |cs| > 0
    requires forall i :: 0 <= i < |cs| ==> !(cs[i].node.TBinOp? && cs[i].node.op == comb)
    ensures Operands(comb, FoldLeft(comb, cs)) == cs
    decreases |cs|
  {
    if |cs| > 1 {
      var init := cs[..|cs| - 1];
      OperandsOfFold(comb, init);
      assert init + [cs[|cs| - 1]] == cs;
    }
  }

  /** The chain that replaces a wide comparison lists one comparison per
      field, in field order, joined by `&&` for `==` and `||` for `!=`. */
  lemma {:induction false} FieldChain(op: Op, l: TExpr, r: TExpr, fields: seq<Param>)
    requires IsComparison(op) && |fields| > 0
    ensures Operands(Combinator(op), FoldLeft(Combinator(op), FieldCmps(op, l, r, fields))) == FieldCmps(op, l, r, fields)
    ensures forall i :: 0 <= i < |fields| ==> FieldCmps(op, l, r, fields)[i] == FieldCmp(op, l, r, fields[i])
  {
    FieldCmpsAt(op, l, r, fields);
    OperandsOfFold(Combinator(op), FieldCmps(op, l, r, fields));
  }

  lemma {:induction false} FieldCmpsAt(op: Op, l: TExpr, r: TExpr, fields: seq<Param>)
    ensures forall i :: 0 <= i < |fields| ==> FieldCmps(op, l, r, fields)[i] == FieldCmp(op, l, r, fields[i])
  {
    if |fields| > 0 {
      FieldCmpsAt(op, l, r, fields[1..]);
    }
  }

  /** An l-value has no comparison in it, and is left as it is. */
  lemma {:induction false} LvalueFixed(program: seq<Decl>, e: TExpr, depth: nat, asWritten: bool)
    requires IsLvalue(e)
    ensures Rewrite(program, e, depth, asWritten) == Done(e)
  {
    match e.node
    case TMember(c, _) => LvalueFixed(program, c, depth, asWritten);
    case TDeref(a) => LvalueFixed(program, a, depth, asWritten);
    case _ =>
  }

  /** The corrected rewrite leaves no wide comparison behind. */
  lemma {:induction false} RewriteNoWide(program: seq<Decl>, e: TExpr, depth: nat)
    ensures var r := Rewrite(program, e, depth, false); r.Done? ==> NoWide(program, r.value)
    decreases depth, e, 2
  {
    match e.node
    case TBinOp(op, l, r) =>
      if IsComparison(op) && Wide(program, l.ty) == Done(true) {
        DecomposeNoWide(program, e, depth);
      } else {
        RewriteBinOpNoWide(program, e, depth);
      }
    case TLet(_, _, i) => RewriteNoWide(program, i, depth);
    case TCall(_, args) => RewriteListNoWide(program, args, depth);
    case TNew(_, args) => RewriteListNoWide(program, args, depth);
    case TReturn(Some(a)) => RewriteNoWide(program, a, depth);
    case TLoop(body) => RewriteListNoWide(program, body, depth);
    case _ => RewriteNoWideRest(program, e, depth);
  }

  lemma {:induction false} RewriteNoWideRest(program: seq<Decl>, e: TExpr, depth: nat)
    requires !e.node.TBinOp? && !e.node.TLet? && !e.node.TCall? && !e.node.TNew? && !e.node.TLoop?
    requires e.node.TReturn? ==> e.node.result.None?
    ensures var r := Rewrite(program, e, depth, false); r.Done? ==> NoWide(program, r.value)
    decreases depth, e, 1
  {
    match e.node
    case TDeref(a) => RewriteNoWide(program, a, depth);
    case TAddrOf(a) => RewriteNoWide(program, a, depth);
    case TMember(c, _) => RewriteNoWide(program, c, depth);
    case TIf(c, a, b) =>
      RewriteNoWide(program, c, depth);
      RewriteNoWide(program, a, depth);
      RewriteNoWide(program, b, depth);
    case _ =>
  }

  lemma {:induction false} RewriteBinOpNoWide(program: seq<Decl>, e: TExpr, depth: nat)
    requires e.node.TBinOp?
    ensures var r := RewriteBinOp(program, e, depth, false);
      r.Done? && (IsComparison(e.node.op) ==> Wide(program, e.node.left.ty) == Done(false)) ==> NoWide(program, r.value)
    decreases depth, e, 0
  {
    RewriteNoWide(program, e.node.left, depth);
    RewriteNoWide(program, e.node.right, depth);
  }

  lemma {:induction false} DecomposeNoWide(program: seq<Decl>, e: TExpr, depth: nat)
    requires e.node.TBinOp?
    ensures var r := Decompose(program, e, depth, false); r.Done? ==> NoWide(program, r.value)
    decreases depth, e, 0
  {
    var d := Decompose(program, e, depth, false);
    if d.Done? {
      var TBinOp(op, l, r) := e.node;
      var chain := FoldLeft(Combinator(op), FieldCmps(op, l, r, CompareFields(program, e).value));
      assert d == Rewrite(program, chain, depth - 1, false);
      RewriteNoWide(program, chain, depth - 1);
      assert NoWide(program, Rewrite(program, chain, depth - 1, false).value);
    }
  }

  lemma {:induction false} RewriteListNoWide(program: seq<Decl>, es: seq<TExpr>, depth: nat)
    ensures var r := RewriteList(program, es, depth, false); r.Done? ==> NoWideList(program, r.value)
    decreases depth, es
  {
    if |es| > 0 {
      RewriteNoWide(program, es[0], depth);
      RewriteListNoWide(program, es[1..], depth);
      var r := RewriteList(program, es, depth, false);
      if r.Done? {
        assert r.value[1..] == RewriteList(program, es[1..], depth, false).value;
      }
    }
  }

  /** A tree without wide comparisons is its own corrected rewrite. */
  lemma {:induction false} NoWideFixed(program: seq<Decl>, e: TExpr, depth: nat)
    requires NoWide(program, e)
    ensures Rewrite(program, e, depth, false) == Done(e)
    decreases e, 1
  {
    match e.node
    case TBinOp(op, l, r) =>
      NoWideFixed(program, l, depth);
      NoWideFixed(program, r, depth);
    case TLet(_, _, i) => NoWideFixed(program, i, depth);
    case TCall(_, args) => NoWideListFixed(program, args, depth);
    case TNew(_, args) => NoWideListFixed(program, args, depth);
    case TReturn(Some(a)) => NoWideFixed(program, a, depth);
    case TLoop(body) => NoWideListFixed(program, body, depth);
    case TDeref(a) => NoWideFixed(program, a, depth);
    case TAddrOf(a) => NoWideFixed(program, a, depth);
    case TMember(c, _) => NoWideFixed(program, c, depth);
    case TIf(c, a, b) =>
      NoWideFixed(program, c, depth);
      NoWideFixed(program, a, depth);
      NoWideFixed(program, b, depth);
    case _ =>
  }

  lemma {:induction false} NoWideListFixed(program: seq<Decl>, es: seq<TExpr>, depth: nat)
    requires NoWideList(program, es)
    ensures RewriteList(program, es, depth, false) == Done(es)
    decreases es
  {
    if |es| > 0 {
      NoWideFixed(program, es[0], depth);
      NoWideListFixed(program, es[1..], depth);
      assert [es[0]] + es[1..] == es;
    }
  }

  /** The corrected rewrite is idempotent, at any depth. */
  lemma RewriteIdempotent(program: seq<Decl>, e: TExpr, depth: nat, depth': nat)
    requires Rewrite(program, e, depth, false).Done?
    ensures var r := Rewrite(program, e, depth, false).value; Rewrite(program, r, depth', false) == Done(r)
  {
    RewriteNoWide(program, e, depth);
    NoWideFixed(program, Rewrite(program, e, depth, false).value, depth');
  }

  /** As written, a wide comparison of a one-field struct goes to the
      patch of the single field. */
  lemma SingleFieldPatched(program: seq<Decl>, e: TExpr, depth: nat, f: Param)
    requires e.node.TBinOp? && IsComparison(e.node.op) && e.ty == Semantics.BoolT
    requires Wide(program, e.node.left.ty) == Done(true) && e.node.left.ty.TyName?
    requires Activation.StructFields(program, e.node.left.ty.name) == Some([f])
    requires IsLvalue(e.node.left) && IsLvalue(e.node.right) && depth > 0
    ensures Rewrite(program, e, depth, true) == SingleField(program, e, f, depth - 1)
  {
    assert CompareFields(program, e) == Done([f]);
  }

  /** As written, a wide struct with a single field that is itself a wide
      struct keeps a wide comparison: the comparison of the two fields. */
  lemma SingleFieldAsWritten(program: seq<Decl>, e: TExpr, depth: nat, f: Param)
    requires e.node.TBinOp? && IsComparison(e.node.op) && e.ty == Semantics.BoolT
    requires Wide(program, e.node.left.ty) == Done(true) && e.node.left.ty.TyName?
    requires Activation.StructFields(program, e.node.left.ty.name) == Some([f])
    requires IsLvalue(e.node.left) && IsLvalue(e.node.right) && depth > 0
    requires Wide(program, f.ty) == Done(true)
    ensures Rewrite(program, e, depth, true) == Done(FieldCmp(e.node.op, e.node.left, e.node.right, f))
    ensures !NoWide(program, FieldCmp(e.node.op, e.node.left, e.node.right, f))
  {
    var TBinOp(op, l, r) := e.node;
    var c := FieldCmp(op, l, r, f);
    SingleFieldPatched(program, e, depth, f);
    LvalueFixed(program, c.node.left, depth - 1, true);
    LvalueFixed(program, c.node.right, depth - 1, true);
  }

  /** Corrected, a wide comparison of a one-field struct is the
      comparison of the field, rewritten in turn. */
  lemma SingleFieldCorrected(program: seq<Decl>, e: TExpr, depth: nat, f: Param)
    requires e.node.TBinOp? && IsComparison(e.node.op) && e.ty == Semantics.BoolT
    requires Wide(program, e.node.left.ty) == Done(true) && e.node.left.ty.TyName?
    requires Activation.StructFields(program, e.node.left.ty.name) == Some([f])
    requires IsLvalue(e.node.left) && IsLvalue(e.node.right) && depth > 0
    ensures Rewrite(program, e, depth, false) == Rewrite(program, FieldCmp(e.node.op, e.node.left, e.node.right, f), depth - 1, false)
  {
    var TBinOp(op, l, r) := e.node;
    assert CompareFields(program, e) == Done([f]);
    assert FoldLeft(Combinator(op), FieldCmps(op, l, r, [f])) == FieldCmp(op, l, r, f);
  }

  /** As written, a body in which a `return` without a value appears at
      the top level cannot be rewritten. */
  lemma {:induction false} BareReturnAsWritten(program: seq<Decl>, es: seq<TExpr>, depth: nat, i: nat)
    requires i < |es| && es[i].node == TReturn(None)
    ensures RewriteList(program, es, depth, true).Fail?
  {
    if i > 0 {
      BareReturnAsWritten(program, es[1..], depth, i - 1);
    }
  }

  /** The corrected rewrite of a program leaves its structs and the
      signatures of its functions alone, and no wide comparison in any
      function body. */
  lemma {:induction false} RewriteDeclsShape(program: seq<Decl>, ds: seq<TDecl>)
    ensures var r := RewriteDecls(program, ds, false);
      r.Done? ==> forall i :: 0 <= i < |ds| ==>
        (ds[i].TStruct? ==> r.value[i] == ds[i]) &&
        (ds[i].TFunc? ==> r.value[i].TFunc? && r.value[i].name == ds[i].name && r.value[i].params == ds[i].params &&
                          r.value[i].ret == ds[i].ret && NoWideList(program, r.value[i].body))
  {
    if |ds| > 0 {
      RewriteDeclsShape(program, ds[1..]);
      if ds[0].TFunc? {
        RewriteListNoWide(program, ds[0].body, Activation.Depth(program));
      }
    }
  }

  /** `struct T { a: int; b: int; c: int; }` and `struct S { t: T; }`: both
      are twelve bytes, wider than a word, and `S` has a single field. */
  const Nested: seq<Decl> := [
    Struct("T", IntFields),
    Struct("S", [Param("t", TyName("T"))])
  ]

  const IntFields: seq<Param> := [Param("a", Semantics.IntT), Param("b", Semantics.IntT), Param("c", Semantics.IntT)]

  /** Fields all of type `int` are four bytes each, aligned to four. */
  lemma {:induction false} IntShapes(program: seq<Decl>, fields: seq<Param>, depth: nat)
    requires forall i :: 0 <= i < |fields| ==> fields[i].ty == Semantics.IntT
    ensures Activation.Shapes(program, fields, depth).Done?
    ensures forall i :: 0 <= i < |fields| ==> Activation.Shapes(program, fields, depth).value[i] == Activation.Shape(4, 4)
    ensures |fields| > 0 ==> Activation.MaxAlign(program, fields, depth) == Done(4)
  {
    if |fields| > 0 {
      IntShapes(program, fields[1..], depth);
      var b := Activation.MaxAlign(program, fields[1..], depth);
      assert b.Done? && b.value <= 4 by {
        if |fields| == 1 {
          assert fields[1..] == [];
        }
      }
      assert Activation.SizeOf(program, fields[0].ty, depth) == Done(4);
      assert Activation.AlignOf(program, fields[0].ty, depth) == Done(4);
    }
  }

  lemma IntFieldsShape(depth: nat)
    ensures Activation.Shapes(Nested, IntFields, depth) == Done([Activation.Shape(4, 4), Activation.Shape(4, 4), Activation.Shape(4, 4)])
    ensures Activation.MaxAlign(Nested, IntFields, depth) == Done(4)
  {
    IntShapes(Nested, IntFields, depth);
    var v := Activation.Shapes(Nested, IntFields, depth).value;
    assert v == [v[0], v[1], v[2]];
  }

  lemma NestedSizes(depth: nat)
    requires depth > 0
    ensures Activation.StructFields(Nested, "T") == Some(IntFields)
    ensures Activation.StructFields(Nested, "S") == Some([Param("t", TyName("T"))])
    ensures Activation.SizeOf(Nested, TyName("T"), depth) == Done(12)
    ensures Activation.AlignOf(Nested, TyName("T"), depth) == Done(4)
  {
    assert Semantics.LookupDecl(Nested, "T", true) == Some(Nested[0]);
    assert Semantics.LookupDecl(Nested, "S", true) == Some(Nested[1]);
    IntFieldsShape(depth - 1);
    var sh := [Activation.Shape(4, 4), Activation.Shape(4, 4), Activation.Shape(4, 4)];
    assert Activation.Place(sh, 0) == [Activation.Slot(0, 4, 4), Activation.Slot(4, 4, 4), Activation.Slot(8, 4, 4)];
  }

  lemma OneField(program: seq<Decl>, fields: seq<Param>, depth: nat)
    requires |fields| == 1
    requires Activation.AlignOf(program, fields[0].ty, depth).Done? && Activation.AlignOf(program, fields[0].ty, depth).value > 0
    requires Activation.SizeOf(program, fields[0].ty, depth).Done?
    ensures Activation.Shapes(program, fields, depth) ==
      Done([Activation.Shape(Activation.SizeOf(program, fields[0].ty, depth).value, Activation.AlignOf(program, fields[0].ty, depth).value)])
  {
    assert Activation.Shapes(program, fields[1..], depth) == Done([]);
    var a := Activation.AlignOf(program, fields[0].ty, depth).value;
    var sz := Activation.SizeOf(program, fields[0].ty, depth).value;
    assert Activation.Shapes(program, fields, depth) == Done([Activation.Shape(sz, a)] + []);
    assert [Activation.Shape(sz, a)] + [] == [Activation.Shape(sz, a)];
  }

  lemma NestedWide()
    ensures Wide(Nested, TyName("T")) == Done(true)
    ensures Wide(Nested, TyName("S")) == Done(true)
  {
    NestedSizes(2);
    NestedSizes(1);
    var t := [Param("t", TyName("T"))];
    OneField(Nested, t, 1);
    assert Activation.MaxAlign(Nested, t, 1) == Done(4);
    assert Activation.Place([Activation.Shape(12, 4)], 0) == [Activation.Slot(0, 12, 4)];
  }

  /** A comb chain of comparisons without wide ones has none either. */
  lemma {:induction false} FoldNoWide(program: seq<Decl>, comb: Op, cs: seq<TExpr>)
    requires |cs| > 0 && !IsComparison(comb)
    requires forall i :: 0 <= i < |cs| ==> NoWide(program, cs[i])
    ensures NoWide(program, FoldLeft(comb, cs))
    decreases |cs|
  {
    if |cs| > 1 {
      FoldNoWide(program, comb, cs[..|cs| - 1]);
    }
  }

  /** The field comparisons of narrow fields of l-values are narrow. */
  lemma FieldCmpsNoWide(program: seq<Decl>, op: Op, l: TExpr, r: TExpr, fields: seq<Param>)
    requires NoWide(program, l) && NoWide(program, r)
    requires forall i :: 0 <= i < |fields| ==> Wide(program, fields[i].ty) == Done(false)
    ensures forall i :: 0 <= i < |fields| ==> NoWide(program, FieldCmps(op, l, r, fields)[i])
  {
    FieldCmpsAt(op, l, r, fields);
  }

  /** `x == y` for l-values `x, y: S`: as written the rewrite stops at
      `x.t == y.t`, a comparison of twelve-byte structs. */
  lemma OneFieldAsWritten(x: TExpr, y: TExpr)
    requires x.ty == TyName("S") && IsLvalue(x) && IsLvalue(y)
    ensures var c := FieldCmp(EqOp, x, y, Param("t", TyName("T")));
      Rewrite(Nested, TExpr(Semantics.BoolT, TBinOp(EqOp, x, y)), Activation.Depth(Nested), true) == Done(c) &&
      !NoWide(Nested, c)
  {
    NestedWide();
    NestedSizes(2);
    SingleFieldAsWritten(Nested, TExpr(Semantics.BoolT, TBinOp(EqOp, x, y)), 2, Param("t", TyName("T")));
  }

  /** Corrected, the same comparison becomes
      `x.t.a == y.t.a && x.t.b == y.t.b && x.t.c == y.t.c`. */
  lemma OneFieldCorrected(x: TExpr, y: TExpr)
    requires x.ty == TyName("S") && IsLvalue(x) && IsLvalue(y) && NoWide(Nested, x) && NoWide(Nested, y)
    ensures var c := FieldCmp(EqOp, x, y, Param("t", TyName("T")));
      var chain := FoldLeft(LAnd, FieldCmps(EqOp, c.node.left, c.node.right, IntFields));
      Rewrite(Nested, TExpr(Semantics.BoolT, TBinOp(EqOp, x, y)), Activation.Depth(Nested), false) == Done(chain) &&
      NoWide(Nested, chain)
  {
    var f := Param("t", TyName("T"));
    var c := FieldCmp(EqOp, x, y, f);
    NestedWide();
    NestedSizes(2);
    SingleFieldCorrected(Nested, TExpr(Semantics.BoolT, TBinOp(EqOp, x, y)), 2, f);
    InnerCorrected(c.node.left, c.node.right);
  }

  /** Two l-values of type `T` compare field by field. */
  lemma InnerCorrected(l: TExpr, r: TExpr)
    requires l.ty == TyName("T") && IsLvalue(l) && IsLvalue(r) && NoWide(Nested, l) && NoWide(Nested, r)
    ensures var chain := FoldLeft(LAnd, FieldCmps(EqOp, l, r, IntFields));
      Rewrite(Nested, TExpr(Semantics.BoolT, TBinOp(EqOp, l, r)), 1, false) == Done(chain) && NoWide(Nested, chain)
  {
    var c := TExpr(Semantics.BoolT, TBinOp(EqOp, l, r));
    var chain := FoldLeft(LAnd, FieldCmps(EqOp, l, r, IntFields));
    NestedWide();
    NestedSizes(1);
    IntNarrow();
    FieldCmpsNoWide(Nested, EqOp, l, r, IntFields);
    FoldNoWide(Nested, LAnd, FieldCmps(EqOp, l, r, IntFields));
    NoWideFixed(Nested, chain, 0);
    assert CompareFields(Nested, c) == Done(IntFields);
    assert Decompose(Nested, c, 1, false) == Rewrite(Nested, chain, 0, false);
  }

  lemma IntNarrow()
    ensures Wide(Nested, Semantics.IntT) == Done(false)
  {
  }
}

=== FILE: runtime.dfy ===
/** What the runtime (runtime/runtime.c) reads back from the frame maps
    the arm64 code generator emits: the chain of maps from
    `sl_rt_frame_maps`, the lookup of a return address in it, the 2-bit
    callee-save dispositions and the packed spill-register indexes.
 */
module Runtime {
  import opened Wrappers
  import Arm64

  // ---------------------------------------------------------------------
  // Walking the chain
  // ---------------------------------------------------------------------

  /** Every `prev` link points to an earlier entry, so the walk ends. */
  predicate LinksBackward(entries: seq<Arm64.Entry>) {
    forall k :: 0 <= k < |entries| && entries[k].prev.Some? ==> entries[k].prev.value < k
  }

  predicate ValidMaps(fm: Arm64.FrameMaps) {
    LinksBackward(fm.entries) && (fm.root.Some? ==> fm.root.value < |fm.entries|)
  }

  /** The entries visited from `cur` following `prev` until NULL
      (`print_cs_bitmaps`). */
  function Walk(entries: seq<Arm64.Entry>, cur: Option<nat>): (r: seq<nat>)
    requires LinksBackward(entries) && (cur.Some? ==> cur.value < |entries|)
    ensures forall i :: 0 <= i < |r| ==> r[i] < |entries|
    decreases if cur.Some? then cur.value + 1 else 0
  {
    match cur
    case None => []
    case Some(k) => [k] + Walk(entries, entries[k].prev)
  }

  /** The entry the runtime uses for a return address: the first one met
      walking from `cur` whose key matches, or none. */
  function FindMap(entries: seq<Arm64.Entry>, cur: Option<nat>, retLabel: string): (r: Option<nat>)
    requires LinksBackward(entries) && (cur.Some? ==> cur.value < |entries|)
    ensures r.Some? ==> r.value < |entries| && entries[r.value].retLabel == retLabel
    decreases if cur.Some? then cur.value + 1 else 0
  {
    match cur
    case None => None
    case Some(k) => if entries[k].retLabel == retLabel then Some(k) else FindMap(entries, entries[k].prev, retLabel)
  }

  /** Each entry links to the one before it, the first to nothing, and
      the root is the last entry. */
  predicate Chained(fm: Arm64.FrameMaps) {
    (forall j :: 0 <= j < |fm.entries| ==> fm.entries[j].prev == (if j == 0 then None else Some(j - 1))) &&
    fm.root == (if |fm.entries| == 0 then None else Some(|fm.entries| - 1))
  }

  /** The chain the code generator emits links each entry to the one
      before it and starts at the last. */
  lemma EmittedMapsChained<F>(frags: seq<Arm64.Fragment.Frag<F, Arm64.MapInfo>>, bitmaps: map<string, nat>)
    requires Arm64.EmitFrameMaps(frags, bitmaps).Done?
    ensures Chained(Arm64.EmitFrameMaps(frags, bitmaps).value)
    ensures ValidMaps(Arm64.EmitFrameMaps(frags, bitmaps).value)
  {
    Arm64.EmitEntriesContent(Arm64.FrameMapsOf(frags), bitmaps, 0);
  }

  /** From entry `k` of an emitted chain the walk visits `k`, `k - 1`, ...,
      0: every entry before it exactly once, latest first. */
  lemma {:induction false} WalkFrom(entries: seq<Arm64.Entry>, k: nat)
    requires k < |entries|
    requires forall j :: 0 <= j < |entries| ==> entries[j].prev == (if j == 0 then None else Some(j - 1))
    ensures LinksBackward(entries)
    ensures |Walk(entries, Some(k))| == k + 1
    ensures forall i :: 0 <= i <= k ==> Walk(entries, Some(k))[i] == k - i
  {
    if k > 0 {
      WalkFrom(entries, k - 1);
    }
  }

  /** The lookup from entry `k` finds the latest entry up to `k` with the
      key, and nothing when none up to `k` has it. */
  lemma {:induction false} FindFrom(entries: seq<Arm64.Entry>, k: nat, retLabel: string)
    requires k < |entries|
    requires forall j :: 0 <= j < |entries| ==> entries[j].prev == (if j == 0 then None else Some(j - 1))
    ensures LinksBackward(entries)
    ensures FindMap(entries, Some(k), retLabel).None? <==>
      forall j :: 0 <= j <= k ==> entries[j].retLabel != retLabel
    ensures FindMap(entries, Some(k), retLabel).Some? ==>
      forall j :: FindMap(entries, Some(k), retLabel).value < j <= k ==> entries[j].retLabel != retLabel
  {
    if k > 0 && entries[k].retLabel != retLabel {
      FindFrom(entries, k - 1, retLabel);
    }
  }

  /** On a chained set of maps the walk from the root visits every entry
      and the lookup finds the latest entry with the key, or nothing
      exactly when no entry has it. */
  lemma FindsInChain(fm: Arm64.FrameMaps, retLabel: string)
    requires Chained(fm)
    ensures ValidMaps(fm)
    ensures |Walk(fm.entries, fm.root)| == |fm.entries|
    ensures FindMap(fm.entries, fm.root, retLabel).None? <==> forall e :: e in fm.entries ==> e.retLabel != retLabel
    ensures FindMap(fm.entries, fm.root, retLabel).Some? ==>
      forall j :: FindMap(fm.entries, fm.root, retLabel).value < j < |fm.entries| ==> fm.entries[j].retLabel != retLabel
  {
    var es, n := fm.entries, |fm.entries|;
    if n > 0 {
      WalkFrom(es, n - 1);
      FindFrom(es, n - 1, retLabel);
      if FindMap(es, fm.root, retLabel).Some? {
        var k := FindMap(es, fm.root, retLabel).value;
        assert es[k] in es;
      }
      if exists e :: e in es && e.retLabel == retLabel {
        var e :| e in es && e.retLabel == retLabel;
        var j :| 0 <= j < n && es[j] == e;
      }
    }
  }

  /** The runtime finds, for a return label, the frame map emitted last
      for that label, and nothing exactly when no frame map has it. */
  lemma FindsEmittedMap<F>(frags: seq<Arm64.Fragment.Frag<F, Arm64.MapInfo>>, bitmaps: map<string, nat>, retLabel: string)
    requires Arm64.EmitFrameMaps(frags, bitmaps).Done?
    ensures var fm := Arm64.EmitFrameMaps(frags, bitmaps).value;
      ValidMaps(fm) &&
      |Walk(fm.entries, fm.root)| == |fm.entries| &&
      (FindMap(fm.entries, fm.root, retLabel).None? <==> forall e :: e in fm.entries ==> e.retLabel != retLabel) &&
      (FindMap(fm.entries, fm.root, retLabel).Some? ==>
        forall j :: FindMap(fm.entries, fm.root, retLabel).value < j < |fm.entries| ==> fm.entries[j].retLabel != retLabel)
  {
    EmittedMapsChained(frags, bitmaps);
    FindsInChain(Arm64.EmitFrameMaps(frags, bitmaps).value, retLabel);
  }

  // ---------------------------------------------------------------------
  // Callee-save dispositions
  // ---------------------------------------------------------------------

  /** The 2-bit codes of `cs_bitmap`. */
  const NoPointer := 0
  const Pointer := 1
  const Inherited := 2

  /** The code of callee save `i`: `(cs_bitmap >> 2i) & 3`, shifting two
      bits at a time. */
  function CsDispo(bitmap: nat, i: nat): (d: nat)
    ensures d < 4
  {
    if i == 0 then bitmap % 4 else CsDispo(bitmap / 4, i - 1)
  }

  /** The bitmap holding code `codes[i]` in bit pair `i`, the reference
      the decoding is checked against. */
  function CsBitmap(codes: seq<nat>): (bitmap: nat)
    requires forall i :: 0 <= i < |codes| ==> codes[i] < 4
  {
    if |codes| == 0 then 0 else codes[0] + 4 * CsBitmap(codes[1..])
  }

  /** A bitmap of at most 16 codes fits the 32-bit field, and decoding it
      gives back every code, and `no pointer` past the last. */
  lemma {:induction false} CsBitmapRoundTrip(codes: seq<nat>, i: nat)
    requires forall j :: 0 <= j < |codes| ==> codes[j] < 4
    ensures CsBitmap(codes) < Pow4(|codes|)
    ensures CsDispo(CsBitmap(codes), i) == if i < |codes| then codes[i] else NoPointer
  {
    if |codes| > 0 {
      var tl := codes[1..];
      CsBitmapRoundTrip(tl, if i > 0 then i - 1 else 0);
      var b := CsBitmap(codes);
      assert b == codes[0] + 4 * CsBitmap(tl);
      assert b % 4 == codes[0] && b / 4 == CsBitmap(tl);
      if i > 0 {
        assert CsDispo(b, i) == CsDispo(CsBitmap(tl), i - 1);
      }
    } else {
      ZeroDispo(i);
    }
  }

  function Pow4(n: nat): (p: nat)
    ensures p >= 1
  {
    if n == 0 then 1 else 4 * Pow4(n - 1)
  }

  lemma {:induction false} ZeroDispo(i: nat)
    ensures CsDispo(0, i) == 0
  {
    if i > 0 {
      ZeroDispo(i - 1);
    }
  }

  // ---------------------------------------------------------------------
  // Spilled callee saves
  // ---------------------------------------------------------------------

  /** The names the runtime prints for the arm64 callee saves
      (`callee_saved`). */
  const CalleeSaved: seq<string> := ["x19", "x20", "x21", "x22", "x23", "x24", "x25", "x26", "x27", "x28"]

  /** The runtime's name for callee save `k` is the code generator's name
      for the register. */
  lemma CalleeSavedNames(k: nat)
    requires k < |Arm64.CalleeSaves|
    ensures |CalleeSaved| == |Arm64.CalleeSaves|
    ensures CalleeSaved[k] == Arm64.Registers[Arm64.CalleeSaves[k]]
  {
  }

  /** The low and high nibbles of a `spill_reg` byte. */
  function First(b: bv8): nat {
    (b & 15) as nat
  }

  function Second(b: bv8): nat {
    ((b >> 4) & 15) as nat
  }

  /** The name printed for a nibble: a valid callee-save index names a
      register, anything else is skipped. */
  function NibbleName(i: nat): seq<string> {
    if i < |CalleeSaved| then [CalleeSaved[i]] else []
  }

  /** The names printed for one `spill_reg` byte, low nibble first. */
  function ByteNames(b: bv8): seq<string> {
    NibbleName(First(b)) + NibbleName(Second(b))
  }

  /** The names printed for a run of bytes, each byte's names given by
      `names`. */
  function DecodeWith(bytes: seq<bv8>, names: bv8 -> seq<string>): seq<string> {
    if |bytes| == 0 then [] else names(bytes[0]) + DecodeWith(bytes[1..], names)
  }

  /** The names printed for the `spill_reg` bytes: at most two per byte,
      each the name of a callee save. */
  function DecodeSpillRegs(bytes: seq<bv8>): (r: seq<string>)
    ensures |r| <= 2 * |bytes|
    ensures forall n :: n in r ==> n in CalleeSaved
  {
    DecodedNames(bytes);
    DecodeWith(bytes, ByteNames)
  }

  lemma {:induction false} DecodedNames(bytes: seq<bv8>)
    ensures |DecodeWith(bytes, ByteNames)| <= 2 * |bytes|
    ensures forall n :: n in DecodeWith(bytes, ByteNames) ==> n in CalleeSaved
  {
    if |bytes| > 0 {
      DecodedNames(bytes[1..]);
    }
  }

  /** The name of a spilled register that is a callee save. */
  function SpillName(reg: int): seq<string> {
    if reg in Arm64.CalleeSaves then [Arm64.Registers[reg]] else []
  }

  /** The names of the spilled registers that are callee saves, in order:
      what the packed bytes are meant to carry. */
  function SpilledCalleeSaves(spill: seq<int>): seq<string> {
    if |spill| == 0 then [] else SpillName(spill[0]) + SpilledCalleeSaves(spill[1..])
  }

  lemma UnpackPair(lo: nat, hi: nat)
    requires lo < 16 && hi < 16
    ensures First(Arm64.PackPair(lo, hi)) == lo && Second(Arm64.PackPair(lo, hi)) == hi
  {
    var a, b := lo as bv8, hi as bv8;
    assert a < 16 && b < 16;
    assert ((a | (b << 4)) & 15) == a;
    assert (((a | (b << 4)) >> 4) & 15) == b;
  }

  /** The runtime names the callee-save index the code generator computed
      for a register after the register, or skips it when it is not a
      callee save. */
  lemma IndexNamesRegister(reg: int)
    ensures NibbleName(Arm64.CalleeSaveIdx(reg)) == SpillName(reg)
  {
    if reg in Arm64.CalleeSaves {
      CalleeSavedNames(Arm64.CalleeSaveIdx(reg));
    }
  }

  /** One packed byte decodes to the names of its two registers. */
  lemma PairRoundTrip(lo: int, hi: int)
    ensures ByteNames(Arm64.PackPair(Arm64.CalleeSaveIdx(lo), Arm64.CalleeSaveIdx(hi))) == SpillName(lo) + SpillName(hi)
  {
    UnpackPair(Arm64.CalleeSaveIdx(lo), Arm64.CalleeSaveIdx(hi));
    IndexNamesRegister(lo);
    IndexNamesRegister(hi);
  }

  /** When each byte names its own two registers, the bytes name all the
      registers' callee saves in order. */
  lemma {:induction false} DecodePairs(bytes: seq<bv8>, spill: seq<int>, names: bv8 -> seq<string>)
    requires |spill| == 2 * |bytes|
    requires forall j :: 0 <= j < |bytes| ==> names(bytes[j]) == SpillName(spill[2 * j]) + SpillName(spill[2 * j + 1])
    ensures DecodeWith(bytes, names) == SpilledCalleeSaves(spill)
    decreases |bytes|
  {
    if |bytes| > 0 {
      var tailBytes, tailRegs := bytes[1..], spill[2..];
      forall j | 0 <= j < |tailBytes|
        ensures names(tailBytes[j]) == SpillName(tailRegs[2 * j]) + SpillName(tailRegs[2 * j + 1])
      {
        assert tailBytes[j] == bytes[j + 1];
        assert tailRegs[2 * j] == spill[2 * (j + 1)] && tailRegs[2 * j + 1] == spill[2 * (j + 1) + 1];
      }
      DecodePairs(tailBytes, tailRegs, names);
      assert names(bytes[0]) == SpillName(spill[0]) + SpillName(spill[1]);
      assert spill[1..][0] == spill[1] && spill[1..][1..] == tailRegs;
      assert SpilledCalleeSaves(spill[1..]) == SpillName(spill[1]) + SpilledCalleeSaves(tailRegs);
    }
  }

  /** Packed byte `j` names spilled registers `2j` and `2j + 1`. */
  lemma PackedByteNames(spill: seq<int>, j: nat)
    requires |spill| == Arm64.SpillSlots && j < Arm64.SpillSlots / 2
    ensures ByteNames(Arm64.PackSpillRegs(spill)[j]) == SpillName(spill[2 * j]) + SpillName(spill[2 * j + 1])
  {
    Arm64.PackedByte(spill, j);
    PairRoundTrip(spill[2 * j], spill[2 * j + 1]);
  }

  /** The runtime reads back from the five packed bytes exactly the
      callee saves among the spilled registers, in order. */
  lemma SpillRegsRoundTrip(spill: seq<int>)
    requires |spill| == Arm64.SpillSlots
    ensures DecodeSpillRegs(Arm64.PackSpillRegs(spill)) == SpilledCalleeSaves(spill)
  {
    var bytes := Arm64.PackSpillRegs(spill);
    forall j | 0 <= j < |bytes|
      ensures ByteNames(bytes[j]) == SpillName(spill[2 * j]) + SpillName(spill[2 * j + 1])
    {
      PackedByteNames(spill, j);
    }
    DecodePairs(bytes, spill, ByteNames);
  }
}

=== FILE: rustgraph.dfy ===
/** The Rust node-graph engine (src/graph.rs), exported over a C boundary.

    Unlike the C engine, `lv_mk_edge` appends unconditionally (so repeated
    calls create duplicate entries), `lv_rm_edge` exists and removes every
    occurrence, and `lv_new_node` first reuses an index from the `deleted`
    stack.  A `panic!` and an out-of-bounds `Vec` index are both modelled as
    `Fail`.
 */
module RustGraph {
  import opened Wrappers

  datatype NodeRep = NodeRep(succ: seq<nat>, pred: seq<nat>)

  /** `Graph`; `id` stands for the boxed graph's address. */
  datatype Graph = Graph(id: nat, nodes: seq<NodeRep>, deleted: seq<nat>)

  /** `Node = (*mut Graph, usize)`. */
  datatype Node = Node(graph: nat, idx: nat)

  const EmptyRep := NodeRep([], [])

  /** How many times v is recorded as a successor of u. */
  function SuccCount(g: Graph, u: nat, v: nat): nat {
    if u < |g.nodes| then multiset(g.nodes[u].succ)[v] else 0
  }

  /** How many times u is recorded as a predecessor of v. */
  function PredCount(g: Graph, v: nat, u: nat): nat {
    if v < |g.nodes| then multiset(g.nodes[v].pred)[u] else 0
  }

  /** Edge symmetry, counted: each successor entry has exactly one mirroring
      predecessor entry. */
  ghost predicate Mirrored(g: Graph) {
    forall u, v :: SuccCount(g, u, v) == PredCount(g, v, u)
  }

  /** `lv_new_graph`: empty `nodes` and `deleted`. */
  function NewGraph(id: nat): (g: Graph)
    ensures g.id == id && g.nodes == [] && g.deleted == []
    ensures Mirrored(g)
  {
    Graph(id, [], [])
  }

  /** `lv_new_node`: pops a deleted index if there is one, leaving the
      records alone; otherwise pushes an empty record and returns its index. */
  function NewNode(g: Graph): (r: (Graph, Node))
    ensures r.0.id == g.id && r.1.graph == g.id
    ensures |g.deleted| > 0 ==>
      r.1.idx == g.deleted[|g.deleted| - 1] && r.0.nodes == g.nodes &&
      r.0.deleted == g.deleted[..|g.deleted| - 1]
    ensures |g.deleted| == 0 ==>
      r.1.idx == |g.nodes| && |r.0.nodes| == |g.nodes| + 1 &&
      r.0.nodes[..|g.nodes|] == g.nodes && r.0.nodes[r.1.idx] == EmptyRep && r.0.deleted == []
    ensures Mirrored(g) ==> Mirrored(r.0)
  {
    if |g.deleted| > 0 then
      var last := |g.deleted| - 1;
      var g' := g.(deleted := g.deleted[..last]);
      assert forall u, v :: SuccCount(g', u, v) == SuccCount(g, u, v);
      assert forall u, v :: PredCount(g', v, u) == PredCount(g, v, u);
      (g', Node(g.id, g.deleted[last]))
    else
      var g' := g.(nodes := g.nodes + [EmptyRep]);
      assert forall u, v :: SuccCount(g', u, v) == SuccCount(g, u, v);
      assert forall u, v :: PredCount(g', v, u) == PredCount(g, v, u);
      (g', Node(g.id, |g.nodes|))
  }

  /** `lv_mk_edge`: panics for handles of different graphs or an index out
      of range; otherwise appends `to` to from's successors and `from` to
      to's predecessors, even if the edge is already there. */
  function MkEdge(g: Graph, from: Node, to: Node): (r: Outcome<Graph>)
    requires from.graph == g.id
    ensures r.Done? <==> to.graph == g.id && from.idx < |g.nodes| && to.idx < |g.nodes|
    ensures r.Done? ==>
      var g' := r.value;
      g'.id == g.id && g'.deleted == g.deleted && |g'.nodes| == |g.nodes| &&
      g'.nodes[from.idx].succ == g.nodes[from.idx].succ + [to.idx] &&
      g'.nodes[to.idx].pred == g.nodes[to.idx].pred + [from.idx] &&
      (forall i :: 0 <= i < |g.nodes| && i != from.idx ==> g'.nodes[i].succ == g.nodes[i].succ) &&
      (forall i :: 0 <= i < |g.nodes| && i != to.idx ==> g'.nodes[i].pred == g.nodes[i].pred)
  {
    if from.graph != to.graph then Fail("from and to not from same graph")
    else if from.idx >= |g.nodes| || to.idx >= |g.nodes| then Fail("index out of bounds")
    else
      var n1 := g.nodes[from.idx := g.nodes[from.idx].(succ := g.nodes[from.idx].succ + [to.idx])];
      Done(g.(nodes := n1[to.idx := n1[to.idx].(pred := n1[to.idx].pred + [from.idx])]))
  }

  /** The sequence with every occurrence of `x` dropped, order kept. */
  function Without(s: seq<nat>, x: nat): (r: seq<nat>)
    ensures x !in r && |r| <= |s|
    ensures forall y :: y != x ==> multiset(r)[y] == multiset(s)[y]
  {
    if |s| == 0 then []
    else
      assert s == [s[0]] + s[1..];
      if s[0] == x then Without(s[1..], x) else [s[0]] + Without(s[1..], x)
  }

  /** The in-place removal loop of `lv_rm_edge`: `remove(i)` on a match,
      otherwise step past. */
  method RemoveAll(s: seq<nat>, x: nat) returns (r: seq<nat>)
    ensures r == Without(s, x)
  {
    r := s;
    var i := 0;
    while i < |r|
      invariant 0 <= i <= |r|
      invariant Without(r, x) == Without(s, x)
      invariant x !in r[..i]
      decreases |r| - i
    {
      if r[i] == x {
        WithoutDrop(r, i, x);
        ghost var prev := r;
        r := r[..i] + r[i + 1..];
        assert r[..i] == prev[..i];
      } else {
        assert r[..i + 1] == r[..i] + [r[i]];
        i := i + 1;
      }
    }
    assert r[..i] == r;
    WithoutAbsent(r, x);
  }

  /** Removing one occurrence of `x` does not change what `Without` gives. */
  lemma {:induction false} WithoutDrop(r: seq<nat>, i: nat, x: nat)
    requires i < |r| && r[i] == x
    ensures Without(r[..i] + r[i + 1..], x) == Without(r, x)
    decreases i
  {
    var d := r[..i] + r[i + 1..];
    if i == 0 {
      assert d == r[1..];
    } else {
      var t := r[1..];
      WithoutDrop(t, i - 1, x);
      assert d[0] == r[0] && d[1..] == t[..i - 1] + t[i..];
    }
  }

  /** `lv_rm_edge`: panics like `lv_mk_edge`; otherwise removes every
      occurrence of the edge from both arrays. */
  function RmEdge(g: Graph, from: Node, to: Node): (r: Outcome<Graph>)
    requires from.graph == g.id
    ensures r.Done? <==> to.graph == g.id && from.idx < |g.nodes| && to.idx < |g.nodes|
    ensures r.Done? ==>
      var g' := r.value;
      g'.id == g.id && g'.deleted == g.deleted && |g'.nodes| == |g.nodes| &&
      SuccCount(g', from.idx, to.idx) == 0 && PredCount(g', to.idx, from.idx) == 0 &&
      g'.nodes[from.idx].succ == Without(g.nodes[from.idx].succ, to.idx) &&
      g'.nodes[to.idx].pred == Without(g.nodes[to.idx].pred, from.idx) &&
      (forall y :: y != to.idx ==> SuccCount(g', from.idx, y) == SuccCount(g, from.idx, y)) &&
      (forall y :: y != from.idx ==> PredCount(g', to.idx, y) == PredCount(g, to.idx, y)) &&
      (forall i :: 0 <= i < |g.nodes| && i != from.idx ==> g'.nodes[i].succ == g.nodes[i].succ) &&
      (forall i :: 0 <= i < |g.nodes| && i != to.idx ==> g'.nodes[i].pred == g.nodes[i].pred)
  {
    if from.graph != to.graph then Fail("from and to not from same graph")
    else if from.idx >= |g.nodes| || to.idx >= |g.nodes| then Fail("index out of bounds")
    else
      var n1 := g.nodes[from.idx := g.nodes[from.idx].(succ := Without(g.nodes[from.idx].succ, to.idx))];
      Done(g.(nodes := n1[to.idx := n1[to.idx].(pred := Without(n1[to.idx].pred, from.idx))]))
  }

  /** `lv_mk_edge` changes only the (from, to) entry counts, in step, so
      the counted mirror is kept. */
  lemma MkEdgeKeepsMirror(g: Graph, from: Node, to: Node)
    requires from.graph == g.id && Mirrored(g)
    ensures MkEdge(g, from, to).Done? ==> Mirrored(MkEdge(g, from, to).value)
  {
    if MkEdge(g, from, to).Done? {
      var g' := MkEdge(g, from, to).value;
      forall u, v
        ensures SuccCount(g', u, v) == PredCount(g', v, u)
      {
        assert SuccCount(g', u, v) == SuccCount(g, u, v) + (if u == from.idx && v == to.idx then 1 else 0);
        assert PredCount(g', v, u) == PredCount(g, v, u) + (if u == from.idx && v == to.idx then 1 else 0);
      }
    }
  }

  /** `lv_rm_edge` zeroes both (from, to) entry counts and no other, so the
      counted mirror is kept. */
  lemma RmEdgeKeepsMirror(g: Graph, from: Node, to: Node)
    requires from.graph == g.id && Mirrored(g)
    ensures RmEdge(g, from, to).Done? ==> Mirrored(RmEdge(g, from, to).value)
  {
    if RmEdge(g, from, to).Done? {
      var g' := RmEdge(g, from, to).value;
      forall u, v
        ensures SuccCount(g', u, v) == PredCount(g', v, u)
      {
        if u == from.idx && v == to.idx {
        } else {
          assert SuccCount(g', u, v) == SuccCount(g, u, v);
          assert PredCount(g', v, u) == PredCount(g, v, u);
        }
      }
    }
  }

  /** `lv_rm_edge` of an absent edge leaves the graph as it was. */
  lemma RmAbsentIsNoop(g: Graph, from: Node, to: Node)
    requires from.graph == g.id && to.graph == g.id
    requires from.idx < |g.nodes| && to.idx < |g.nodes| && Mirrored(g)
    requires SuccCount(g, from.idx, to.idx) == 0
    ensures RmEdge(g, from, to) == Done(g)
  {
    var f, t := from.idx, to.idx;
    assert PredCount(g, t, f) == 0;
    WithoutAbsent(g.nodes[f].succ, t);
    WithoutAbsent(g.nodes[t].pred, f);
    var g2 := RmEdge(g, from, to).value;
    assert g2.nodes[f].succ == g.nodes[f].succ;
    assert g2.nodes[t].pred == g.nodes[t].pred;
    assert g2.nodes == g.nodes;
  }

  lemma {:induction false} WithoutAbsent(s: seq<nat>, x: nat)
    requires x !in s
    ensures Without(s, x) == s
  {
    if |s| > 0 {
      assert s == [s[0]] + s[1..];
      WithoutAbsent(s[1..], x);
    }
  }

  lemma {:induction false} WithoutAppend(s: seq<nat>, x: nat)
    ensures Without(s + [x], x) == Without(s, x)
  {
    if |s| == 0 {
      assert [x] == [x] + [];
    } else {
      assert s + [x] == [s[0]] + (s[1..] + [x]);
      WithoutAppend(s[1..], x);
    }
  }

  /** On a pair with no prior edge, `lv_mk_edge` then `lv_rm_edge` restores
      the original records. */
  lemma MkThenRmRestores(g: Graph, from: Node, to: Node)
    requires from.graph == g.id && to.graph == g.id
    requires from.idx < |g.nodes| && to.idx < |g.nodes| && Mirrored(g)
    requires SuccCount(g, from.idx, to.idx) == 0
    ensures MkEdge(g, from, to).Done?
    ensures RmEdge(MkEdge(g, from, to).value, from, to) == Done(g)
  {
    var g1 := MkEdge(g, from, to).value;
    var f, t := from.idx, to.idx;
    assert PredCount(g, t, f) == 0;
    WithoutAbsent(g.nodes[f].succ, t);
    WithoutAbsent(g.nodes[t].pred, f);
    WithoutAppend(g.nodes[f].succ, t);
    WithoutAppend(g.nodes[t].pred, f);
    var g2 := RmEdge(g1, from, to).value;
    assert g2.nodes[f].succ == g.nodes[f].succ;
    assert g2.nodes[t].pred == g.nodes[t].pred;
    assert g2.nodes == g.nodes;
  }

  /** `lv_mk_edge` is not idempotent: a second call records the edge again. */
  lemma MkEdgeTwiceDuplicates(g: Graph, from: Node, to: Node)
    requires from.graph == g.id && to.graph == g.id
    requires from.idx < |g.nodes| && to.idx < |g.nodes|
    ensures MkEdge(g, from, to).Done?
    ensures MkEdge(MkEdge(g, from, to).value, from, to).Done?
    ensures SuccCount(MkEdge(MkEdge(g, from, to).value, from, to).value, from.idx, to.idx)
         == SuccCount(g, from.idx, to.idx) + 2
  {
    var g1 := MkEdge(g, from, to).value;
    var g2 := MkEdge(g1, from, to).value;
    assert g2.nodes[from.idx].succ == g.nodes[from.idx].succ + [to.idx] + [to.idx];
  }
}

=== FILE: scopetrie.dfy ===
/** The scope trie of the type checker (`sce_upsert`, `sce_len` in
    src/semantics.c).

    A scope's bindings form a 4-ary trie keyed by name: at each node the
    top two bits of a 32-bit hash of the name choose the child, and the
    hash is shifted left two bits per level.  A search that meets a node
    with the name stops there; one that reaches an empty child either
    stops (no allocator) or puts a new zeroed node there.
 */
module ScopeTrie {
  import opened Wrappers
  import Ast

  /** What a name is bound to: `sce_type` and `sce_var_id`. */
  datatype Entry = Entry(ty: Ast.Type, id: int)

  /** `scope_entry_t`, with its four children named. */
  datatype Trie =
    | Leaf
    | Node(key: string, entry: Entry, c0: Trie, c1: Trie, c2: Trie, c3: Trie)

  // ---------------------------------------------------------------------
  // sym_hash
  // ---------------------------------------------------------------------

  /** The loop of `sym_hash`: per byte, xor then multiply, modulo 2^64. */
  function HashLoop(h: bv64, s: string): bv64
    decreases |s|
  {
    if |s| == 0 then h
    else HashLoop((h ^ ((s[0] as int % 256) as bv64)) * 1111111111111111111, s[1..])
  }

  /** `sym_hash`. */
  function SymHash(s: string): bv64 {
    var h := HashLoop(0x100, s);
    h ^ (h >> 32)
  }

  /** The `uint32_t h` of `sce_upsert` after `d` shifts `h <<= 2`, held in
      the low 32 bits. */
  function HashAt(s: string, d: nat): (h: bv64)
    ensures h <= 0xFFFF_FFFF
  {
    if d == 0 then SymHash(s) & 0xFFFF_FFFF else (HashAt(s, d - 1) << 2) & 0xFFFF_FFFF
  }

  /** `h >> 30`: the child a search for `s` takes at depth `d`. */
  function ChildIndex(s: string, d: nat): (i: bv64)
    ensures i < 4
  {
    HashAt(s, d) >> 30
  }

  function Child(t: Trie, i: bv64): Trie
    requires t.Node? && i < 4
  {
    if i == 0 then t.c0 else if i == 1 then t.c1 else if i == 2 then t.c2 else t.c3
  }

  // ---------------------------------------------------------------------
  // Abstraction
  // ---------------------------------------------------------------------

  function Keys(t: Trie): set<string> {
    match t
    case Leaf => {}
    case Node(k, _, a, b, c, d) => {k} + Keys(a) + Keys(b) + Keys(c) + Keys(d)
  }

  /** The reference lookup: the entry of the node with key `k`, looking
      everywhere in the trie. */
  function Search(t: Trie, k: string): (r: Option<Entry>)
  {
    match t
    case Leaf => None
    case Node(key, e, a, b, c, d) =>
      if key == k then Some(e)
      else Or(Search(a, k), Or(Search(b, k), Or(Search(c, k), Search(d, k))))
  }

  function Or<T>(x: Option<T>, y: Option<T>): Option<T> {
    if x.Some? then x else y
  }

  /** A trie built by `sce_upsert` from depth `d`: each key lies below
      the child its hash chooses at each level, and no key appears twice. */
  predicate WfAt(t: Trie, d: nat) {
    match t
    case Leaf => true
    case Node(key, _, a, b, c, e) =>
      WfAt(a, d + 1) && WfAt(b, d + 1) && WfAt(c, d + 1) && WfAt(e, d + 1) &&
      (forall k :: k in Keys(a) ==> ChildIndex(k, d) == 0) &&
      (forall k :: k in Keys(b) ==> ChildIndex(k, d) == 1) &&
      (forall k :: k in Keys(c) ==> ChildIndex(k, d) == 2) &&
      (forall k :: k in Keys(e) ==> ChildIndex(k, d) == 3) &&
      key !in Keys(a) + Keys(b) + Keys(c) + Keys(e)
  }

  predicate Wf(t: Trie) {
    WfAt(t, 0)
  }

  lemma {:induction false} SearchFindsKeys(t: Trie, k: string)
    ensures Search(t, k).Some? <==> k in Keys(t)
  {
    match t
    case Leaf =>
    case Node(_, _, a, b, c, d) =>
      SearchFindsKeys(a, k);
      SearchFindsKeys(b, k);
      SearchFindsKeys(c, k);
      SearchFindsKeys(d, k);
  }

  // ---------------------------------------------------------------------
  // sce_upsert
  // ---------------------------------------------------------------------

  /** `sce_upsert` with a NULL allocator: follows the hash path and returns
      the entry of the node with key `k`, or NULL at an empty child. */
  function Find(t: Trie, k: string, d: nat): (r: Option<Entry>)
    ensures r.Some? ==> k in Keys(t)
    decreases t
  {
    match t
    case Leaf => None
    case Node(key, e, _, _, _, _) =>
      if key == k then Some(e) else Find(Child(t, ChildIndex(k, d)), k, d + 1)
  }

  /** Following the hash path finds what a search of the whole trie
      finds. */
  lemma {:induction false} FindIsSearch(t: Trie, k: string, d: nat)
    requires WfAt(t, d)
    ensures Find(t, k, d) == Search(t, k)
    decreases t
  {
    match t
    case Leaf =>
    case Node(key, e, a, b, c, f) =>
      if key != k {
        var i := ChildIndex(k, d);
        FindIsSearch(Child(t, i), k, d + 1);
        SearchFindsKeys(a, k);
        SearchFindsKeys(b, k);
        SearchFindsKeys(c, k);
        SearchFindsKeys(f, k);
      }
  }

  /** `sce_upsert` with an allocator, followed by the caller's filling in
      of a new entry: a name already present keeps its node and entry; a
      new name gets a node, holding `e`, at the empty child its hash
      path ends in. */
  function Insert(t: Trie, k: string, e: Entry, d: nat): (r: Trie)
    ensures r.Node? && k in Keys(r)
    decreases t
  {
    match t
    case Leaf => Node(k, e, Leaf, Leaf, Leaf, Leaf)
    case Node(key, x, a, b, c, f) =>
      if key == k then t
      else
        var i := ChildIndex(k, d);
        if i == 0 then Node(key, x, Insert(a, k, e, d + 1), b, c, f)
        else if i == 1 then Node(key, x, a, Insert(b, k, e, d + 1), c, f)
        else if i == 2 then Node(key, x, a, b, Insert(c, k, e, d + 1), f)
        else Node(key, x, a, b, c, Insert(f, k, e, d + 1))
  }

  lemma {:induction false} InsertKeys(t: Trie, k: string, e: Entry, d: nat)
    ensures Keys(Insert(t, k, e, d)) == Keys(t) + {k}
    decreases t
  {
    if t.Node? && t.key != k {
      var i := ChildIndex(k, d);
      var n := Insert(Child(t, i), k, e, d + 1);
      InsertKeys(Child(t, i), k, e, d + 1);
      InsertReplaces(t, k, e, d);
      ReplaceKeys(t, i, n, k);
    }
  }

  /** Putting into child `i` a subtrie holding one more name adds that name. */
  lemma ReplaceKeys(t: Trie, i: bv64, n: Trie, k: string)
    requires t.Node? && i < 4 && Keys(n) == Keys(Child(t, i)) + {k}
    ensures Keys(Replace(t, i, n)) == Keys(t) + {k}
  {
    var a, b, c, f := t.c0, t.c1, t.c2, t.c3;
    if i == 0 {
      assert Replace(t, i, n) == Node(t.key, t.entry, n, b, c, f);
    } else if i == 1 {
      assert Replace(t, i, n) == Node(t.key, t.entry, a, n, c, f);
    } else if i == 2 {
      assert Replace(t, i, n) == Node(t.key, t.entry, a, b, n, f);
    } else {
      assert Replace(t, i, n) == Node(t.key, t.entry, a, b, c, n);
    }
  }

  /** A name the hash path reaches is left where it is. */
  lemma {:induction false} InsertPresent(t: Trie, k: string, e: Entry, d: nat)
    requires Find(t, k, d).Some?
    ensures Insert(t, k, e, d) == t
    decreases t
  {
    match t
    case Node(key, x, a, b, c, f) =>
      if key != k {
        InsertPresent(Child(t, ChildIndex(k, d)), k, e, d + 1);
      }
  }

  /** A new name is bound to the entry given. */
  lemma {:induction false} InsertNew(t: Trie, k: string, e: Entry, d: nat)
    requires k !in Keys(t)
    ensures Search(Insert(t, k, e, d), k) == Some(e)
    decreases t
  {
    if t.Node? {
      var i := ChildIndex(k, d);
      ChildKeys(t, i);
      InsertNew(Child(t, i), k, e, d + 1);
      InsertReplaces(t, k, e, d);
      SearchReplaced(t, i, Insert(Child(t, i), k, e, d + 1), k);
    }
  }

  lemma ChildKeys(t: Trie, i: bv64)
    requires t.Node? && i < 4
    ensures Keys(Child(t, i)) <= Keys(t)
  {
  }

  /** A search for a name the node does not hold, after child `i` is
      replaced by a subtrie that holds it, finds it in that subtrie. */
  lemma SearchReplaced(t: Trie, i: bv64, n: Trie, k: string)
    requires t.Node? && i < 4 && k !in Keys(t)
    ensures Search(Replace(t, i, n), k) == Search(n, k)
  {
    SearchFindsKeys(t.c0, k);
    SearchFindsKeys(t.c1, k);
    SearchFindsKeys(t.c2, k);
    SearchFindsKeys(t.c3, k);
    var r := Replace(t, i, n);
    if i == 0 {
      assert r == Node(t.key, t.entry, n, t.c1, t.c2, t.c3);
    } else if i == 1 {
      assert r == Node(t.key, t.entry, t.c0, n, t.c2, t.c3);
    } else if i == 2 {
      assert r == Node(t.key, t.entry, t.c0, t.c1, n, t.c3);
    } else {
      assert r == Node(t.key, t.entry, t.c0, t.c1, t.c2, n);
    }
  }

  /** Insertion changes no other name's binding. */
  lemma {:induction false} InsertOthers(t: Trie, k: string, e: Entry, d: nat, j: string)
    requires j != k
    ensures Search(Insert(t, k, e, d), j) == Search(t, j)
    decreases t
  {
    match t
    case Leaf =>
    case Node(key, x, a, b, c, f) =>
      if key != k {
        InsertOthers(Child(t, ChildIndex(k, d)), k, e, d + 1, j);
      }
  }

  /** The node `t` with child `i` replaced by `n`. */
  function Replace(t: Trie, i: bv64, n: Trie): (r: Trie)
    requires t.Node? && i < 4
    ensures r.Node? && r.key == t.key && r.entry == t.entry && Child(r, i) == n
    ensures forall j: bv64 :: j < 4 && j != i ==> Child(r, j) == Child(t, j)
  {
    if i == 0 then t.(c0 := n) else if i == 1 then t.(c1 := n)
    else if i == 2 then t.(c2 := n) else t.(c3 := n)
  }

  /** Adding a name to the child its hash chooses keeps a node well
      formed. */
  lemma ReplaceWf(t: Trie, d: nat, k: string, n: Trie)
    requires t.Node? && WfAt(t, d) && k != t.key
    requires WfAt(n, d + 1) && Keys(n) == Keys(Child(t, ChildIndex(k, d))) + {k}
    ensures WfAt(Replace(t, ChildIndex(k, d), n), d)
  {
    var i := ChildIndex(k, d);
    var r := Replace(t, i, n);
    forall j: bv64 | j < 4
      ensures WfAt(Child(r, j), d + 1)
      ensures forall m :: m in Keys(Child(r, j)) ==> ChildIndex(m, d) == j
      ensures t.key !in Keys(Child(r, j))
    {
      if j != i {
        assert Child(r, j) == Child(t, j);
      }
    }
    assert WfAt(Child(r, 0), d + 1) && WfAt(Child(r, 1), d + 1) && WfAt(Child(r, 2), d + 1) && WfAt(Child(r, 3), d + 1);
  }

  /** Insertion below a node with another key rebuilds the chosen child. */
  lemma InsertReplaces(t: Trie, k: string, e: Entry, d: nat)
    requires t.Node? && t.key != k
    ensures Insert(t, k, e, d) == Replace(t, ChildIndex(k, d), Insert(Child(t, ChildIndex(k, d)), k, e, d + 1))
  {
  }

  /** One level of `InsertWf`: a well-formed rebuilt child gives a
      well-formed node. */
  lemma InsertWfStep(t: Trie, k: string, e: Entry, d: nat, n: Trie)
    requires t.Node? && t.key != k && WfAt(t, d)
    requires n == Insert(Child(t, ChildIndex(k, d)), k, e, d + 1)
    requires WfAt(n, d + 1) && Keys(n) == Keys(Child(t, ChildIndex(k, d))) + {k}
    ensures WfAt(Insert(t, k, e, d), d)
  {
    InsertReplaces(t, k, e, d);
    ReplaceWf(t, d, k, n);
  }

  /** Insertion keeps the trie well formed. */
  lemma {:induction false} InsertWf(t: Trie, k: string, e: Entry, d: nat)
    requires WfAt(t, d)
    ensures WfAt(Insert(t, k, e, d), d)
    decreases t
  {
    if t.Node? && t.key != k {
      var i := ChildIndex(k, d);
      assert WfAt(Child(t, i), d + 1);
      InsertWf(Child(t, i), k, e, d + 1);
      InsertKeys(Child(t, i), k, e, d + 1);
      InsertWfStep(t, k, e, d, Insert(Child(t, i), k, e, d + 1));
    } else if t.Leaf? {
      assert Insert(t, k, e, d) == Node(k, e, Leaf, Leaf, Leaf, Leaf);
    } else {
      assert Insert(t, k, e, d) == t;
    }
  }

  /** Insertion keeps the trie well formed, binds a new name to `e`, leaves
      a present name's entry alone, and changes no other name. */
  lemma InsertSpec(t: Trie, k: string, e: Entry, d: nat)
    requires WfAt(t, d)
    ensures WfAt(Insert(t, k, e, d), d)
    ensures Keys(Insert(t, k, e, d)) == Keys(t) + {k}
    ensures Search(Insert(t, k, e, d), k) == if k in Keys(t) then Search(t, k) else Some(e)
    ensures forall j :: j != k ==> Search(Insert(t, k, e, d), j) == Search(t, j)
  {
    InsertWf(t, k, e, d);
    InsertKeys(t, k, e, d);
    if k in Keys(t) {
      SearchFindsKeys(t, k);
      FindIsSearch(t, k, d);
      InsertPresent(t, k, e, d);
    } else {
      InsertNew(t, k, e, d);
    }
    forall j | j != k
      ensures Search(Insert(t, k, e, d), j) == Search(t, j)
    {
      InsertOthers(t, k, e, d, j);
    }
  }

  /** `declare_in_current_scope`: -1 when the name is already bound in
      this scope, else the name is bound to `e` and the result is 0.  The
      variable id must be positive (asserted in the source). */
  function Declare(t: Trie, k: string, e: Entry): (r: (int, Trie))
    requires e.id > 0
    ensures r.0 == 0 || r.0 == -1
    ensures r.0 == -1 <==> Find(t, k, 0).Some?
    ensures r.0 == -1 ==> r.1 == t
  {
    if Find(t, k, 0).Some? then (-1, t) else (0, Insert(t, k, e, 0))
  }

  /** What a declaration means for the scope's bindings. */
  lemma DeclareSpec(t: Trie, k: string, e: Entry)
    requires Wf(t) && e.id > 0
    ensures Wf(Declare(t, k, e).1)
    ensures Declare(t, k, e).0 == -1 <==> k in Keys(t)
    ensures Declare(t, k, e).0 == 0 ==> Search(Declare(t, k, e).1, k) == Some(e)
    ensures Keys(Declare(t, k, e).1) == Keys(t) + {k}
    ensures forall j :: j != k ==> Search(Declare(t, k, e).1, j) == Search(t, j)
  {
    FindIsSearch(t, k, 0);
    SearchFindsKeys(t, k);
    if k !in Keys(t) {
      InsertWf(t, k, e, 0);
      InsertKeys(t, k, e, 0);
      InsertNew(t, k, e, 0);
      forall j | j != k
        ensures Search(Insert(t, k, e, 0), j) == Search(t, j)
      {
        InsertOthers(t, k, e, 0, j);
      }
    }
  }

  /** `lookup_var`: the scopes from outermost to innermost; the innermost
      scope binding the name answers. */
  function LookupVar(scopes: seq<Trie>, k: string): (r: Option<Entry>)
    ensures r.None? <==> forall i :: 0 <= i < |scopes| ==> Find(scopes[i], k, 0).None?
    ensures r.Some? ==> exists i :: 0 <= i < |scopes| && Find(scopes[i], k, 0) == r
    decreases |scopes|
  {
    if |scopes| == 0 then None
    else
      var n := |scopes| - 1;
      var found := Find(scopes[n], k, 0);
      if found.Some? then found
      else
        var r := LookupVar(scopes[..n], k);
        LookupVarStep(scopes, k, r);
        r
  }

  lemma LookupVarStep(scopes: seq<Trie>, k: string, r: Option<Entry>)
    requires |scopes| > 0
    requires var n := |scopes| - 1;
      (r.None? <==> forall i :: 0 <= i < n ==> Find(scopes[..n][i], k, 0).None?) &&
      (r.Some? ==> exists i :: 0 <= i < n && Find(scopes[..n][i], k, 0) == r)
    requires Find(scopes[|scopes| - 1], k, 0).None?
    ensures r.None? <==> forall i :: 0 <= i < |scopes| ==> Find(scopes[i], k, 0).None?
    ensures r.Some? ==> exists i :: 0 <= i < |scopes| && Find(scopes[i], k, 0) == r
  {
    var n := |scopes| - 1;
    assert forall i :: 0 <= i < n ==> scopes[..n][i] == scopes[i];
  }

  // ---------------------------------------------------------------------
  // The trie as a map
  // ---------------------------------------------------------------------

  /** A scope as the checker sees it: each name bound to its entry. */
  type Scope = map<string, Entry>

  /** The bindings a trie holds: each key with the entry of its node. */
  function Bindings(t: Trie): Scope {
    map k | k in Keys(t) && Search(t, k).Some? :: Search(t, k).value
  }

  lemma BindingsOfKeys(t: Trie)
    ensures Bindings(t).Keys == Keys(t)
    ensures forall k :: k in Keys(t) ==> Search(t, k) == Some(Bindings(t)[k])
  {
    forall k | k in Keys(t) ensures Search(t, k).Some? {
      SearchFindsKeys(t, k);
    }
  }

  /** `declare_in_current_scope` on a well-formed trie: -1 when the name is
      bound, and otherwise the bindings gain the name with entry `e`; the
      trie stays well formed. */
  lemma DeclareBinds(t: Trie, k: string, e: Entry)
    requires Wf(t) && e.id > 0
    ensures Wf(Declare(t, k, e).1)
    ensures Declare(t, k, e).0 == -1 <==> k in Bindings(t)
    ensures Bindings(Declare(t, k, e).1) ==
              if k in Bindings(t) then Bindings(t) else Bindings(t)[k := e]
  {
    DeclareSpec(t, k, e);
    BindingsOfKeys(t);
    if k !in Keys(t) {
      BindingsGrow(t, Declare(t, k, e).1, k, e);
    }
  }

  /** A trie that finds `e` for a new name `k` and what `t` finds for every
      other name binds what `t` binds, and `k` to `e`. */
  lemma BindingsGrow(t: Trie, t': Trie, k: string, e: Entry)
    requires k !in Keys(t) && Keys(t') == Keys(t) + {k}
    requires Search(t', k) == Some(e)
    requires forall j :: j != k ==> Search(t', j) == Search(t, j)
    ensures Bindings(t') == Bindings(t)[k := e]
  {
    BindingsOfKeys(t);
    BindingsOfKeys(t');
    var m := Bindings(t)[k := e];
    assert Bindings(t').Keys == m.Keys;
    forall j | j in m ensures Bindings(t')[j] == m[j] {
      if j != k {
        assert Search(t', j) == Search(t, j);
      }
    }
  }

  /** The reference lookup over a chain of scopes, outermost first: the
      innermost scope that binds the name answers. */
  function ScopeLookup(ms: seq<Scope>, k: string): (r: Option<Entry>)
    decreases |ms|
  {
    if |ms| == 0 then None
    else if k in ms[|ms| - 1] then Some(ms[|ms| - 1][k])
    else ScopeLookup(ms[..|ms| - 1], k)
  }

  /** A name bound in scope `i` and in no scope inside it is found there:
      inner declarations shadow outer ones. */
  lemma {:induction false} ScopeLookupInnermost(ms: seq<Scope>, k: string, i: nat)
    requires i < |ms| && k in ms[i]
    requires forall j :: i < j < |ms| ==> k !in ms[j]
    ensures ScopeLookup(ms, k) == Some(ms[i][k])
    decreases |ms|
  {
    if i < |ms| - 1 {
      var inner := ms[..|ms| - 1];
      assert inner[i] == ms[i];
      assert forall j :: i < j < |inner| ==> inner[j] == ms[j];
      ScopeLookupInnermost(inner, k, i);
    }
  }

  /** A name no scope binds is not found. */
  lemma {:induction false} ScopeLookupUnbound(ms: seq<Scope>, k: string)
    ensures ScopeLookup(ms, k).None? <==> forall j :: 0 <= j < |ms| ==> k !in ms[j]
    decreases |ms|
  {
    if |ms| > 0 {
      var inner := ms[..|ms| - 1];
      ScopeLookupUnbound(inner, k);
      assert forall j :: 0 <= j < |inner| ==> inner[j] == ms[j];
    }
  }

  /** The scopes of a chain of tries. */
  function Abstract(scopes: seq<Trie>): (ms: seq<Scope>)
    ensures |ms| == |scopes|
    ensures forall i :: 0 <= i < |scopes| ==> ms[i] == Bindings(scopes[i])
  {
    seq(|scopes|, i requires 0 <= i < |scopes| => Bindings(scopes[i]))
  }

  /** `lookup_var` on tries built by `sce_upsert` is the lookup over their
      bindings. */
  lemma {:induction false} LookupVarIsScopeLookup(scopes: seq<Trie>, k: string)
    requires forall i :: 0 <= i < |scopes| ==> Wf(scopes[i])
    ensures LookupVar(scopes, k) == ScopeLookup(Abstract(scopes), k)
    decreases |scopes|
  {
    if |scopes| > 0 {
      var n := |scopes| - 1;
      var inner := scopes[..n];
      FindIsSearch(scopes[n], k, 0);
      SearchFindsKeys(scopes[n], k);
      BindingsOfKeys(scopes[n]);
      LookupVarIsScopeLookup(inner, k);
      assert Abstract(scopes)[..n] == Abstract(inner);
    }
  }

  // ---------------------------------------------------------------------
  // sce_len
  // ---------------------------------------------------------------------

  /** `sce_len`: one for the node plus the sizes of its four children. */
  function SceLen(t: Trie): (n: nat) {
    match t
    case Leaf => 0
    case Node(_, _, a, b, c, d) => 1 + SceLen(a) + SceLen(b) + SceLen(c) + SceLen(d)
  }

  lemma ChildrenDisjoint(t: Trie, d: nat)
    requires t.Node? && WfAt(t, d)
    ensures Keys(t.c0) !! Keys(t.c1) && Keys(t.c0) !! Keys(t.c2) && Keys(t.c0) !! Keys(t.c3)
    ensures Keys(t.c1) !! Keys(t.c2) && Keys(t.c1) !! Keys(t.c3) && Keys(t.c2) !! Keys(t.c3)
  {
  }

  lemma DisjointCard<T>(x: T, a: set<T>, b: set<T>, c: set<T>, d: set<T>)
    requires a !! b && a !! c && a !! d && b !! c && b !! d && c !! d
    requires x !in a + b + c + d
    ensures |{x} + a + b + c + d| == 1 + |a| + |b| + |c| + |d|
  {
    assert |a + b| == |a| + |b|;
    assert |a + b + c| == |a + b| + |c|;
    assert |a + b + c + d| == |a + b + c| + |d|;
    assert {x} + a + b + c + d == {x} + (a + b + c + d);
  }

  /** In a well-formed trie `sce_len` counts the names bound. */
  lemma SceLenCountsBindings(t: Trie)
    requires Wf(t)
    ensures SceLen(t) == |Bindings(t)|
  {
    SceLenCountsKeys(t, 0);
    BindingsOfKeys(t);
    assert |Bindings(t)| == |Bindings(t).Keys|;
  }

  lemma {:induction false} SceLenCountsKeys(t: Trie, d: nat)
    requires WfAt(t, d)
    ensures SceLen(t) == |Keys(t)|
    decreases t
  {
    match t
    case Leaf =>
    case Node(key, _, a, b, c, f) =>
      SceLenCountsKeys(a, d + 1);
      SceLenCountsKeys(b, d + 1);
      SceLenCountsKeys(c, d + 1);
      SceLenCountsKeys(f, d + 1);
      ChildrenDisjoint(t, d);
      DisjointCard(key, Keys(a), Keys(b), Keys(c), Keys(f));
  }
}

=== FILE: semantics.dfy ===
/** The type checker (src/semantics.c): `sem_verify_and_type_program` and
    the `verify_*` functions it calls.

    The checker walks the program once, giving every expression a type and
    every binding an id, and returns the number of errors it reported as a
    non-positive count (each error subtracts one).  Its state is
    `sem_info_t`: the program, the chain of scopes (outermost first), the
    loop depth, the next variable id and the current function's return
    type.  Each `verify_*` function returns the type it gave the
    expression, its (non-positive) error count and the state after it.
    An `assert` of the C code that can fail is a `Fail` outcome.
 */
module Semantics {
  import opened Wrappers
  import opened Ast
  import ScopeTrie

  const IntT := TyName("int")
  const BoolT := TyName("bool")
  const VoidT := TyName("void")

  /** `sem_info_t`, less the arena, stack, file name and diagnostics.
      `asWritten` selects the rules exactly as the checker states them;
      false selects the corrected rules (see `BinOpRule` and
      `StructClashes`). */
  datatype Info = Info(
    program: seq<Decl>,
    scopes: seq<ScopeTrie.Scope>,
    loopDepth: int,
    nextId: int,
    fnRet: Option<Type>,
    asWritten: bool)

  /** What `verify_expr` leaves behind for one expression. */
  datatype Typed = Typed(ty: Type, errs: int, info: Info)

  /** The same for a list of expressions verified in order. */
  datatype TypedList = TypedList(tys: seq<Type>, errs: int, info: Info)

  // ---------------------------------------------------------------------
  // Declarations and types
  // ---------------------------------------------------------------------

  /** `lookup_decl`: the first declaration of the program with the name and
      the kind asked for. */
  function LookupDecl(program: seq<Decl>, name: string, isStruct: bool): (r: Option<Decl>)
    ensures r.Some? ==> r.value in program && r.value.name == name && r.value.Struct? == isStruct
    ensures r.None? <==> forall d :: d in program ==> !(d.name == name && d.Struct? == isStruct)
  {
    if |program| == 0 then None
    else if program[0].Struct? == isStruct && program[0].name == name then Some(program[0])
    else LookupDecl(program[1..], name, isStruct)
  }

  /** `type_exists`: the name under the pointers and arrays is a builtin
      or a declared struct.  A function type reaches the assertion that
      only pointers and arrays wrap a name. */
  function TypeExists(program: seq<Decl>, t: Type): (r: Outcome<bool>)
    ensures r.Fail? <==> !Printable(t)
    ensures r.Done? ==> (r.value <==> BaseName(t) in {"int", "void", "bool"} ||
                                      exists d :: d in program && d.Struct? && d.name == BaseName(t))
  {
    if !Printable(t) then Fail("type_exists: not a pointer or array")
    else
      var n := BaseName(t);
      Done(n == "int" || n == "void" || n == "bool" || LookupDecl(program, n, true).Some?)
  }

  /** `sem_is_lvalue`: a variable, or a member or dereference of an
      l-value. */
  predicate IsLvalue(e: Expr) {
    match e
    case Var(_) => true
    case Member(c, _) => IsLvalue(c)
    case Deref(a) => IsLvalue(a)
    case _ => false
  }

  /** The expression an l-value's members and dereferences are taken of. */
  function Root(e: Expr): Expr {
    match e
    case Member(c, _) => Root(c)
    case Deref(a) => Root(a)
    case _ => e
  }

  /** An expression is an l-value exactly when the chain of members and
      dereferences it is made of starts at a variable. */
  lemma {:induction false} LvalueIsRootedAtVar(e: Expr)
    ensures IsLvalue(e) <==> Root(e).Var?
  {
    match e
    case Member(c, _) => LvalueIsRootedAtVar(c);
    case Deref(a) => LvalueIsRootedAtVar(a);
    case _ =>
  }

  /** The first field of a struct with the name. */
  function FindField(fields: seq<Param>, name: string): (r: Option<Param>)
    ensures r.Some? ==> r.value in fields && r.value.name == name
    ensures r.None? <==> forall p :: p in fields ==> p.name != name
  {
    if |fields| == 0 then None
    else if fields[0].name == name then Some(fields[0])
    else FindField(fields[1..], name)
  }

  /** How many of the first arguments have a type other than their
      parameter's (the check stops at the shorter list). */
  function Mismatches(tys: seq<Type>, params: seq<Param>): (n: nat)
    ensures n <= |tys| && n <= |params|
    ensures n == 0 <==> forall i :: 0 <= i < |tys| && i < |params| ==> tys[i] == params[i].ty
  {
    if |tys| == 0 || |params| == 0 then 0
    else
      (if tys[0] != params[0].ty then 1 else 0) + Mismatches(tys[1..], params[1..])
  }

  /** The count error for an argument list of the wrong length. */
  function ArityError(args: int, params: int): (r: int)
    ensures r == 0 <==> args == params
    ensures r == 0 || r == -1
  {
    if args < params then -1 else if args > params then -1 else 0
  }

  // ---------------------------------------------------------------------
  // Scopes
  // ---------------------------------------------------------------------

  function PushScope(info: Info): (r: Info)
    ensures r.scopes == info.scopes + [map[]]
  {
    info.(scopes := info.scopes + [map[]])
  }

  function PopScope(info: Info): (r: Info)
    requires |info.scopes| > 0
    ensures r.scopes == info.scopes[..|info.scopes| - 1]
  {
    info.(scopes := info.scopes[..|info.scopes| - 1])
  }

  /** `declare_in_current_scope`: -1 when the current scope already binds
      the name; otherwise the name is bound there, with the type and id.
      An id must be positive. */
  function DeclareVar(info: Info, name: string, ty: Type, id: int): (r: Outcome<(int, Info)>)
    requires |info.scopes| > 0
    ensures r.Fail? <==> id <= 0
    ensures r.Done? ==> r.value.1 == info.(scopes := r.value.1.scopes)
    ensures r.Done? ==> |r.value.1.scopes| == |info.scopes| &&
                        r.value.1.scopes[..|info.scopes| - 1] == info.scopes[..|info.scopes| - 1]
    ensures r.Done? ==> (r.value.0 == -1 <==> name in info.scopes[|info.scopes| - 1])
    ensures r.Done? ==> r.value.0 == 0 || r.value.1 == info
    ensures r.Done? ==>
              r.value.1.scopes[|info.scopes| - 1] ==
                (if name in info.scopes[|info.scopes| - 1] then info.scopes[|info.scopes| - 1]
                 else info.scopes[|info.scopes| - 1][name := ScopeTrie.Entry(ty, id)])
  {
    if id <= 0 then Fail("declare_in_current_scope: id > 0")
    else
      var n := |info.scopes| - 1;
      if name in info.scopes[n] then Done((-1, info))
      else
        var scopes := info.scopes[n := info.scopes[n][name := ScopeTrie.Entry(ty, id)]];
        assert scopes[..n] == info.scopes[..n];
        Done((0, info.(scopes := scopes)))
  }

  // ---------------------------------------------------------------------
  // Sizes and counts
  // ---------------------------------------------------------------------

  function Size(e: Expr): (n: nat)
    ensures n >= 1
  {
    match e
    case BinOp(_, l, r) => 1 + Size(l) + Size(r)
    case Let(_, _, i) => 1 + Size(i)
    case Call(_, args) => 1 + SizeList(args)
    case New(_, args) => 1 + SizeList(args)
    case Return(Some(a)) => 1 + Size(a)
    case Loop(body) => 1 + SizeList(body)
    case Deref(a) => 1 + Size(a)
    case AddrOf(a) => 1 + Size(a)
    case Member(c, _) => 1 + Size(c)
    case If(c, a, b) => 1 + Size(c) + Size(a) + Size(b)
    case _ => 1
  }

  function SizeList(es: seq<Expr>): nat {
    if |es| == 0 then 0 else Size(es[0]) + SizeList(es[1..])
  }

  /** The number of `let` bindings anywhere inside an expression: each
      takes the next variable id. */
  function Lets(e: Expr): nat {
    match e
    case BinOp(_, l, r) => Lets(l) + Lets(r)
    case Let(_, _, i) => 1 + Lets(i)
    case Call(_, args) => LetsList(args)
    case New(_, args) => LetsList(args)
    case Return(Some(a)) => Lets(a)
    case Loop(body) => LetsList(body)
    case Deref(a) => Lets(a)
    case AddrOf(a) => Lets(a)
    case Member(c, _) => Lets(c)
    case If(c, a, b) => Lets(c) + Lets(a) + Lets(b)
    case _ => 0
  }

  function LetsList(es: seq<Expr>): nat {
    if |es| == 0 then 0 else Lets(es[0]) + LetsList(es[1..])
  }

  /** What verifying an expression leaves alone: the program, the current
      function, the loop depth, the number of scopes and every scope but
      the current one. */
  predicate Keeps(a: Info, b: Info) {
    b.program == a.program && b.fnRet == a.fnRet && b.loopDepth == a.loopDepth &&
    |b.scopes| == |a.scopes| && |a.scopes| > 0 &&
    b.scopes[..|a.scopes| - 1] == a.scopes[..|a.scopes| - 1]
  }

  /** The contract every `verify_*` function keeps. */
  predicate Verified(info: Info, lets: nat, r: Outcome<Typed>) {
    r.Done? ==> r.value.errs <= 0 && Keeps(info, r.value.info) &&
                r.value.info.nextId == info.nextId + lets
  }

  // ---------------------------------------------------------------------
  // Binary operators
  // ---------------------------------------------------------------------

  /** The operand type the language gives each operator; `None` for `==`
      and `!=`, whose operands need only agree. */
  function OperandType(op: Op): Option<Type> {
    if op in {Add, Sub, Mul, Div, Lsh, Rsh, Lt, Le, Gt, Ge} then Some(IntT)
    else if op in {LAnd, LOr} then Some(BoolT)
    else None
  }

  /** The type of the operator's result. */
  function ResultType(op: Op): Type {
    if op in {Add, Sub, Mul, Div, Lsh, Rsh} then IntT else BoolT
  }

  /** `verify_expr_binop_operands`: one error per operand not of the
      expected type. */
  function OperandErrors(lt: Type, rt: Type, expected: Type): (r: int)
    ensures -2 <= r <= 0
    ensures r == 0 <==> lt == expected && rt == expected
  {
    (if lt != expected then -1 else 0) + (if rt != expected then -1 else 0)
  }

  /** The switch of `verify_expr_binop` as written: the type given and the
      errors added, for operand types `lt` and `rt`.  For `==` and `!=` a
      mismatch is reported but not counted. */
  function BinOpRuleAsWritten(op: Op, lt: Type, rt: Type): (r: Outcome<(Type, int)>)
    ensures r.Fail? <==> op in {BitAnd, BitOr, BitXor}
    ensures r.Done? ==> r.value.0 == ResultType(op) && r.value.1 <= 0
  {
    match op
    case Add | Sub | Mul | Div | Lsh | Rsh => Done((IntT, OperandErrors(lt, rt, IntT)))
    case Lt | Le | Gt | Ge => Done((BoolT, OperandErrors(lt, rt, IntT)))
    case EqOp | NeOp => Done((BoolT, 0))
    case LAnd | LOr => Done((BoolT, OperandErrors(lt, rt, BoolT)))
    case BitAnd | BitOr | BitXor => Fail("unexpected binary op")
  }

  /** The same switch with the reported `==`/`!=` mismatch counted as an
      error, as every other reported error is. */
  function BinOpRule(op: Op, lt: Type, rt: Type): (r: Outcome<(Type, int)>)
    ensures r.Fail? <==> op in {BitAnd, BitOr, BitXor}
    ensures r.Done? ==> r.value.0 == ResultType(op) && r.value.1 <= 0
  {
    match op
    case EqOp | NeOp => Done((BoolT, if lt != rt then -1 else 0))
    case _ => BinOpRuleAsWritten(op, lt, rt)
  }

  /** The operator adds no error exactly when its operands have the
      operator's operand type, or, for `==` and `!=`, the same type. */
  lemma BinOpRuleSound(op: Op, lt: Type, rt: Type)
    requires op !in {BitAnd, BitOr, BitXor}
    ensures BinOpRule(op, lt, rt).Done?
    ensures BinOpRule(op, lt, rt).value.1 == 0 <==>
              if OperandType(op).Some? then lt == OperandType(op).value && rt == OperandType(op).value
              else lt == rt
  {
  }

  /** As written, `1 == true` is reported and yet counts no error, so the
      program goes on to be translated. */
  lemma EqualityMismatchUncounted()
    ensures BinOpRuleAsWritten(EqOp, IntT, BoolT) == Done((BoolT, 0))
    ensures BinOpRule(EqOp, IntT, BoolT) == Done((BoolT, -1))
  {
  }

  /** `1 == true` as an expression: typed bool, with no error counted under
      the rules as written and one under the corrected rules. */
  lemma EqualityMismatchInExpr(info: Info)
    requires |info.scopes| > 0
    ensures var r := VerifyExpr(info, BinOp(EqOp, Int(1), Bool(1)));
            r.Done? && r.value.ty == BoolT && (r.value.errs == 0 <==> info.asWritten)
  {
  }

  // ---------------------------------------------------------------------
  // verify_expr
  // ---------------------------------------------------------------------

  /** `verify_expr`. */
  function VerifyExpr(info: Info, e: Expr): (r: Outcome<Typed>)
    requires |info.scopes| > 0
    ensures Verified(info, Lets(e), r)
    decreases Size(e), 2
  {
    match e
    case Int(_) => Done(Typed(IntT, 0, info))
    case Bool(_) => Done(Typed(BoolT, 0, info))
    case VoidE => Done(Typed(VoidT, 0, info))
    case BinOp(_, _, _) => VerifyBinOp(info, e)
    case Let(_, _, _) => VerifyLet(info, e)
    case Call(_, _) => VerifyCall(info, e)
    case New(_, _) => VerifyNew(info, e)
    case Var(x) =>
      (match ScopeTrie.ScopeLookup(info.scopes, x)
       case None => Done(Typed(VoidT, -1, info))
       case Some(entry) => Done(Typed(entry.ty, 0, info)))
    case Return(_) => VerifyReturn(info, e)
    case Break => Done(Typed(VoidT, if info.loopDepth == 0 then -1 else 0, info))
    case Loop(_) => VerifyLoop(info, e)
    case Deref(_) => VerifyDeref(info, e)
    case AddrOf(_) => VerifyAddrOf(info, e)
    case Member(_, _) => VerifyMember(info, e)
    case If(_, _, _) => VerifyIf(info, e)
  }

  /** The statements of a block (`ex_list`), verified in order. */
  function VerifyList(info: Info, es: seq<Expr>): (r: Outcome<TypedList>)
    requires |info.scopes| > 0
    ensures r.Done? ==> |r.value.tys| == |es| && r.value.errs <= 0 &&
                        Keeps(info, r.value.info) && r.value.info.nextId == info.nextId + LetsList(es)
    decreases SizeList(es), 3
  {
    if |es| == 0 then Done(TypedList([], 0, info))
    else
      match VerifyExpr(info, es[0])
      case Fail(why) => Fail(why)
      case Done(h) =>
        match VerifyList(h.info, es[1..])
        case Fail(why) => Fail(why)
        case Done(t) => Done(TypedList([h.ty] + t.tys, h.errs + t.errs, t.info))
  }

  /** `verify_expr_binop`: left, then right, then the operator's rule. */
  function VerifyBinOp(info: Info, e: Expr): (r: Outcome<Typed>)
    requires e.BinOp? && |info.scopes| > 0
    ensures Verified(info, Lets(e), r)
    decreases Size(e), 1
  {
    match VerifyExpr(info, e.left)
    case Fail(why) => Fail(why)
    case Done(l) =>
      match VerifyExpr(l.info, e.right)
      case Fail(why) => Fail(why)
      case Done(rt) =>
        match (if info.asWritten then BinOpRuleAsWritten else BinOpRule)(e.op, l.ty, rt.ty)
        case Fail(why) => Fail(why)
        case Done(rule) => Done(Typed(rule.0, l.errs + rt.errs + rule.1, rt.info))
  }

  /** `verify_expr_let`: the initialiser, the annotation, the next id, and
      the binding in the current scope. */
  function VerifyLet(info: Info, e: Expr): (r: Outcome<Typed>)
    requires e.Let? && |info.scopes| > 0
    ensures Verified(info, Lets(e), r)
    decreases Size(e), 1
  {
    match VerifyExpr(info, e.init)
    case Fail(why) => Fail(why)
    case Done(i) => LetRule(i, e.name, e.ann)
  }

  /** The rest of `verify_expr_let`, once the initialiser `i` is typed:
      the annotation must exist and not be void, it must be the
      initialiser's type, the binding takes the next id, and the name must
      be new to the current scope.  A `let` itself has type void. */
  function LetRule(i: Typed, x: string, ann: Type): (r: Outcome<Typed>)
    requires |i.info.scopes| > 0
    ensures r.Done? ==> r.value.errs <= i.errs && Keeps(i.info, r.value.info) &&
                        r.value.info.nextId == i.info.nextId + 1
  {
    match TypeExists(i.info.program, ann)
    case Fail(why) => Fail(why)
    case Done(exists_) =>
      var annErr := if !exists_ then -1 else if ann == VoidT then -1 else 0;
      var initErr := if ann != i.ty then -1 else 0;
      var id := i.info.nextId;
      match DeclareVar(i.info.(nextId := id + 1), x, ann, id)
      case Fail(why) => Fail(why)
      case Done(d) =>
        Done(Typed(VoidT, i.errs + annErr + initErr + (if d.0 < 0 then -1 else 0), d.1))
  }

  /** `verify_expr_call`: the arguments, then the function declaration,
      the argument count and each argument's type. */
  function VerifyCall(info: Info, e: Expr): (r: Outcome<Typed>)
    requires e.Call? && |info.scopes| > 0
    ensures Verified(info, Lets(e), r)
    decreases Size(e), 1
  {
    match VerifyList(info, e.args)
    case Fail(why) => Fail(why)
    case Done(a) =>
      match LookupDecl(info.program, e.fn, false)
      case None => Done(Typed(VoidT, a.errs - 1, a.info))
      case Some(f) =>
        Done(Typed(f.ret, a.errs + ArityError(|e.args|, |f.params|) - Mismatches(a.tys, f.params), a.info))
  }

  /** `verify_expr_new`: as a call, against the fields of the struct; the
      type is a pointer to the struct. */
  function VerifyNew(info: Info, e: Expr): (r: Outcome<Typed>)
    requires e.New? && |info.scopes| > 0
    ensures Verified(info, Lets(e), r)
    decreases Size(e), 1
  {
    match VerifyList(info, e.args)
    case Fail(why) => Fail(why)
    case Done(a) =>
      match LookupDecl(info.program, e.ctor, true)
      case None => Done(Typed(VoidT, a.errs - 1, a.info))
      case Some(s) =>
        Done(Typed(TyPtr(TyName(s.name)),
                   a.errs + ArityError(|e.args|, |s.fields|) - Mismatches(a.tys, s.fields), a.info))
  }

  /** `verify_expr_return`: the value must have the function's return
      type; a bare `return` needs a void function.  Outside a function
      `si_current_fn` is NULL. */
  function VerifyReturn(info: Info, e: Expr): (r: Outcome<Typed>)
    requires e.Return? && |info.scopes| > 0
    ensures Verified(info, Lets(e), r)
    decreases Size(e), 1
  {
    match info.fnRet
    case None => Fail("return outside a function")
    case Some(ret) =>
      match e.result
      case None => Done(Typed(VoidT, if VoidT != ret then -1 else 0, info))
      case Some(a) =>
        match VerifyExpr(info, a)
        case Fail(why) => Fail(why)
        case Done(v) => Done(Typed(VoidT, v.errs + (if v.ty != ret then -1 else 0), v.info))
  }

  /** `verify_expr_loop`: the body in a new scope, one loop deeper. */
  function VerifyLoop(info: Info, e: Expr): (r: Outcome<Typed>)
    requires e.Loop? && |info.scopes| > 0
    ensures Verified(info, Lets(e), r)
    ensures r.Done? ==> r.value.info.scopes == info.scopes
    decreases Size(e), 1
  {
    var inner := PushScope(info.(loopDepth := info.loopDepth + 1));
    match VerifyList(inner, e.body)
    case Fail(why) => Fail(why)
    case Done(b) =>
      var after := PopScope(b.info);
      assert after.scopes == info.scopes by {
        assert b.info.scopes[..|inner.scopes| - 1] == inner.scopes[..|inner.scopes| - 1];
      }
      Done(Typed(VoidT, b.errs, after.(loopDepth := after.loopDepth - 1)))
  }

  /** `verify_expr_deref`: the operand must be a pointer. */
  function VerifyDeref(info: Info, e: Expr): (r: Outcome<Typed>)
    requires e.Deref? && |info.scopes| > 0
    ensures Verified(info, Lets(e), r)
    decreases Size(e), 1
  {
    match VerifyExpr(info, e.arg)
    case Fail(why) => Fail(why)
    case Done(a) =>
      if a.ty.TyPtr? then Done(Typed(a.ty.pointee, a.errs, a.info))
      else Done(Typed(VoidT, a.errs - 1, a.info))
  }

  /** `verify_expr_addrof`: the operand must be an l-value. */
  function VerifyAddrOf(info: Info, e: Expr): (r: Outcome<Typed>)
    requires e.AddrOf? && |info.scopes| > 0
    ensures Verified(info, Lets(e), r)
    decreases Size(e), 1
  {
    match VerifyExpr(info, e.arg)
    case Fail(why) => Fail(why)
    case Done(a) =>
      Done(Typed(TyPtr(a.ty), a.errs + (if !IsLvalue(e.arg) then -1 else 0), a.info))
  }

  /** `verify_expr_member`: the composite must be a named type, declared
      as a struct, with the field. */
  function VerifyMember(info: Info, e: Expr): (r: Outcome<Typed>)
    requires e.Member? && |info.scopes| > 0
    ensures Verified(info, Lets(e), r)
    decreases Size(e), 1
  {
    match VerifyExpr(info, e.composite)
    case Fail(why) => Fail(why)
    case Done(c) =>
      if !c.ty.TyName? then Done(Typed(VoidT, c.errs - 1, c.info))
      else
        match LookupDecl(info.program, c.ty.name, true)
        case None => Done(Typed(VoidT, c.errs - 1, c.info))
        case Some(s) =>
          match FindField(s.fields, e.member)
          case None => Done(Typed(VoidT, c.errs - 1, c.info))
          case Some(p) => Done(Typed(p.ty, c.errs, c.info))
  }

  /** `verify_expr_if`: the condition, then each branch in a scope of its
      own; the condition must be a bool and the branches agree. */
  function VerifyIf(info: Info, e: Expr): (r: Outcome<Typed>)
    requires e.If? && |info.scopes| > 0
    ensures Verified(info, Lets(e), r)
    decreases Size(e), 1
  {
    match VerifyExpr(info, e.cond)
    case Fail(why) => Fail(why)
    case Done(c) =>
      match VerifyExpr(PushScope(c.info), e.cons)
      case Fail(why) => Fail(why)
      case Done(a) =>
        var mid := PopScope(a.info);
        match VerifyExpr(PushScope(mid), e.alt)
        case Fail(why) => Fail(why)
        case Done(b) =>
          var errs := c.errs + a.errs + b.errs +
                      (if c.ty != BoolT then -1 else 0) + (if a.ty != b.ty then -1 else 0);
          Done(Typed(a.ty, errs, PopScope(b.info)))
  }

  // ---------------------------------------------------------------------
  // What the expression rules promise
  // ---------------------------------------------------------------------

  /** A call adds no error of its own exactly when the function is declared
      and the arguments agree with its parameters in number and type; its
      type is then the function's return type. */
  lemma CallAccepted(info: Info, f: string, args: seq<Expr>)
    requires |info.scopes| > 0 && VerifyList(info, args).Done?
    ensures var a := VerifyList(info, args).value;
            var r := VerifyExpr(info, Call(f, args));
            r.Done? && r.value.info == a.info &&
            (r.value.errs == a.errs <==>
               LookupDecl(info.program, f, false).Some? &&
               |args| == |LookupDecl(info.program, f, false).value.params| &&
               forall i :: 0 <= i < |args| ==> a.tys[i] == LookupDecl(info.program, f, false).value.params[i].ty) &&
            (LookupDecl(info.program, f, false).Some? ==> r.value.ty == LookupDecl(info.program, f, false).value.ret)
  {
  }

  /** The same for `new`, against the struct's fields; the type is a
      pointer to the struct. */
  lemma NewAccepted(info: Info, s: string, args: seq<Expr>)
    requires |info.scopes| > 0 && VerifyList(info, args).Done?
    ensures var a := VerifyList(info, args).value;
            var r := VerifyExpr(info, New(s, args));
            r.Done? && r.value.info == a.info &&
            (r.value.errs == a.errs <==>
               LookupDecl(info.program, s, true).Some? &&
               |args| == |LookupDecl(info.program, s, true).value.fields| &&
               forall i :: 0 <= i < |args| ==> a.tys[i] == LookupDecl(info.program, s, true).value.fields[i].ty) &&
            (LookupDecl(info.program, s, true).Some? ==> r.value.ty == TyPtr(TyName(s)))
  {
  }

  /** Taking an address adds an error exactly when the operand is not
      rooted at a variable. */
  lemma AddressNeedsVariable(info: Info, a: Expr)
    requires |info.scopes| > 0 && VerifyExpr(info, a).Done?
    ensures var v := VerifyExpr(info, a).value;
            var r := VerifyExpr(info, AddrOf(a));
            r.Done? && r.value.ty == TyPtr(v.ty) &&
            (r.value.errs == v.errs <==> Root(a).Var?)
  {
    LvalueIsRootedAtVar(a);
  }

  /** `break` is an error outside a loop and accepted inside one, and the
      loop gives back the depth and scopes it was entered with. */
  lemma BreakOnlyInLoop(info: Info)
    requires |info.scopes| > 0 && info.loopDepth >= 0
    ensures VerifyExpr(info, Break).value.errs == (if info.loopDepth == 0 then -1 else 0)
    ensures VerifyExpr(info, Loop([Break])) == Done(Typed(VoidT, 0, info))
  {
    var inner := PushScope(info.(loopDepth := info.loopDepth + 1));
    BreakInLoopBody(inner);
    assert inner.scopes[..|inner.scopes| - 1] == info.scopes;
    assert VerifyLoop(info, Loop([Break])) == Done(Typed(VoidT, 0, info));
  }

  /** The body `[break]` inside a loop: one void statement, no error. */
  lemma BreakInLoopBody(inner: Info)
    requires |inner.scopes| > 0 && inner.loopDepth > 0
    ensures VerifyList(inner, [Break]) == Done(TypedList([VoidT], 0, inner))
  {
    assert VerifyExpr(inner, Break) == Done(Typed(VoidT, 0, inner));
    assert VerifyList(inner, []) == Done(TypedList([], 0, inner));
    var es := [Break];
    assert es[0] == Break && es[1..] == [];
    assert [VoidT] + [] == [VoidT];
  }

  /** A `let` of a fresh name with a known, non-void type matching its
      initialiser adds no error, and binds the name, in the current scope,
      to its type and the next id. */
  lemma LetBinds(i: Typed, x: string, t: Type)
    requires |i.info.scopes| > 0
    requires i.ty == t && i.info.nextId >= 1 && x !in i.info.scopes[|i.info.scopes| - 1]
    requires TypeExists(i.info.program, t) == Done(true) && t != VoidT
    ensures var r := LetRule(i, x, t);
            r.Done? && r.value.ty == VoidT && r.value.errs == i.errs &&
            ScopeTrie.ScopeLookup(r.value.info.scopes, x) == Some(ScopeTrie.Entry(t, i.info.nextId))
  {
    var n := |i.info.scopes| - 1;
    var d := DeclareVar(i.info.(nextId := i.info.nextId + 1), x, t, i.info.nextId);
    assert d.Done? && d.value.0 == 0;
    ScopeTrie.ScopeLookupInnermost(d.value.1.scopes, x, n);
  }

  /** Hence a name declared by a `let` has, in the statements after it,
      the declared type. */
  lemma DeclaredThenUsed(i: Typed, x: string, t: Type)
    requires |i.info.scopes| > 0
    requires i.ty == t && i.info.nextId >= 1 && x !in i.info.scopes[|i.info.scopes| - 1]
    requires TypeExists(i.info.program, t) == Done(true) && t != VoidT
    ensures LetRule(i, x, t).Done?
    ensures var after := LetRule(i, x, t).value.info;
            VerifyExpr(after, Var(x)) == Done(Typed(t, 0, after))
  {
    LetBinds(i, x, t);
  }

  /** A second `let` of a name in the same scope is an error, and leaves
      the earlier binding in place. */
  lemma LetTwiceIsError(i: Typed, x: string, t: Type)
    requires |i.info.scopes| > 0
    requires i.info.nextId >= 1 && x in i.info.scopes[|i.info.scopes| - 1]
    requires Printable(t)
    ensures LetRule(i, x, t).Done?
    ensures LetRule(i, x, t).value.errs < i.errs
    ensures LetRule(i, x, t).value.info.scopes == i.info.scopes
  {
  }

  /** A name bound only inside a loop body is unknown after the loop. */
  lemma LoopScopeEnds(info: Info, body: seq<Expr>, x: string)
    requires |info.scopes| > 0 && ScopeTrie.ScopeLookup(info.scopes, x).None?
    requires VerifyExpr(info, Loop(body)).Done?
    ensures var after := VerifyExpr(info, Loop(body)).value.info;
            VerifyExpr(after, Var(x)) == Done(Typed(VoidT, -1, after))
  {
  }

  // ---------------------------------------------------------------------
  // Declarations
  // ---------------------------------------------------------------------

  /** The parameter loop of `verify_decl_func`: each parameter's type must
      exist and not be void; it takes the next id and is declared in the
      parameter scope, where a second parameter of the same name is an
      error. */
  function VerifyParams(info: Info, params: seq<Param>): (r: Outcome<(int, Info)>)
    requires |info.scopes| > 0
    ensures r.Done? ==> r.value.0 <= 0 && r.value.1.nextId == info.nextId + |params| &&
                        r.value.1.program == info.program && r.value.1.fnRet == info.fnRet &&
                        r.value.1.loopDepth == info.loopDepth && |r.value.1.scopes| == |info.scopes| &&
                        r.value.1.scopes[..|info.scopes| - 1] == info.scopes[..|info.scopes| - 1]
    decreases |params|
  {
    if |params| == 0 then Done((0, info))
    else
      var p := params[0];
      match TypeExists(info.program, p.ty)
      case Fail(why) => Fail(why)
      case Done(exists_) =>
        var tyErr := if !exists_ then -1 else if p.ty == VoidT then -1 else 0;
        var id := info.nextId;
        match DeclareVar(info.(nextId := id + 1), p.name, p.ty, id)
        case Fail(why) => Fail(why)
        case Done(d) =>
          match VerifyParams(d.1, params[1..])
          case Fail(why) => Fail(why)
          case Done(rest) => Done((tyErr + (if d.0 < 0 then -1 else 0) + rest.0, rest.1))
  }

  /** The check of a function's final expression: a `return` or a `loop`
      is accepted, any other final expression must have the return type,
      and an empty body needs a void function. */
  function FinalError(body: seq<Expr>, tys: seq<Type>, ret: Type): (r: int)
    requires |tys| == |body|
    ensures r == 0 || r == -1
    ensures r == 0 <==> if |body| == 0 then ret == VoidT
                        else body[|body| - 1].Return? || body[|body| - 1].Loop? || tys[|body| - 1] == ret
  {
    if |body| > 0 then
      var last := |body| - 1;
      if body[last].Return? || body[last].Loop? then 0
      else if tys[last] != ret then -1
      else 0
    else if ret != VoidT then -1
    else 0
  }

  /** `verify_decl_func`: the parameters in one scope, the body in another
      inside it with the function current, then the final-expression
      check. */
  function VerifyDeclFunc(info: Info, d: Decl): (r: Outcome<(int, Info)>)
    requires d.Func? && |info.scopes| > 0
    ensures r.Done? ==> r.value.0 <= 0 && r.value.1.scopes == info.scopes &&
                        r.value.1.program == info.program && r.value.1.fnRet.None? &&
                        r.value.1.nextId == info.nextId + |d.params| + LetsList(d.body)
  {
    match VerifyParams(PushScope(info), d.params)
    case Fail(why) => Fail(why)
    case Done(p) =>
      var inner := PushScope(p.1).(fnRet := Some(d.ret));
      match VerifyList(inner, d.body)
      case Fail(why) => Fail(why)
      case Done(b) =>
        var out := PopScope(PopScope(b.info.(fnRet := None)));
        assert out.scopes == info.scopes by {
          var n := |info.scopes|;
          assert b.info.scopes[..n + 1] == inner.scopes[..n + 1] == p.1.scopes;
          assert p.1.scopes[..n] == PushScope(info).scopes[..n] == info.scopes;
          assert out.scopes == b.info.scopes[..n + 1][..n];
        }
        Done((p.0 + b.errs + FinalError(d.body, b.tys, d.ret), out))
  }

  /** How many later fields share the name of field `i`: each is a second
      declaration. */
  function LaterNamesakes(fields: seq<Param>, i: nat): (n: nat)
    requires i < |fields|
    ensures n == 0 <==> forall j :: i < j < |fields| ==> fields[j].name != fields[i].name
    decreases |fields| - i
  {
    if i + 1 == |fields| then 0
    else
      (if fields[i + 1].name == fields[i].name then 1 else 0) +
      LaterNamesakes(fields[..i + 1] + fields[i + 2..], i)
  }

  /** The errors `verify_decl_struct` counts for field `i`: an unknown or
      void type, the struct itself as a field type, and each later field
      of the same name. */
  function FieldErrors(program: seq<Decl>, s: string, fields: seq<Param>, i: nat): (r: Outcome<int>)
    requires i < |fields|
    ensures r.Fail? <==> !Printable(fields[i].ty)
    ensures r.Done? ==> r.value <= 0
  {
    match TypeExists(program, fields[i].ty)
    case Fail(why) => Fail(why)
    case Done(exists_) =>
      var f := fields[i];
      var tyErr := if !exists_ then -1 else if f.ty == VoidT then -1 else 0;
      var recErr := if f.ty == TyName(s) then -1 else 0;
      Done(tyErr + recErr - LaterNamesakes(fields, i))
  }

  /** A field that is acceptable on its own. */
  predicate GoodField(program: seq<Decl>, s: string, f: Param) {
    Printable(f.ty) && f.ty != VoidT && f.ty != TyName(s) &&
    (BaseName(f.ty) in {"int", "void", "bool"} ||
     exists d :: d in program && d.Struct? && d.name == BaseName(f.ty))
  }

  /** `verify_decl_struct`: the field errors from field `i` on. */
  function VerifyFields(program: seq<Decl>, s: string, fields: seq<Param>, i: nat): (r: Outcome<int>)
    requires i <= |fields|
    ensures r.Done? ==> r.value <= 0
    decreases |fields| - i
  {
    if i == |fields| then Done(0)
    else
      match FieldErrors(program, s, fields, i)
      case Fail(why) => Fail(why)
      case Done(e) =>
        match VerifyFields(program, s, fields, i + 1)
        case Fail(why) => Fail(why)
        case Done(rest) => Done(e + rest)
  }

  function VerifyDeclStruct(program: seq<Decl>, d: Decl): (r: Outcome<int>)
    requires d.Struct?
    ensures r.Done? ==> r.value <= 0
  {
    VerifyFields(program, d.name, d.fields, 0)
  }

  /** A struct is accepted exactly when every field is acceptable and no
      two fields share a name. */
  lemma {:induction false} StructAccepted(program: seq<Decl>, s: string, fields: seq<Param>, i: nat)
    requires i <= |fields|
    requires forall j :: i <= j < |fields| ==> Printable(fields[j].ty)
    ensures VerifyFields(program, s, fields, i).Done?
    ensures VerifyFields(program, s, fields, i).value == 0 <==>
              (forall j :: i <= j < |fields| ==> GoodField(program, s, fields[j])) &&
              (forall j, k :: i <= j < k < |fields| ==> fields[j].name != fields[k].name)
    decreases |fields| - i
  {
    if i < |fields| {
      StructAccepted(program, s, fields, i + 1);
      var e := FieldErrors(program, s, fields, i);
      assert e.value == 0 <==> GoodField(program, s, fields[i]) &&
                               forall k :: i < k < |fields| ==> fields[k].name != fields[i].name;
    }
  }

  /** `verify_decl`. */
  function VerifyDecls(info: Info, ds: seq<Decl>): (r: Outcome<int>)
    requires |info.scopes| > 0
    ensures r.Done? ==> r.value <= 0
    decreases |ds|
  {
    if |ds| == 0 then Done(0)
    else
      match ds[0]
      case Struct(_, _) =>
        (match VerifyDeclStruct(info.program, ds[0])
         case Fail(why) => Fail(why)
         case Done(e) =>
           match VerifyDecls(info, ds[1..])
           case Fail(why) => Fail(why)
           case Done(rest) => Done(e + rest))
      case Func(_, _, _, _) =>
        (match VerifyDeclFunc(info, ds[0])
         case Fail(why) => Fail(why)
         case Done(f) =>
           match VerifyDecls(f.1, ds[1..])
           case Fail(why) => Fail(why)
           case Done(rest) => Done(f.0 + rest))
  }

  // ---------------------------------------------------------------------
  // sem_verify_and_type_program
  // ---------------------------------------------------------------------

  /** The earlier declarations a struct declaration is compared with, as
      written: every earlier declaration of the name, struct or
      function. */
  function StructClashesAsWritten(earlier: seq<Decl>, name: string): (n: nat)
    ensures n == 0 <==> forall d :: d in earlier ==> d.name != name
  {
    if |earlier| == 0 then 0
    else
      StructClashesAsWritten(earlier[..|earlier| - 1], name) +
      (if earlier[|earlier| - 1].name == name then 1 else 0)
  }

  /** The same, counting earlier structs only: structs and functions live
      apart (`lookup_decl` looks for one kind), so only a struct can
      redeclare a struct. */
  function StructClashes(earlier: seq<Decl>, name: string): (n: nat)
    ensures n == 0 <==> forall d :: d in earlier && d.Struct? ==> d.name != name
  {
    if |earlier| == 0 then 0
    else
      StructClashes(earlier[..|earlier| - 1], name) +
      (if earlier[|earlier| - 1].Struct? && earlier[|earlier| - 1].name == name then 1 else 0)
  }

  /** As written, a function and a struct of the same name are accepted in
      one order and rejected in the other. */
  lemma NameClashDependsOnOrder()
    ensures StructClashesAsWritten([Func("p", [], VoidT, [])], "p") == 1
    ensures StructClashes([Func("p", [], VoidT, [])], "p") == 0
  {
    assert [Func("p", [], VoidT, [])][..0] == [];
  }

  /** A function `p` then a struct `p`: the first pass counts an error
      under the rules as written, and none under the corrected rules. */
  lemma FuncThenStructClash(info: Info)
    requires |info.scopes| == 1 && info.nextId >= 1 && info.scopes[0].Keys == {}
    ensures var r := DeclareNames([Func("p", [], VoidT, []), Struct("p", [])], 0, info);
            r.Done? && (r.value.0 == 0 <==> !info.asWritten)
  {
    var program := [Func("p", [], VoidT, []), Struct("p", [])];
    assert program[..0] == [];
    DeclareNamesAccepts(program, 0, info);
    if info.asWritten {
      assert Clashes(program, 0, 1, true);
    } else {
      assert !ClashAt(program, 0, false);
      assert !ClashAt(program, 1, false) by {
        forall i | 0 <= i < 1 ensures !Clashes(program, i, 1, false) { assert i == 0; }
      }
    }
  }

  /** The first pass: from declaration `k` on, a struct counts its clashes
      with earlier structs and a function takes the next id and is
      declared, with a function type, in the root scope. */
  function DeclareNames(program: seq<Decl>, k: nat, info: Info): (r: Outcome<(int, Info)>)
    requires k <= |program| && |info.scopes| > 0
    ensures r.Done? ==> r.value.0 <= 0 && |r.value.1.scopes| == |info.scopes| &&
                        r.value.1.program == info.program
    decreases |program| - k
  {
    if k == |program| then Done((0, info))
    else
      var name := program[k].name;
      if program[k].Struct? then
        var clashes := if info.asWritten then StructClashesAsWritten(program[..k], name)
                       else StructClashes(program[..k], name);
        match DeclareNames(program, k + 1, info)
        case Fail(why) => Fail(why)
        case Done(rest) => Done((rest.0 - clashes, rest.1))
      else
        var id := info.nextId;
        match DeclareVar(info.(nextId := id + 1), name, TyFunc, id)
        case Fail(why) => Fail(why)
        case Done(d) =>
          match DeclareNames(program, k + 1, d.1)
          case Fail(why) => Fail(why)
          case Done(rest) => Done(((if d.0 < 0 then -1 else 0) + rest.0, rest.1))
  }

  /** `sem_verify_and_type_program`: the first pass, and, when it found no
      error, every declaration, under the rules `asWritten` selects. */
  function VerifyProgram(program: seq<Decl>, asWritten: bool): (r: Outcome<int>)
    ensures r.Done? ==> r.value <= 0
  {
    var info := Info(program, [map[]], 0, 1, None, asWritten);
    match DeclareNames(program, 0, info)
    case Fail(why) => Fail(why)
    case Done(names) =>
      if names.0 < 0 then Done(names.0)
      else
        match VerifyDecls(names.1, program)
        case Fail(why) => Fail(why)
        case Done(e) => Done(names.0 + e)
  }

  // ---------------------------------------------------------------------
  // Names declared at the top level
  // ---------------------------------------------------------------------

  function FuncNames(ds: seq<Decl>): set<string> {
    set i | 0 <= i < |ds| && ds[i].Func? :: ds[i].name
  }

  /** Declaration `k` clashes with earlier declaration `i`: they share a
      name and a kind, or, under the rules as written, `k` is a struct and
      `i` is anything. */
  predicate Clashes(program: seq<Decl>, i: nat, k: nat, asWritten: bool)
    requires i < k < |program|
  {
    program[i].name == program[k].name &&
    (program[i].Struct? == program[k].Struct? || (asWritten && program[k].Struct?))
  }

  /** Declaration `k` clashes with an earlier one. */
  predicate ClashAt(program: seq<Decl>, k: nat, asWritten: bool)
    requires k < |program|
  {
    exists i :: 0 <= i < k && Clashes(program, i, k, asWritten)
  }

  /** No declaration from `k` on clashes with an earlier one: under the
      corrected rules, names are unique among structs and among
      functions. */
  predicate UniquePerKind(program: seq<Decl>, k: nat, asWritten: bool) {
    forall j :: k <= j < |program| ==> !ClashAt(program, j, asWritten)
  }

  /** Uniqueness from `k` on is no clash at `k` and uniqueness after it. */
  lemma UniqueStep(program: seq<Decl>, k: nat, asWritten: bool)
    requires k < |program|
    ensures UniquePerKind(program, k, asWritten) <==>
              UniquePerKind(program, k + 1, asWritten) &&
              !ClashAt(program, k, asWritten)
  {
  }

  lemma StructStep(program: seq<Decl>, k: nat)
    requires k < |program| && program[k].Struct?
    ensures FuncNames(program[..k + 1]) == FuncNames(program[..k])
    ensures StructClashes(program[..k], program[k].name) == 0 <==>
              !ClashAt(program, k, false)
    ensures StructClashesAsWritten(program[..k], program[k].name) == 0 <==>
              !ClashAt(program, k, true)
  {
    var pre := program[..k];
    forall i | 0 <= i < k ensures program[i] in pre { assert pre[i] == program[i]; }
    assert FuncNames(program[..k + 1]) == FuncNames(program[..k]) by {
      forall n | n in FuncNames(program[..k + 1]) ensures n in FuncNames(pre) {
        var i :| 0 <= i < k + 1 && program[..k + 1][i].Func? && program[..k + 1][i].name == n;
        assert pre[i] == program[..k + 1][i];
      }
      forall n | n in FuncNames(pre) ensures n in FuncNames(program[..k + 1]) {
        var i :| 0 <= i < k && pre[i].Func? && pre[i].name == n;
        assert pre[i] == program[..k + 1][i];
      }
    }
    var name := program[k].name;
    forall aw: bool | ClashAt(program, k, aw)
      ensures exists d :: d in pre && d.name == name && (d.Struct? || aw)
    {
      var i :| 0 <= i < k && Clashes(program, i, k, aw);
      assert program[i] in pre;
    }
    forall aw: bool, d | d in pre && d.name == name && (d.Struct? || aw)
      ensures ClashAt(program, k, aw)
    {
      var i :| 0 <= i < k && pre[i] == d;
      assert Clashes(program, i, k, aw);
    }
  }

  lemma FuncStep(program: seq<Decl>, k: nat)
    requires k < |program| && program[k].Func?
    ensures FuncNames(program[..k + 1]) == FuncNames(program[..k]) + {program[k].name}
    ensures forall aw: bool :: program[k].name in FuncNames(program[..k]) <==> ClashAt(program, k, aw)
  {
    var pre, post := program[..k], program[..k + 1];
    forall n | n in FuncNames(post) ensures n in FuncNames(pre) + {program[k].name} {
      var i :| 0 <= i < k + 1 && post[i].Func? && post[i].name == n;
      if i < k { assert pre[i] == post[i]; }
    }
    forall n | n in FuncNames(pre) + {program[k].name} ensures n in FuncNames(post) {
      if n in FuncNames(pre) {
        var i :| 0 <= i < k && pre[i].Func? && pre[i].name == n;
        assert pre[i] == post[i];
      } else {
        assert post[k] == program[k];
      }
    }
    forall aw: bool | program[k].name in FuncNames(pre) ensures ClashAt(program, k, aw) {
      var i :| 0 <= i < k && pre[i].Func? && pre[i].name == program[k].name;
      assert program[i] == pre[i];
      assert Clashes(program, i, k, aw);
    }
    forall aw: bool | ClashAt(program, k, aw) ensures program[k].name in FuncNames(pre) {
      var i :| 0 <= i < k && Clashes(program, i, k, aw);
      assert pre[i] == program[i];
    }
  }

  /** Declaring a function name in the root scope. */
  lemma RootDeclare(info: Info, name: string)
    requires |info.scopes| == 1 && info.nextId >= 1
    ensures var d := DeclareVar(info.(nextId := info.nextId + 1), name, TyFunc, info.nextId);
            d.Done? && |d.value.1.scopes| == 1 &&
            d.value.1.nextId == info.nextId + 1 && d.value.1.nextId >= 1 &&
            d.value.1.asWritten == info.asWritten &&
            d.value.1.scopes[0].Keys == info.scopes[0].Keys + {name} &&
            (d.value.0 == -1 <==> name in info.scopes[0]) &&
            (d.value.0 == 0 || d.value.0 == -1)
  {
  }

  /** The first pass never fails, and finds no error exactly when no
      declaration clashes with an earlier one under the rules in force. */
  lemma {:induction false} DeclareNamesAccepts(program: seq<Decl>, k: nat, info: Info)
    requires k <= |program| && |info.scopes| == 1 && info.nextId >= 1
    requires info.scopes[0].Keys == FuncNames(program[..k])
    ensures DeclareNames(program, k, info).Done?
    ensures DeclareNames(program, k, info).value.0 == 0 <==> UniquePerKind(program, k, info.asWritten)
    decreases |program| - k, 1
  {
    if k < |program| {
      UniqueStep(program, k, info.asWritten);
      if program[k].Struct? {
        StructAccepts(program, k, info);
      } else {
        FuncAccepts(program, k, info);
      }
    }
  }

  /** The step of the first pass at a struct. */
  lemma {:induction false} StructAccepts(program: seq<Decl>, k: nat, info: Info)
    requires k < |program| && program[k].Struct?
    requires |info.scopes| == 1 && info.nextId >= 1
    requires info.scopes[0].Keys == FuncNames(program[..k])
    ensures DeclareNames(program, k, info).Done?
    ensures DeclareNames(program, k, info).value.0 == 0 <==>
              UniquePerKind(program, k + 1, info.asWritten) &&
              !ClashAt(program, k, info.asWritten)
    decreases |program| - k, 0
  {
    StructStep(program, k);
    DeclareNamesAccepts(program, k + 1, info);
    StructUnfold(program, k, info);
  }

  /** The step of the first pass at a function. */
  lemma {:induction false} FuncAccepts(program: seq<Decl>, k: nat, info: Info)
    requires k < |program| && program[k].Func?
    requires |info.scopes| == 1 && info.nextId >= 1
    requires info.scopes[0].Keys == FuncNames(program[..k])
    ensures DeclareNames(program, k, info).Done?
    ensures DeclareNames(program, k, info).value.0 == 0 <==>
              UniquePerKind(program, k + 1, info.asWritten) &&
              !ClashAt(program, k, info.asWritten)
    decreases |program| - k, 0
  {
    FuncStep(program, k);
    var id := info.nextId;
    RootDeclare(info, program[k].name);
    var d := DeclareVar(info.(nextId := id + 1), program[k].name, TyFunc, id).value;
    assert d.1.scopes[0].Keys == FuncNames(program[..k + 1]);
    assert d.0 == 0 <==> !ClashAt(program, k, info.asWritten);
    DeclareNamesAccepts(program, k + 1, d.1);
    FuncUnfold(program, k, info, d);
  }

  /** One step of the first pass at a struct. */
  lemma StructUnfold(program: seq<Decl>, k: nat, info: Info)
    requires k < |program| && program[k].Struct? && |info.scopes| > 0
    requires DeclareNames(program, k + 1, info).Done?
    ensures DeclareNames(program, k, info) ==
            Done((DeclareNames(program, k + 1, info).value.0 -
                    (if info.asWritten then StructClashesAsWritten(program[..k], program[k].name)
                     else StructClashes(program[..k], program[k].name)),
                  DeclareNames(program, k + 1, info).value.1))
  {
    var rest := DeclareNames(program, k + 1, info).value;
    var n := if info.asWritten then StructClashesAsWritten(program[..k], program[k].name)
             else StructClashes(program[..k], program[k].name);
    assert DeclareNames(program, k, info) == Done((rest.0 - n, rest.1));
  }

  /** One step of the first pass at a function. */
  lemma FuncUnfold(program: seq<Decl>, k: nat, info: Info, d: (int, Info))
    requires k < |program| && program[k].Func? && |info.scopes| > 0
    requires DeclareVar(info.(nextId := info.nextId + 1), program[k].name, TyFunc, info.nextId) == Done(d)
    requires DeclareNames(program, k + 1, d.1).Done?
    ensures DeclareNames(program, k, info) ==
            Done(((if d.0 < 0 then -1 else 0) + DeclareNames(program, k + 1, d.1).value.0,
                  DeclareNames(program, k + 1, d.1).value.1))
  {
  }
}

=== FILE: sorting.dfy ===
/** Ascending sort by an integer key, standing in for the C library's
    `qsort` with a subtracting comparator (used by the graph's adjacency
    enumeration and by the liveness pass's temp-list sort).
 */
module Sorting {

  /** `s` is in non-decreasing order of `key`. */
  ghost predicate SortedBy<T>(s: seq<T>, key: T -> int) {
    forall i, j :: 0 <= i < j < |s| ==> key(s[i]) <= key(s[j])
  }

  /** Inserts `x` into the sorted sequence `s` in front of the first element
      with a larger key. */
  function InsertBy<T>(x: T, s: seq<T>, key: T -> int): (r: seq<T>)
    requires SortedBy(s, key)
    ensures SortedBy(r, key)
    ensures multiset(r) == multiset(s) + multiset{x}
    ensures |r| == |s| + 1
  {
    if |s| == 0 then [x]
    else if key(x) <= key(s[0]) then [x] + s
    else
      var tail := InsertBy(x, s[1..], key);
      assert s == [s[0]] + s[1..];
      HeadBelow(s[0], s[1..], x, tail, key);
      [s[0]] + tail
  }

  /** An element no larger than the rest of a sorted sequence and than `x`
      is no larger than anything the insertion of `x` gives. */
  lemma HeadBelow<T>(h: T, rest: seq<T>, x: T, tail: seq<T>, key: T -> int)
    requires SortedBy([h] + rest, key) && key(h) <= key(x)
    requires SortedBy(tail, key) && multiset(tail) == multiset(rest) + multiset{x}
    ensures SortedBy([h] + tail, key)
  {
    forall k | 0 <= k < |tail|
      ensures key(h) <= key(tail[k])
    {
      assert tail[k] in multiset(tail);
      if tail[k] != x {
        assert tail[k] in multiset(rest);
        var j :| 0 <= j < |rest| && rest[j] == tail[k];
        assert ([h] + rest)[0] == h && ([h] + rest)[j + 1] == rest[j];
      }
    }
    forall i, j | 0 <= i < j < |[h] + tail|
      ensures key(([h] + tail)[i]) <= key(([h] + tail)[j])
    {
      if i > 0 {
        assert ([h] + tail)[i] == tail[i - 1] && ([h] + tail)[j] == tail[j - 1];
      }
    }
  }

  /** Insertion sort: a sorted permutation of `s`. */
  function SortBy<T>(s: seq<T>, key: T -> int): (r: seq<T>)
    ensures SortedBy(r, key)
    ensures multiset(r) == multiset(s)
    ensures |r| == |s|
  {
    if |s| == 0 then []
    else
      assert s == [s[0]] + s[1..];
      InsertBy(s[0], SortBy(s[1..], key), key)
  }
}

=== FILE: temp.dfy ===
/** Temporaries and labels (src/temp.c, src/temp.h).

    A temp is a virtual register: an id, a size in bytes and a pointer
    disposition.  Ids below 100 name machine registers; `temp_newtemp`
    hands out ids from 100 upwards.  Labels are `L<n>` or `L<prefix><n>`,
    drawn from one shared counter.
 */
module Temp {
  import Decimal

  /** Ids below this are machine registers. */
  const StartTemp := 100

  /** `temp_ptr_disposition_t`; 0 is the unset value of a zeroed temp. */
  const DispPtr := 1
  const DispNotPtr := 2
  const DispInherit := 3

  /** `temp_t`: `temp_size` is an `unsigned char`. */
  datatype Temp = Temp(id: int, size: nat, dispo: nat)

  datatype TempState = TempState(nextTemp: int, nextLabel: int)

  /** The states `temp_state_new` and the two counters can reach. */
  predicate Reachable(ts: TempState) {
    ts.nextTemp >= StartTemp && ts.nextLabel >= 0
  }

  /** `temp_state_new`. */
  function StateNew(): (ts: TempState)
    ensures Reachable(ts) && ts.nextTemp == StartTemp && ts.nextLabel == 0
  {
    TempState(StartTemp, 0)
  }

  /** `temp_is_machine`. */
  predicate IsMachine(t: Temp) {
    t.id < StartTemp
  }

  /** `temp_newtemp`: asserts a register-sized temp with a disposition,
      and takes the next id. */
  function NewTemp(ts: TempState, size: nat, dispo: nat): (r: (Temp, TempState))
    requires size <= 8 && 1 <= dispo <= 3
    ensures r.0 == Temp(ts.nextTemp, size, dispo)
    ensures r.1.nextTemp == ts.nextTemp + 1 && r.1.nextLabel == ts.nextLabel
    ensures Reachable(ts) ==> Reachable(r.1) && !IsMachine(r.0)
  {
    (Temp(ts.nextTemp, size, dispo), ts.(nextTemp := ts.nextTemp + 1))
  }

  /** Ids handed out by successive `temp_newtemp` calls are distinct and
      none is a machine register: each is below the next counter value and
      the counter only grows. */
  lemma NewTempFresh(ts: TempState, size: nat, dispo: nat, issued: set<int>)
    requires size <= 8 && 1 <= dispo <= 3 && Reachable(ts)
    requires forall id :: id in issued ==> id < ts.nextTemp
    ensures var (t, ts') := NewTemp(ts, size, dispo);
      t.id !in issued && !IsMachine(t) &&
      forall id :: id in issued + {t.id} ==> id < ts'.nextTemp
  {
  }

  /** `temp_copy`: every field of the source. */
  function Copy(src: Temp): (dst: Temp)
    ensures dst == src
  {
    Temp(src.id, src.size, src.dispo)
  }

  /** `temp_newlabel`: `L<n>` with the label counter, which then advances. */
  function NewLabel(ts: TempState): (r: (string, TempState))
    requires ts.nextLabel >= 0
    ensures |r.0| >= 2 && r.0[0] == 'L' && r.0[1..] == Decimal.NatToString(ts.nextLabel)
    ensures r.1 == ts.(nextLabel := ts.nextLabel + 1)
  {
    ("L" + Decimal.NatToString(ts.nextLabel), ts.(nextLabel := ts.nextLabel + 1))
  }

  /** `temp_prefixedlabel`: `L<prefix><n>`, sharing the label counter. */
  function PrefixedLabel(ts: TempState, prefix: string): (r: (string, TempState))
    requires ts.nextLabel >= 0
    ensures |r.0| >= |prefix| + 2 && r.0[0] == 'L' && r.0[1..|prefix| + 1] == prefix
    ensures r.0[|prefix| + 1..] == Decimal.NatToString(ts.nextLabel)
    ensures r.1 == ts.(nextLabel := ts.nextLabel + 1)
  {
    ("L" + prefix + Decimal.NatToString(ts.nextLabel), ts.(nextLabel := ts.nextLabel + 1))
  }

  /** Labels from `temp_newlabel` never repeat: two calls, however far
      apart, draw different counter values and so print differently. */
  lemma NewLabelsDistinct(ts1: TempState, ts2: TempState)
    requires 0 <= ts1.nextLabel < ts2.nextLabel
    ensures NewLabel(ts1).0 != NewLabel(ts2).0
  {
    if NewLabel(ts1).0 == NewLabel(ts2).0 {
      assert NewLabel(ts1).0[1..] == NewLabel(ts2).0[1..];
      Decimal.NatToStringInjective(ts1.nextLabel, ts2.nextLabel);
    }
  }

  /** `temp_list_cons`: asserts the head has a size. */
  function ListCons(hd: Temp, tail: seq<Temp>): (r: seq<Temp>)
    requires hd.size != 0
    ensures |r| == |tail| + 1 && r[0] == hd && r[1..] == tail
  {
    [hd] + tail
  }

  ghost predicate AllSized(ts: seq<Temp>) {
    forall i :: 0 <= i < |ts| ==> ts[i].size != 0
  }

  /** `temp_list_concat`: copies the lead cells in front of `tail`. */
  function ListConcat(lead: seq<Temp>, tail: seq<Temp>): (r: seq<Temp>)
    requires AllSized(lead)
    ensures |r| == |lead| + |tail|
    ensures forall i :: 0 <= i < |lead| ==> r[i] == lead[i]
    ensures forall i :: 0 <= i < |tail| ==> r[|lead| + i] == tail[i]
  {
    if |lead| == 0 then tail
    else ListCons(lead[0], ListConcat(lead[1..], tail))
  }
}

=== FILE: translate.dfy ===
/** Translation of AST expressions to IR (src/translate.c).

    A translated expression is a value (`Ex`), a statement run for its
    effect (`Nx`), or a condition (`Cx`) that, given a true and a false
    label, builds the jump to one of them.  The conditions translate.c
    builds are the three `label_bifunc_t` functions it defines, so a
    condition is one of three constructors here and `GenStm` plays the
    part of `lbf_call`.
 */
module Translate {
  import opened Tree
  import opened Wrappers
  import Temp
  import Ast
  import Canonical

  /** `always_true`, `always_false`, `jump_not_zero` with its expression. */
  datatype Cond = AlwaysTrue | AlwaysFalse | JumpNotZero(e: Exp)

  /** `translate_exp_t`. */
  datatype TrExp = Ex(e: Exp) | Nx(s: Stm) | Cx(c: Cond)

  /** `lbf_call`: the jump a condition builds for the labels `t` and `f`. */
  function GenStm(c: Cond, t: string, f: string): (s: Stm)
    ensures IsJumpTo(s, t, f)
  {
    match c
    case AlwaysTrue => JumpTo(t)
    case AlwaysFalse => JumpTo(f)
    case JumpNotZero(e) => CJump(Ne, Const(0), e, t, f)
  }

  /** A jump whose every target is `t` or `f`. */
  predicate IsJumpTo(s: Stm, t: string, f: string) {
    (s.Jump? && s.target.Name? && s.labels == [s.target.sym] && (s.target.sym == t || s.target.sym == f)) ||
    (s.CJump? && s.ifTrue == t && s.ifFalse == f)
  }

  /** Whether a condition holds when the expression it tests has value `v`. */
  predicate Holds(c: Cond, v: int) {
    match c
    case AlwaysTrue => true
    case AlwaysFalse => false
    case JumpNotZero(e) => Operand(e, v) != 0
  }

  /** `translate_un_ex`.  A condition becomes
      `ESEQ(SEQ(SEQ(SEQ(SEQ(MOVE r <- 1, genstm(t, f)), LABEL f), MOVE r <- 0), LABEL t), TEMP r)`
      with a fresh temp `r` and fresh labels `t` then `f`.  The call
      `temp_newtemp(ts)` passes no size, so the temp's size is a
      parameter. */
  function UnEx(ts: Temp.TempState, x: TrExp, size: nat): (r: (Exp, Temp.TempState))
    requires ts.nextLabel >= 0
    ensures x.Ex? ==> r == (x.e, ts)
    ensures x.Nx? ==> r == (ESeq(x.s, Const(0)), ts)
    ensures x.Cx? ==> r.0.ESeq? && r.0.exp.TempE? && r.0.exp.temp.id == ts.nextTemp &&
                      r.1 == Temp.TempState(ts.nextTemp + 1, ts.nextLabel + 2)
  {
    match x
    case Ex(e) => (e, ts)
    case Nx(s) => (ESeq(s, Const(0)), ts)
    case Cx(c) =>
      var (r, ts1) := Canonical.Fresh(ts, size);
      var (t, ts2) := Temp.NewLabel(ts1);
      var (f, ts3) := Temp.NewLabel(ts2);
      var body :=
        Seq(Seq(Seq(Seq(Move(TempE(r), Const(1)), GenStm(c, t, f)), Label(f)), Move(TempE(r), Const(0))), Label(t));
      (ESeq(body, TempE(r)), ts3)
  }

  /** `translate_un_nx`.  A condition jumps to one fresh label either way
      and that label follows it. */
  function UnNx(ts: Temp.TempState, x: TrExp): (r: (Stm, Temp.TempState))
    requires ts.nextLabel >= 0
    ensures x.Ex? ==> r == (ExpS(x.e), ts)
    ensures x.Nx? ==> r == (x.s, ts)
    ensures x.Cx? ==> r.1 == ts.(nextLabel := ts.nextLabel + 1) &&
                      r.0.Seq? && r.0.second == Label(Temp.NewLabel(ts).0) &&
                      IsJumpTo(r.0.first, r.0.second.name, r.0.second.name)
  {
    match x
    case Ex(e) => (ExpS(e), ts)
    case Nx(s) => (s, ts)
    case Cx(c) =>
      var (d, ts1) := Temp.NewLabel(ts);
      (Seq(GenStm(c, d, d), Label(d)), ts1)
  }

  /** `translate_un_cx`: a constant decides the jump statically; any other
      value is compared with 0; a statement has no truth value and fails
      the "impossible case" assertion. */
  function UnCx(x: TrExp): (r: Option<Cond>)
    ensures r.None? <==> x.Nx?
    ensures x.Cx? ==> r == Some(x.c)
  {
    match x
    case Ex(e) =>
      if e.Const? then
        if e.value == 0 then Some(AlwaysFalse) else Some(AlwaysTrue)
      else Some(JumpNotZero(e))
    case Nx(_) => None
    case Cx(c) => Some(c)
  }

  /** A value taken as a condition holds exactly when it is not zero,
      whether it is a constant decided at translation time or not. */
  lemma UnCxTruth(e: Exp, v: int)
    requires e.Const? ==> v == e.value
    ensures UnCx(Ex(e)).Some? && (Holds(UnCx(Ex(e)).value, v) <==> v != 0)
  {
  }

  // ---------------------------------------------------------------------
  // A small machine for the statement lists un_ex builds.
  // ---------------------------------------------------------------------

  /** The position of `LABEL l` in `code`, or `|code|` when absent. */
  function LabelAt(code: seq<Stm>, l: string): (i: nat)
    ensures i <= |code|
    ensures i < |code| ==> code[i] == Label(l)
    ensures forall k :: 0 <= k < i ==> code[k] != Label(l)
  {
    if |code| == 0 then 0
    else if code[0] == Label(l) then 0
    else 1 + LabelAt(code[1..], l)
  }

  /** The value of a jump operand: a constant's own, otherwise `v`. */
  function Operand(e: Exp, v: int): int {
    if e.Const? then e.value else v
  }

  predicate Relate(op: RelOp, a: int, b: int) {
    match op
    case Eq => a == b
    case Ne => a != b
    case Lt => a < b
    case Gt => a > b
    case Le => a <= b
    case Ge => a >= b
    case Ult => a % 0x1_0000_0000_0000_0000 < b % 0x1_0000_0000_0000_0000
    case Ule => a % 0x1_0000_0000_0000_0000 <= b % 0x1_0000_0000_0000_0000
    case Ugt => a % 0x1_0000_0000_0000_0000 > b % 0x1_0000_0000_0000_0000
    case Uge => a % 0x1_0000_0000_0000_0000 >= b % 0x1_0000_0000_0000_0000
  }

  /** Runs `code` from `pc`, where moves of constants into the temp `r`
      set its value `rv`, labels do nothing, and jumps go forward to their
      label; the tested expression has value `v`.  Returns `r`'s value at
      the end.  A backward jump, a jump out of the list or any other
      statement stops the run. */
  function Run(code: seq<Stm>, pc: nat, r: Temp.Temp, rv: int, v: int): int
    decreases |code| - pc
  {
    if pc >= |code| then rv
    else
      var s := code[pc];
      if s.Move? && s.dst == TempE(r) && s.src.Const? then Run(code, pc + 1, r, s.src.value, v)
      else if s.Label? then Run(code, pc + 1, r, rv, v)
      else if s.Jump? && s.target.Name? then
        var j := LabelAt(code, s.target.sym);
        if pc < j < |code| then Run(code, j, r, rv, v) else rv
      else if s.CJump? then
        var j := LabelAt(code, if Relate(s.rel, Operand(s.left, v), Operand(s.right, v)) then s.ifTrue else s.ifFalse);
        if pc < j < |code| then Run(code, j, r, rv, v) else rv
      else rv
  }

  /** A condition turned into a value leaves 1 in its temp when the
      condition holds and 0 when it does not. */
  lemma UnExOfCondition(ts: Temp.TempState, c: Cond, size: nat, v: int)
    requires ts.nextLabel >= 0
    ensures var (e, _) := UnEx(ts, Cx(c), size);
      Run(Canonical.Flatten(e.stm), 0, e.exp.temp, 0, v) == if Holds(c, v) then 1 else 0
  {
    var (r, ts1) := Canonical.Fresh(ts, size);
    var (t, ts2) := Temp.NewLabel(ts1);
    var (f, ts3) := Temp.NewLabel(ts2);
    Temp.NewLabelsDistinct(ts1, ts2);
    assert t != f;
    var g := GenStm(c, t, f);
    var m1, m0 := Move(TempE(r), Const(1)), Move(TempE(r), Const(0));
    var body := Seq(Seq(Seq(Seq(m1, g), Label(f)), m0), Label(t));
    var code := [m1, g, Label(f), m0, Label(t)];
    assert Canonical.Flatten(body) == code by {
      assert Canonical.Flatten(Seq(m1, g)) == [m1, g];
      assert Canonical.Flatten(Seq(Seq(m1, g), Label(f))) == [m1, g, Label(f)];
      assert Canonical.Flatten(Seq(Seq(Seq(m1, g), Label(f)), m0)) == [m1, g, Label(f), m0];
    }
    assert UnEx(ts, Cx(c), size) == (ESeq(body, TempE(r)), ts3);
    assert g.Jump? || g.CJump?;
    assert code[0] != Label(t) && code[1] != Label(t) && code[2] != Label(t) && code[3] != Label(t);
    assert code[0] != Label(f) && code[1] != Label(f);
    var lt, lf := LabelAt(code, t), LabelAt(code, f);
    assert code[4] == Label(t) && code[2] == Label(f);
    assert lt == 4;
    assert lf == 2;
    assert Run(code, 4, r, 1, v) == 1;
    assert Run(code, 4, r, 0, v) == 0;
    assert Run(code, 3, r, 1, v) == 0;
    assert Run(code, 2, r, 1, v) == 0;
    assert Run(code, 0, r, 0, v) == Run(code, 1, r, 1, v);
    match c
    case AlwaysTrue =>
      assert Run(code, 1, r, 1, v) == Run(code, 4, r, 1, v);
    case AlwaysFalse =>
      assert Run(code, 1, r, 1, v) == Run(code, 2, r, 1, v);
    case JumpNotZero(_) =>
      assert Operand(Const(0), v) == 0;
      if Holds(c, v) {
        assert Run(code, 1, r, 1, v) == Run(code, 4, r, 1, v);
      } else {
        assert Run(code, 1, r, 1, v) == Run(code, 2, r, 1, v);
      }
  }

  // ---------------------------------------------------------------------
  // Variables and operators.
  // ---------------------------------------------------------------------

  /** `struct ac_frame_var`: a variable's id and frame offset. */
  datatype FrameVar = FrameVar(varId: int, offset: int)

  /** The position of the first frame variable with id `id`, or `|vars|`. */
  function FindVar(vars: seq<FrameVar>, id: int): (i: nat)
    ensures i <= |vars|
    ensures i < |vars| ==> vars[i].varId == id
    ensures forall k :: 0 <= k < i ==> vars[k].varId != id
  {
    if |vars| == 0 then 0
    else if vars[0].varId == id then 0
    else 1 + FindVar(vars[1..], id)
  }

  /** `translate_expr_var`: the memory cell at frame pointer plus the
      offset of the first frame variable with the id; an id with no frame variable fails the assertion.
      `tree_exp_mem` is called without the size src/tree.c asks for,
      so the cell's size is a parameter. */
  function TranslateVar(vars: seq<FrameVar>, fp: Temp.Temp, id: int, size: nat): (r: Option<Exp>)
    ensures r.Some? <==> exists k :: 0 <= k < |vars| && vars[k].varId == id
    ensures forall k :: 0 <= k < |vars| && vars[k].varId == id && (forall j :: 0 <= j < k ==> vars[j].varId != id) ==>
              r == Some(Mem(BinOpE(Plus, TempE(fp), Const(vars[k].offset)), size))
  {
    var i := FindVar(vars, id);
    if i == |vars| then None
    else Some(Mem(BinOpE(Plus, TempE(fp), Const(vars[i].offset)), size))
  }

  /** The tokens `translate_expr_binop` can translate. */
  const ArithOps: set<Ast.Op> := {Ast.Add, Ast.Sub, Ast.Mul, Ast.Div, Ast.BitAnd, Ast.BitOr, Ast.BitXor, Ast.Lsh, Ast.Rsh}

  /** The operator table of `translate_expr_binop`; comparisons and the
      logical operators fail its `op != -1` assertion. */
  function BinOpFor(op: Ast.Op): (r: Option<BinOp>)
    ensures r.Some? <==> op in ArithOps
    ensures r.Some? ==> r.value != ARShift
  {
    match op
    case Add => Some(Plus)
    case Sub => Some(Minus)
    case Mul => Some(Mul)
    case Div => Some(Div)
    case BitAnd => Some(And)
    case BitOr => Some(Or)
    case BitXor => Some(Xor)
    case Lsh => Some(LShift)
    case Rsh => Some(RShift)
    case _ => None
  }

  /** Different tokens give different IR operators, and every IR operator
      but ARSHIFT is reached. */
  lemma BinOpForBijective(a: Ast.Op, b: Ast.Op, o: BinOp)
    ensures BinOpFor(a).Some? && BinOpFor(a) == BinOpFor(b) ==> a == b
    ensures o != ARShift ==> exists x :: x in ArithOps && BinOpFor(x) == Some(o)
  {
    if o != ARShift {
      match o
      case Plus => assert BinOpFor(Ast.Add) == Some(o);
      case Minus => assert BinOpFor(Ast.Sub) == Some(o);
      case Mul => assert BinOpFor(Ast.Mul) == Some(o);
      case Div => assert BinOpFor(Ast.Div) == Some(o);
      case And => assert BinOpFor(Ast.BitAnd) == Some(o);
      case Or => assert BinOpFor(Ast.BitOr) == Some(o);
      case Xor => assert BinOpFor(Ast.BitXor) == Some(o);
      case LShift => assert BinOpFor(Ast.Lsh) == Some(o);
      case RShift => assert BinOpFor(Ast.Rsh) == Some(o);
    }
  }

  /** `translate_expr_binop`: both operands as values, combined by the
      operator of the table. */
  function TranslateBinOp(ts: Temp.TempState, op: Ast.Op, lhs: TrExp, rhs: TrExp, size: nat)
    : (r: Option<(TrExp, Temp.TempState)>)
    requires ts.nextLabel >= 0
    ensures r.Some? <==> op in ArithOps
    ensures r.Some? ==> r.value.0.Ex? && r.value.0.e.BinOpE? &&
                        Some(r.value.0.e.op) == BinOpFor(op)
    ensures r.Some? && lhs.Ex? && rhs.Ex? ==> r.value == (Ex(BinOpE(BinOpFor(op).value, lhs.e, rhs.e)), ts)
  {
    var (l, ts1) := UnEx(ts, lhs, size);
    var (rr, ts2) := UnEx(ts1, rhs, size);
    match BinOpFor(op)
    case None => None
    case Some(o) => Some((Ex(BinOpE(o, l, rr)), ts2))
  }
}

=== FILE: tree.dfy ===
/** The intermediate representation (src/tree.h, src/tree.c).

    Expressions and statements are tagged nodes; the C `te_list` chains
    that carry argument lists are sequences here.  Each constructor of
    src/tree.c becomes a datatype constructor, and the tag a node is given
    is `ExpTag`/`StmTag`.
 */
module Tree {
  import Temp

  /** `tree_binop_t`, numbered from `TREE_BINOP_PLUS = 1`. */
  datatype BinOp = Plus | Minus | Mul | Div | And | Or | Xor | LShift | RShift | ARShift

  /** `tree_relop_t`, numbered from `TREE_RELOP_EQ = 1`. */
  datatype RelOp = Eq | Ne | Lt | Gt | Le | Ge | Ult | Ule | Ugt | Uge

  /** `tree_exp_t`.  `Mem` and `Call` keep the `te_size` the back ends
      read; a temp carries its own size. */
  datatype Exp =
    | Const(value: int)
    | Name(sym: string)
    | TempE(temp: Temp.Temp)
    | BinOpE(op: BinOp, lhs: Exp, rhs: Exp)
    | Mem(addr: Exp, size: nat)
    | Call(func: Exp, args: seq<Exp>, size: nat)
    | ESeq(stm: Stm, exp: Exp)

  /** `tree_stm_t`.  A jump keeps its label array, whose length is
      `tst_jump_num_labels`. */
  datatype Stm =
    | Move(dst: Exp, src: Exp)
    | ExpS(exp: Exp)
    | Jump(target: Exp, labels: seq<string>)
    | CJump(rel: RelOp, left: Exp, right: Exp, ifTrue: string, ifFalse: string)
    | Seq(first: Stm, second: Stm)
    | Label(name: string)

  const ExpConstTag := 1
  const ExpESeqTag := 7
  const StmMoveTag := 1
  const StmLabelTag := 6

  /** The `te_tag` each constructor stores; `tree_exp_new` asserts it lies
      in `1..TREE_EXP_ESEQ`. */
  function ExpTag(e: Exp): (tag: int)
    ensures ExpConstTag <= tag <= ExpESeqTag
  {
    match e
    case Const(_) => 1
    case Name(_) => 2
    case TempE(_) => 3
    case BinOpE(_, _, _) => 4
    case Mem(_, _) => 5
    case Call(_, _, _) => 6
    case ESeq(_, _) => 7
  }

  /** The `tst_tag` each constructor stores; `tree_stm_new` asserts it
      lies in `1..TREE_STM_LABEL`. */
  function StmTag(s: Stm): (tag: int)
    ensures StmMoveTag <= tag <= StmLabelTag
  {
    match s
    case Move(_, _) => 1
    case ExpS(_) => 2
    case Jump(_, _) => 3
    case CJump(_, _, _, _, _) => 4
    case Seq(_, _) => 5
    case Label(_) => 6
  }

  /** The tag tells the constructor: two nodes with the same tag were
      built by the same constructor function. */
  lemma TagsDistinguishConstructors(a: Exp, b: Exp, s: Stm, t: Stm)
    ensures ExpTag(a) == ExpTag(b) <==>
              (a.Const? == b.Const? && a.Name? == b.Name? && a.TempE? == b.TempE? &&
               a.BinOpE? == b.BinOpE? && a.Mem? == b.Mem? && a.Call? == b.Call? && a.ESeq? == b.ESeq?)
    ensures StmTag(s) == StmTag(t) <==>
              (s.Move? == t.Move? && s.ExpS? == t.ExpS? && s.Jump? == t.Jump? &&
               s.CJump? == t.CJump? && s.Seq? == t.Seq? && s.Label? == t.Label?)
  {
  }

  /** `TREE_BINOP_*` numbering. */
  function BinOpCode(op: BinOp): (code: int)
    ensures 1 <= code <= 10
  {
    match op
    case Plus => 1 case Minus => 2 case Mul => 3 case Div => 4 case And => 5
    case Or => 6 case Xor => 7 case LShift => 8 case RShift => 9 case ARShift => 10
  }

  /** `TREE_RELOP_*` numbering. */
  function RelOpCode(op: RelOp): (code: int)
    ensures 1 <= code <= 10
  {
    match op
    case Eq => 1 case Ne => 2 case Lt => 3 case Gt => 4 case Le => 5
    case Ge => 6 case Ult => 7 case Ule => 8 case Ugt => 9 case Uge => 10
  }

  lemma CodesInjective(a: BinOp, b: BinOp, x: RelOp, y: RelOp)
    ensures BinOpCode(a) == BinOpCode(b) ==> a == b
    ensures RelOpCode(x) == RelOpCode(y) ==> x == y
  {
  }

  /** `tree_stm_jump(NAME l, 1, [l])`, the unconditional jump the passes
      build. */
  function JumpTo(l: string): (s: Stm)
    ensures s.Jump? && s.labels == [l] && s.target == Name(l)
  {
    Jump(Name(l), [l])
  }
}

=== FILE: wrappers.dfy ===
/** Failure-carrying values shared by every module of the model.

    The C sources signal "nothing" with a NULL pointer and abort on a failed
    `assert`; both are modelled as values here so that the error paths stay
    visible in the contracts.
 */
module Wrappers {

  /** `None` plays the part of a NULL return. */
  datatype Option<+T> = None | Some(value: T) {
    predicate IsNone() { None? }
  }

  /** `Fail` is a C `assert` (or `fatal`) that stops the program. */
  datatype Outcome<+T> = Done(value: T) | Fail(reason: string) {
    predicate Failed() { Fail? }
  }
}

=== FILE: x86.dfy ===
/** The x86-64 code generator (src/x86_64.c): its register tables, the
    operand-size suffixes and register names it prints, the registers a
    call clobbers, and how a CJUMP becomes a `cmp` and a conditional jump.
 */
module X86 {
  import opened Wrappers
  import Temp
  import Tree
  import Backend

  // ---------------------------------------------------------------------
  // Register tables
  // ---------------------------------------------------------------------

  /** The register names by temp id (`x86_64_registers`). */
  const Registers: seq<string> := [
    "rax", "rcx", "rdx", "rbx", "rsp", "rbp", "rsi", "rdi",
    "r8", "r9", "r10", "r11", "r12", "r13", "r14", "r15"]

  const Registers8: seq<string> := [
    "%al", "%cl", "%dl", "%bl", "%spl", "%bpl", "%sil", "%dil",
    "%r8b", "%r9b", "%r10b", "%r11b", "%r12b", "%r13b", "%r14b", "%r15b"]
  const Registers16: seq<string> := [
    "%ax", "%cx", "%dx", "%bx", "%sp", "%bp", "%si", "%di",
    "%r8w", "%r9w", "%r10w", "%r11w", "%r12w", "%r13w", "%r14w", "%r15w"]
  const Registers32: seq<string> := [
    "%eax", "%ecx", "%edx", "%ebx", "%esp", "%ebp", "%esi", "%edi",
    "%r8d", "%r9d", "%r10d", "%r11d", "%r12d", "%r13d", "%r14d", "%r15d"]
  const Registers64: seq<string> := [
    "%rax", "%rcx", "%rdx", "%rbx", "%rsp", "%rbp", "%rsi", "%rdi",
    "%r8", "%r9", "%r10", "%r11", "%r12", "%r13", "%r14", "%r15"]

  const Rax := 0
  const Rdx := 2
  const Rsp := 4
  const Rbp := 5

  /** The argument registers in order: rdi, rsi, rdx, rcx, r8, r9. */
  const ArgRegs: seq<int> := [7, 6, 2, 1, 8, 9]
  /** rbx, r12 to r15: preserved across calls. */
  const CalleeSaves: seq<int> := [3, 12, 13, 14, 15]
  /** r10 and r11: free for a callee to clobber. */
  const CallerSaves: seq<int> := [10, 11]

  /** The name table for an operand size, chosen by the number of
      trailing zero bits of the size. */
  function Table(size: nat): (r: seq<string>)
    requires Backend.ValidSize(size)
    ensures |r| == 16
  {
    if size == 1 then Registers8
    else if size == 2 then Registers16
    else if size == 4 then Registers32
    else Registers64
  }

  /** `suff_from_size`: the AT&T suffix for an operand size; any other size
      fails the assertion. */
  function SuffFromSize(size: nat): (r: Outcome<string>)
    ensures r.Done? <==> Backend.ValidSize(size)
    ensures r.Done? ==> |r.value| == 1
  {
    match size
    case 8 => Done("q")
    case 4 => Done("l")
    case 2 => Done("w")
    case 1 => Done("b")
    case _ => Fail("invalid size")
  }

  /** Different sizes print different suffixes, so the suffix tells the
      assembler the operand size. */
  lemma SuffixesDistinct(a: nat, b: nat)
    requires SuffFromSize(a).Done? && SuffFromSize(b).Done? && a != b
    ensures SuffFromSize(a).value != SuffFromSize(b).value
  {
  }

  /** The character C reads at index 2: the terminating NUL for a
      two-letter name. */
  function Third(name: string): char
    requires |name| >= 2
  {
    if |name| >= 3 then name[2] else '\0'
  }

  /** `x86_64_register_for_size`: the name of a register at an operand
      size, decided by the letters after the leading `r`.  A name of the
      wrong length, one not starting with `r`, an invalid size, or letters
      it does not recognise fail an assertion. */
  function RegisterForSize(name: string, size: nat): (r: Outcome<string>)
    ensures r.Done? ==> Backend.ValidSize(size) && r.value in Table(size)
  {
    if !(2 <= |name| <= 3) || name[0] != 'r' || !Backend.ValidSize(size) then Fail("invalid register request")
    else
      var regs := Table(size);
      var c, d := name[1], Third(name);
      if c == 'a' then Done(regs[0])
      else if c == 'b' then
        if d == 'x' then Done(regs[3]) else if d == 'p' then Done(regs[5]) else Fail("unexpected register name")
      else if c == 'c' then Done(regs[1])
      else if c == 'd' then
        if d == 'x' then Done(regs[2]) else if d == 'i' then Done(regs[7]) else Fail("unexpected register name")
      else if c == 's' then
        if d == 'p' then Done(regs[4]) else if d == 'i' then Done(regs[6]) else Fail("unexpected register name")
      else if c == '8' then Done(regs[8])
      else if c == '9' then Done(regs[9])
      else if c == '1' && '0' <= d <= '5' then Done(regs[10 + (d as int - '0' as int)])
      else Fail("unexpected register name")
  }

  /** Every register's own name, asked for at any operand size, gives the
      entry for the same register in that size's table. */
  lemma RegisterForSizeNames(i: nat, size: nat)
    requires i < 16 && Backend.ValidSize(size)
    ensures RegisterForSize(Registers[i], size) == Done(Table(size)[i])
  {
    var name := Registers[i];
    if i < 8 {
      assert |name| == 3 && name[0] == 'r';
    } else if i < 10 {
      assert name == ['r', ('0' as int + i) as char];
    } else {
      assert name == ['r', '1', ('0' as int + i - 10) as char];
    }
  }

  /** The 64-bit table is the register names with the `%` prefix. */
  lemma WideNamesArePrefixed(i: nat)
    requires i < 16
    ensures Registers64[i] == "%" + Registers[i]
  {
  }

  /** `calldefs`: the caller saves, then rax, then the argument
      registers, each consed in front as a word. */
  function CallDefs(): (r: seq<Temp.Temp>)
    ensures |r| == |ArgRegs| + 1 + |CallerSaves|
    ensures forall t :: t in r ==> t.size == Backend.WordSize && t.id !in CalleeSaves
  {
    forall t | t in Backend.CallDefsOf(ArgRegs, Rax, CallerSaves)
      ensures t.size == Backend.WordSize && t.id !in CalleeSaves
    {
      Backend.CallDefsOfMembers(ArgRegs, Rax, CallerSaves, t.id);
    }
    Backend.CallDefsOf(ArgRegs, Rax, CallerSaves)
  }

  /** A call clobbers exactly the caller saves, the return register and
      the argument registers, each as a whole word, and none of the
      callee saves, the stack pointer or the frame pointer. */
  lemma CallDefsRoles(id: int)
    ensures (exists t :: t in CallDefs() && t.id == id) <==> id in CallerSaves || id == Rax || id in ArgRegs
    ensures forall t :: t in CallDefs() ==> t.size == Backend.WordSize
    ensures id in CalleeSaves || id == Rsp || id == Rbp ==> forall t :: t in CallDefs() ==> t.id != id
  {
    Backend.CallDefsOfMembers(ArgRegs, Rax, CallerSaves, id);
    if id in CalleeSaves || id == Rsp || id == Rbp {
      assert !(id in CallerSaves || id == Rax || id in ArgRegs);
    }
  }

  // ---------------------------------------------------------------------
  // Conditional jumps
  // ---------------------------------------------------------------------

  /** The conditional jumps, taken after `cmp` on the flags of
      `dst - src`. */
  datatype Cond = Je | Jne | Jg | Jge | Jl | Jle | Ja | Jae | Jb | Jbe

  function Mnemonic(c: Cond): string {
    match c
    case Je => "je" case Jne => "jne" case Jg => "jg" case Jge => "jge"
    case Jl => "jl" case Jle => "jle" case Ja => "ja" case Jae => "jae"
    case Jb => "jb" case Jbe => "jbe"
  }

  /** Whether the jump is taken after comparing `dst` with `src`: the `g`
      and `l` forms compare signed, `a` (above) and `b` (below) unsigned. */
  predicate Taken(c: Cond, dst: int, src: int) {
    match c
    case Je => dst == src
    case Jne => dst != src
    case Jg => dst > src
    case Jge => dst >= src
    case Jl => dst < src
    case Jle => dst <= src
    case Ja => Backend.Unsigned(dst) > Backend.Unsigned(src)
    case Jae => Backend.Unsigned(dst) >= Backend.Unsigned(src)
    case Jb => Backend.Unsigned(dst) < Backend.Unsigned(src)
    case Jbe => Backend.Unsigned(dst) <= Backend.Unsigned(src)
  }

  predicate IsUnsigned(op: Tree.RelOp) {
    op == Tree.Ult || op == Tree.Ule || op == Tree.Ugt || op == Tree.Uge
  }

  /** The jump chosen for a comparison.  As written the unsigned
      comparisons use the mnemonics of their mirror images (`ja` for
      unsigned less-than, and so on); corrected, each uses its own. */
  function JumpFor(op: Tree.RelOp, asWritten: bool): (c: Cond)
    ensures IsUnsigned(op) <==> c in {Ja, Jae, Jb, Jbe}
  {
    match op
    case Eq => Je
    case Ne => Jne
    case Gt => Jg
    case Ge => Jge
    case Lt => Jl
    case Le => Jle
    case Ult => if asWritten then Ja else Jb
    case Ule => if asWritten then Jae else Jbe
    case Ugt => if asWritten then Jb else Ja
    case Uge => if asWritten then Jbe else Jae
  }

  /** The signed comparisons and equality are unaffected by the
      correction. */
  lemma SignedJumpsAgree(op: Tree.RelOp)
    requires !IsUnsigned(op)
    ensures JumpFor(op, true) == JumpFor(op, false)
  {
  }

  /** The corrected jump is taken exactly when the comparison holds. */
  lemma JumpMeansRelation(op: Tree.RelOp, a: int, b: int)
    ensures Taken(JumpFor(op, false), a, b) <==> Backend.Holds(op, a, b)
  {
  }

  /** As written, an unsigned comparison jumps when the comparison holds
      with its operands swapped. */
  lemma UnsignedJumpSwapped(op: Tree.RelOp, a: int, b: int)
    requires IsUnsigned(op)
    ensures Taken(JumpFor(op, true), a, b) <==> Backend.Holds(op, b, a)
  {
  }

  /** For instance `0 <u 1` holds but the `ja` chosen for it is not
      taken. */
  lemma UnsignedLessJumpsWrongWay()
    ensures Backend.Holds(Tree.Ult, 0, 1)
    ensures JumpFor(Tree.Ult, true) == Ja && !Taken(Ja, 0, 1)
  {
  }

  // ---------------------------------------------------------------------
  // The compare before the jump
  // ---------------------------------------------------------------------

  /** The shape of the `cmp` emitted for a CJUMP: against a memory operand
      at a constant offset, against an immediate right operand, against an
      immediate left operand (only for equality tests), or between two
      registers. */
  datatype CmpForm =
    | MemOffset(base: Tree.Exp, offset: int, other: Tree.Exp)
    | ImmRight(left: Tree.Exp, imm: int)
    | ImmLeft(imm: int, right: Tree.Exp)
    | BetweenRegisters(left: Tree.Exp, right: Tree.Exp)

  /** Whether the operands reach `cmp` in the opposite order. */
  predicate Swapped(f: CmpForm) {
    f.ImmLeft?
  }

  /** The form chosen for `CJUMP(op, lhs, rhs)`, tried in the order the
      source tries them. */
  function CompareForm(op: Tree.RelOp, lhs: Tree.Exp, rhs: Tree.Exp): (f: CmpForm)
    ensures f.MemOffset? <==> lhs.Mem? && lhs.addr.BinOpE? && lhs.addr.op == Tree.Plus && lhs.addr.rhs.Const?
    ensures f.ImmRight? ==> rhs.Const? && f.left == lhs && f.imm == rhs.value
    ensures Swapped(f) ==> (op == Tree.Eq || op == Tree.Ne) && lhs.Const? && !rhs.Const?
    ensures f.BetweenRegisters? ==> f.left == lhs && f.right == rhs
  {
    if lhs.Mem? && lhs.addr.BinOpE? && lhs.addr.op == Tree.Plus && lhs.addr.rhs.Const? then
      MemOffset(lhs.addr.lhs, lhs.addr.rhs.value, rhs)
    else if rhs.Const? then ImmRight(lhs, rhs.value)
    else if lhs.Const? && (op == Tree.Eq || op == Tree.Ne) then ImmLeft(lhs.value, rhs)
    else BetweenRegisters(lhs, rhs)
  }

  /** With `a` and `b` the values of the CJUMP's operands, the compare it
      emits followed by the corrected jump goes to the true label exactly
      when `a op b`: the only form that swaps the operands is used only
      for the comparisons that do not care. */
  lemma CJumpDecides(op: Tree.RelOp, lhs: Tree.Exp, rhs: Tree.Exp, a: int, b: int)
    ensures var f := CompareForm(op, lhs, rhs);
      var dst, src := if Swapped(f) then b else a, if Swapped(f) then a else b;
      Taken(JumpFor(op, false), dst, src) <==> Backend.Holds(op, a, b)
  {
    var f := CompareForm(op, lhs, rhs);
    JumpMeansRelation(op, a, b);
    if Swapped(f) {
      JumpMeansRelation(op, b, a);
      Backend.EqualitySymmetric(op, a, b);
    }
  }
}
